=== FILE: README.md ===
# Advent of Code 2022 kernels, modelled in Dafny

The repository holds one small Rust program per Advent of Code 2022 puzzle.
Each program reads its puzzle input from stdin and prints an answer. Once the
reading and printing are stripped away, every program has a small sequential
kernel: a parser, a scoring rule, a grid walk, a search or a simulation step.
This project models those kernels as pure Dafny functions and proves what each
one computes.

Layout:

- `common.dfy` (module `Common`): shared pieces.
  - `Option`.
  - Rust's truncating `/` and `%` (`DivT`, `RemT`).
  - Decimal parsing and printing, with the 32- and 64-bit range checks.
  - `str::split`, `split_once`, `rsplit_once` and `replace`.
- `sorting.dfy` (module `Sorting`): the standard library sorts the programs
  call, modelled as one insertion sort with its permutation and order
  properties.
- `dayNN_<name>.dfy`: one module per puzzle program, named after the puzzle.

Modelling conventions:

- A Rust panic the input can reach (`unwrap` on a failed parse, an index out of
  range, `panic!`) is an `Option` whose `None` is the abort.
- Loops that run a fixed huge number of times (10000 monkey rounds, 4000001
  scanned rows) are modelled as one step or one round, and the properties are
  stated for every step.
- Hash maps are association lists or Dafny maps. Where the program's result
  could depend on the iteration order, the properties are proved for every
  order.
- Integers are unbounded, except where the program's own range check matters
  (parsing into `i32`/`i64`, `usize::MAX` as "no answer").

## Model

| member | source | states |
|---|---|---|
| Calories.ParseLine | aoc1/src/main.rs:12-24 | An empty line is a group separator. Any other line is an amount exactly when it parses as an integer; otherwise the program aborts. |
| Calories.GroupCountIsBlankCount | aoc1/src/main.rs:10-25 | The program records one total per blank line, so a last group with no blank line after it is never counted. |
| Calories.TotalsFromMatchesGroups | aoc1/src/main.rs:10-25 | The running accumulation (add each amount, push and reset at a blank line) equals the reference definition that cuts the input at blank lines and sums each group. |
| Calories.CollectTotals | aoc1/src/main.rs:8-25 | The reading loop returns exactly the group totals of the reference definition, one per blank line. |
| Calories.TopThree | aoc1/src/main.rs:27-34 | An answer exists exactly when there are at least three totals. |
| Calories.TopThreeIsBest | aoc1/src/main.rs:27-34 | The answer (sort, reverse, add the first three) is the largest sum of the totals of three different elves, and three different elves reach it. |
| Calories.LargestFirst | aoc1/src/main.rs:27-28 | After `sort` then `reverse`, the first total is one of the totals and is at least every total. |
| RockPaperScissors.ParsePlay | aoc2/src/main.rs:21-33 | A and X are Rock, B and Y are Paper, C and Z are Scissors, each in both directions; any other character aborts. |
| RockPaperScissors.ParseOutcome | aoc2/src/main.rs:35-44 | X is lose, Y is draw and Z is win, each in both directions; any other character aborts. |
| RockPaperScissors.PlayForResult | aoc2/src/main.rs:85-109 | The chosen play draws with, beats or loses to the opponent as the wanted result says. |
| RockPaperScissors.Score | aoc2/src/main.rs:112-125 | The score is the play's own score plus 3 for a draw, plus 6 for a win and plus 0 for a loss; it lies between 1 and 9. |
| RockPaperScissors.BeatsIsStrictTournament | aoc2/src/main.rs:68-83 | No play beats itself, and of two different plays exactly one beats the other. |
| RockPaperScissors.StrategyScoreIsGameScore | aoc2/src/main.rs:142-143 | Adding the result's score to the chosen play's score gives the full game score of that play against the opponent. |
| RockPaperScissors.LineScore | aoc2/src/main.rs:140-144 | A line scores exactly when both of its characters parse, and its score is then the game score of the play chosen for the wanted result against the opponent, between 1 and 9. |
| RockPaperScissors.TotalScore | aoc2/src/main.rs:131-147 | The total is at most 9 per line. |
| RockPaperScissors.TotalScoreIsSum | aoc2/src/main.rs:131-147 | Reading stops at the first line shorter than three characters; the total exists exactly when every line before it scores, and it is the sum of their scores. |
| Rucksack.BitIndex | aoc3/src/main.rs:70-77 | Lower-case letters select bits 0 to 25 and upper-case letters select bits 26 to 51. |
| Rucksack.BitIndexInjectiveOnItems | aoc3/src/main.rs:21-28 | Two different item letters select different bits, so testing a bit tests for the letter. |
| Rucksack.Priority | aoc3/src/main.rs:29-30 | The priority of an item letter is its bit index plus one, between 1 and 52. |
| Rucksack.FirstDuplicate | aoc3/src/main.rs:16-46 | A reported priority belongs to the first second-half item whose bit occurs in the first half. When nothing is reported, no second-half item occurs in the first half. |
| Rucksack.LowestBit | aoc3/src/main.rs:94-102 | The reported bit is the lowest of bits 0 to 51 set in the mask. None means no such bit is set. |
| Rucksack.BadgeStep | aoc3/src/main.rs:82-106 | The member count cycles through 0, 1 and 2. An empty accumulator is replaced by the line's mask, a non-empty one is intersected with it, and the third member of a group resets the accumulator. |
| Rucksack.BadgeRun | aoc3/src/main.rs:58-107 | The loop stops at the first empty line and leaves the member count below three. |
| Rucksack.BadgeRunIsGroups | aoc3/src/main.rs:58-107 | Started from an empty accumulator, the loop adds the badge of every complete group of three lines read before the first empty line, and ends inside the last, incomplete group. |
| Rucksack.Read | aoc3/src/main.rs:58-66 | The lines read are a prefix of the input, all non-empty, and the line after them, if any, is empty. |
| Rucksack.GroupBadge | aoc3/src/main.rs:82-106 | When the first two members share an item, a group adds the priority of the lowest item common to all three and starts a fresh group. |
| Rucksack.EmptyIntersectionRestarts | aoc3/src/main.rs:82-89 | When the first two members share nothing, the empty accumulator looks like the start of a group, so the badge becomes the third member's lowest item. |
| CampCleanup.SubrangeAndOverlapAreSymmetric | aoc4/src/main.rs:8-16 | Both the containment test and the overlap test give the same answer with the two ranges swapped. |
| CampCleanup.OverlapMeansCommonSection | aoc4/src/main.rs:13-16 | For well-formed ranges, the overlap test holds exactly when some section lies in both ranges. |
| CampCleanup.SubrangeImpliesOverlap | aoc4/src/main.rs:3-16 | For well-formed ranges, one range containing the other implies that they overlap. |
| CampCleanup.CountOverlaps | aoc4/src/main.rs:22-47 | The loop completes exactly when every line passes both `assert!`s, and then it counts the lines whose ranges overlap. |
| CampCleanup.ParseAssignment | aoc4/src/main.rs:30-35 | A line parses exactly when splitting it at ',' and '-' gives at least four pieces and the first four are integers. |
| CampCleanup.ParseShowAssignment | aoc4/src/main.rs:30-35 | Parsing the text "s1-e1,s2-e2" of non-negative section numbers gives the four numbers back. |
| CampCleanup.ParseAssignments | aoc4/src/main.rs:22-35 | Parsing stops at the first empty line: it fails exactly when some line before it is malformed, and otherwise yields one assignment per line before it, each the parse of that line. |
| SupplyStacks.DrawingStep | aoc5/src/main.rs:21-46 | The first drawing line creates `(len + 1) / 4` empty stacks and the count never changes afterwards. The number line is skipped. A crate line aborts exactly when its length is not four times the stack count minus one; otherwise each stack gains the character at column `4i + 1` unless it is a space. |
| SupplyStacks.ReadDrawing | aoc5/src/main.rs:12-47 | The drawing loop consumes the lines up to and including the first empty one, or every line when none is empty. |
| SupplyStacks.ReadDrawingKeepsCount | aoc5/src/main.rs:21-29 | Once the stacks exist, the drawing loop keeps their number. |
| SupplyStacks.ReadDrawingReadsColumns | aoc5/src/main.rs:39-46 | Each stack built by the drawing loop is the reference reading of its column, top first: the non-space characters at column `4i + 1`. |
| SupplyStacks.BottomFirst | aoc5/src/main.rs:50-53 | Reversing puts every stack bottom first. |
| SupplyStacks.ParseMove | aoc5/src/main.rs:72-75 | "move N from A to B" parses exactly when the split gives six pieces, N is an integer and A and B are positive numbers; A and B become zero-based. |
| SupplyStacks.ApplyMove | aoc5/src/main.rs:77-87 | A move succeeds exactly when A exists and holds at least N crates, and B exists whenever N is positive. A count of zero or less changes nothing. |
| SupplyStacks.MoveEffect | aoc5/src/main.rs:78-87 | The top N crates of A are appended to B in their order and removed from A; a move from a stack to itself leaves it as it was, and every other stack is unchanged. |
| SupplyStacks.MoveConservesCrates | aoc5/src/main.rs:78-87 | A move keeps the total number of crates. |
| SupplyStacks.MoveBackRestores | aoc5/src/main.rs:78-87 | Moving the same N crates back from B to A restores every stack. |
| SupplyStacks.RunMoves | aoc5/src/main.rs:62-95 | The instruction loop keeps the number of stacks and the number of crates. |
| SupplyStacks.TopCrates | aoc5/src/main.rs:102-106 | The answer holds the top crate of every stack in index order; it exists exactly when no stack is empty. |
| SupplyStacks.Solve | aoc5/src/main.rs:5-110 | The answer is the top crates of the stacks the drawing built, bottoms first, after the moves on the lines that follow the first empty line. It exists exactly when the drawing, every move and the final read of the tops succeed, and it has one letter per stack. |
| Marker.HasDuplicate | aoc6/src/main.rs:12-23 | The pairwise loops report a duplicate exactly when the window's characters are not all distinct. |
| Marker.FindMarker | aoc6/src/main.rs:9-32 | The scan reports the least position from 14 up to `len - 1` whose 14-character window is distinct. None means no window ending before the last character is distinct. |
| Marker.MarkerIsUnique | aoc6/src/main.rs:9-32 | Any answer with the scan's contract equals the reference definition of the first marker, so the contract fixes the answer. |
| Marker.LastWindowIsNeverTried | aoc6/src/main.rs:10 | A distinct window that ends exactly at the end of the line is never tried. |
| Marker.FindMarkerThroughEnd | aoc6/src/main.rs:9-32 | The corrected scan also tries the window that ends the line, and it reports the least distinct window up to and including it. |
| Marker.LastWindowIsFound | aoc6/src/main.rs:10 | The corrected reference definition finds the marker at position 14 of a 14-letter distinct line. |
| FileSystem.SizeSumAppend | aoc7/src/main.rs:58-66 | A directory's size grows by exactly the size of an appended child. |
| FileSystem.DirsAreSmaller | aoc7/src/main.rs:55-71 | No directory of a subtree is larger than the subtree's root. |
| FileSystem.DirsUnderSizeIsSmallSum | aoc7/src/main.rs:74-97 | `dirs_under_size` adds up exactly the sizes of the subtree's directories, the node included, that are at most the limit; files add nothing. |
| FileSystem.SmallestIsMinimum | aoc7/src/main.rs:100-134 | For a positive bound, `smallest_dir_at_least` returns the least size among the subtree's directories that reach the bound, or 0 when none does. |
| FileSystem.BestChildIsMinimum | aoc7/src/main.rs:105-115 | The loop over the children keeps the least qualifying child result, where 0 means none. |
| FileSystem.CombineSmallest | aoc7/src/main.rs:110-114 | The loop's update rule merges the answers for two groups of directories into the answer for both. |
| FileSystem.AddChildAt | aoc7/src/main.rs:162-171 | Adding a child succeeds exactly when the path leads to a directory, and that directory's children gain the new child at the end. |
| FileSystem.AddChildFrame | aoc7/src/main.rs:162-171 | Adding a child changes nothing at any existing path that does not lead to the directory receiving the child. |
| FileSystem.AddKeepsPaths | aoc7/src/main.rs:162-171 | Adding a child keeps every existing path valid, so the current directory stays valid. |
| FileSystem.AddGrowsSize | aoc7/src/main.rs:162-171 | Adding an entry grows the size of the whole tree by that entry's size. |
| FileSystem.LastNamed | aoc7/src/main.rs:203-210 | The loop over the children keeps overwriting its choice, so the last child with the name wins; None means no child has it. |
| FileSystem.ChangeDir | aoc7/src/main.rs:179-215 | `cd /` goes to the root. `cd ..` goes to the parent and fails exactly at the root. `cd name` moves to the last child with that name, file or directory, and stays where it is when there is none or the current directory is a file. |
| FileSystem.AddToCwd | aoc7/src/main.rs:162-171 | Adding an entry succeeds exactly when the current directory is a directory, keeps the current directory, and appends the entry to its children. |
| FileSystem.Step | aoc7/src/main.rs:157-220 | Every transcript line keeps the current directory a valid path of the tree. While listing, "dir X" adds an empty directory and "N name" adds a file of size N to the current directory; a missing name or a malformed size aborts. A "$" line ends a listing and is read as a command: `cd` changes directory as ChangeDir says, `ls` starts a listing, any other command does nothing, and a non-command line outside a listing aborts. |
| FileSystem.ListedFileIsAdded | aoc7/src/main.rs:168-172 | While listing, the line "N name" adds the file `name` of size N to the current directory and keeps listing. |
| FileSystem.ListedDirIsAdded | aoc7/src/main.rs:160-163 | While listing, the line "dir name" adds an empty directory `name` to the current directory and keeps listing. |
| FileSystem.Run | aoc7/src/main.rs:148-222 | The transcript loop, up to the first empty line, keeps the session valid. |
| FileSystem.SmallestIsSomeDir | aoc7/src/main.rs:100-134 | For any bound, 0 included, `smallest_dir_at_least` returns 0 or the size of one of the subtree's directories that reaches the bound. |
| FileSystem.Solve | aoc7/src/main.rs:224-233 | The program finishes exactly when the transcript is read, no file has size 0, and the used space lies between 40000000 and 70000000, so neither unsigned subtraction underflows. The first answer is then the sum of the directories of at most 100000. The second is the smallest directory whose removal frees enough space, or, when exactly enough is already free, 0 or some directory's size. |
| TreeHouse.AsWrittenIndexCollides | aoc8/src/main.rs:44 | With the program's formula `x + y * height`, a grid wider than it is high reads cell (height, 0) and cell (0, 1) from the same position, though they are different cells. |
| TreeHouse.AsWrittenAgreesWhenSquare | aoc8/src/main.rs:44 | On a square grid the program's formula is the row-major position. |
| TreeHouse.CellIndexIsInjective | aoc8/src/main.rs:32-44 | The corrected row-major position `x + y * width` maps distinct cells to distinct positions inside the grid. |
| TreeHouse.ParseGrid | aoc8/src/main.rs:10-32 | A grid is read exactly when the first line is non-empty. Its width is that line's length, and it holds `height` whole rows; an empty first line makes the division by the width abort. |
| TreeHouse.ScanLine | aoc8/src/main.rs:39-54 | One scan marks exactly the trees taller than every tree before them on the line. |
| TreeHouse.ReverseScan | aoc8/src/main.rs:75-108 | Scanning the reversed line marks exactly the trees taller than every tree after them. |
| TreeHouse.ViewCount | aoc8/src/main.rs:38-108 | A tree's view count is at most 4, and it is positive exactly when one of the four scans marks the tree. |
| TreeHouse.VisibleCount | aoc8/src/main.rs:110-119 | Counting the positive view counts in row-major order gives the number of trees that some scan marks. |
| TreeHouse.EdgeTreesAreVisible | aoc8/src/main.rs:41-51 | With digit heights, every tree on the edge is visible, because the first tree of a scan beats the starting maximum -1. |
| TreeHouse.ViewDistance | aoc8/src/main.rs:147-156 | The viewing distance counts the trees up to and including the first one at least as tall, or up to the edge. It is 0 exactly at the edge. |
| TreeHouse.DistanceIsUnique | aoc8/src/main.rs:147-156 | Any distance with the loop's contract equals the reference definition. |
| TreeHouse.ScenicScore | aoc8/src/main.rs:131-185 | A tree on the edge has scenic score 0, because one of its four distances is 0. |
| TreeHouse.MostScenicIsBest | aoc8/src/main.rs:123-192 | The best scenic score is at least every tree's score and is some tree's score, or 0 for an empty grid. |
| TreeHouse.MaxOf | aoc8/src/main.rs:188 | The maximum is at least every element and is one of them, or 0 for an empty sequence. |
| Rope.MoveTail | aoc9/src/main.rs:13-40 | A knot that touches its leader stays put. Otherwise it steps one unit towards the leader on each axis where they differ, and it touches the leader again when the gap was at most 2. |
| Rope.MoveTailClosesGap | aoc9/src/main.rs:13-40 | A knot that does not touch its leader ends exactly one step closer in the larger axis distance. |
| Rope.Follow | aoc9/src/main.rs:84-88 | The knots from position j on are moved in order, each after the knot ahead of it has moved, and the knots before j are unchanged. |
| Rope.StepRope | aoc9/src/main.rs:81-88 | One step moves the head by (dx, dy) and then each knot follows the knot ahead of it. |
| Rope.StepKeepsTaut | aoc9/src/main.rs:79-92 | A head step of at most one unit per axis keeps every knot touching the knot ahead of it. |
| Rope.Init | aoc9/src/main.rs:46-56 | The rope starts as ten knots at the origin, and the origin is recorded as visited. |
| Rope.Repeat | aoc9/src/main.rs:79-92 | N steps record the last knot after every step and keep the rope's length and tautness. A count of zero or less changes nothing. |
| Rope.ParseCommand | aoc9/src/main.rs:66-77 | A command parses exactly when it splits into at least two pieces, the second is an integer and the first is U, D, L or R. The step is one unit along one axis. |
| Rope.ParseShowCommand | aoc9/src/main.rs:68-77 | Parsing the text "D n" gives back the direction's unit step and the count. |
| Rope.Run | aoc9/src/main.rs:58-93 | The command loop keeps the rope's length and tautness and only adds visited places. |
| Rope.Solve | aoc9/src/main.rs:96 | The answer counts at least the origin. |
| Rope.ApplyAppend | aoc9/src/main.rs:79-92 | Stepping through two lists of moves is stepping through the first and then the second, for the rope and for the trace of its last knot. |
| Rope.RepeatIsTrace | aoc9/src/main.rs:79-92 | N steps in one direction leave the rope where N unit moves take it, and add exactly the places of the last knot after each step. |
| Rope.RunIsTrace | aoc9/src/main.rs:58-93 | The command loop fails exactly when a line before the first empty one is malformed. Otherwise the rope ends where the commands' unit moves take it, and the visited set gains exactly the last knot's place after every move. |
| Rope.SolveCountsTrace | aoc9/src/main.rs:46-96 | The answer is the number of different places of the last knot: the origin and its place after every unit move of the commands. |
| CathodeRay.SignalSampleAtSampleCycles | aoc10/src/main.rs:4-17 | The sample is `cycle * x` at cycles 20, 60, ..., 220 and 0 at every other cycle. |
| CathodeRay.SampleCycles | aoc10/src/main.rs:6-11 | Exactly the six cycles 20, 60, 100, 140, 180 and 220 are sampled. |
| CathodeRay.ColumnOnScreen | aoc10/src/main.rs:21 | The beam's column lies between 1 and 40 and repeats every 40 cycles. |
| CathodeRay.IsLit | aoc10/src/main.rs:19-23 | A pixel is lit exactly when the beam's column is within one of the sprite's middle column `x + 1`. |
| CathodeRay.Draw | aoc10/src/main.rs:25-33 | Drawing appends one pixel to the text of the screen, and a full row of 40 moves to the finished rows. |
| CathodeRay.Tick | aoc10/src/main.rs:54-56 | One cycle counts itself, draws its pixel and adds its sample, keeping the register. |
| CathodeRay.ParseCmd | aoc10/src/main.rs:52-62 | A line is a noop exactly when it is the text "noop". Any other line is read exactly when its first piece is "addx" and its second piece is an integer, and it is then an addx of that integer; otherwise the `assert!` or the parse aborts. |
| CathodeRay.ParseShowAddx | aoc10/src/main.rs:60-62 | Parsing the text "addx n" gives back `addx n`. |
| CathodeRay.RunIsExecAll | aoc10/src/main.rs:44-74 | Running the lines fails exactly when one of them does not parse, and otherwise it runs their parsed instructions. |
| CathodeRay.ExecAllCycles | aoc10/src/main.rs:52-72 | A program takes one cycle per register value in its trace, with noop taking one cycle and addx two, and it ends with the register at x plus every addx operand. |
| CathodeRay.ExecAllSamples | aoc10/src/main.rs:52-72 | The signal strength adds one sample per traced cycle, each with the register value before any later addx. |
| CathodeRay.ExecAllDraws | aoc10/src/main.rs:52-72 | One pixel is drawn per traced cycle from the register value the trace gives it, and every finished row has 40 pixels. |
| CathodeRay.Solve | aoc10/src/main.rs:35-78 | Every finished screen row holds 40 pixels. |
| Monkeys.ParseOperation | aoc11/src/main.rs:50-68 | An operation line parses exactly when its space-separated pieces number at least eight, the third is "Operation:", the fifth "=", the seventh "+" or "*", and the eighth is "old" after "*" or else an integer. "+" gives AddParam, "* old" gives Square with parameter 0, and any other "*" gives MultParam; the parameter is the eighth piece's integer. |
| Monkeys.ParseShowOperation | aoc11/src/main.rs:50-68 | Parsing the printed line "  Operation: new = old <op> <arg>" gives back the operator and, except for Square, its parameter. |
| Monkeys.ReductionPreservesDivisibility | aoc11/src/main.rs:132-135 | Taking the truncating remainder modulo a multiple of d keeps divisibility by d, in both directions. |
| Monkeys.DivisorsDivideMaxValue | aoc11/src/main.rs:105 | Every monkey's divisor divides the product of all divisors. |
| Monkeys.Inspect | aoc11/src/main.rs:125-137 | An inspection applies the operation and reduces modulo the product. The target is the true monkey exactly when the divisor divides the reduced level. |
| Monkeys.InspectTargetIgnoresReduction | aoc11/src/main.rs:132-135 | When the modulus is a multiple of the divisor, the reduction never changes the target. |
| Monkeys.Throws | aoc11/src/main.rs:121-140 | A turn makes one throw per held item, in item order. |
| Monkeys.Deliver | aoc11/src/main.rs:143-146 | Delivery adds one item per throw and keeps the number of monkeys. |
| Monkeys.DeliverAppends | aoc11/src/main.rs:143-146 | After delivery, every monkey holds its old items followed by the items thrown to it, in throwing order. |
| Monkeys.Turn | aoc11/src/main.rs:119-147 | A turn succeeds exactly when the monkey holds nothing, or the modulus and divisor are non-zero and every target is a monkey. The monkey's count grows by its number of items and no other count changes. The number of items is kept, and a monkey that never throws to itself ends with no items. |
| Monkeys.RoundFrom | aoc11/src/main.rs:119-148 | The turns of a round keep the number of monkeys and the number of items. |
| Monkeys.Rounds | aoc11/src/main.rs:116-157 | Any number of rounds keeps the number of monkeys and the number of items. |
| Monkeys.MonkeyBusiness | aoc11/src/main.rs:159-168 | Monkey business exists exactly when there are at least two monkeys; with fewer, indexing the sorted counts aborts. |
| Monkeys.MonkeyBusinessIsTopTwo | aoc11/src/main.rs:159-168 | With non-negative counts, monkey business is the largest product of the counts of two different monkeys. |
| Monkeys.ParseItems | aoc11/src/main.rs:43-48 | A line is read only when it starts with "  Starting items: ", and the items are then the integers of the space-separated pieces of the rest once the commas are dropped. |
| Monkeys.ParseItemsOf | aoc11/src/main.rs:43-48 | Every line that starts with "  Starting items: " is read that way, and is refused exactly when some piece is not an integer. |
| Monkeys.ParseAll | aoc11/src/main.rs:88-92 | The items parse exactly when every piece is an integer, and each item is its piece's value. |
| Monkeys.NoStartingItemsAborts | aoc11/src/main.rs:43-48 | A monkey with no starting items aborts the program, because the empty piece is not a number. |
| Monkeys.ParseTail | aoc11/src/main.rs:70-86 | A test or throw line is read only when it is the expected prefix, a space and a space-free integer, split at the last space. |
| Monkeys.ParseTailOf | aoc11/src/main.rs:70-86 | The prefix, a space and any space-free text is read as that text's integer, and refused exactly when the text is not one. |
| Monkeys.ParseShowTail | aoc11/src/main.rs:70-86 | Parsing the prefix followed by a space and a number gives the number back. |
| Monkeys.ParseMonkey | aoc11/src/main.rs:38-103 | A monkey block parses exactly when it has six lines, its header starts with "Monkey " and each of its five lines parses; the monkey holds the values those lines give and starts with no inspections. |
| Monkeys.ParseMonkeys | aoc11/src/main.rs:36-113 | The input is a run of blocks seven lines apart. It parses exactly when every block does, and then the i-th monkey is the parse of the i-th block, with no inspections yet. |
| Monkeys.ReadBlocksIsBlocks | aoc11/src/main.rs:36-113 | For any block reader, the loop that reads a block and skips one more line reads exactly one value per block, the i-th from the block starting at line 7i, and fails exactly when some block fails. |
| HillClimbing.FindLast | aoc12/src/main.rs:37-54 | When the character occurs in the lines, the remembered position holds it and no occurrence comes after it in reading order. When it does not occur, the position stays (0, 0). |
| HillClimbing.ParseMap | aoc12/src/main.rs:28-64 | A map is read exactly when the first line is non-empty and every line has its width. It has one row per line, each cell's elevation is its character with S read as 'a' and E as 'z', and the start and end are the last S and the last E. |
| HillClimbing.Expand | aoc12/src/main.rs:86-101 | Every enqueued neighbour lies in the grid, points back at the popped cell, costs one more, and can climb onto it. |
| HillClimbing.ExpandIsComplete | aoc12/src/main.rs:86-101 | Every in-grid neighbour from which the popped cell is at most one level up is enqueued. |
| HillClimbing.Pop | aoc12/src/main.rs:76-105 | The rest of the queue keeps its order, and everything added behind it is a neighbour one step further from the summit that points back at the popped cell. Afterwards the popped cell is visited at no more than the popped cost, and no other cell's record changes. The visited map is left alone exactly when the cell was already visited at no greater cost. |
| HillClimbing.InitialInv | aoc12/src/main.rs:70-74 | The search starts with only the summit queued, at cost 0, and satisfies the search invariant. |
| HillClimbing.PopKeepsInv | aoc12/src/main.rs:76-105 | A pop keeps the invariant: the queue stays ordered by cost, every visited cell points at a visited neighbour one step nearer the summit, and a pop that is not skipped visits a new cell. |
| HillClimbing.PopProgress | aoc12/src/main.rs:76-105 | Each pop either visits a new cell of the grid or shortens the queue, so the search ends. |
| HillClimbing.Run | aoc12/src/main.rs:76-105 | The finished search has an empty queue, keeps the invariant and never forgets a visited cell. |
| HillClimbing.ComputePath | aoc12/src/main.rs:107-128 | Following the recorded directions from a visited cell ends at the summit, after as many steps as the cell's recorded cost. |
| HillClimbing.PathIsRecordedCost | aoc12/src/main.rs:107-128 | After the search, the path from a reached cell has the cell's recorded cost as its length, stays in the grid and climbs at most one level per step. |
| HillClimbing.LowestA | aoc12/src/main.rs:133-160 | The result is no costlier than any reached 'a' the scan passes. When it replaces the starting value, it is a reached 'a' with a strictly lower cost, and every other reached 'a' of the same cost comes after it in the scan order. |
| HillClimbing.NearestANoFurther | aoc12/src/main.rs:133-160 | When S is reached, the chosen 'a' is reached and no further from the summit than S. |
| HillClimbing.Solve | aoc12/src/main.rs:16-165 | The program finishes exactly when the map is read, S is reached by the search from E, and so is the cell the scan for the nearest 'a' picks. The path from S then walks to E, with as many steps as the distance the search recorded for S and no step climbing more than one level; the hiking path does the same from the picked cell, and is never longer than the path from S. |
| DistressSignal.CompareInts | aoc13/src/main.rs:82-96 | Two integers compare Equal, Less or Greater exactly as their values do. |
| DistressSignal.IntFacingListIsWrapped | aoc13/src/main.rs:97-113 | An integer facing a list, on either side, compares as the one-element list holding it. |
| DistressSignal.FirstDifferenceDecides | aoc13/src/main.rs:114-127 | Two lists are ordered by their first pair of elements that does not compare Equal. |
| DistressSignal.EqualPrefixComparesLengths | aoc13/src/main.rs:128-139 | When every common position compares Equal, the shorter list is Less and lists of the same length are Equal. |
| DistressSignal.CompareReflexive | aoc13/src/main.rs:73-144 | Every packet compares Equal to itself. |
| DistressSignal.CompareAntisymmetric | aoc13/src/main.rs:73-144 | Swapping the two packets flips Less and Greater and keeps Equal. |
| DistressSignal.CompareTransitive | aoc13/src/main.rs:73-144 | The order is transitive: two Equal steps give Equal, and a Less step with a Less or Equal step gives Less. |
| DistressSignal.InOrderIsTotalPreorder | aoc13/src/main.rs:186 | "Not Greater" is total and transitive, so it is an order the sort can use. |
| DistressSignal.TokensShorter | aoc13/src/main.rs:15-56 | Every child text the tokenizer cuts from a list text is shorter than that text. |
| DistressSignal.EmptyBracketsAreEmptyList | aoc13/src/main.rs:51-66 | "[]" is the empty list, since an empty token is never kept. |
| DistressSignal.EmptyTokensAreDropped | aoc13/src/main.rs:51-66 | "[,]" is also the empty list: empty tokens are dropped. |
| DistressSignal.ParseShow | aoc13/src/main.rs:13-71 | Parsing the printed text of a packet whose integers fit in an i32 gives the packet back. |
| DistressSignal.ReadShowPairs | aoc13/src/main.rs:160-184 | Reading pairs of printed packets, a blank line after each pair, gives the pairs back. |
| DistressSignal.IndexSumBounds | aoc13/src/main.rs:173-183 | The index sum is at most 1 + 2 + ... + n, and it reaches that bound exactly when every pair is in order. |
| DistressSignal.Sorted | aoc13/src/main.rs:153-186 | The sorted packets are in packet order and are the input packets plus the two dividers. |
| DistressSignal.KeyOfTwoMarkers | aoc13/src/main.rs:188-199 | When exactly two positions hold packets Equal to a divider, the key is the product of their 1-based positions. |
| DistressSignal.DividerRank | aoc13/src/main.rs:186-199 | A divider sits at exactly one position of the sorted packets, and that position is the number of packets ordered before it. |
| DistressSignal.DecoderKeyIsRanks | aoc13/src/main.rs:186-199 | When no input packet is Equal to a divider, the decoder key is the product of one more than the number of packets before each divider. |
| DistressSignal.DividersDistinct | aoc13/src/main.rs:189-198 | No packet is Equal to both dividers, so each position multiplies the key at most once. |
| DistressSignal.Solve | aoc13/src/main.rs:146-203 | The program finishes exactly when the pairs can be read, and then the index sum is at most 1 + 2 + ... + n. |
| Regolith.ParsePoint | aoc14/src/main.rs:4-11 | A point parses exactly when the text splits at its first ',' into two unsigned numbers; otherwise the program aborts. |
| Regolith.ParseShowPoint | aoc14/src/main.rs:4-11 | Parsing the printed "x,y" of a point gives it back. |
| Regolith.ParsePath | aoc14/src/main.rs:55-59 | A path has one point per " -> "-separated piece, each piece parsed as a point. |
| Regolith.Segment | aoc14/src/main.rs:61-90 | A segment is drawn exactly when its ends share a column or a row (otherwise the `assert!` aborts), and it blocks exactly the cells between its ends. |
| Regolith.SegmentSymmetric | aoc14/src/main.rs:64-81 | A segment blocks the same cells whichever way it is drawn, including both of its ends. |
| Regolith.PathCells | aoc14/src/main.rs:56-94 | A path is drawn exactly when consecutive points are aligned, and it blocks the cells of its segments and nothing else. |
| Regolith.Rocks | aoc14/src/main.rs:51-95 | The rock cells are exactly the cells of all paths, when every path is aligned. |
| Regolith.BottomBounds | aoc14/src/main.rs:41-100 | The bottom row is at least 1, no rock lies below it, and it is 1 or the row of some rock. |
| Regolith.NextCell | aoc14/src/main.rs:118-140 | A grain moves one row down, to the first free cell of straight down, down-left and down-right; it rests exactly when all three are blocked. |
| Regolith.Drop | aoc14/src/main.rs:113-141 | A dropped grain rests above the floor, inside the triangle below its start, on a free cell, with all three cells under it blocked. |
| Regolith.RestsAtSourceWhenCovered | aoc14/src/main.rs:147 | A grain from the source rests there once the three cells under it hold sand. |
| Regolith.Pour | aoc14/src/main.rs:109-148 | Pouring adds one resting grain per drop, ends with a grain at the source, and every new grain lies inside the triangle below the source. |
| Regolith.PourIsBounded | aoc14/src/main.rs:109-148 | The number of grains is at most the number of cells in the triangle above the floor. |
| Regolith.Solve | aoc14/src/main.rs:29-153 | The program counts at least one grain, the one that rests at the source. |
| BeaconExclusion.SensorCovers | aoc15/src/main.rs:15-29 | A sensor reaches a row exactly when the row is within its radius, and then it rules out exactly the columns whose distance is within the radius: a range centred on the sensor. |
| BeaconExclusion.MergeRanges | aoc15/src/main.rs:32-38 | Fewer than two ranges give no merged range at all; otherwise there are at most as many merged ranges as inputs. |
| BeaconExclusion.MergeLoopGapped | aoc15/src/main.rs:40-72 | The merged ranges are always separated by at least one free column. |
| BeaconExclusion.MergeLoopWellFormed | aoc15/src/main.rs:40-72 | Merging non-empty ranges gives non-empty ranges. |
| BeaconExclusion.MergePreservesUnion | aoc15/src/main.rs:32-73 | For at least two ranges sorted by start, a column is in a merged range exactly when it is in an input range. |
| BeaconExclusion.RangeLeIsTotalPreorder | aoc15/src/main.rs:115 | The tuple order the sort uses, by start and then by end, is total and transitive. |
| BeaconExclusion.SortRanges | aoc15/src/main.rs:115 | The sorted ranges are ordered by start and are a permutation of the input. |
| BeaconExclusion.RowRangesCover | aoc15/src/main.rs:105-113 | The ranges gathered for a row cover exactly the cells some sensor rules out. |
| BeaconExclusion.Row | aoc15/src/main.rs:105-117 | A row's merged ranges are non-empty and separated by free columns. |
| BeaconExclusion.RowCoversSeen | aoc15/src/main.rs:105-117 | When at least two sensors reach the row, a column is in the merged ranges exactly when some sensor rules it out. |
| BeaconExclusion.Gap | aoc15/src/main.rs:120-134 | A row that reports a frequency has a column no sensor rules out, with both neighbours ruled out, and the frequency is 4000000 times that column plus the row. |
| BeaconExclusion.GapIsUnseen | aoc15/src/main.rs:125-133 | The column between two merged ranges one column apart is unseen while both its neighbours are seen. |
| BeaconExclusion.ParseSensor | aoc15/src/main.rs:85-97 | A sensor line parses exactly when the replaced text splits into at least four comma-separated pieces whose first four are integers. The sensor is at the first two and its beacon at the next two. |
| BeaconExclusion.ParseShowSensor | aoc15/src/main.rs:85-97 | Parsing the printed line "Sensor at x=A, y=B: closest beacon is at x=C, y=D" gives the sensor back. |
| Valves.IndexOfDest | aoc16/src/main.rs:124 | The position found holds the exit to the destination, and there is none exactly when no exit leads there. |
| Valves.Relax | aoc16/src/main.rs:121-141 | A candidate route inserts a new destination or lowers a dearer cost to its own, leaves every other exit alone, and sets the flag exactly when it improves. |
| Valves.RelaxAllKeeps | aoc16/src/main.rs:104-143 | Relaxing never removes an exit and never makes one dearer. |
| Valves.RelaxAllCovers | aoc16/src/main.rs:111-143 | After relaxing, every candidate's destination is an exit no dearer than the candidate. |
| Valves.RelaxAllSources | aoc16/src/main.rs:104-143 | Every exit afterwards is one from before or one of the candidates, at the cost it came with. |
| Valves.RelaxAllFlag | aoc16/src/main.rs:124-141 | The flag is set exactly when some candidate improves on the exits as they were before the valve's pass. |
| Valves.FindValve | aoc16/src/main.rs:113 | The valve found has the name looked up, and None means no valve has it. |
| Valves.Candidates | aoc16/src/main.rs:111-121 | No candidate leads back to the valve itself. |
| Valves.CandidatesAreRoutes | aoc16/src/main.rs:111-121 | Every candidate is a two-hop route: through some exit of the valve, then some exit of the valve that exit leads to, other than back, at the summed cost. |
| Valves.CandidatesMissing | aoc16/src/main.rs:111-121 | The candidates are missing, and the program aborts, exactly when some exit names no valve. |
| Valves.AddSecondaryLinks | aoc16/src/main.rs:90-150 | A pass keeps the number of valves and leaves every valve with one exit per destination. |
| Valves.Settle | aoc16/src/main.rs:192-204 | Repeating the passes keeps the number of valves and one exit per destination at every valve. |
| Valves.CandidatesHave | aoc16/src/main.rs:111-121 | Every route through an exit to one of its exits, other than back to the valve itself, is a candidate at the summed cost. |
| Valves.CollapseValve | aoc16/src/main.rs:104-147 | A valve keeps its name and rate, and its exits stay one per destination. |
| Valves.PassPerValve | aoc16/src/main.rs:90-150 | A pass succeeds exactly when every valve's exits name valves; each valve gets its own relaxed exits, and the pass flag is the disjunction of the valves' flags. |
| Valves.QuietPassChangesNothing | aoc16/src/main.rs:192-204 | A pass that reports no change leaves every exit cost as it was. |
| Valves.QuietPassIsFixpoint | aoc16/src/main.rs:192-204 | When a pass reports no change, no two-hop route is cheaper than the recorded exit. |
| Valves.SettleIsFixpoint | aoc16/src/main.rs:192-204 | What the repeated passes settle on has no shortcut left. |
| Valves.Hops | aoc16/src/main.rs:157-162 | A path of n names gives n - 1 hops; hop k costs the travel time of the exit from the k-th valve to the next and carries the next valve's rate; the hops exist exactly when every step is an exit between valves. |
| Valves.Run | aoc16/src/main.rs:152-173 | The loop finishes exactly when every hop leaves time over, as the `assert!` demands. |
| Valves.RunIsReleased | aoc16/src/main.rs:152-173 | The loop's total is the pressure released: each valve opened releases its rate for every minute that remains after opening. |
| Valves.ReleasedNonNegative | aoc16/src/main.rs:152-173 | With non-negative rates, a path that finishes never releases negative pressure. |
| Valves.RunFlowIrrelevant | aoc16/src/main.rs:164 | Whether the loop finishes depends on the travel times alone, not on the pressure totals. |
| Valves.RunFlow | aoc16/src/main.rs:152-173 | The program finishes exactly when every step of the path is an exit and every hop leaves time over within thirty minutes; the score is then the pressure the path releases. |
| Valves.ExitsOf | aoc16/src/main.rs:32-36 | Every listed name is an exit at cost 1, each once however often it is listed, and nothing else is. |
| Valves.ParseValve | aoc16/src/main.rs:22-44 | A parsed valve has one exit per destination, each at cost 1. |
| Valves.ParseShowValve | aoc16/src/main.rs:22-44 | Parsing a printed valve line gives back its name, its rate and an exit for every listed name. |
| FallingRocks.ShapeFacts | aoc17/src/main.rs:27-40 | Every shape is non-empty, fits in a 4 by 4 box, has a cell on its bottom row and one in its left column, and lists no cell twice. |
| FallingRocks.NewGrid | aoc17/src/main.rs:166-176 | A new grid has the requested number of rows, height 0 and no set cell. |
| FallingRocks.BitOr | aoc17/src/main.rs:189-191 | Or-ing `1 << x` into a row sets bit x and keeps every other bit. |
| FallingRocks.IsSet | aoc17/src/main.rs:178-183 | Reading a cell aborts unless the row exists, and otherwise says whether the cell is set. |
| FallingRocks.Set | aoc17/src/main.rs:185-193 | Setting a cell aborts unless the row exists and the cell is clear; it sets exactly that cell and raises the height to cover its row. |
| FallingRocks.SetKeepsBounded | aoc17/src/main.rs:185-193 | After a set, every set cell still lies below the height. |
| FallingRocks.FitCells | aoc17/src/main.rs:82-103 | The cell loop answers true only when every shifted cell is inside the walls, above the floor and clear, false only when one is not, and it always answers when the cells lie in existing rows. |
| FallingRocks.WillFit | aoc17/src/main.rs:78-104 | A moved rock fits exactly when every cell of its shape, moved, is inside the walls, above the floor and clear. |
| FallingRocks.Fall | aoc17/src/main.rs:106-120 | A rock drops one row exactly when it fits there; otherwise it stays where it is. |
| FallingRocks.Push | aoc17/src/main.rs:123-140 | A jet moves the rock one column its way when it fits there, and otherwise leaves it; the row never changes. |
| FallingRocks.DrawCells | aoc17/src/main.rs:66-75 | Drawing sets exactly the shape's cells, keeps every other cell and raises the height to the top of the shape. |
| FallingRocks.Draw | aoc17/src/main.rs:66-75 | Drawing a rock sets exactly its cells and raises the height to its top row. |
| FallingRocks.DrawCellsSucceeds | aoc17/src/main.rs:66-75 | Drawing a shape whose distinct cells are free and in existing rows never trips the assertions of `set`. |
| FallingRocks.Spawn | aoc17/src/main.rs:55-64 | A new rock starts two columns from the left wall and three rows above the highest rock. |
| FallingRocks.SpawnCycles | aoc17/src/main.rs:246-268 | The rock types repeat every five rocks, starting with the flat bar, then the plus, and with the square fifth. |
| FallingRocks.FallsWhileAbove | aoc17/src/main.rs:106-120 | A placed rock above the highest set cell can always fall a row. |
| FallingRocks.DropRock | aoc17/src/main.rs:272-284 | Each rock uses at least one jet and ends where it rests: one row lower it would not fit, the grid gains exactly the rock's cells there, and the height rises to the rock's top row if that is higher. |
| FallingRocks.DropRockSucceeds | aoc17/src/main.rs:272-284 | Dropping a placed rock never trips an assertion, keeps the grid's size, and raises the height by at most four. |
| FallingRocks.SpawnIsPlaced | aoc17/src/main.rs:268 | With seven rows of room above the highest rock, a freshly spawned rock fits. |
| FallingRocks.DropperSafe | aoc17/src/main.rs:266-286 | The program's drop succeeds on every grid with room left and raises the height by at most four rows. |
| FallingRocks.RestsKeepsTopped | aoc17/src/main.rs:185-193 | After a rock comes to rest, the row just below the height still holds a set cell. |
| FallingRocks.SimulateSucceeds | aoc17/src/main.rs:248-286 | With four rows per rock and eight more, the outer loop never aborts, the height stays within four rows per rock, every set cell lies below the height and the row just below it holds a set cell. |
| FallingRocks.ParsePattern | aoc17/src/main.rs:235-243 | The jet line parses exactly when it holds only '<' and '>', one jet per character, '<' being Left. |
| FallingRocks.ReadPattern | aoc17/src/main.rs:228-244 | Because the program asserts before each line that no jet was read yet, the input is accepted exactly when every line but the last is empty and the last one parses, and the jets are the last line's. |
| FallingRocks.TowerHeight | aoc17/src/main.rs:246-368 | The printed height is one above the highest set cell of the final grid, after twenty rounds of five rocks per jet; it is at most four rows per rock, and 0 for an empty pattern. |
| BoilingBoulders.Next | aoc18/src/main.rs:24-42 | The iterator hands out a neighbour exactly for counts 0 to 5, and each step advances the count by one. |
| BoilingBoulders.Drain | aoc18/src/main.rs:20-42 | A fresh iterator hands out six cubes, and one at count n hands out 6 - n. |
| BoilingBoulders.NeighborsAreAdjacent | aoc18/src/main.rs:24-42 | The six neighbours are exactly the cubes that differ by one in one coordinate, and all six are different. |
| BoilingBoulders.NeighborSymmetric | aoc18/src/main.rs:24-42 | If b is a neighbour of a, then a is a neighbour of b. |
| BoilingBoulders.CountFacesBound | aoc18/src/main.rs:255-270 | At most six faces per cube are exposed. |
| BoilingBoulders.SingleCube | aoc18/src/main.rs:255-270 | A lone cube shows all six faces. |
| BoilingBoulders.TwoCubes | aoc18/src/main.rs:255-270 | Any two cubes side by side along x show ten faces: each hides one face of the other. |
| BoilingBoulders.CountFacesOrder | aoc18/src/main.rs:255-270 | The face count does not depend on the order in which the set is enumerated. |
| BoilingBoulders.ParseCube | aoc18/src/main.rs:55-64 | A cube parses exactly when its line has at least three comma-separated fields whose first three are 32-bit integers, and the cube's coordinates are those three numbers. |
| BoilingBoulders.ParseShowCube | aoc18/src/main.rs:55-64 | Parsing the printed "x,y,z" of a cube with 32-bit coordinates gives it back. |
| BoilingBoulders.BoundsOf | aoc18/src/main.rs:93-116 | The bounds contain every cube. |
| BoilingBoulders.BoundsAttained | aoc18/src/main.rs:93-116 | Each of the six extremes is a coordinate of some cube. |
| BoilingBoulders.Pushes | aoc18/src/main.rs:222-229 | The flood queues exactly the neighbours that are neither cubes nor already in the cluster. |
| BoilingBoulders.Flood | aoc18/src/main.rs:190-232 | The cluster only grows, and it stays inside the bounds. |
| BoilingBoulders.FloodCorrect | aoc18/src/main.rs:190-232 | When the cells already classified are closed, the flood never trips its assertions; its cluster is closed air that was never classified, and it is marked a pocket exactly when no cell of it touches air outside the bounds. |
| BoilingBoulders.Classify | aoc18/src/main.rs:161-250 | The pockets and non-pockets only grow. |
| BoilingBoulders.ClassifyCorrect | aoc18/src/main.rs:161-250 | The outer loop never trips an assertion; pockets and non-pockets stay disjoint, closed air inside the bounds, and no pocket touches the outside. |
| BoilingBoulders.FillPockets | aoc18/src/main.rs:139-253 | Every pocket is air inside the bounds, and the pockets are closed and sealed from the outside. |
| Mixing.Numbered | aoc20/src/main.rs:38-43 | Each number read is tagged with its line number as its id. |
| Mixing.NumberedById | aoc20/src/main.rs:38-43 | An entry of the numbered list is fixed by its id. |
| Mixing.RemoveInserted | aoc20/src/main.rs:96-112 | Removing what was just inserted gives the list back. |
| Mixing.InsertRemoved | aoc20/src/main.rs:96-112 | Putting back what was just removed, where it was, gives the list back. |
| Mixing.Locate | aoc20/src/main.rs:51-60 | The search finds the first entry with the id, and stays at 0 when there is none. |
| Mixing.LocateFindsOriginal | aoc20/src/main.rs:51-60 | However the list has been rearranged, the search by id finds the number read on that line. |
| Mixing.InsertAfter | aoc20/src/main.rs:65-76 | The slot is the position plus the value, one less when negative, wrapped modulo the length into 0..len-1. |
| Mixing.MoveAsWritten | aoc20/src/main.rs:62-116 | A move as written keeps the numbers, leaves a 0 alone, and panics exactly when the slot is the number's own and the number is last. |
| Mixing.LeftMoveAsWritten | aoc20/src/main.rs:94-113 | A left move that stays inside the list lands one slot right of the intended place; a -1 there does not move at all. |
| Mixing.MixAsWrittenFrom | aoc20/src/main.rs:49-122 | The program's loop from any id on, when it does not panic, keeps the length and the numbers. |
| Mixing.MixAsWritten | aoc20/src/main.rs:47-122 | The program's mixing, when it does not panic, rearranges the numbers read and neither loses nor invents any. |
| Mixing.StaysAsWritten | aoc20/src/main.rs:62-116 | Mixing 0, 0, 3, -1 as written leaves the list as it was read. |
| Mixing.MovesWhenCorrected | aoc20/src/main.rs:62-116 | Mixing 0, 0, 3, -1 as the puzzle intends puts the -1 in front of the 3. |
| Mixing.PanicsAsWritten | aoc20/src/main.rs:76-113 | Mixing 1, 0, 3 as written asks `insert` for a position past the end. |
| Mixing.Target | aoc20/src/main.rs:64-76 | A number at `ind` moved by `v` lands in a gap below `len - 1`, congruent to `ind + v` modulo the `len - 1` gaps left once it is lifted out. |
| Mixing.TargetIsOnlyResidue | aoc20/src/main.rs:64-76 | The landing gap is the only gap below `len - 1` that is congruent to `ind + v` modulo `len - 1`. |
| Mixing.Shift | aoc20/src/main.rs:94-113 | A move puts the number at its target and keeps every other number in its order. |
| Mixing.ShiftBack | aoc20/src/main.rs:94-113 | Moving back by the same amount undoes a move. |
| Mixing.Move | aoc20/src/main.rs:62-121 | A step keeps the numbers, and a 0 stays where it is. |
| Mixing.MixFrom | aoc20/src/main.rs:49-122 | The mixing loop keeps the numbers and the length. |
| Mixing.Mix | aoc20/src/main.rs:36-122 | Mixing rearranges the numbers read and neither loses nor invents any. |
| Mixing.MixStep | aoc20/src/main.rs:49-122 | The step for line i finds the number read on that line and moves it by its own value, or leaves the list alone when that value is 0. |
| Mixing.ZeroAt | aoc20/src/main.rs:126-134 | The search finds the first 0, and stays at 0 when there is none. |
| Mixing.GroveSum | aoc20/src/main.rs:136-139 | The coordinates exist unless the list is empty, where the `%` divides by zero. |
| Mixing.RotateAt | aoc20/src/main.rs:136-138 | Entry j of a rotated list is entry j + k of the original, counting round. |
| Mixing.GroveSumRotate | aoc20/src/main.rs:126-139 | With one 0 in the list, the coordinates depend only on the circular order. |
| MonkeyMath.MatchPair | aoc21/src/main.rs:32-47 | The operands are returned exactly for a combining job; any other job panics. |
| MonkeyMath.Apply | aoc21/src/main.rs:74-81 | An operation fails exactly on a division by zero. |
| MonkeyMath.RunOp | aoc21/src/main.rs:49-82 | The human's job is unknown and a number job yells its number. |
| MonkeyMath.RunOpMeaning | aoc21/src/main.rs:49-82 | A known number is what the monkey yells whatever the human says; a panic means evaluation fails for every human number; and a result is unknown exactly when the human's job is reached through the operands. |
| MonkeyMath.ComputeUnknown | aoc21/src/main.rs:84-95 | Inverting fails exactly on a division by zero: a multiplication by 0, or a division whose result is 0. |
| MonkeyMath.ComputeUnknownSolves | aoc21/src/main.rs:84-95 | The additive inverses always solve their equations; a multiplication's inverse does exactly when the known factor is non-zero and divides the result evenly, a reversed division's exactly when the divisor is non-zero, and a division's whenever the result and the known number are non-zero and the result divides the known number evenly. |
| MonkeyMath.DivideSolvesUnevenly | aoc21/src/main.rs:84-95 | The division case has no converse: 7 / x == 2 is solved by the inverse 3 although 2 does not divide 7. |
| MonkeyMath.EquationIsTheJob | aoc21/src/main.rs:105-130 | The equation solved on the way down, with the unknown on either side, is exactly the job's own operation. |
| MonkeyMath.MakeHumanEqualSolves | aoc21/src/main.rs:98-138 | When every inverse on the way down is exact, the number found for the human makes the branch yell the number the equation asks for. |
| MonkeyMath.SolveBalancesRoot | aoc21/src/main.rs:187-200 | With the number found, the root's two operands yell the same number. |
| MonkeyMath.ParseKind | aoc21/src/main.rs:172-178 | An operator word parses only as the operator printed the same way. |
| MonkeyMath.ParseShowMonkey | aoc21/src/main.rs:152-180 | Reading a printed "name: job" line gives the name and the job back. |
| MonkeyMath.ParseAll | aoc21/src/main.rs:148-183 | The lines parse exactly when every line does, each to its own job. |
| MonkeyMath.InsertContents | aoc21/src/main.rs:182 | The map holds exactly the names of the jobs, each with the last job read under that name. |
| MonkeyMap.Facing | aoc22/src/main.rs:9-17 | The facings are numbered 0 to 3: right, down, left, up. |
| MonkeyMap.TurnTables | aoc22/src/main.rs:357-380 | The left and right tables undo each other, four equal turns come back to the start, and a right turn adds one to the facing modulo 4 while a left turn adds three. |
| MonkeyMap.TileOf | aoc22/src/main.rs:119-125 | A board character is read exactly when it is ' ', '.' or '#'; anything else panics. |
| MonkeyMap.Width | aoc22/src/main.rs:97-101 | The grid width is the length of the longest line: no line is longer and some line has it. |
| MonkeyMap.NewGrid | aoc22/src/main.rs:95-130 | The grid is read exactly when every board character is known; it is as wide as the longest line and has one row per line. |
| MonkeyMap.NewGridCells | aoc22/src/main.rs:111-127 | Every cell of the grid is the one its line gives, and void past the end of a short line. |
| MonkeyMap.FirstIn | aoc22/src/main.rs:160-210 | The search upwards finds the first matching tile, and none means no tile from there on matches. |
| MonkeyMap.LastIn | aoc22/src/main.rs:173-210 | The search downwards finds the last matching tile below the bound, and none means none matches. |
| MonkeyMap.FirstInRow | aoc22/src/main.rs:160-171 | The position found is the leftmost board cell of the row, and none means the row has no board cell. |
| MonkeyMap.LastInRow | aoc22/src/main.rs:173-184 | The position found is the rightmost board cell of the row, and none means the row has no board cell. |
| MonkeyMap.FirstInColumn | aoc22/src/main.rs:186-197 | The position found is the topmost board cell of the column, and none means the column has no board cell. |
| MonkeyMap.LastInColumn | aoc22/src/main.rs:199-210 | The position found is the lowest board cell of the column, and none means the column has no board cell. |
| MonkeyMap.StartPoint | aoc22/src/main.rs:147-158 | The walker starts on the leftmost open cell of the top row; when the top row has no open cell the program panics. |
| MonkeyMap.Neighbour | aoc22/src/main.rs:241-243 | The next cell, wrapped round the edges of the grid, stays in the grid. |
| MonkeyMap.Target | aoc22/src/main.rs:241-258 | The cell one step on is always on the board; when the neighbour is on the board it is that neighbour, and the step fails only when the neighbour is off the board and so is its whole row or column. |
| MonkeyMap.TargetWraps | aoc22/src/main.rs:246-258 | Off the board, the step lands on the first board cell of the row or column counted from the edge it re-enters, keeping the other coordinate. |
| MonkeyMap.TargetFromBoard | aoc22/src/main.rs:160-210 | From a board cell the wrap always finds a board cell, so it never panics. |
| MonkeyMap.NeighbourLine | aoc22/src/main.rs:226-243 | A vertical step stays in its column and a horizontal step in its row. |
| MonkeyMap.Step | aoc22/src/main.rs:239-268 | A step moves exactly onto an open target, stops exactly before a wall, and fails only when the wrap panics. |
| MonkeyMap.Walk | aoc22/src/main.rs:223-271 | A walk ends inside the grid. |
| MonkeyMap.WalkSteps | aoc22/src/main.rs:239-268 | A walk takes at most `dist` successful steps, and when it takes fewer, the next step hits a wall. |
| MonkeyMap.WalkStaysOpen | aoc22/src/main.rs:223-271 | From an open cell a walk never panics and ends on an open cell. |
| MonkeyMap.Flush | aoc22/src/main.rs:331-335 | No pending digits add nothing; pending digits become one move of their decimal value, and fail exactly when that value exceeds usize. |
| MonkeyMap.Tokenize | aoc22/src/main.rs:322-345 | A path is read only when every character is a digit, L or R, and what it reads has its moves within usize and never two moves in a row. |
| MonkeyMap.ScanDigits | aoc22/src/main.rs:328 | Digits only extend the pending number. |
| MonkeyMap.TokenizeShow | aoc22/src/main.rs:322-345 | Reading a printed path, whose moves fit in a usize and are separated by turns, gives the commands back. |
| MonkeyMap.Follow | aoc22/src/main.rs:349-382 | The journey ends inside the grid, facing the way the turns alone make it face; a path of turns only ends on the starting cell. |
| MonkeyMap.FollowStaysOpen | aoc22/src/main.rs:349-382 | Starting on an open cell, the journey never panics and ends on an open cell. |
| MonkeyMap.Password | aoc22/src/main.rs:386 | The password modulo 4 is the facing, whatever the board. |
| MonkeyMap.PasswordDecodes | aoc22/src/main.rs:386 | On boards narrower than 249 columns, the password gives back the row, the column and the facing. |
| MonkeyMap.Solve | aoc22/src/main.rs:300-388 | The program reports a password exactly when the board and the path are read and the top row has an open cell; the journey itself never panics. |
| UnstableDiffusion.Occupied | aoc23/src/main.rs:62-71 | The occupied set holds exactly the elves' cells, and for distinct elves it has one cell per elf. |
| UnstableDiffusion.FirstOpen | aoc23/src/main.rs:123-133 | The scan of the preference table, starting at `round % 4` and going round cyclically, returns the destination of the first row whose test passed, and nothing when no test passed. |
| UnstableDiffusion.Proposal | aoc23/src/main.rs:94-134 | An elf with no neighbour proposes nothing. Otherwise it proposes exactly when one of the four sides is free, and what it proposes is the step towards the first free side in the order that begins at the round's choice. |
| UnstableDiffusion.ProposalAdjacent | aoc23/src/main.rs:115-120 | A proposed cell is one orthogonal step from the elf and was empty at the start of the round. |
| UnstableDiffusion.TallyCounts | aoc23/src/main.rs:168-186 | The proposal map holds exactly the proposed cells, each mapped to the number of elves that proposed it. |
| UnstableDiffusion.Execute | aoc23/src/main.rs:188-209 | Each elf whose proposal was made only once moves onto it and every other elf stays. The count of moved elves is zero exactly when no elf moves. |
| UnstableDiffusion.RoundMoves | aoc23/src/main.rs:164-209 | In a round an elf moves exactly when its proposed cell was proposed by it alone, and otherwise it keeps its cell. |
| UnstableDiffusion.RoundKeepsDistinct | aoc23/src/main.rs:164-209 | A round never puts two elves on one cell. |
| UnstableDiffusion.RoundStill | aoc23/src/main.rs:189-215 | The moved count is zero exactly when the round leaves every elf where it was. |
| UnstableDiffusion.SimulateSettles | aoc23/src/main.rs:164-221 | The loop keeps the number of elves and keeps them on distinct cells. The round it reports, counted from 1, moves nobody. |
| UnstableDiffusion.RunStopsAtFirstStill | aoc23/src/main.rs:164-221 | For any step, the loop reports the first round in which nobody moves. Every earlier round moves some elf, and the positions reported are the ones that round leaves. |
| UnstableDiffusion.SimulateStopsAtFirstStill | aoc23/src/main.rs:164-221 | The round the elves' simulation reports is the first in which nobody moves, counted from 1, and it reports the positions that round leaves. |
| UnstableDiffusion.ElfBounds | aoc23/src/main.rs:44-60 | Every elf lies inside the rectangle, each of its four sides touches an elf when the elves fit in 32 bits, and with no elves the fold's starting extremes come back. |
| UnstableDiffusion.BoxCount | aoc23/src/main.rs:224 | A rectangle holds as many cells as its area. |
| UnstableDiffusion.EmptyAreaCounts | aoc23/src/main.rs:223-225 | For distinct elves, the printed empty area is the number of cells of the bounding rectangle that hold no elf. |
| UnstableDiffusion.RowElves | aoc23/src/main.rs:150-156 | The elves of a line are exactly the '#' characters, at their index and the line's row, and no two coincide. |
| UnstableDiffusion.ParseElves | aoc23/src/main.rs:146-159 | The elves read are exactly the '#' cells of the input, and no two coincide. |
| BlizzardBasin.Next | aoc24/src/main.rs:37-63 | A step goes one round later to an orthogonal neighbour, keeping the column for a vertical step and the row for a horizontal one. It fails exactly when it would go up from row 0 or left from column 0. |
| BlizzardBasin.NextBack | aoc24/src/main.rs:37-63 | A step and the opposite step bring the party back to its cell two rounds later. |
| BlizzardBasin.DownDrifts | aoc24/src/main.rs:112-120 | The row the program computes for a down-moving blizzard is where it has drifted after wrapping once per bottom edge. |
| BlizzardBasin.RightDrifts | aoc24/src/main.rs:133-141 | The same holds for the column of a right-moving blizzard. |
| BlizzardBasin.UpDrifts | aoc24/src/main.rs:122-131 | The program's row for an up-moving blizzard, with its headroom of whole heights, is where it has drifted upwards, wrapping at the top. |
| BlizzardBasin.LeftAtAsWritten | aoc24/src/main.rs:143-152 | The program's column for a left-moving blizzard, where the subtraction does not underflow, is the start less the round, modulo the width. |
| BlizzardBasin.LeftAsWrittenWide | aoc24/src/main.rs:146-147 | In a basin at least as wide as it is high, the headroom taken from the height suffices, so the subtraction never underflows. |
| BlizzardBasin.LeftAsWrittenUnderflows | aoc24/src/main.rs:146-147 | In a basin 2 wide and 5 high, a left-moving blizzard from column 0 underflows at round 3. |
| BlizzardBasin.LeftDrifts | aoc24/src/main.rs:143-152 | The corrected column of a left-moving blizzard is where it has drifted leftwards, wrapping at the left edge. |
| BlizzardBasin.LeftAtAgrees | aoc24/src/main.rs:143-152 | Wherever the program computes a left column without underflow, it agrees with the corrected one. |
| BlizzardBasin.NewWeather | aoc24/src/main.rs:83-100 | The new weather has an empty list for every column and every row. |
| BlizzardBasin.AddBlizzard | aoc24/src/main.rs:201-211 | A blizzard is filed exactly when its column exists for a vertical one, or its row exists for a horizontal one, and the weather keeps its shape. |
| BlizzardBasin.Build | aoc24/src/main.rs:231-254 | The blizzards are all filed exactly when each of them fits. |
| BlizzardBasin.BuildLists | aoc24/src/main.rs:201-211 | Each list holds exactly the starting coordinates of the blizzards of its direction filed under it. |
| BlizzardBasin.Matches | aoc24/src/main.rs:112-152 | A list contributes a direction exactly when one of its blizzards is on the target at this round, and it contributes nothing but that direction. |
| BlizzardBasin.BlockedIff | aoc24/src/main.rs:102-155 | For blizzards that start inside the basin, a cell is blocked at a round exactly when one of them, drifting one cell per round and wrapping at the edges, is on it. |
| BlizzardBasin.Glyph | aoc24/src/main.rs:244-252 | Every direction has a glyph that reads back as that direction. |
| BlizzardBasin.GlyphRoundTrip | aoc24/src/main.rs:244-252 | Every blizzard glyph is the glyph of the direction it reads as. |
| BlizzardBasin.RowBlizzards | aoc24/src/main.rs:235-253 | A row is read exactly when every character between the side walls is known, and the blizzards read are exactly those it shows. |
| BlizzardBasin.Blizzards | aoc24/src/main.rs:232-254 | The rows are read exactly when every basin row is known, and the blizzards read are exactly those the grid shows. |
| BlizzardBasin.ParseBasin | aoc24/src/main.rs:228-254 | A grid with fewer than two rows or columns panics. The basin read is two rows and two columns smaller than the grid, and every basin row holds only known characters. |
| BlizzardBasin.ParseAccepts | aoc24/src/main.rs:228-254 | A rectangular grid whose basin rows hold only known characters is read. |
| BlizzardBasin.ParsedInBasin | aoc24/src/main.rs:232-243 | On a rectangular grid, every blizzard read starts inside the basin. |
| BlizzardBasin.ParsedBlocked | aoc24/src/main.rs:228-254 | On a rectangular grid, a basin cell is blocked at a round exactly when some blizzard drawn in the grid has drifted onto it. |
| BlizzardBasin.ShownHits | aoc24/src/main.rs:232-254 | A blizzard read lands on a cell exactly when a blizzard drawn in the grid does. |
| BlizzardBasin.Expand | aoc24/src/main.rs:308-326 | Every queued move is one round later, onto the same cell or a neighbour, and stays in the basin. Every such move inside the basin is queued. |
| BlizzardBasin.Starts | aoc24/src/main.rs:260-268 | The starting moves are the top-left cell at exactly the free rounds below the bound, in increasing round order. |
| BlizzardBasin.StartQueue | aoc24/src/main.rs:256-268 | The initial queue holds the top-left cell at exactly the unblocked rounds below the width, in order. |
| BlizzardBasin.SearchWith | aoc24/src/main.rs:270-327 | A reported time is at most `usize::MAX`. Below that it is one round after some unblocked move onto the bottom-right cell. |
| BlizzardBasin.Search | aoc24/src/main.rs:270-327 | The same holds for the weather's own notion of blocked cells. |
| BlizzardBasin.ReachableFar | aoc24/src/main.rs:260-268 | No move the party can make is reached in fewer rounds than its distance in steps from the top-left cell. |
| BlizzardBasin.ExpandCandidates | aoc24/src/main.rs:308-326 | Every move queued from a reachable move may be reached that way. |
| BlizzardBasin.SearchSound | aoc24/src/main.rs:275-327 | When every queued move could be reached, a reported time is one round after a reachable move onto the goal. |
| BlizzardBasin.StartCandidates | aoc24/src/main.rs:260-268 | The starting moves are all ways of entering the basin. |
| BlizzardBasin.Solve | aoc24/src/main.rs:215-331 | The program reports a time only for a basin it read, and the time is at most `usize::MAX`. |
| BlizzardBasin.SolveSound | aoc24/src/main.rs:215-331 | A reported time below `usize::MAX` is one round after the party reached the bottom-right cell along unblocked moves, and so is at least the width plus the height less one. |

## Left out

- aoc19 is not part of this model: its program only pulls numbers out of blueprint lines and prints them.
- Reading stdin, `println!`, and the `dump`/`draw_grid` helpers are left out because they have no effect on the answers. So are aoc22's `visit` and `last_travel` marks, which only feed `dump`.
- Rust integers are modelled as unbounded unless the program's own range check matters. Overflow of `i32`, `i64`, `isize`, `usize` and `u32` arithmetic is not modelled.
- Calories.ParseLine: reads an amount with the unbounded decimal parser, so an amount that overflows `i32` is accepted rather than aborting.
- RockPaperScissors.TotalScore: its own contract only bounds the total. `TotalScoreIsSum` states its value. Its stop test counts characters where the program counts bytes, as the RockPaperScissors.LineScore line says.
- Rucksack: the `u64` item mask is modelled as the set of its bit indices. A character other than a letter still gets an index from the program's formula `26 + c - 'A'`. For every non-letter from the apostrophe (code 39) to the backquote (code 96) it lands inside 0 to 63, and the character is counted as an item: '0' selects bit 9, the same as 'j', and '[' selects bit 52. Any other character selects an index outside 0 to 63, where the program's shift overflows. The model does not abort there.
- RockPaperScissors.LineScore: the program stops at a line whose byte length `len()` is below 3, then reads the first and third characters with `chars().nth` (aoc2/src/main.rs:135-141). The model compares the character count with 3. The two agree on ASCII lines; on a line such as "éA" (three bytes, two characters) the program panics where the model stops reading.
- TreeHouse.ParseGrid: the program takes the width from the first line's byte length `len()` but pushes one tree per character (aoc8/src/main.rs:22-28). The model uses the character count. The two agree on ASCII lines.
- HillClimbing.ParseMap: the program takes the width from the first line's byte length `len()` and the positions of S and E from the byte offsets of `char_indices`, while it pushes one cell per character (aoc12/src/main.rs:32-37). The model uses character counts and indices. The two agree on ASCII lines.
- Rucksack.FirstDuplicate: the program halves the line's byte length and compares it with the byte offsets of `char_indices` (aoc3/src/main.rs:17-18). The model halves the character count and uses character indices. The two agree on ASCII lines.
- Marker.FindMarker: the program bounds the scan by the byte length `input.len()` but reads characters by position with `chars().nth` (aoc6/src/main.rs:10-20). The model uses the character count for both. The two agree on ASCII lines.
- SupplyStacks.DrawingStep: the program sizes the stacks and checks a crate line's length in bytes with `len()` (aoc5/src/main.rs:24-37), but reads the crates by character with `chars().nth` (line 41). The model counts characters throughout. The two agree on ASCII lines.
- SupplyStacks: the crate counts and stack indices are unbounded naturals rather than `i32`/`usize`.
- TreeHouse.ViewCount: reads each tree at the corrected row-major position `x + y * width`. The program's `x + y * height` agrees with it only on square grids (see Findings).
- TreeHouse.ScenicScore: reads the grid at the corrected position, like `ViewCount`. On a grid that is not square, the program's scores differ.
- TreeHouse.MostScenicIsBest: is stated over the scores at the corrected position. On a grid that is not square, the program can report a different best score.
- Rope.ParseCommand: reads the count with the unbounded integer parser. The program parses an `i32` and aborts on a count outside its range.
- CathodeRay.ParseCmd: reads the `addx` operand with the unbounded integer parser. The program parses an `i32` and aborts outside its range.
- Monkeys.ParseMonkey: reads the items, the operand and the divisor with the unbounded integer parser, where the program parses `i64`, and the throw targets where it parses `i32`. Out-of-range numbers are accepted rather than aborting.
- CampCleanup.ParseAssignment: parses the section numbers without the 32-bit range check.
- Monkeys.Solve: carries no contract of its own. The 10000 rounds are a parameter, and the properties are stated per throw and per round.
- HillClimbing.ParseMap: a map whose lines are not all the width of the first is refused (None). The program reads such a map with its cells at the wrong positions.
- FileSystem.Solve: when exactly enough space is already free, `needed` is 0 and the contract states only that the second answer is 0 or some directory's size. With a bound of 0 a child's 0 counts as qualifying and resets the running best, so the answer there depends on the order of the children.
- HillClimbing: the `u32::MAX` "not reached" cost is the constant `U32Max`, and costs never approach it.
- DistressSignal: the dividers are the program's `[2]` and `[6]`. They compare equal to `[[2]]` and `[[6]]`.
- DistressSignal.DecoderKeyIsRanks: requires that no input packet equals a divider. Otherwise every sorted packet Equal to a divider also multiplies its position into the key (aoc13/src/main.rs:188-198), so the key is not the product of the two ranks. `KeyOfTwoMarkers` states the key for the case with exactly two such packets.
- Regolith: the program's fixed 1000 × 500 cell array is an unbounded set of cells. A grain at x = 0 would underflow `x - 1` there, which is not modelled.
- BeaconExclusion: the scan over the rows 0 to 4000000 is modelled as one row (`Row`, `Gap`). The `found_it` flag, which is never set, is left out.
- BeaconExclusion.MergeRanges: with a single range, the program returns no ranges, and the model does the same.
- BeaconExclusion.ParseSensor: uses the unbounded integer parser rather than `i64`.
- Valves: the route the program follows is hard-coded in its source. Here it is a parameter of `RunFlow`.
- Valves.Settle: the loop that relaxes links until nothing changes has no bound in the program. The model bounds it by `fuel` and returns None when the fuel runs out.
- Valves: the `HashMap` iteration order is not modelled. The properties hold for every order of the exits.
- Valves: valve names are assumed distinct.
- Valves.ParseShowValve: the round trip is stated for the plural wording "; tunnels lead to valves". A line with the singular wording is read by its own replacement, but no round trip is stated for it.
- FallingRocks: the loop detection guarded by `&& false` is dead code and is left out, and so are `height_deltas` and the extrapolated "mega height".
- FallingRocks.TowerHeight: an empty jet pattern gives zero rocks and height 0, as in the program.
- BoilingBoulders: the cubes are a sequence without duplicates, standing in for the program's set. The final "Outside faces" count is `count_faces` of the cubes plus the pockets, and is not a member of its own.
- BoilingBoulders.FillPockets: the candidate cells, the cubes' neighbours in the hash set's order, are a parameter, and the contract holds for every list of candidates. It states that every pocket found is sealed air, not that every sealed cell is found.
- Mixing: the values are unbounded rather than `i32`.
- Mixing.Mix: its contract states only that the numbers are rearranged, none lost or invented. What each step does is stated by `MixStep` and `Shift`, and `GroveSumRotate` shows that the answer depends only on the circular order. It mixes with the corrected move, not the program's; the program's mixing is `MixAsWritten`.
- Mixing.Move: the step moves the number by the corrected `Shift`, modulo the gaps left once it is lifted out. The program's step, with its two defects listed under Findings, is `MoveAsWritten`.
- Mixing.MixFrom: the loop runs the corrected `Move`; the program's loop is `MixAsWrittenFrom`.
- Mixing.MixStep: it states what the corrected step does with the number read on line i. The program's step differs as `LeftMoveAsWritten` and `PanicsAsWritten` show.
- Mixing.MoveAsWritten: it keeps the program's `insert_after == len` test, although that test can never hold after `% len`.
- MonkeyMath: the values are unbounded rather than `i64`.
- MonkeyMath.SolveBalancesRoot: requires the monkeys to be ranked, meaning every operand is defined and there is no cycle. On other inputs the program recurses without end or unwraps a missing monkey. It also requires every inverse taken from the root down to the human to solve its equation (`SolveExact`). A division with a remainder on that path gives a number that does not balance the root, and that case is not stated.
- MonkeyMath.MakeHumanEqualSolves: requires every inverse taken on the way down to the human to solve its equation (`ExactPath`), which fails only for a division with a remainder.
- MonkeyMath.ComputeUnknownSolves: for a division the contract gives a sufficient condition only; `DivideSolvesUnevenly` shows it is not necessary.
- MonkeyMath.ParseShowMonkey: a one-word job under the name `humn` becomes the human's job without its word being read, as in the program. The printed form writes that word as 0, and the round trip is stated for that form only.
- MonkeyMap.Tokenize: the converse is not stated. A path of digits, L and R alone can still fail when a run of digits exceeds usize; `Flush` states that case for one run.
- MonkeyMap: `Dir::None` is never produced by a turn and is left out. The board and the path arrive as separate inputs rather than one stream. Indices are per character, where the program uses byte offsets, which agree for ASCII input.
- UnstableDiffusion.Simulate: the program's loop runs until no elf moves. The model bounds it by `fuel` and returns None when the fuel runs out.
- UnstableDiffusion.RowElves: the program takes an elf's column from `char_indices`, which gives byte offsets (aoc23/src/main.rs:150). The model uses the character's index. The two agree on ASCII lines.
- BlizzardBasin.RowBlizzards: the program likewise uses the byte offsets of `char_indices` for the wall test and the column (aoc24/src/main.rs:235). The model uses character indices, and the two agree on ASCII lines.
- UnstableDiffusion: coordinates are unbounded rather than `i32`. With no elves, the program's area overflows, and that case is not modelled.
- BlizzardBasin.Search: the search is bounded by `fuel` and returns None when the fuel runs out. When the goal is unreachable the program's queue never empties, because waiting is always queued.
- BlizzardBasin.SolveSound: proves that a reported time is reachable and at least the walking distance plus one. That the breadth-first search finds the earliest such time is not proved.
- BlizzardBasin: the `round > best_time` cut-off only applies once `best_time` is set, and the loop stops at that point anyway. It is modelled as a comparison with `usize::MAX`.
- BlizzardBasin.ParseBasin: a horizontal blizzard drawn past the right wall of an over-long line is filed at a column outside the basin. Its column is taken modulo the width, so it still blocks basin cells, as though it had started that many widths further left. The model computes the same fold. BlockedIff and ParsedBlocked are stated only for blizzards inside the basin and for rectangular grids.
- BlizzardBasin.Blocked: uses the corrected column for left-moving blizzards (see Findings).
- BlizzardBasin.Solve: a basin without columns queues no start and reports `usize::MAX`. One with columns but no rows panics on the first lookup (None).

## Findings

| source | as written | input that shows it | evidently intended | confidence | as-written member | corrected member |
|---|---|---|---|---|---|---|
| aoc6/src/main.rs:10 | `for i in marker_len..input.len()` never tries the window that ends the line | "abcdefghijklmn": fourteen distinct characters, and no marker is reported | the range runs through `input.len()`, so the marker at 14 is found | not executed | Marker.LastWindowIsNeverTried | Marker.LastWindowIsFound |
| aoc8/src/main.rs:44 | a cell's index is `x + y * height` | a grid 3 wide and 2 high: cells (2, 0) and (0, 1) share index 2 | the row-major index `x + y * width` | not executed | TreeHouse.AsWrittenIndexCollides | TreeHouse.CellIndexIsInjective |
| aoc20/src/main.rs:101-113 | a left move that stays in the list is inserted at `insert_after + 1` | 0, 0, 3, -1: the program leaves 0, 0, 3, -1 | the -1 moves one place left, giving 0, 0, -1, 3 | not executed | Mixing.StaysAsWritten | Mixing.MovesWhenCorrected |
| aoc20/src/main.rs:76 | the target wraps modulo the length, not the number of gaps left after the removal | 1, 0, 3: the 3 is inserted at position 3 of a two-element list and `insert` panics | wrapping modulo `len - 1` | not executed | Mixing.PanicsAsWritten | Mixing.ShiftBack |
| aoc24/src/main.rs:146-147 | a left-moving blizzard's headroom is `round / height + 1` widths | a basin 2 wide and 5 high, a blizzard at column 0, round 3: `2 + 0 - 3` underflows | headroom `round / width + 1` | not executed | BlizzardBasin.LeftAsWrittenUnderflows | BlizzardBasin.LeftDrifts |

=== FILE: common.dfy ===
/** Helpers shared by the puzzle kernels: an Option type for the source's
    panicking `unwrap`s, Rust's truncating integer division, sums, and the
    decimal number parsing that every kernel's `str::parse` performs. */
module Common {

  /** The conventional Some/None datatype; `None` is the branch in which the
      source program aborts (an `unwrap` of nothing, a failed `assert!`). */
  datatype Option<+T> = None | Some(value: T)

  /** The largest `usize` on a 64-bit target. */
  const UsizeMax: nat := 0xffff_ffff_ffff_ffff

  function Abs(x: int): (r: nat)
    ensures r == x || r == -x
    ensures r >= x && r >= -x
  {
    if x < 0 then -x else x
  }

  function Min(a: int, b: int): (r: int)
    ensures r <= a && r <= b
    ensures r == a || r == b
  {
    if a <= b then a else b
  }

  function Max(a: int, b: int): (r: int)
    ensures r >= a && r >= b
    ensures r == a || r == b
  {
    if a >= b then a else b
  }

  /** Rust's `/` on signed integers: the quotient is rounded toward zero. */
  function DivT(a: int, b: int): (q: int)
    requires b != 0
    ensures a >= 0 && b > 0 ==> q == a / b
    ensures (a >= 0) == (b > 0) ==> q >= 0
  {
    if a >= 0 && b > 0 then a / b
    else if a >= 0 then -(a / -b)
    else if b > 0 then -((-a) / b)
    else (-a) / (-b)
  }

  /** Rust's `%` on signed integers: the remainder takes the sign of `a`. */
  function RemT(a: int, b: int): (r: int)
    requires b != 0
    ensures a >= 0 && b > 0 ==> r == a % b
  {
    a - b * DivT(a, b)
  }

  /** Division of non-negative numbers has a unique quotient and remainder. */
  lemma DivUnique(a: int, b: int, q: int, r: int)
    requires b > 0 && 0 <= r < b && a == b * q + r
    ensures q == a / b && r == a % b
  {
    var q0, r0 := a / b, a % b;
    MulMagnitude(b, q - q0);
    assert b * (q - q0) == r0 - r;
  }

  lemma MulMagnitude(b: int, d: int)
    requires b > 0
    ensures d >= 1 ==> b * d >= b
    ensures d <= -1 ==> b * d <= -b
  {
    if d >= 1 {
      assert b * d == b + b * (d - 1);
    } else if d <= -1 {
      assert b * d == -b + b * (d + 1);
    }
  }

  /** A larger row number starts at least one whole row later. */
  lemma MulStep(a: nat, b: nat, w: nat)
    requires a < b
    ensures a * w + w <= b * w
  {
    var d := b - a - 1;
    assert b * w == a * w + w + d * w;
  }

  /** The row-major position of a cell of a `width` by `height` grid lies
      inside the grid's storage. */
  lemma RowMajorInRange(x: nat, y: nat, width: nat, height: nat)
    requires x < width && y < height
    ensures x + y * width < width * height
  {
    MulStep(y, height, width);
    assert height * width == width * height;
  }

  /** An exact division returns the other factor, whatever the signs. */
  lemma DivTExact(b: int, k: int)
    requires b != 0
    ensures DivT(b * k, b) == k
    ensures RemT(b * k, b) == 0
  {
    var a := b * k;
    if a >= 0 && b > 0 {
      DivUnique(a, b, k, 0);
    } else if a >= 0 {
      assert a == (-b) * (-k);
      DivUnique(a, -b, -k, 0);
    } else if b > 0 {
      assert -a == b * (-k);
      DivUnique(-a, b, -k, 0);
    } else {
      assert -a == (-b) * k;
      DivUnique(-a, -b, k, 0);
    }
  }

  /** A truncated remainder is zero exactly when `b` divides `a`. */
  lemma RemTZeroIffDivides(a: int, b: int)
    requires b != 0
    ensures RemT(a, b) == 0 <==> exists k :: a == b * k
  {
    if RemT(a, b) == 0 {
      assert a == b * DivT(a, b);
    } else {
      if k :| a == b * k {
        DivTExact(b, k);
        assert false;
      }
    }
  }

  function Sum(s: seq<int>): int
  {
    if |s| == 0 then 0 else Sum(s[..|s| - 1]) + s[|s| - 1]
  }

  lemma {:induction false} SumAppend(a: seq<int>, b: seq<int>)
    ensures Sum(a + b) == Sum(a) + Sum(b)
    decreases |b|
  {
    if |b| == 0 {
      assert a + b == a;
    } else {
      assert (a + b)[..|a + b| - 1] == a + b[..|b| - 1];
      SumAppend(a, b[..|b| - 1]);
    }
  }

  lemma SumNonNegative(s: seq<int>)
    requires forall i :: 0 <= i < |s| ==> s[i] >= 0
    ensures Sum(s) >= 0
  {
    if |s| > 0 {
      SumNonNegative(s[..|s| - 1]);
    }
  }

  /** The number of lines before the first empty one: the programs' input
      loops stop there. */
  function FirstEmpty(lines: seq<string>): (r: nat)
    ensures r <= |lines|
    ensures forall i :: 0 <= i < r ==> |lines[i]| > 0
    ensures r < |lines| ==> |lines[r]| == 0
  {
    if |lines| == 0 || |lines[0]| == 0 then 0 else 1 + FirstEmpty(lines[1..])
  }

  predicate IsDigit(c: char)
  {
    '0' <= c <= '9'
  }

  predicate AllDigits(s: string)
  {
    forall i :: 0 <= i < |s| ==> IsDigit(s[i])
  }

  function DigitValue(c: char): (d: nat)
    requires IsDigit(c)
    ensures d < 10
  {
    (c as int) - ('0' as int)
  }

  function DigitChar(d: nat): (c: char)
    requires d < 10
    ensures IsDigit(c) && DigitValue(c) == d
  {
    (('0' as int) + d) as char
  }

  /** The value of a run of decimal digits, most significant first. */
  function DigitsValue(s: string): nat
    requires AllDigits(s)
  {
    if |s| == 0 then 0 else DigitsValue(s[..|s| - 1]) * 10 + DigitValue(s[|s| - 1])
  }

  /** Rust's `str::parse` for an unsigned integer: an optional `+` followed by
      at least one decimal digit; anything else is an error. The width limit of
      the target integer type is not modelled. */
  function ParseNat(s: string): (r: Option<nat>)
    ensures r.Some? <==> (|s| > 0 && AllDigits(s)) || (|s| > 1 && s[0] == '+' && AllDigits(s[1..]))
  {
    if |s| > 0 && AllDigits(s) then Some(DigitsValue(s))
    else if |s| > 1 && s[0] == '+' && AllDigits(s[1..]) then Some(DigitsValue(s[1..]))
    else None
  }

  /** Rust's `str::parse` for a signed integer: like `ParseNat`, but a leading
      `-` negates the digits that follow. */
  function ParseInt(s: string): (r: Option<int>)
    ensures r.Some? <==> ParseNat(s).Some? || (|s| > 1 && s[0] == '-' && AllDigits(s[1..]))
    ensures ParseNat(s).Some? ==> r == Some(ParseNat(s).value as int)
  {
    if |s| > 1 && s[0] == '-' && AllDigits(s[1..]) then Some(-(DigitsValue(s[1..]) as int))
    else match ParseNat(s)
      case Some(n) => Some(n as int)
      case None => None
  }

  /** The decimal text of a natural number, without sign or leading zeros. */
  function ShowNat(n: nat): (s: string)
    ensures |s| > 0 && AllDigits(s)
  {
    if n < 10 then [DigitChar(n)] else ShowNat(n / 10) + [DigitChar(n % 10)]
  }

  /** Parsing is the inverse of printing. */
  lemma {:induction false} ParseShowNat(n: nat)
    ensures ParseNat(ShowNat(n)) == Some(n)
  {
    ShowDigitsValue(n);
  }

  lemma {:induction false} ShowDigitsValue(n: nat)
    ensures DigitsValue(ShowNat(n)) == n
  {
    if n >= 10 {
      var s := ShowNat(n);
      assert s[..|s| - 1] == ShowNat(n / 10);
      ShowDigitsValue(n / 10);
    }
  }

  lemma ParseShowInt(n: int)
    ensures n >= 0 ==> ParseInt(ShowNat(n)) == Some(n)
    ensures n < 0 ==> ParseInt(['-'] + ShowNat(-n)) == Some(n)
  {
    if n >= 0 {
      ParseShowNat(n);
    } else {
      var s := ['-'] + ShowNat(-n);
      assert s[1..] == ShowNat(-n);
      ShowDigitsValue(-n);
    }
  }

  /** The number of characters of `s` that belong to `cs`. */
  function CountIn(s: string, cs: set<char>): nat
  {
    if |s| == 0 then 0 else (if s[0] in cs then 1 else 0) + CountIn(s[1..], cs)
  }

  /** Rust's `str::split` on a set of separator characters: the pieces between
      separators, empty pieces included, so there is always one piece more
      than there are separators. */
  function Split(s: string, seps: set<char>): (r: seq<string>)
    ensures |r| == CountIn(s, seps) + 1
    ensures forall i, j :: 0 <= i < |r| && 0 <= j < |r[i]| ==> r[i][j] !in seps
    decreases |s|
  {
    if |s| == 0 then [""]
    else
      var rest := Split(s[1..], seps);
      if s[0] in seps then [""] + rest
      else [[s[0]] + rest[0]] + rest[1..]
  }

  /** The pieces glued back together with `c` between neighbours. */
  function Join(parts: seq<string>, c: char): string
    requires |parts| >= 1
  {
    if |parts| == 1 then parts[0] else parts[0] + [c] + Join(parts[1..], c)
  }

  /** Splitting on one character and joining with it gives back the text. */
  lemma {:induction false} JoinSplit(s: string, c: char)
    ensures Join(Split(s, {c}), c) == s
    decreases |s|
  {
    if |s| > 0 {
      var rest := Split(s[1..], {c});
      JoinSplit(s[1..], c);
      if s[0] != c {
        var r := Split(s, {c});
        assert r == [[s[0]] + rest[0]] + rest[1..];
        if |rest| > 1 {
          assert r[1..] == rest[1..];
          assert Join(rest, c) == rest[0] + [c] + Join(rest[1..], c);
        }
      }
    }
  }

  /** No character of `p` is one of the separators. */
  predicate NoSeparator(p: string, seps: set<char>)
  {
    forall i :: 0 <= i < |p| ==> p[i] !in seps
  }

  lemma DigitsHaveNoSeparator(p: string, seps: set<char>)
    requires AllDigits(p) && forall c :: c in seps ==> !IsDigit(c)
    ensures NoSeparator(p, seps)
  {
    forall i | 0 <= i < |p|
      ensures p[i] !in seps
    {
      assert IsDigit(p[i]);
    }
  }

  /** A piece without separators is split into itself. */
  lemma {:induction false} SplitNoSeparator(p: string, seps: set<char>)
    requires NoSeparator(p, seps)
    ensures Split(p, seps) == [p]
    decreases |p|
  {
    if |p| > 0 {
      SplitNoSeparator(p[1..], seps);
      assert [p[0]] + p[1..] == p;
    }
  }

  /** A separator-free piece followed by a separator and more text splits into
      the piece, then the pieces of the rest. */
  lemma {:induction false} SplitAfterPiece(p: string, rest: string, c: char, seps: set<char>)
    requires NoSeparator(p, seps)
    requires c in seps && |rest| > 0 && rest[0] == c
    ensures Split(p + rest, seps) == [p] + Split(rest[1..], seps)
    decreases |p|
  {
    if |p| == 0 {
      assert p + rest == rest;
    } else {
      SplitAfterPiece(p[1..], rest, c, seps);
      assert (p + rest)[1..] == p[1..] + rest;
      assert [p[0]] + p[1..] == p;
    }
  }

  /** Joining separator-free pieces and splitting the text again gives the
      pieces back. */
  lemma {:induction false} SplitJoin(parts: seq<string>, c: char)
    requires |parts| >= 1
    requires forall k :: 0 <= k < |parts| ==> NoSeparator(parts[k], {c})
    ensures Split(Join(parts, c), {c}) == parts
    decreases |parts|
  {
    if |parts| == 1 {
      SplitNoSeparator(parts[0], {c});
    } else {
      var rest := [c] + Join(parts[1..], c);
      SplitJoin(parts[1..], c);
      SplitAfterPiece(parts[0], rest, c, {c});
      assert rest[1..] == Join(parts[1..], c);
      assert parts[0] + [c] + Join(parts[1..], c) == parts[0] + rest;
      assert [parts[0]] + parts[1..] == parts;
    }
  }

  predicate StartsWith(s: string, prefix: string)
  {
    |prefix| <= |s| && s[..|prefix|] == prefix
  }

  /** `pat` occurs in `s` at position `i`. */
  predicate OccursAt(s: string, pat: string, i: nat)
  {
    i + |pat| <= |s| && s[i..i + |pat|] == pat
  }

  /** The first position at or after `from` where `pat` occurs. */
  function IndexOf(s: string, pat: string, from: nat): (r: Option<nat>)
    ensures r.Some? ==> from <= r.value && OccursAt(s, pat, r.value)
    ensures r.Some? ==> forall i :: from <= i < r.value ==> !OccursAt(s, pat, i)
    ensures r.None? ==> forall i :: from <= i ==> !OccursAt(s, pat, i)
    decreases |s| - from
  {
    if from + |pat| > |s| then None
    else if s[from..from + |pat|] == pat then Some(from)
    else IndexOf(s, pat, from + 1)
  }

  /** Rust's `str::split_once`: the text before and after the first
      occurrence of `pat`, or None when it does not occur. */
  function SplitOnce(s: string, pat: string): (r: Option<(string, string)>)
    ensures r.Some? ==> r.value.0 + pat + r.value.1 == s
    ensures r.Some? ==> forall i :: 0 <= i < |r.value.0| ==> !OccursAt(s, pat, i)
    ensures r.None? <==> forall i :: 0 <= i ==> !OccursAt(s, pat, i)
  {
    match IndexOf(s, pat, 0)
      case None => None
      case Some(i) =>
        assert s == s[..i] + s[i..i + |pat|] + s[i + |pat|..];
        Some((s[..i], s[i + |pat|..]))
  }

  /** The last position of `c` in `s`. */
  function LastIndex(s: string, c: char): (r: Option<nat>)
    ensures r.Some? ==> r.value < |s| && s[r.value] == c
    ensures r.Some? ==> forall i :: r.value < i < |s| ==> s[i] != c
    ensures r.None? ==> forall i :: 0 <= i < |s| ==> s[i] != c
  {
    if |s| == 0 then None
    else if s[|s| - 1] == c then Some(|s| - 1)
    else LastIndex(s[..|s| - 1], c)
  }

  /** Rust's `str::rsplit_once` on a character: the text before and after its
      last occurrence. */
  function RSplitOnce(s: string, c: char): (r: Option<(string, string)>)
    ensures r.Some? ==> r.value.0 + [c] + r.value.1 == s
    ensures r.Some? ==> forall i :: 0 <= i < |r.value.1| ==> r.value.1[i] != c
    ensures r.None? <==> forall i :: 0 <= i < |s| ==> s[i] != c
  {
    match LastIndex(s, c)
      case None => None
      case Some(i) =>
        assert s == s[..i] + [s[i]] + s[i + 1..];
        Some((s[..i], s[i + 1..]))
  }

  /** `replace(c, "")`: the text without any `c`, the rest kept in order. */
  function RemoveChar(s: string, c: char): (r: string)
    ensures forall i :: 0 <= i < |r| ==> r[i] != c
    ensures |r| == |s| - CountIn(s, {c})
    ensures NoSeparator(s, {c}) ==> r == s
  {
    if |s| == 0 then ""
    else (if s[0] == c then "" else [s[0]]) + RemoveChar(s[1..], c)
  }

  /** Splitting at the first `c` of a text whose head has no `c`. */
  lemma SplitOnceAt(a: string, c: char, b: string)
    requires forall i :: 0 <= i < |a| ==> a[i] != c
    ensures SplitOnce(a + [c] + b, [c]) == Some((a, b))
  {
    var s := a + [c] + b;
    assert OccursAt(s, [c], |a|);
    var r := SplitOnce(s, [c]);
    assert r.Some?;
    var h := r.value.0;
    assert OccursAt(s, [c], |h|);
    assert |h| <= |a|;
    assert s[|h|] == c;
    assert forall i :: 0 <= i < |a| ==> s[i] == a[i];
    assert |h| == |a|;
    assert h == s[..|a|] == a;
    assert r.value.1 == s[|a| + 1..] == b;
  }

  /** Rust's `str::split` on a text pattern: the pieces between the
      occurrences of `pat`, found from the left. */
  function SplitStr(s: string, pat: string): (r: seq<string>)
    requires |pat| > 0
    ensures |r| >= 1
    ensures JoinStr(r, pat) == s
    decreases |s|
  {
    match SplitOnce(s, pat)
      case None => [s]
      case Some((a, b)) => [a] + SplitStr(b, pat)
  }

  /** The pieces glued back together with `pat` between neighbours. */
  function JoinStr(parts: seq<string>, pat: string): string
    requires |parts| >= 1
  {
    if |parts| == 1 then parts[0] else parts[0] + pat + JoinStr(parts[1..], pat)
  }

  /** Rust's `str::replace`: every occurrence of `pat`, found from the
      left, replaced by `rep`. */
  function Replace(s: string, pat: string, rep: string): string
    requires |pat| > 0
  {
    JoinStr(SplitStr(s, pat), rep)
  }

  /** A text in which `pat` does not occur is one piece. */
  lemma SplitStrNone(s: string, pat: string)
    requires |pat| > 0
    requires forall i :: 0 <= i ==> !OccursAt(s, pat, i)
    ensures SplitStr(s, pat) == [s]
  {
  }

  /** A text none of whose characters starts `pat` does not contain it. */
  lemma NoCharNoOccurrence(s: string, pat: string, k: nat)
    requires k < |pat| && pat[k] !in s
    ensures forall i :: 0 <= i ==> !OccursAt(s, pat, i)
  {
    forall i: nat
      ensures !OccursAt(s, pat, i)
    {
      if i + |pat| <= |s| {
        assert s[i..i + |pat|][k] == s[i + k];
      }
    }
  }

  /** `split_once` at a pattern, when the head cannot start an occurrence. */
  lemma SplitOnceStr(a: string, pat: string, b: string)
    requires |pat| > 0 && pat[0] !in a
    ensures SplitOnce(a + pat + b, pat) == Some((a, b))
  {
    var s := a + pat + b;
    assert OccursAt(s, pat, |a|) by {
      assert s[|a|..|a| + |pat|] == pat;
    }
    var r := SplitOnce(s, pat);
    var h := r.value.0;
    assert OccursAt(s, pat, |h|);
    assert |h| <= |a|;
    assert forall i :: 0 <= i < |a| ==> s[i] == a[i] && a[i] != pat[0];
    assert s[|h|] == pat[0] by {
      assert s[|h|..|h| + |pat|][0] == pat[0];
    }
    assert |h| == |a|;
    assert h == s[..|a|] == a;
    assert r.value.1 == s[|a| + |pat|..] == b;
  }

  /** Splitting at the first occurrence, when the head cannot start one. */
  lemma SplitStrAt(a: string, pat: string, b: string)
    requires |pat| > 0 && pat[0] !in a
    ensures SplitStr(a + pat + b, pat) == [a] + SplitStr(b, pat)
  {
    SplitOnceStr(a, pat, b);
  }

  /** The decimal text of an integer, with a leading '-' when negative. */
  function ShowInt(n: int): (s: string)
    ensures |s| > 0
    ensures forall k :: 0 <= k < |s| ==> IsDigit(s[k]) || s[k] == '-'
  {
    if n >= 0 then ShowNat(n) else "-" + ShowNat(-n)
  }

  lemma ParseShowIntText(n: int)
    ensures ParseInt(ShowInt(n)) == Some(n)
  {
    ParseShowInt(n);
  }

  lemma NotInIntText(n: int, c: char)
    requires !IsDigit(c) && c != '-'
    ensures c !in ShowInt(n)
  {
  }

  /** Replacing a pattern that cannot occur changes nothing. */
  lemma ReplaceNone(s: string, pat: string, rep: string, k: nat)
    requires k < |pat| && pat[k] !in s
    ensures Replace(s, pat, rep) == s
  {
    NoCharNoOccurrence(s, pat, k);
    SplitStrNone(s, pat);
  }

  /** One occurrence, where neither side can start another. */
  lemma ReplaceOne(a: string, pat: string, b: string, rep: string)
    requires |pat| > 0 && pat[0] !in a && pat[0] !in b
    ensures Replace(a + pat + b, pat, rep) == a + rep + b
  {
    SplitStrAt(a, pat, b);
    NoCharNoOccurrence(b, pat, 0);
    SplitStrNone(b, pat);
    var parts := SplitStr(a + pat + b, pat);
    assert parts == [a, b];
    assert parts[1..] == [b];
    assert JoinStr(parts[1..], rep) == b;
    assert JoinStr(parts, rep) == a + rep + b;
    assert Replace(a + pat + b, pat, rep) == JoinStr(parts, rep);
  }

  /** Two occurrences, where no piece can start another. */
  lemma ReplaceTwo(a: string, pat: string, m: string, b: string, rep: string)
    requires |pat| > 0 && pat[0] !in a && pat[0] !in m && pat[0] !in b
    ensures Replace(a + pat + m + pat + b, pat, rep) == a + rep + m + rep + b
  {
    var parts := SplitTwo(a, pat, m, b);
    JoinThree(a, m, b, rep);
  }

  lemma JoinThree(a: string, m: string, b: string, rep: string)
    ensures JoinStr([a, m, b], rep) == a + rep + m + rep + b
  {
    var parts := [a, m, b];
    assert parts[1..] == [m, b] && parts[1..][1..] == [b];
    assert JoinStr(parts[1..][1..], rep) == b;
    assert JoinStr(parts[1..], rep) == m + rep + b;
  }

  lemma SplitTwo(a: string, pat: string, m: string, b: string) returns (parts: seq<string>)
    requires |pat| > 0 && pat[0] !in a && pat[0] !in m && pat[0] !in b
    ensures parts == SplitStr(a + pat + m + pat + b, pat) == [a, m, b]
  {
    var tail := m + pat + b;
    assert a + pat + m + pat + b == a + pat + tail;
    SplitStrAt(a, pat, tail);
    SplitStrAt(m, pat, b);
    NoCharNoOccurrence(b, pat, 0);
    SplitStrNone(b, pat);
    parts := [a, m, b];
  }

  // Fixed-width integers

  const I32Min: int := -0x8000_0000
  const I32Max: int := 0x7fff_ffff

  /** Parsing a signed 32-bit integer, with values outside the 32-bit range rejected. */
  function ParseI32(s: string): (r: Option<int>)
    ensures r.Some? <==> ParseInt(s).Some? && I32Min <= ParseInt(s).value <= I32Max
    ensures r.Some? ==> r == ParseInt(s)
  {
    match ParseInt(s)
      case Some(n) => if I32Min <= n <= I32Max then Some(n) else None
      case None => None
  }

  const I64Min: int := -0x8000_0000_0000_0000
  const I64Max: int := 0x7fff_ffff_ffff_ffff

  /** Parsing a signed 64-bit integer, with values outside the 64-bit range rejected. */
  function ParseI64(s: string): (r: Option<int>)
    ensures r.Some? <==> ParseInt(s).Some? && I64Min <= ParseInt(s).value <= I64Max
    ensures r.Some? ==> r == ParseInt(s)
  {
    match ParseInt(s)
      case Some(n) => if I64Min <= n <= I64Max then Some(n) else None
      case None => None
  }

  // Patterns that cannot occur

  /** No `c1` is immediately followed by `c2`. */
  predicate NoPair(s: string, c1: char, c2: char)
  {
    forall i :: 0 <= i < |s| - 1 ==> !(s[i] == c1 && s[i + 1] == c2)
  }

  lemma NoPairWithout(s: string, c1: char, c2: char)
    requires c1 !in s || c2 !in s
    ensures NoPair(s, c1, c2)
  {
    forall i | 0 <= i < |s| - 1
      ensures !(s[i] == c1 && s[i + 1] == c2)
    {
      assert s[i] in s && s[i + 1] in s;
    }
  }

  lemma NoPairConcat(x: string, y: string, c1: char, c2: char)
    requires NoPair(x, c1, c2) && NoPair(y, c1, c2)
    requires |x| == 0 || |y| == 0 || !(x[|x| - 1] == c1 && y[0] == c2)
    ensures NoPair(x + y, c1, c2)
  {
    var s := x + y;
    forall i | 0 <= i < |s| - 1
      ensures !(s[i] == c1 && s[i + 1] == c2)
    {
      if i + 1 < |x| {
        assert s[i] == x[i] && s[i + 1] == x[i + 1];
      } else if i >= |x| {
        assert s[i] == y[i - |x|] && s[i + 1] == y[i + 1 - |x|];
      }
    }
  }

  /** A pattern whose first two characters never appear side by side does
      not occur. */
  lemma NoPairNoOccurrence(s: string, pat: string)
    requires |pat| >= 2 && NoPair(s, pat[0], pat[1])
    ensures forall i :: 0 <= i ==> !OccursAt(s, pat, i)
  {
    forall i | 0 <= i
      ensures !OccursAt(s, pat, i)
    {
      if i + |pat| <= |s| {
        assert s[i..i + |pat|][0] == s[i] && s[i..i + |pat|][1] == s[i + 1];
      }
    }
  }

  /** Splitting pieces joined by a pattern none of them contains gives the
      pieces back. */
  lemma {:induction false} SplitJoinStr(parts: seq<string>, pat: string)
    requires |parts| >= 1 && |pat| > 0
    requires forall k :: 0 <= k < |parts| ==> pat[0] !in parts[k]
    ensures SplitStr(JoinStr(parts, pat), pat) == parts
    decreases |parts|
  {
    if |parts| == 1 {
      NoCharNoOccurrence(parts[0], pat, 0);
      SplitStrNone(parts[0], pat);
    } else {
      SplitJoinStr(parts[1..], pat);
      SplitStrAt(parts[0], pat, JoinStr(parts[1..], pat));
    }
  }

  /** Replacing a pattern that occurs once, after a text without its first
      character. */
  lemma ReplaceOnce(a: string, pat: string, b: string, rep: string)
    requires |pat| > 0 && pat[0] !in a
    requires forall i :: 0 <= i ==> !OccursAt(b, pat, i)
    ensures Replace(a + pat + b, pat, rep) == a + rep + b
  {
    SplitStrAt(a, pat, b);
    SplitStrNone(b, pat);
    var parts := SplitStr(a + pat + b, pat);
    assert parts == [a, b];
    assert parts[1..] == [b];
    assert JoinStr(parts[1..], rep) == b;
    assert JoinStr(parts, rep) == a + rep + b;
    assert Replace(a + pat + b, pat, rep) == JoinStr(parts, rep);
  }
}

=== FILE: day01_calories.dfy ===
/** Calorie counting: numeric lines are summed per group, a blank line closes
    a group, and the answer is the sum of the three largest group totals. */
module Calories {
  import opened Common
  import opened Sorting

  /** One input line: blank, or a calorie count. */
  datatype Line = Blank | Amount(calories: int)

  /** An empty line is a separator; any other line must parse as an integer,
      or the program aborts. */
  function ParseLine(text: string): (r: Option<Line>)
    ensures |text| == 0 ==> r == Some(Blank)
    ensures |text| > 0 ==> (r.Some? <==> ParseInt(text).Some?)
    ensures |text| > 0 && r.Some? ==> r.value == Amount(ParseInt(text).value)
  {
    if |text| == 0 then Some(Blank)
    else match ParseInt(text)
      case Some(n) => Some(Amount(n))
      case None => None
  }

  function FirstBlank(lines: seq<Line>): (r: Option<nat>)
    ensures r.Some? ==> r.value < |lines| && lines[r.value] == Blank
    ensures r.Some? ==> forall j :: 0 <= j < r.value ==> lines[j].Amount?
    ensures r.None? ==> forall j :: 0 <= j < |lines| ==> lines[j].Amount?
  {
    if |lines| == 0 then None
    else if lines[0] == Blank then Some(0)
    else match FirstBlank(lines[1..])
      case Some(i) => Some(i + 1)
      case None => None
  }

  /** Sum of the amounts on lines that hold no blank. */
  function SumAmounts(lines: seq<Line>): int
    requires forall j :: 0 <= j < |lines| ==> lines[j].Amount?
  {
    if |lines| == 0 then 0 else lines[0].calories + SumAmounts(lines[1..])
  }

  /** Reference definition: cut the input at each blank line; every group that
      a blank line closes contributes its sum. A last group with no blank after
      it is never closed. */
  function GroupTotals(lines: seq<Line>): seq<int>
    decreases |lines|
  {
    match FirstBlank(lines)
    case None => []
    case Some(i) => [SumAmounts(lines[..i])] + GroupTotals(lines[i + 1..])
  }

  function CountBlanks(lines: seq<Line>): nat
  {
    if |lines| == 0 then 0 else (if lines[0] == Blank then 1 else 0) + CountBlanks(lines[1..])
  }

  /** One total per blank line: the trailing group is dropped. */
  lemma {:induction false} GroupCountIsBlankCount(lines: seq<Line>)
    ensures |GroupTotals(lines)| == CountBlanks(lines)
    decreases |lines|
  {
    match FirstBlank(lines)
    case None =>
      NoBlankCountsZero(lines);
    case Some(i) =>
      GroupCountIsBlankCount(lines[i + 1..]);
      CountBlanksSplit(lines, i);
  }

  lemma {:induction false} NoBlankCountsZero(lines: seq<Line>)
    requires forall j :: 0 <= j < |lines| ==> lines[j].Amount?
    ensures CountBlanks(lines) == 0
  {
    if |lines| > 0 {
      NoBlankCountsZero(lines[1..]);
    }
  }

  lemma {:induction false} CountBlanksSplit(lines: seq<Line>, i: nat)
    requires i < |lines| && lines[i] == Blank
    requires forall j :: 0 <= j < i ==> lines[j].Amount?
    ensures CountBlanks(lines) == 1 + CountBlanks(lines[i + 1..])
  {
    if i > 0 {
      CountBlanksSplit(lines[1..], i - 1);
      assert lines[1..][i..] == lines[i + 1..];
    }
  }

  /** The same totals, computed with a running accumulator as the program does. */
  function TotalsFrom(lines: seq<Line>, acc: int): seq<int>
  {
    if |lines| == 0 then []
    else match lines[0]
      case Blank => [acc] + TotalsFrom(lines[1..], 0)
      case Amount(n) => TotalsFrom(lines[1..], acc + n)
  }

  /** The groups of the reference definition, with `acc` added to the first. */
  function GroupsFrom(lines: seq<Line>, acc: int): seq<int>
  {
    match FirstBlank(lines)
    case None => []
    case Some(i) => [acc + SumAmounts(lines[..i])] + GroupTotals(lines[i + 1..])
  }

  /** The running accumulation agrees with the reference cut at blank lines. */
  lemma {:induction false} TotalsFromMatchesGroups(lines: seq<Line>, acc: int)
    ensures TotalsFrom(lines, acc) == GroupsFrom(lines, acc)
    decreases |lines|
  {
    if |lines| > 0 {
      match lines[0]
      case Blank =>
        TotalsFromMatchesGroups(lines[1..], 0);
        assert lines[..0] == [];
      case Amount(n) =>
        TotalsFromMatchesGroups(lines[1..], acc + n);
        match FirstBlank(lines[1..])
        case None =>
        case Some(k) =>
          assert lines[..k + 1][1..] == lines[1..][..k];
          assert lines[k + 2..] == lines[1..][k + 1..];
    }
  }

  /** The program's reading loop: add each amount to the current total, and
      record the total (then reset it) at each blank line. */
  method CollectTotals(lines: seq<Line>) returns (totals: seq<int>)
    ensures totals == GroupTotals(lines)
    ensures |totals| == CountBlanks(lines)
  {
    totals := [];
    var current := 0;
    var k := 0;
    TotalsFromMatchesGroups(lines, 0);
    GroupCountIsBlankCount(lines);
    while k < |lines|
      invariant 0 <= k <= |lines|
      invariant totals + TotalsFrom(lines[k..], current) == GroupTotals(lines)
    {
      assert lines[k..][1..] == lines[k + 1..];
      match lines[k] {
        case Blank =>
          totals := totals + [current];
          current := 0;
        case Amount(n) =>
          current := current + n;
      }
      k := k + 1;
    }
    assert lines[k..] == [];
  }

  /** The answer: after sorting largest first, the sum of the first three
      totals; with fewer than three groups nothing is reported. */
  function TopThree(totals: seq<int>): (r: Option<int>)
    ensures r.Some? <==> |totals| >= 3
  {
    var sorted := SortDescending(totals);
    if |sorted| >= 3 then Some(sorted[0] + sorted[1] + sorted[2]) else None
  }

  /** The answer is the largest sum of three totals of different elves, and
      three different elves have it. */
  lemma TopThreeIsBest(totals: seq<int>) returns (i: nat, j: nat, k: nat)
    requires |totals| >= 3
    ensures forall a, b, c :: (0 <= a < |totals| && 0 <= b < |totals| && 0 <= c < |totals|
      && a != b && b != c && a != c) ==> totals[a] + totals[b] + totals[c] <= TopThree(totals).value
    ensures i < |totals| && j < |totals| && k < |totals| && i != j && j != k && i != k
    ensures totals[i] + totals[j] + totals[k] == TopThree(totals).value
  {
    i, j, k := TopThreeSum(totals);
  }

  /** The first total after the descending sort is the largest total. */
  lemma LargestFirst(totals: seq<int>)
    requires |totals| > 0
    ensures SortDescending(totals)[0] in totals
    ensures forall t :: t in totals ==> t <= SortDescending(totals)[0]
  {
    DescendingHeadIsMax(totals);
  }
}

=== FILE: day02_rock_paper_scissors.dfy ===
/** Rock-paper-scissors strategy scoring: each line names the opponent's play
    and the wanted outcome; the program picks the play that produces that
    outcome and scores it. */
module RockPaperScissors {
  import opened Common

  datatype Play = Rock | Paper | Scissors

  datatype Outcome = Win | Lose | Draw

  /** A/X are Rock, B/Y Paper, C/Z Scissors; any other character aborts. */
  function ParsePlay(c: char): (r: Option<Play>)
    ensures r == Some(Rock) <==> c == 'A' || c == 'X'
    ensures r == Some(Paper) <==> c == 'B' || c == 'Y'
    ensures r == Some(Scissors) <==> c == 'C' || c == 'Z'
  {
    match c
    case 'A' => Some(Rock)
    case 'B' => Some(Paper)
    case 'C' => Some(Scissors)
    case 'X' => Some(Rock)
    case 'Y' => Some(Paper)
    case 'Z' => Some(Scissors)
    case _ => None
  }

  /** X means lose, Y draw, Z win; any other character aborts. */
  function ParseOutcome(c: char): (r: Option<Outcome>)
    ensures r == Some(Lose) <==> c == 'X'
    ensures r == Some(Draw) <==> c == 'Y'
    ensures r == Some(Win) <==> c == 'Z'
  {
    match c
    case 'X' => Some(Lose)
    case 'Y' => Some(Draw)
    case 'Z' => Some(Win)
    case _ => None
  }

  function PlayScore(p: Play): int
  {
    match p
    case Rock => 1
    case Paper => 2
    case Scissors => 3
  }

  function OutcomeScore(o: Outcome): int
  {
    match o
    case Win => 6
    case Lose => 0
    case Draw => 3
  }

  predicate Beats(a: Play, b: Play)
  {
    (a == Rock && b == Scissors) || (a == Scissors && b == Paper) || (a == Paper && b == Rock)
  }

  /** The play that gives `result` against `them`. */
  function PlayForResult(them: Play, result: Outcome): (me: Play)
    ensures result == Draw ==> me == them
    ensures result == Win ==> Beats(me, them)
    ensures result == Lose ==> Beats(them, me)
  {
    if result == Draw then them
    else if result == Win then
      match them
      case Rock => Paper
      case Paper => Scissors
      case Scissors => Rock
    else
      match them
      case Rock => Scissors
      case Paper => Rock
      case Scissors => Paper
  }

  /** The score of playing `me` against `them`: the play's own score plus 3
      for a draw or 6 for a win. */
  function Score(me: Play, them: Play): (r: int)
    ensures 1 <= r <= 9
    ensures me == them ==> r == PlayScore(me) + 3
    ensures Beats(me, them) ==> r == PlayScore(me) + 6
    ensures Beats(them, me) ==> r == PlayScore(me)
  {
    var s := PlayScore(me);
    if me == them then s + 3
    else if Beats(me, them) then s + 6
    else s
  }

  /** No play beats itself, and of two different plays exactly one beats the other. */
  lemma BeatsIsStrictTournament(a: Play, b: Play)
    ensures !Beats(a, a)
    ensures Beats(a, b) ==> !Beats(b, a)
    ensures a != b ==> (Beats(a, b) <==> !Beats(b, a))
  {
  }

  /** The program adds the outcome's score to the chosen play's score; this
      equals the full score of that play against the opponent. */
  lemma StrategyScoreIsGameScore(them: Play, result: Outcome)
    ensures OutcomeScore(result) + PlayScore(PlayForResult(them, result))
         == Score(PlayForResult(them, result), them)
  {
  }

  /** The score of one line "<them> <result>", or None when the line is too
      short (which ends the input) or holds an unknown character. */
  function LineScore(line: string): (r: Option<int>)
    requires |line| >= 3
    ensures r.Some? <==> ParsePlay(line[0]).Some? && ParseOutcome(line[2]).Some?
    ensures r.Some? ==> 1 <= r.value <= 9
    ensures r.Some? ==> var them := ParsePlay(line[0]).value;
      r.value == Score(PlayForResult(them, ParseOutcome(line[2]).value), them)
  {
    match (ParsePlay(line[0]), ParseOutcome(line[2]))
    case (Some(them), Some(result)) =>
      StrategyScoreIsGameScore(them, result);
      Some(OutcomeScore(result) + PlayScore(PlayForResult(them, result)))
    case _ => None
  }

  /** The total over the lines up to the first line shorter than three characters. */
  function TotalScore(lines: seq<string>): (r: Option<int>)
    ensures r.Some? ==> 0 <= r.value <= 9 * |lines|
  {
    if |lines| == 0 || |lines[0]| < 3 then Some(0)
    else match (LineScore(lines[0]), TotalScore(lines[1..]))
      case (Some(s), Some(t)) => Some(s + t)
      case _ => None
  }

  /** How many lines the program reads: those before the first line shorter
      than three characters, where it stops. */
  function Kept(lines: seq<string>): (n: nat)
    ensures n <= |lines|
    ensures forall k :: 0 <= k < n ==> |lines[k]| >= 3
    ensures n < |lines| ==> |lines[n]| < 3
  {
    if |lines| == 0 || |lines[0]| < 3 then 0 else 1 + Kept(lines[1..])
  }

  /** The score of each line, 0 for a line that does not score. */
  function LineScores(lines: seq<string>): (s: seq<int>)
    ensures |s| == |lines|
  {
    seq(|lines|, k requires 0 <= k < |lines| =>
      if |lines[k]| >= 3 && LineScore(lines[k]).Some? then LineScore(lines[k]).value else 0)
  }

  /** The total exists exactly when every line read scores, and it is then
      the sum of their scores. */
  lemma {:induction false} TotalScoreIsSum(lines: seq<string>)
    ensures TotalScore(lines).Some? <==> forall k :: 0 <= k < Kept(lines) ==> LineScore(lines[k]).Some?
    ensures TotalScore(lines).Some? ==> TotalScore(lines).value == Sum(LineScores(lines[..Kept(lines)]))
    decreases |lines|
  {
    if |lines| == 0 || |lines[0]| < 3 {
      assert lines[..Kept(lines)] == [];
    } else {
      var rest := lines[1..];
      TotalScoreIsSum(rest);
      assert forall k :: 0 <= k < Kept(rest) ==> rest[k] == lines[k + 1];
      KeptScores(lines);
    }
  }

  /** The scores of the lines read are the first line's score followed by
      the scores of the lines read after it. */
  lemma KeptScores(lines: seq<string>)
    requires |lines| > 0 && |lines[0]| >= 3
    ensures Sum(LineScores(lines[..Kept(lines)]))
         == LineScores([lines[0]])[0] + Sum(LineScores(lines[1..][..Kept(lines[1..])]))
  {
    var rest := lines[1..];
    var kept := lines[..Kept(lines)];
    assert kept == [lines[0]] + rest[..Kept(rest)];
    LineScoresAppend([lines[0]], rest[..Kept(rest)]);
    SumAppend(LineScores([lines[0]]), LineScores(rest[..Kept(rest)]));
  }

  lemma LineScoresAppend(a: seq<string>, b: seq<string>)
    ensures LineScores(a + b) == LineScores(a) + LineScores(b)
  {
    var s, t := LineScores(a + b), LineScores(a) + LineScores(b);
    forall k | 0 <= k < |s|
      ensures s[k] == t[k]
    {
      if k < |a| {
        assert (a + b)[k] == a[k];
      } else {
        assert (a + b)[k] == b[k - |a|];
      }
    }
  }
}

=== FILE: day03_rucksack.dfy ===
/** Rucksack reorganisation: each item character selects one bit of a 64-bit
    mask; a duplicated item is found by testing bits, and a group badge is the
    lowest bit common to three rucksacks. A mask is modelled as the set of its
    bit indices. */
module Rucksack {
  import opened Common

  /** 'a'..'z' select bits 0..25; any other character is counted from 'A',
      plus 26, so 'A'..'Z' select bits 26..51. */
  function BitIndex(c: char): (b: int)
    ensures 'a' <= c <= 'z' ==> 0 <= b <= 25
    ensures 'A' <= c <= 'Z' ==> 26 <= b <= 51
  {
    if 'a' <= c <= 'z' then (c as int) - ('a' as int) else 26 + (c as int) - ('A' as int)
  }

  predicate IsItem(c: char)
  {
    ('a' <= c <= 'z') || ('A' <= c <= 'Z')
  }

  /** Item letters select distinct bits, so testing a bit tests for the letter. */
  lemma BitIndexInjectiveOnItems(c: char, d: char)
    requires IsItem(c) && IsItem(d) && c != d
    ensures BitIndex(c) != BitIndex(d)
  {
  }

  /** The priority the puzzle assigns to an item. */
  function Priority(c: char): (p: int)
    ensures IsItem(c) ==> 1 <= p <= 52
  {
    BitIndex(c) + 1
  }

  /** The mask of all items in `s`. */
  function Mask(s: string): set<int>
  {
    set i | 0 <= i < |s| :: BitIndex(s[i])
  }

  /** Position `j` of the second half holds the first item whose bit also
      occurs in the first half. */
  predicate IsFirstDuplicate(line: string, j: int)
  {
    && |line| / 2 <= j < |line|
    && BitIndex(line[j]) in Mask(line[..|line| / 2])
    && forall k :: |line| / 2 <= k < j ==> BitIndex(line[k]) !in Mask(line[..|line| / 2])
  }

  /** The first-version loop: record the bits of the first half, then report
      the priority of the first second-half item whose bit is already recorded. */
  method FirstDuplicate(line: string) returns (r: Option<int>)
    ensures r.Some? ==> exists j :: IsFirstDuplicate(line, j) && r.value == Priority(line[j])
    ensures r.None? ==> forall j :: |line| / 2 <= j < |line| ==> BitIndex(line[j]) !in Mask(line[..|line| / 2])
  {
    var half := |line| / 2;
    var present: set<int> := {};
    var i := 0;
    while i < |line|
      invariant 0 <= i <= |line|
      invariant present == Mask(line[..if i < half then i else half])
      invariant forall k :: half <= k < i ==> BitIndex(line[k]) !in Mask(line[..half])
    {
      var bit := BitIndex(line[i]);
      if i < half {
        assert line[..i + 1] == line[..i] + [line[i]];
        present := present + {bit};
      } else {
        if bit in present {
          return Some(bit + 1);
        }
      }
      i := i + 1;
    }
    return None;
  }

  /** The lowest bit of a mask among bits 0..51, if any is set. */
  function LowestBit(m: set<int>): (r: Option<int>)
    ensures r.Some? ==> (0 <= r.value < 52 && r.value in m
      && forall b :: 0 <= b < r.value ==> b !in m)
    ensures r.None? ==> forall b :: 0 <= b < 52 ==> b !in m
  {
    LowestBitFrom(m, 0)
  }

  function LowestBitFrom(m: set<int>, b: nat): (r: Option<int>)
    requires b <= 52
    ensures r.Some? ==> (b <= r.value < 52 && r.value in m
      && forall k :: b <= k < r.value ==> k !in m)
    ensures r.None? ==> forall k :: b <= k < 52 ==> k !in m
    decreases 52 - b
  {
    if b == 52 then None
    else if b in m then Some(b)
    else LowestBitFrom(m, b + 1)
  }

  /** The state of the badge loop: the AND of the group so far, how many
      members it holds, and the running total. */
  datatype BadgeState = BadgeState(acc: set<int>, members: nat, total: int)

  /** One rucksack line of the badge loop. An empty accumulator is taken to
      mean "start of a group", so it is replaced rather than intersected. */
  function BadgeStep(s: BadgeState, line: string): (r: BadgeState)
    requires s.members < 3
    ensures r.members < 3
    ensures r.members == (s.members + 1) % 3
    ensures s.members < 2 ==> (r.total == s.total
      && r.acc == (if s.acc == {} then Mask(line) else s.acc * Mask(line)))
    ensures s.members == 2 ==> r.acc == {}
  {
    var acc := if s.acc == {} then Mask(line) else s.acc * Mask(line);
    if s.members + 1 == 3 then
      var badge := match LowestBit(acc) case Some(b) => b + 1 case None => 0;
      BadgeState({}, 0, s.total + badge)
    else
      BadgeState(acc, s.members + 1, s.total)
  }

  /** The badge loop over the input, which ends at the first empty line. */
  function BadgeRun(s: BadgeState, lines: seq<string>): (r: BadgeState)
    requires s.members < 3
    ensures r.members < 3
    decreases |lines|
  {
    if |lines| == 0 || |lines[0]| == 0 then s
    else BadgeRun(BadgeStep(s, lines[0]), lines[1..])
  }

  /** The lines the badge loop reads: those before the first empty line. */
  function Read(lines: seq<string>): (r: seq<string>)
    ensures |r| <= |lines| && r == lines[..|r|]
    ensures forall k :: 0 <= k < |r| ==> |r[k]| > 0
    ensures |r| < |lines| ==> |lines[|r|]| == 0
  {
    if |lines| == 0 || |lines[0]| == 0 then [] else [lines[0]] + Read(lines[1..])
  }

  /** The badge priority one group of three adds, 0 when no bit is left:
      the AND of the masks, where an empty AND so far is replaced by the
      next mask rather than intersected with it. */
  function Badge(a: string, b: string, c: string): int
  {
    var ab := if Mask(a) == {} then Mask(b) else Mask(a) * Mask(b);
    var abc := if ab == {} then Mask(c) else ab * Mask(c);
    match LowestBit(abc) case Some(bit) => bit + 1 case None => 0
  }

  /** The badges of the complete groups of three, in order. */
  function Badges(lines: seq<string>): seq<int>
    decreases |lines|
  {
    if |lines| < 3 then [] else [Badge(lines[0], lines[1], lines[2])] + Badges(lines[3..])
  }

  /** From a start state, the loop adds the badge of every complete group of
      three lines it reads, and is left inside the last, incomplete group. */
  lemma {:induction false} BadgeRunIsGroups(lines: seq<string>, total: int)
    ensures var r := BadgeRun(BadgeState({}, 0, total), lines);
      r.total == total + Sum(Badges(Read(lines))) && r.members == |Read(lines)| % 3
    decreases |lines|, 1
  {
    if |Read(lines)| < 3 {
      PartialGroup(lines, total);
    } else {
      FullGroup(lines, total);
    }
  }

  /** A complete first group: its badge, then the rest of the input. */
  lemma {:induction false} FullGroup(lines: seq<string>, total: int)
    requires |Read(lines)| >= 3
    ensures var r := BadgeRun(BadgeState({}, 0, total), lines);
      r.total == total + Sum(Badges(Read(lines))) && r.members == |Read(lines)| % 3
    decreases |lines|, 0
  {
    var b := Badge(lines[0], lines[1], lines[2]);
    var r := BadgeRun(BadgeState({}, 0, total), lines);
    var rest := BadgeRun(BadgeState({}, 0, total + b), lines[3..]);
    GroupThenRest(lines, total);
    BadgeRunIsGroups(lines[3..], total + b);
    BadgesSum(lines);
    Combine(r, rest, total, b,
      Sum(Badges(Read(lines))), Sum(Badges(Read(lines[3..]))), |Read(lines)|, |Read(lines[3..])|);
  }

  lemma Combine(r: BadgeState, rest: BadgeState, total: int, b: int, s: int, s': int, n: int, n': int)
    requires r.total == rest.total && r.members == rest.members
    requires rest.total == total + b + s' && s == b + s'
    requires rest.members == n' % 3 && n' == n - 3
    ensures r.total == total + s && r.members == n % 3
  {
  }

  /** Reading past a complete first group reads the rest. */
  lemma ReadDropGroup(lines: seq<string>)
    requires |Read(lines)| >= 3
    ensures |lines| >= 3 && |lines[0]| > 0 && |lines[1]| > 0 && |lines[2]| > 0
    ensures Read(lines[3..]) == Read(lines)[3..] && |Read(lines[3..])| == |Read(lines)| - 3
  {
    assert lines[1..][1..][1..] == lines[3..];
  }

  /** The badges read are the first group's followed by the rest's. */
  lemma BadgesSum(lines: seq<string>)
    requires |Read(lines)| >= 3
    ensures |lines| >= 3 && |Read(lines[3..])| == |Read(lines)| - 3
    ensures Sum(Badges(Read(lines))) == Badge(lines[0], lines[1], lines[2]) + Sum(Badges(Read(lines[3..])))
  {
    var read := Read(lines);
    ReadDropGroup(lines);
    assert read[0] == lines[0] && read[1] == lines[1] && read[2] == lines[2];
    SumAppend([Badge(read[0], read[1], read[2])], Badges(read[3..]));
  }

  /** A complete first group adds its badge, then the loop goes on from a
      start state. */
  lemma GroupThenRest(lines: seq<string>, total: int)
    requires |Read(lines)| >= 3
    ensures |lines| >= 3
    ensures BadgeRun(BadgeState({}, 0, total), lines)
      == BadgeRun(BadgeState({}, 0, total + Badge(lines[0], lines[1], lines[2])), lines[3..])
  {
    ReadDropGroup(lines);
    GroupRun(lines, total);
  }

  /** Three non-empty lines from a start state add their badge and start
      over. */
  lemma GroupRun(lines: seq<string>, total: int)
    requires |lines| >= 3 && |lines[0]| > 0 && |lines[1]| > 0 && |lines[2]| > 0
    ensures BadgeRun(BadgeState({}, 0, total), lines)
      == BadgeRun(BadgeState({}, 0, total + Badge(lines[0], lines[1], lines[2])), lines[3..])
  {
    RunThree(BadgeState({}, 0, total), lines);
    GroupStep(lines[0], lines[1], lines[2], total);
  }

  /** The loop over three non-empty lines takes three steps. */
  lemma RunThree(s: BadgeState, lines: seq<string>)
    requires s.members == 0 && |lines| >= 3 && |lines[0]| > 0 && |lines[1]| > 0 && |lines[2]| > 0
    ensures BadgeRun(s, lines)
      == BadgeRun(BadgeStep(BadgeStep(BadgeStep(s, lines[0]), lines[1]), lines[2]), lines[3..])
  {
    var s1 := BadgeStep(s, lines[0]);
    var s2 := BadgeStep(s1, lines[1]);
    assert BadgeRun(s, lines) == BadgeRun(s1, lines[1..]);
    assert BadgeRun(s1, lines[1..]) == BadgeRun(s2, lines[2..]) by {
      assert lines[1..][0] == lines[1] && lines[1..][1..] == lines[2..];
    }
    assert BadgeRun(s2, lines[2..]) == BadgeRun(BadgeStep(s2, lines[2]), lines[3..]) by {
      assert lines[2..][0] == lines[2] && lines[2..][1..] == lines[3..];
    }
  }

  /** Three steps from a start state add the group's badge and start over. */
  lemma GroupStep(a: string, b: string, c: string, total: int)
    ensures BadgeStep(BadgeStep(BadgeStep(BadgeState({}, 0, total), a), b), c)
      == BadgeState({}, 0, total + Badge(a, b, c))
  {
  }

  /** Fewer than three lines read leave the total alone. */
  lemma PartialGroup(lines: seq<string>, total: int)
    requires |Read(lines)| < 3
    ensures var r := BadgeRun(BadgeState({}, 0, total), lines);
      r.total == total && r.members == |Read(lines)|
  {
    var start := BadgeState({}, 0, total);
    if |Read(lines)| > 0 {
      var s1 := BadgeStep(start, lines[0]);
      assert BadgeRun(start, lines) == BadgeRun(s1, lines[1..]);
      if |Read(lines)| > 1 {
        var s2 := BadgeStep(s1, lines[1]);
        assert BadgeRun(s1, lines[1..]) == BadgeRun(s2, lines[2..]);
      }
    }
  }

  /** A whole group whose members share items adds the priority of the
      lowest common item bit. */
  lemma GroupBadge(total: int, a: string, b: string, c: string)
    requires Mask(a) != {} && Mask(a) * Mask(b) != {}
    ensures var s := BadgeStep(BadgeStep(BadgeStep(BadgeState({}, 0, total), a), b), c);
      s.acc == {} && s.members == 0 &&
      s.total == total + match LowestBit(Mask(a) * Mask(b) * Mask(c)) case Some(bit) => bit + 1 case None => 0
  {
  }

  /** When the first two members share nothing, the accumulator looks empty
      again and the third member's mask replaces it: the badge is then the
      third member's lowest item. */
  lemma EmptyIntersectionRestarts(total: int, a: string, b: string, c: string)
    requires Mask(a) != {} && Mask(a) * Mask(b) == {}
    ensures var s := BadgeStep(BadgeStep(BadgeStep(BadgeState({}, 0, total), a), b), c);
      s.total == total + match LowestBit(Mask(c)) case Some(bit) => bit + 1 case None => 0
  {
  }
}

=== FILE: day04_camp_cleanup.dfy ===
/** Camp cleanup: each line holds two section ranges "s1-e1,s2-e2"; the program
    counts the pairs whose ranges overlap. */
module CampCleanup {
  import opened Common

  /** Range [s1, e1] lies inside range [s2, e2]. */
  predicate RangeInRange(s1: int, e1: int, s2: int, e2: int)
  {
    s1 >= s2 && e1 <= e2
  }

  /** One range contains the other. */
  predicate StrictSubrange(s1: int, e1: int, s2: int, e2: int)
  {
    RangeInRange(s1, e1, s2, e2) || RangeInRange(s2, e2, s1, e1)
  }

  /** Neither range starts after the other ends. */
  predicate Overlap(s1: int, e1: int, s2: int, e2: int)
  {
    !(s1 > e2 || s2 > e1)
  }

  lemma SubrangeAndOverlapAreSymmetric(s1: int, e1: int, s2: int, e2: int)
    ensures StrictSubrange(s1, e1, s2, e2) <==> StrictSubrange(s2, e2, s1, e1)
    ensures Overlap(s1, e1, s2, e2) <==> Overlap(s2, e2, s1, e1)
  {
  }

  /** For well-formed ranges, the overlap test holds exactly when some
      section number lies in both ranges. */
  lemma OverlapMeansCommonSection(s1: int, e1: int, s2: int, e2: int)
    requires s1 <= e1 && s2 <= e2
    ensures Overlap(s1, e1, s2, e2) <==> exists x :: InRange(x, s1, e1) && InRange(x, s2, e2)
  {
    if Overlap(s1, e1, s2, e2) {
      var x := if s1 >= s2 then s1 else s2;
      assert InRange(x, s1, e1) && InRange(x, s2, e2);
    }
  }

  predicate InRange(x: int, s: int, e: int)
  {
    s <= x <= e
  }

  /** For well-formed ranges, containment implies overlap. */
  lemma SubrangeImpliesOverlap(s1: int, e1: int, s2: int, e2: int)
    requires s1 <= e1 && s2 <= e2
    ensures StrictSubrange(s1, e1, s2, e2) ==> Overlap(s1, e1, s2, e2)
  {
  }

  datatype Assignment = Assignment(s1: int, e1: int, s2: int, e2: int)

  predicate WellFormed(a: Assignment)
  {
    a.s1 <= a.e1 && a.s2 <= a.e2
  }

  predicate Overlaps(a: Assignment)
  {
    Overlap(a.s1, a.e1, a.s2, a.e2)
  }

  /** The counting loop. The program asserts that both ranges of every line are
      well formed, so a malformed line aborts the run (None). */
  method CountOverlaps(pairs: seq<Assignment>) returns (r: Option<nat>)
    ensures r.Some? <==> forall i :: 0 <= i < |pairs| ==> WellFormed(pairs[i])
    ensures r.Some? ==> r.value == |set i | 0 <= i < |pairs| && Overlaps(pairs[i])|
  {
    var count := 0;
    var k := 0;
    while k < |pairs|
      invariant 0 <= k <= |pairs|
      invariant forall i :: 0 <= i < k ==> WellFormed(pairs[i])
      invariant count == |set i | 0 <= i < k && Overlaps(pairs[i])|
    {
      if !WellFormed(pairs[k]) {
        return None;
      }
      var before := set i | 0 <= i < k && Overlaps(pairs[i]);
      var after := set i | 0 <= i < k + 1 && Overlaps(pairs[i]);
      if Overlaps(pairs[k]) {
        assert after == before + {k};
        count := count + 1;
      } else {
        assert after == before;
      }
      k := k + 1;
    }
    return Some(count);
  }

  /** One line "s1-e1,s2-e2": the text is split at every ',' and '-', and the
      first four pieces must parse as integers, or the program aborts. */
  function ParseAssignment(line: string): (r: Option<Assignment>)
    ensures r.Some? <==> (|Split(line, {',', '-'})| >= 4
      && forall i :: 0 <= i < 4 ==> ParseInt(Split(line, {',', '-'})[i]).Some?)
  {
    var v := Split(line, {',', '-'});
    if |v| < 4 then None
    else match (ParseInt(v[0]), ParseInt(v[1]), ParseInt(v[2]), ParseInt(v[3]))
      case (Some(s1), Some(e1), Some(s2), Some(e2)) => Some(Assignment(s1, e1, s2, e2))
      case _ => None
  }

  /** The text of an assignment with non-negative section numbers. */
  function ShowAssignment(a: Assignment): string
    requires a.s1 >= 0 && a.e1 >= 0 && a.s2 >= 0 && a.e2 >= 0
  {
    ShowNat(a.s1) + "-" + ShowNat(a.e1) + "," + ShowNat(a.s2) + "-" + ShowNat(a.e2)
  }

  /** Parsing a printed assignment gives it back. */
  lemma ParseShowAssignment(a: Assignment)
    requires a.s1 >= 0 && a.e1 >= 0 && a.s2 >= 0 && a.e2 >= 0
    ensures ParseAssignment(ShowAssignment(a)) == Some(a)
  {
    SplitShowAssignment(a);
    ParseShowInt(a.s1);
    ParseShowInt(a.e1);
    ParseShowInt(a.s2);
    ParseShowInt(a.e2);
  }

  lemma SplitShowAssignment(a: Assignment)
    requires a.s1 >= 0 && a.e1 >= 0 && a.s2 >= 0 && a.e2 >= 0
    ensures Split(ShowAssignment(a), {',', '-'}) == [ShowNat(a.s1), ShowNat(a.e1), ShowNat(a.s2), ShowNat(a.e2)]
  {
    var p1, p2, p3, p4 := ShowNat(a.s1), ShowNat(a.e1), ShowNat(a.s2), ShowNat(a.e2);
    SplitFourPieces(p1, p2, p3, p4);
    assert ShowAssignment(a) == p1 + (['-'] + (p2 + ([','] + (p3 + (['-'] + p4)))));
  }

  lemma SplitFourPieces(p1: string, p2: string, p3: string, p4: string)
    requires AllDigits(p1) && AllDigits(p2) && AllDigits(p3) && AllDigits(p4)
    ensures Split(p1 + (['-'] + (p2 + ([','] + (p3 + (['-'] + p4))))), {',', '-'}) == [p1, p2, p3, p4]
  {
    var seps := {',', '-'};
    var t3 := ['-'] + p4;
    var t2 := [','] + (p3 + t3);
    var t1 := ['-'] + (p2 + t2);
    DigitsHaveNoSeparator(p1, seps);
    DigitsHaveNoSeparator(p2, seps);
    DigitsHaveNoSeparator(p3, seps);
    DigitsHaveNoSeparator(p4, seps);
    SplitNoSeparator(p4, seps);
    SplitAfterPiece(p3, t3, '-', seps);
    assert t3[1..] == p4;
    SplitAfterPiece(p2, t2, ',', seps);
    assert t2[1..] == p3 + t3;
    SplitAfterPiece(p1, t1, '-', seps);
    assert t1[1..] == p2 + t2;
  }

  /** The input lines up to the first empty one, parsed; None if any of them
      is malformed. */
  function ParseAssignments(lines: seq<string>): (r: Option<seq<Assignment>>)
    ensures r.Some? ==> |r.value| == FirstEmpty(lines)
    ensures r.Some? ==> forall i :: 0 <= i < |r.value| ==>
      |lines[i]| > 0 && ParseAssignment(lines[i]) == Some(r.value[i])
    ensures r.None? <==> exists i :: 0 <= i < FirstEmpty(lines) && ParseAssignment(lines[i]).None?
  {
    if |lines| == 0 || |lines[0]| == 0 then Some([])
    else match (ParseAssignment(lines[0]), ParseAssignments(lines[1..]))
      case (Some(a), Some(rest)) => Some([a] + rest)
      case _ => None
  }
}

=== FILE: day05_supply_stacks.dfy ===
/** Supply stacks: a drawing of crate stacks is parsed into one sequence per
    stack, bottom crate first, and then "move N from A to B" instructions
    carry the top N crates of stack A, in their order, onto stack B. */
module SupplyStacks {
  import opened Common
  import opened Sorting

  /** Stacks of crates, each listed bottom first. */
  type Stacks = seq<seq<char>>

  /** The first drawing line fixes the number of stacks: each stack takes four
      columns ("[X] "), the last one without its trailing space. */
  function StackCount(line: string): nat
  {
    (|line| + 1) / 4
  }

  /** The character column that holds the crate of stack `i`. */
  function CrateColumn(i: nat): nat
  {
    4 * i + 1
  }

  /** The line of stack numbers, which the parser skips: its second character is '1'. */
  predicate IsNumberLine(line: string)
  {
    |line| > 1 && line[1] == '1'
  }

  /** The crates a drawing line adds to stack `i`: the character at the
      stack's column unless it is a space. */
  function CrateAt(line: string, i: nat): seq<char>
    requires CrateColumn(i) < |line|
  {
    if line[CrateColumn(i)] == ' ' then [] else [line[CrateColumn(i)]]
  }

  /** One line of the drawing, applied to stacks listed top first. The stacks
      are created by the first line that yields a non-zero count; a crate
      line whose length does not match the stack count aborts. */
  function DrawingStep(stacks: Stacks, line: string): (r: Option<Stacks>)
    ensures r.Some? && |stacks| > 0 ==> |r.value| == |stacks|
    ensures r.Some? && |stacks| == 0 ==> |r.value| == StackCount(line)
    ensures r.Some? && !IsNumberLine(line) ==> (|r.value| * 4 == |line| + 1
      && forall i :: 0 <= i < |r.value| ==> CrateColumn(i) < |line|)
    ensures r.Some? && IsNumberLine(line) ==> forall i :: 0 <= i < |r.value| ==> r.value[i] == (if |stacks| == 0 then [] else stacks[i])
    ensures r.Some? && |stacks| > 0 && !IsNumberLine(line) ==> forall i :: 0 <= i < |stacks| ==>
      CrateColumn(i) < |line| && r.value[i] == stacks[i] + CrateAt(line, i)
    ensures r.None? <==> !IsNumberLine(line) && (if |stacks| == 0 then StackCount(line) else |stacks|) * 4 != |line| + 1
  {
    var created := if |stacks| == 0 then seq(StackCount(line), _ => []) else stacks;
    if IsNumberLine(line) then Some(created)
    else if |created| * 4 != |line| + 1 then None
    else Some(seq(|created|, i requires 0 <= i < |created| => created[i] + CrateAt(line, i)))
  }

  /** The drawing loop: lines up to the first empty one. Returns the stacks
      (top first) and the number of lines consumed, the empty line included. */
  function ReadDrawing(stacks: Stacks, lines: seq<string>): (r: Option<(Stacks, nat)>)
    ensures r.Some? ==> r.value.1 == if FirstEmpty(lines) < |lines| then FirstEmpty(lines) + 1 else |lines|
    decreases |lines|
  {
    if |lines| == 0 then Some((stacks, 0))
    else if |lines[0]| == 0 then Some((stacks, 1))
    else match DrawingStep(stacks, lines[0])
      case None => None
      case Some(next) =>
        match ReadDrawing(next, lines[1..])
        case None => None
        case Some((done, used)) => Some((done, used + 1))
  }

  /** The drawing loop never changes the number of stacks once they exist. */
  lemma {:induction false} ReadDrawingKeepsCount(stacks: Stacks, lines: seq<string>)
    requires |stacks| > 0
    ensures ReadDrawing(stacks, lines).Some? ==> |ReadDrawing(stacks, lines).value.0| == |stacks|
    decreases |lines|
  {
    if |lines| > 0 && |lines[0]| > 0 {
      match DrawingStep(stacks, lines[0])
      case None =>
      case Some(next) =>
        ReadDrawingKeepsCount(next, lines[1..]);
    }
  }

  /** Reference definition: the crates of stack `i`, top first, are the
      non-space characters at its column over the crate lines in order. */
  function ColumnCrates(lines: seq<string>, i: nat): seq<char>
    requires forall k :: 0 <= k < |lines| ==> IsNumberLine(lines[k]) || CrateColumn(i) < |lines[k]|
  {
    if |lines| == 0 then []
    else if IsNumberLine(lines[0]) then ColumnCrates(lines[1..], i)
    else CrateAt(lines[0], i) + ColumnCrates(lines[1..], i)
  }

  /** A drawing the loop accepts reaches every existing stack's column on
      each crate line. */
  lemma {:induction false} ReadDrawingLinesWide(stacks: Stacks, lines: seq<string>, i: nat)
    requires i < |stacks|
    requires forall k :: 0 <= k < |lines| ==> |lines[k]| > 0
    requires ReadDrawing(stacks, lines).Some?
    ensures forall k :: 0 <= k < |lines| ==> IsNumberLine(lines[k]) || CrateColumn(i) < |lines[k]|
    decreases |lines|
  {
    if |lines| > 0 {
      var next := DrawingStep(stacks, lines[0]).value;
      ReadDrawingLinesWide(next, lines[1..], i);
      assert forall k :: 1 <= k < |lines| ==> lines[k] == lines[1..][k - 1];
    }
  }

  /** The drawing loop builds each stack as the reference column reading,
      appended to what the stack held before. */
  lemma {:induction false} ReadDrawingReadsColumns(stacks: Stacks, lines: seq<string>, i: nat)
    requires i < |stacks|
    requires forall k :: 0 <= k < |lines| ==> |lines[k]| > 0
    requires ReadDrawing(stacks, lines).Some?
    ensures forall k :: 0 <= k < |lines| ==> IsNumberLine(lines[k]) || CrateColumn(i) < |lines[k]|
    ensures i < |ReadDrawing(stacks, lines).value.0|
    ensures ReadDrawing(stacks, lines).value.0[i] == stacks[i] + ColumnCrates(lines, i)
    decreases |lines|
  {
    ReadDrawingKeepsCount(stacks, lines);
    ReadDrawingLinesWide(stacks, lines, i);
    if |lines| > 0 {
      var next := DrawingStep(stacks, lines[0]).value;
      var rest := lines[1..];
      assert ReadDrawing(stacks, lines).value.0 == ReadDrawing(next, rest).value.0;
      ReadDrawingReadsColumns(next, rest, i);
      assert forall k :: 1 <= k < |lines| ==> lines[k] == rest[k - 1];
      var tail := ColumnCrates(rest, i);
      if IsNumberLine(lines[0]) {
        assert next[i] == stacks[i];
        assert ColumnCrates(lines, i) == tail;
      } else {
        assert next[i] == stacks[i] + CrateAt(lines[0], i);
        assert ColumnCrates(lines, i) == CrateAt(lines[0], i) + tail;
        assert next[i] + tail == stacks[i] + (CrateAt(lines[0], i) + tail);
      }
    } else {
      assert stacks[i] + [] == stacks[i];
    }
  }

  /** After the drawing, each stack is reversed so that its bottom crate comes first. */
  function BottomFirst(stacks: Stacks): (r: Stacks)
    ensures |r| == |stacks|
    ensures forall i :: 0 <= i < |r| ==> r[i] == Reverse(stacks[i])
  {
    seq(|stacks|, i requires 0 <= i < |stacks| => Reverse(stacks[i]))
  }

  /** A parsed instruction; `src` and `dst` are already zero-based. */
  datatype Move = Move(count: int, src: nat, dst: nat)

  /** "move N from A to B": split at spaces, N is pieces[1], A pieces[3] and B
      pieces[5]. A and B are one-based, so 0 underflows and aborts. */
  function ParseMove(line: string): (r: Option<Move>)
    ensures r.Some? <==> (|Split(line, {' '})| >= 6
      && ParseInt(Split(line, {' '})[1]).Some?
      && ParseNat(Split(line, {' '})[3]).Some? && ParseNat(Split(line, {' '})[3]).value > 0
      && ParseNat(Split(line, {' '})[5]).Some? && ParseNat(Split(line, {' '})[5]).value > 0)
    ensures r.Some? ==> (r.value.count == ParseInt(Split(line, {' '})[1]).value
      && r.value.src + 1 == ParseNat(Split(line, {' '})[3]).value
      && r.value.dst + 1 == ParseNat(Split(line, {' '})[5]).value)
  {
    var args := Split(line, {' '});
    if |args| < 6 then None
    else match (ParseInt(args[1]), ParseNat(args[3]), ParseNat(args[5]))
      case (Some(n), Some(a), Some(b)) =>
        if a == 0 || b == 0 then None else Some(Move(n, a - 1, b - 1))
      case _ => None
  }

  function TotalCrates(stacks: Stacks): nat
  {
    if |stacks| == 0 then 0 else |stacks[0]| + TotalCrates(stacks[1..])
  }

  lemma {:induction false} TotalCratesUpdate(stacks: Stacks, i: nat, s: seq<char>)
    requires i < |stacks|
    ensures TotalCrates(stacks[i := s]) + |stacks[i]| == TotalCrates(stacks) + |s|
  {
    if i > 0 {
      TotalCratesUpdate(stacks[1..], i - 1, s);
      assert stacks[i := s][1..] == stacks[1..][i - 1 := s];
    }
  }

  /** One move. The program asserts that A holds at least N crates; it copies
      the top N crates of A, bottom to top, onto B and then pops N crates off
      A. A count of zero or less touches nothing, not even stack B. */
  function ApplyMove(stacks: Stacks, m: Move): (r: Option<Stacks>)
    ensures r.Some? <==> m.src < |stacks| && m.count <= |stacks[m.src]| && (m.count <= 0 || m.dst < |stacks|)
    ensures r.Some? ==> |r.value| == |stacks|
    ensures r.Some? && m.count <= 0 ==> r.value == stacks
  {
    if m.src >= |stacks| || m.count > |stacks[m.src]| then None
    else if m.count <= 0 then Some(stacks)
    else if m.dst >= |stacks| then None
    else
      var a := stacks[m.src];
      var start := |a| - m.count;
      var pushed := stacks[m.dst := stacks[m.dst] + a[start..]];
      Some(pushed[m.src := pushed[m.src][..|pushed[m.src]| - m.count]])
  }

  /** What a successful move does to every stack. */
  lemma MoveEffect(stacks: Stacks, m: Move)
    requires ApplyMove(stacks, m).Some? && m.count > 0
    ensures var r := ApplyMove(stacks, m).value;
      var a := stacks[m.src];
      && (m.src != m.dst ==> r[m.src] == a[..|a| - m.count])
      && (m.src != m.dst ==> r[m.dst] == stacks[m.dst] + a[|a| - m.count..])
      && (m.src == m.dst ==> r[m.src] == a)
      && forall i :: 0 <= i < |stacks| && i != m.src && i != m.dst ==> r[i] == stacks[i]
  {
    var a := stacks[m.src];
    if m.src == m.dst {
      assert (a + a[|a| - m.count..])[..|a|] == a;
    }
  }

  /** A move conserves the number of crates. */
  lemma MoveConservesCrates(stacks: Stacks, m: Move)
    requires ApplyMove(stacks, m).Some?
    ensures TotalCrates(ApplyMove(stacks, m).value) == TotalCrates(stacks)
  {
    if m.count > 0 {
      var a := stacks[m.src];
      var start := |a| - m.count;
      var pushed := stacks[m.dst := stacks[m.dst] + a[start..]];
      TotalCratesUpdate(stacks, m.dst, stacks[m.dst] + a[start..]);
      TotalCratesUpdate(pushed, m.src, pushed[m.src][..|pushed[m.src]| - m.count]);
    }
  }

  /** Moving the same crates back restores the stacks: the move keeps the
      order of the crates it carries. */
  lemma MoveBackRestores(stacks: Stacks, n: int, a: nat, b: nat)
    requires a != b && b < |stacks| && ApplyMove(stacks, Move(n, a, b)).Some?
    ensures ApplyMove(ApplyMove(stacks, Move(n, a, b)).value, Move(n, b, a)) == Some(stacks)
  {
    if n > 0 {
      var mid := ApplyMove(stacks, Move(n, a, b)).value;
      MoveEffect(stacks, Move(n, a, b));
      var back := ApplyMove(mid, Move(n, b, a)).value;
      MoveEffect(mid, Move(n, b, a));
      var s := stacks[a];
      assert back[a] == s[..|s| - n] + s[|s| - n..] == s;
      var t := stacks[b];
      assert back[b] == (t + s[|s| - n..])[..|t|] == t;
      assert back == stacks;
    }
  }

  /** The instruction loop: moves up to the first empty line. */
  function RunMoves(stacks: Stacks, lines: seq<string>): (r: Option<Stacks>)
    ensures r.Some? ==> |r.value| == |stacks| && TotalCrates(r.value) == TotalCrates(stacks)
    decreases |lines|
  {
    if |lines| == 0 || |lines[0]| == 0 then Some(stacks)
    else match ParseMove(lines[0])
      case None => None
      case Some(m) =>
        match ApplyMove(stacks, m)
        case None => None
        case Some(next) =>
          MoveConservesCrates(stacks, m);
          RunMoves(next, lines[1..])
  }

  /** The answer: the top crate of each stack in index order; an empty stack
      aborts the program. */
  function TopCrates(stacks: Stacks): (r: Option<string>)
    ensures r.Some? <==> forall i :: 0 <= i < |stacks| ==> |stacks[i]| > 0
    ensures r.Some? ==> (|r.value| == |stacks|
      && forall i :: 0 <= i < |stacks| ==> r.value[i] == stacks[i][|stacks[i]| - 1])
  {
    if |stacks| == 0 then Some("")
    else if |stacks[0]| == 0 then None
    else match TopCrates(stacks[1..])
      case None => None
      case Some(rest) => Some([stacks[0][|stacks[0]| - 1]] + rest)
  }

  /** The whole program: read the drawing, put bottoms first, run the moves
      that follow the empty line, and report the top crates. */
  function Solve(lines: seq<string>): (r: Option<string>)
    ensures r.Some? ==> ReadDrawing([], lines).Some? && |r.value| == |ReadDrawing([], lines).value.0|
    ensures var drawing := ReadDrawing([], lines);
      var moves := lines[Min(FirstEmpty(lines) + 1, |lines|)..];
      r.Some? <==> (drawing.Some? && RunMoves(BottomFirst(drawing.value.0), moves).Some?
        && TopCrates(RunMoves(BottomFirst(drawing.value.0), moves).value).Some?)
    ensures var drawing := ReadDrawing([], lines);
      var moves := lines[Min(FirstEmpty(lines) + 1, |lines|)..];
      r.Some? ==> r == TopCrates(RunMoves(BottomFirst(drawing.value.0), moves).value)
  {
    match ReadDrawing([], lines)
    case None => None
    case Some((drawn, used)) =>
      var start := BottomFirst(drawn);
      assert used == Min(FirstEmpty(lines) + 1, |lines|);
      var rest := lines[used..];
      match RunMoves(start, rest)
      case None => None
      case Some(final) => TopCrates(final)
  }
}

=== FILE: day06_marker.dfy ===
/** Start-of-message marker search: the first position preceded by fourteen
    pairwise distinct characters. */
module Marker {
  import opened Common

  const MarkerLength: nat := 14

  predicate AllDistinct(w: string)
  {
    forall j, k :: 0 <= j < k < |w| ==> w[j] != w[k]
  }

  /** The window of characters that position `i` looks back at. */
  function Window(input: string, i: nat): string
    requires MarkerLength <= i <= |input|
  {
    input[i - MarkerLength..i]
  }

  /** The inner loops: compare every pair j < k of the window and OR the
      results together. */
  method HasDuplicate(input: string, start: nat, end: nat) returns (dup: bool)
    requires start <= end <= |input|
    ensures dup <==> !AllDistinct(input[start..end])
  {
    dup := false;
    var j := start;
    while j < end
      invariant start <= j <= end
      invariant dup <==> exists p, q :: start <= p < j && p < q < end && input[p] == input[q]
    {
      var k := j + 1;
      while k < end
        invariant j + 1 <= k <= end
        invariant dup <==> ((exists p, q :: start <= p < j && p < q < end && input[p] == input[q])
          || (exists q :: j < q < k && input[j] == input[q]))
      {
        dup := dup || input[j] == input[k];
        k := k + 1;
      }
      j := j + 1;
    }
    var w := input[start..end];
    if dup {
      var p, q :| start <= p < end && p < q < end && input[p] == input[q];
      assert w[p - start] == w[q - start];
    } else {
      forall a, b | 0 <= a < b < |w|
        ensures w[a] != w[b]
      {
        assert input[start + a] != input[start + b];
      }
    }
  }

  /** The scan: positions MarkerLength..|input|-1 in order. The position
      |input| itself is never tried. */
  method FindMarker(input: string) returns (r: Option<nat>)
    ensures r.Some? ==> (MarkerLength <= r.value < |input|
      && AllDistinct(Window(input, r.value))
      && forall i :: MarkerLength <= i < r.value ==> !AllDistinct(Window(input, i)))
    ensures r.None? ==> forall i :: MarkerLength <= i < |input| ==> !AllDistinct(Window(input, i))
  {
    var i := MarkerLength;
    while i < |input|
      invariant MarkerLength <= i
      invariant forall p :: MarkerLength <= p < i && p < |input| ==> !AllDistinct(Window(input, p))
    {
      var dup := HasDuplicate(input, i - MarkerLength, i);
      if !dup {
        return Some(i);
      }
      i := i + 1;
    }
    return None;
  }

  /** Reference definition: the least position in [MarkerLength, |input|)
      whose window is distinct. */
  function FirstMarkerFrom(input: string, i: nat): (r: Option<nat>)
    requires MarkerLength <= i
    decreases |input| - i
  {
    if i >= |input| then None
    else if AllDistinct(Window(input, i)) then Some(i)
    else FirstMarkerFrom(input, i + 1)
  }

  /** The scan's contract pins down its answer: any result with that
      contract is the reference's. */
  lemma {:induction false} MarkerIsUnique(input: string, i: nat, r: Option<nat>)
    requires MarkerLength <= i
    requires r.Some? ==> (i <= r.value < |input|
      && AllDistinct(Window(input, r.value))
      && forall p :: i <= p < r.value ==> !AllDistinct(Window(input, p)))
    requires r.None? ==> forall p :: i <= p < |input| ==> !AllDistinct(Window(input, p))
    ensures r == FirstMarkerFrom(input, i)
    decreases |input| - i
  {
    if i < |input| && !AllDistinct(Window(input, i)) {
      MarkerIsUnique(input, i + 1, r);
    }
  }

  /** A window that ends exactly at the end of the input is never reported,
      even when it is distinct. */
  lemma LastWindowIsNeverTried()
    ensures var s := "abcdefghijklmn";
      |s| == MarkerLength && AllDistinct(s[0..]) && FirstMarkerFrom(s, MarkerLength) == None
  {
  }

  /** The scan as evidently intended: every position up to and including
      |input| is tried, so a marker that ends the input is found too. */
  method FindMarkerThroughEnd(input: string) returns (r: Option<nat>)
    ensures r.Some? ==> (MarkerLength <= r.value <= |input|
      && AllDistinct(Window(input, r.value))
      && forall i :: MarkerLength <= i < r.value ==> !AllDistinct(Window(input, i)))
    ensures r.None? ==> forall i :: MarkerLength <= i <= |input| ==> !AllDistinct(Window(input, i))
  {
    var i := MarkerLength;
    while i <= |input|
      invariant MarkerLength <= i
      invariant forall p :: MarkerLength <= p < i && p <= |input| ==> !AllDistinct(Window(input, p))
    {
      var dup := HasDuplicate(input, i - MarkerLength, i);
      if !dup {
        return Some(i);
      }
      i := i + 1;
    }
    return None;
  }

  /** Reference definition of the intended answer: the least position in
      [MarkerLength, |input|] whose window is distinct. */
  function FirstMarkerThrough(input: string, i: nat): (r: Option<nat>)
    requires MarkerLength <= i
    ensures r.Some? ==> i <= r.value <= |input| && AllDistinct(Window(input, r.value))
    decreases |input| + 1 - i
  {
    if i > |input| then None
    else if AllDistinct(Window(input, i)) then Some(i)
    else FirstMarkerThrough(input, i + 1)
  }

  /** The intended scan finds the marker that the written scan misses. */
  lemma LastWindowIsFound()
    ensures var s := "abcdefghijklmn";
      FirstMarkerThrough(s, MarkerLength) == Some(MarkerLength)
  {
    var s := "abcdefghijklmn";
    assert AllDistinct(Window(s, MarkerLength));
  }
}

=== FILE: day07_filesystem.dfy ===
/** No space left on device: a directory tree is rebuilt from a terminal
    transcript of `cd` and `ls` commands, and directory sizes are queried.
    The tree is an inductive datatype; the current directory is the path of
    child positions from the root, standing in for links back to the parent. */
module FileSystem {
  import opened Common

  /** A node of the tree. The program tells files from directories by size:
      a directory has size 0, so a file listed with size 0 is taken for a
      directory by the size queries, which then fail on its missing contents. */
  datatype Entry = File(name: string, size: nat) | Dir(name: string, children: seq<Entry>)

  /** Every file has a non-zero size. The program's size queries fail on a
      tree that breaks this; the model's queries are total, and `Solve`
      reports the failure before running them. */
  predicate WellFormed(e: Entry)
    decreases e
  {
    match e
    case File(_, size) => size > 0
    case Dir(_, cs) => forall i :: 0 <= i < |cs| ==> WellFormed(cs[i])
  }

  /** A file's own size, or the sum of a directory's children. */
  function DirSize(e: Entry): nat
    decreases e, 1
  {
    match e
    case File(_, size) => size
    case Dir(_, cs) => SizeSum(cs)
  }

  function SizeSum(cs: seq<Entry>): nat
    decreases cs, 0
  {
    if |cs| == 0 then 0 else DirSize(cs[0]) + SizeSum(cs[1..])
  }

  lemma {:induction false} SizeSumAppend(cs: seq<Entry>, c: Entry)
    ensures SizeSum(cs + [c]) == SizeSum(cs) + DirSize(c)
  {
    if |cs| > 0 {
      SizeSumAppend(cs[1..], c);
      assert (cs + [c])[1..] == cs[1..] + [c];
    }
  }

  lemma {:induction false} SizeSumUpdate(cs: seq<Entry>, i: nat, x: Entry)
    requires i < |cs|
    ensures SizeSum(cs[i := x]) + DirSize(cs[i]) == SizeSum(cs) + DirSize(x)
  {
    if i > 0 {
      SizeSumUpdate(cs[1..], i - 1, x);
      assert cs[i := x][1..] == cs[1..][i - 1 := x];
    }
  }

  /** Reference definition: every directory of the subtree, the node itself
      first, in depth-first order. */
  function Dirs(e: Entry): seq<Entry>
    decreases e, 1
  {
    match e
    case File(_, _) => []
    case Dir(_, cs) => [e] + DirsOf(cs)
  }

  function DirsOf(cs: seq<Entry>): seq<Entry>
    decreases cs, 0
  {
    if |cs| == 0 then [] else Dirs(cs[0]) + DirsOf(cs[1..])
  }

  /** No directory of a subtree is larger than the subtree's root. */
  lemma {:induction false} DirsAreSmaller(e: Entry)
    ensures forall d :: d in Dirs(e) ==> DirSize(d) <= DirSize(e)
    decreases e, 1
  {
    match e
    case File(_, _) =>
    case Dir(_, cs) =>
      DirsOfAreSmaller(cs);
  }

  lemma {:induction false} DirsOfAreSmaller(cs: seq<Entry>)
    ensures forall d :: d in DirsOf(cs) ==> DirSize(d) <= SizeSum(cs)
    decreases cs, 0
  {
    if |cs| > 0 {
      DirsAreSmaller(cs[0]);
      DirsOfAreSmaller(cs[1..]);
    }
  }

  /** Sum of the sizes of the directories in `ds` that are at most `max`. */
  function SmallSum(ds: seq<Entry>, max: nat): nat
  {
    if |ds| == 0 then 0
    else (if DirSize(ds[0]) <= max then DirSize(ds[0]) else 0) + SmallSum(ds[1..], max)
  }

  lemma {:induction false} SmallSumAppend(a: seq<Entry>, b: seq<Entry>, max: nat)
    ensures SmallSum(a + b, max) == SmallSum(a, max) + SmallSum(b, max)
  {
    if |a| > 0 {
      SmallSumAppend(a[1..], b, max);
      assert (a + b)[1..] == a[1..] + b;
    } else {
      assert a + b == b;
    }
  }

  /** The program's `dirs_under_size`: children first, then the node itself
      if it is small enough; a file contributes nothing. */
  function DirsUnderSize(e: Entry, max: nat): nat
    decreases e, 1
  {
    match e
    case File(_, _) => 0
    case Dir(_, cs) =>
      UnderSizeSum(cs, max) + (if DirSize(e) <= max then DirSize(e) else 0)
  }

  function UnderSizeSum(cs: seq<Entry>, max: nat): nat
    decreases cs, 0
  {
    if |cs| == 0 then 0 else DirsUnderSize(cs[0], max) + UnderSizeSum(cs[1..], max)
  }

  /** The recursion adds up exactly the sizes of the subtree's directories
      that are at most `max`. */
  lemma {:induction false} DirsUnderSizeIsSmallSum(e: Entry, max: nat)
    ensures DirsUnderSize(e, max) == SmallSum(Dirs(e), max)
    decreases e, 1
  {
    DirsAreSmaller(e);
    match e
    case File(_, _) =>
    case Dir(_, cs) =>
      UnderSizeSumIsSmallSum(cs, max);
      assert Dirs(e)[1..] == DirsOf(cs);
  }

  lemma {:induction false} UnderSizeSumIsSmallSum(cs: seq<Entry>, max: nat)
    ensures UnderSizeSum(cs, max) == SmallSum(DirsOf(cs), max)
    decreases cs, 0
  {
    DirsOfAreSmaller(cs);
    if |cs| > 0 {
      DirsUnderSizeIsSmallSum(cs[0], max);
      UnderSizeSumIsSmallSum(cs[1..], max);
      SmallSumAppend(Dirs(cs[0]), DirsOf(cs[1..]), max);
    }
  }

  /** The program's `smallest_dir_at_least`: the best child result, where 0
      means "none"; only when no child qualifies is the node's own size
      considered. */
  function SmallestDirAtLeast(e: Entry, min: nat): nat
    decreases e, 1
  {
    match e
    case File(_, _) => 0
    case Dir(_, cs) =>
      var best := BestChild(cs, min, 0);
      if best == 0 && DirSize(e) >= min then DirSize(e) else best
  }

  /** The loop over the children, keeping the smallest qualifying result. */
  function BestChild(cs: seq<Entry>, min: nat, best: nat): nat
    decreases cs, 0
  {
    if |cs| == 0 then best
    else
      var v := SmallestDirAtLeast(cs[0], min);
      BestChild(cs[1..], min, if v >= min && (best == 0 || v < best) then v else best)
  }

  /** `r` is the answer for the directories `ds`: 0 when none has at least
      `min`, otherwise the least size among those that do. */
  predicate IsSmallestAtLeast(r: nat, ds: seq<Entry>, min: nat)
  {
    if forall d :: d in ds ==> DirSize(d) < min then r == 0
    else
      && r >= min
      && (exists d :: d in ds && DirSize(d) == r)
      && forall d :: d in ds && DirSize(d) >= min ==> r <= DirSize(d)
  }

  /** For a positive bound, the search finds the smallest directory of the
      subtree with at least `min`, or 0 when there is none. */
  lemma {:induction false} SmallestIsMinimum(e: Entry, min: nat)
    ensures min > 0 ==> IsSmallestAtLeast(SmallestDirAtLeast(e, min), Dirs(e), min)
    decreases e, 1
  {
    DirsAreSmaller(e);
    match e
    case File(_, _) =>
    case Dir(_, cs) =>
      if min > 0 {
        DirsOfAreSmaller(cs);
        BestChildIsMinimum(cs, min, 0, []);
        assert [] + DirsOf(cs) == DirsOf(cs);
        assert Dirs(e) == [e] + DirsOf(cs);
      }
  }

  lemma {:induction false} BestChildIsMinimum(cs: seq<Entry>, min: nat, best: nat, seen: seq<Entry>)
    requires min > 0
    requires IsSmallestAtLeast(best, seen, min)
    ensures IsSmallestAtLeast(BestChild(cs, min, best), seen + DirsOf(cs), min)
    decreases cs, 0
  {
    if |cs| == 0 {
      assert seen + DirsOf(cs) == seen;
    } else {
      var v := SmallestDirAtLeast(cs[0], min);
      var next := if v >= min && (best == 0 || v < best) then v else best;
      ChildStepIsMinimum(cs[0], min, best, seen);
      BestChildIsMinimum(cs[1..], min, next, seen + Dirs(cs[0]));
      BestChildThroughStep(cs, min, best, seen);
    }
  }

  /** The loop's answer for `cs` is its answer for the tail after the first
      child's step, over the same directories. */
  lemma {:induction false} BestChildThroughStep(cs: seq<Entry>, min: nat, best: nat, seen: seq<Entry>)
    requires |cs| > 0
    requires var v := SmallestDirAtLeast(cs[0], min);
      var next := if v >= min && (best == 0 || v < best) then v else best;
      IsSmallestAtLeast(BestChild(cs[1..], min, next), seen + Dirs(cs[0]) + DirsOf(cs[1..]), min)
    ensures IsSmallestAtLeast(BestChild(cs, min, best), seen + DirsOf(cs), min)
  {
    assert seen + Dirs(cs[0]) + DirsOf(cs[1..]) == seen + DirsOf(cs);
  }

  /** One child's answer merged into the answer so far. */
  lemma {:induction false} ChildStepIsMinimum(c: Entry, min: nat, best: nat, seen: seq<Entry>)
    requires min > 0
    requires IsSmallestAtLeast(best, seen, min)
    ensures var v := SmallestDirAtLeast(c, min);
      IsSmallestAtLeast(if v >= min && (best == 0 || v < best) then v else best, seen + Dirs(c), min)
    decreases c, 2
  {
    SmallestIsMinimum(c, min);
    CombineSmallest(best, seen, SmallestDirAtLeast(c, min), Dirs(c), min);
  }

  /** For any bound, including 0, the search answers 0 or the size of a
      directory of the subtree that has at least `min`. */
  lemma {:induction false} SmallestIsSomeDir(e: Entry, min: nat)
    ensures var v := SmallestDirAtLeast(e, min);
      v == 0 || (v >= min && exists d :: d in Dirs(e) && DirSize(d) == v)
    decreases e, 1
  {
    match e
    case File(_, _) =>
    case Dir(_, cs) =>
      var best := BestChild(cs, min, 0);
      BestChildIsSomeDir(cs, min, 0);
      assert Dirs(e) == [e] + DirsOf(cs);
      if best == 0 && DirSize(e) >= min {
        assert e in Dirs(e);
      } else if best != 0 {
        var d :| d in DirsOf(cs) && DirSize(d) == best;
        assert d in Dirs(e);
      }
  }

  lemma {:induction false} BestChildIsSomeDir(cs: seq<Entry>, min: nat, best: nat)
    ensures var v := BestChild(cs, min, best);
      v == best || v == 0 || (v >= min && exists d :: d in DirsOf(cs) && DirSize(d) == v)
    decreases cs, 0
  {
    if |cs| > 0 {
      var v := SmallestDirAtLeast(cs[0], min);
      var next := if v >= min && (best == 0 || v < best) then v else best;
      SmallestIsSomeDir(cs[0], min);
      BestChildIsSomeDir(cs[1..], min, next);
      assert DirsOf(cs) == Dirs(cs[0]) + DirsOf(cs[1..]);
      var r := BestChild(cs, min, best);
      if r != best && r != 0 {
        if r == next {
          var d :| d in Dirs(cs[0]) && DirSize(d) == v;
          assert d in DirsOf(cs);
        } else {
          var d :| d in DirsOf(cs[1..]) && DirSize(d) == r;
          assert d in DirsOf(cs);
        }
      }
    }
  }

  /** Merging the answers for two groups of directories as the loop does. */
  lemma CombineSmallest(best: nat, a: seq<Entry>, v: nat, b: seq<Entry>, min: nat)
    requires min > 0
    requires IsSmallestAtLeast(best, a, min) && IsSmallestAtLeast(v, b, min)
    ensures IsSmallestAtLeast(if v >= min && (best == 0 || v < best) then v else best, a + b, min)
  {
    var next := if v >= min && (best == 0 || v < best) then v else best;
    if exists d :: d in a && DirSize(d) >= min {
      var d :| d in a && DirSize(d) >= min;
      assert d in a + b;
    }
    if exists d :: d in b && DirSize(d) >= min {
      var d :| d in b && DirSize(d) >= min;
      assert d in a + b;
    }
    if best > 0 && next == best {
      var w :| w in a && DirSize(w) == best;
      assert w in a + b;
    }
    if next == v && v >= min {
      var w :| w in b && DirSize(w) == v;
      assert w in a + b;
    }
  }

  // The shell session that builds the tree.

  /** The subtree at `path`, a sequence of child positions from `e`. */
  function Lookup(e: Entry, path: seq<nat>): Option<Entry>
    decreases |path|
  {
    if |path| == 0 then Some(e)
    else match e
      case File(_, _) => None
      case Dir(_, cs) => if path[0] < |cs| then Lookup(cs[path[0]], path[1..]) else None
  }

  /** Appends `c` to the children of the directory at `path`; adding to a
      file fails, as the program's unwrap of its missing contents does. */
  function AddChildAt(e: Entry, path: seq<nat>, c: Entry): (r: Option<Entry>)
    ensures r.Some? <==> Lookup(e, path).Some? && Lookup(e, path).value.Dir?
    ensures r.Some? ==> (Lookup(r.value, path).Some?
      && Lookup(r.value, path).value == Lookup(e, path).value.(children := Lookup(e, path).value.children + [c]))
    ensures r.Some? ==> r.value.name == e.name
    decreases |path|
  {
    match e
    case File(_, _) => None
    case Dir(n, cs) =>
      if |path| == 0 then Some(Dir(n, cs + [c]))
      else if path[0] >= |cs| then None
      else match AddChildAt(cs[path[0]], path[1..], c)
        case None => None
        case Some(x) => Some(Dir(n, cs[path[0] := x]))
  }

  /** Adding a child changes nothing at any existing path that does not lead
      to the directory the child is added to. */
  lemma {:induction false} AddChildFrame(e: Entry, path: seq<nat>, c: Entry, p: seq<nat>)
    requires AddChildAt(e, path, c).Some? && Lookup(e, p).Some?
    requires !(|p| <= |path| && path[..|p|] == p)
    ensures Lookup(AddChildAt(e, path, c).value, p) == Lookup(e, p)
    decreases |p|
  {
    var cs := e.children;
    var r := AddChildAt(e, path, c).value;
    if |path| == 0 || p[0] != path[0] {
      assert r.children[p[0]] == cs[p[0]];
    } else {
      if |p| <= |path| {
        assert path[..|p|] == [path[0]] + path[1..][..|p| - 1];
        assert p == [p[0]] + p[1..];
      }
      AddChildFrame(cs[path[0]], path[1..], c, p[1..]);
    }
  }

  /** Adding a child keeps every existing path valid. */
  lemma {:induction false} AddKeepsPaths(e: Entry, path: seq<nat>, c: Entry, p: seq<nat>)
    requires AddChildAt(e, path, c).Some? && Lookup(e, p).Some?
    ensures Lookup(AddChildAt(e, path, c).value, p).Some?
    decreases |p|
  {
    if |p| > 0 {
      var cs := e.children;
      var r := AddChildAt(e, path, c).value;
      if |path| == 0 {
        assert r.children[p[0]] == cs[p[0]];
      } else if p[0] == path[0] {
        AddKeepsPaths(cs[path[0]], path[1..], c, p[1..]);
      } else {
        assert r.children[p[0]] == cs[p[0]];
      }
    }
  }

  /** Adding a well-formed entry grows the size of the tree by that entry's size. */
  lemma {:induction false} AddGrowsSize(e: Entry, path: seq<nat>, c: Entry)
    requires AddChildAt(e, path, c).Some?
    ensures DirSize(AddChildAt(e, path, c).value) == DirSize(e) + DirSize(c)
    decreases |path|
  {
    var cs := e.children;
    if |path| == 0 {
      SizeSumAppend(cs, c);
    } else {
      var x := AddChildAt(cs[path[0]], path[1..], c).value;
      AddGrowsSize(cs[path[0]], path[1..], c);
      SizeSumUpdate(cs, path[0], x);
    }
  }

  /** The session state: the tree, the current directory, and whether the
      lines being read are the output of an `ls`. */
  datatype Session = Session(root: Entry, cwd: seq<nat>, listing: bool)

  predicate Valid(s: Session)
  {
    Lookup(s.root, s.cwd).Some?
  }

  function Start(): (s: Session)
    ensures Valid(s) && s.root == Dir("/", []) && s.cwd == []
  {
    Session(Dir("/", []), [], false)
  }

  /** The position of the last child named `name`: the program's loop over
      the children keeps overwriting its choice, so the last match wins. */
  function LastNamed(cs: seq<Entry>, name: string): (r: Option<nat>)
    ensures r.Some? ==> (r.value < |cs| && cs[r.value].name == name
      && forall j :: r.value < j < |cs| ==> cs[j].name != name)
    ensures r.None? ==> forall j :: 0 <= j < |cs| ==> cs[j].name != name
  {
    if |cs| == 0 then None
    else if cs[|cs| - 1].name == name then Some(|cs| - 1)
    else LastNamed(cs[..|cs| - 1], name)
  }

  /** `cd /` goes to the root, `cd ..` to the parent (an error at the root),
      and `cd name` to the last child with that name, file or directory;
      with no match, or inside a file, the directory does not change. */
  function ChangeDir(s: Session, arg: string): (r: Option<Session>)
    requires Valid(s)
    ensures r.Some? ==> Valid(r.value) && r.value.root == s.root && r.value.listing == s.listing
    ensures arg == "/" ==> r == Some(s.(cwd := []))
    ensures arg != "/" && arg == ".." ==> (r.None? <==> s.cwd == [])
    ensures arg != "/" && arg == ".." && s.cwd != [] ==> r == Some(s.(cwd := s.cwd[..|s.cwd| - 1]))
    ensures arg != "/" && arg != ".." ==> r.Some?
    ensures arg != "/" && arg != ".." && r.value.cwd != s.cwd ==> (
      |r.value.cwd| == |s.cwd| + 1 && r.value.cwd[..|s.cwd|] == s.cwd
      && Lookup(s.root, r.value.cwd).value.name == arg)
    ensures arg != "/" && arg != ".." ==> var here := Lookup(s.root, s.cwd).value;
      if here.Dir? && LastNamed(here.children, arg).Some?
      then r == Some(s.(cwd := s.cwd + [LastNamed(here.children, arg).value]))
      else r == Some(s)
  {
    if arg == "/" then Some(s.(cwd := []))
    else if arg == ".." then
      if s.cwd == [] then None
      else
        ParentIsValid(s.root, s.cwd);
        Some(s.(cwd := s.cwd[..|s.cwd| - 1]))
    else match Lookup(s.root, s.cwd).value
      case File(_, _) => Some(s)
      case Dir(_, cs) =>
        match LastNamed(cs, arg)
        case None => Some(s)
        case Some(i) =>
          ChildIsValid(s.root, s.cwd, i);
          assert (s.cwd + [i])[..|s.cwd|] == s.cwd;
          Some(s.(cwd := s.cwd + [i]))
  }

  lemma {:induction false} ParentIsValid(e: Entry, p: seq<nat>)
    requires |p| > 0 && Lookup(e, p).Some?
    ensures Lookup(e, p[..|p| - 1]).Some?
    decreases |p|
  {
    if |p| > 1 {
      ParentIsValid(e.children[p[0]], p[1..]);
      assert p[1..][..|p| - 2] == p[..|p| - 1][1..];
    }
  }

  lemma {:induction false} ChildIsValid(e: Entry, p: seq<nat>, i: nat)
    requires Lookup(e, p).Some? && Lookup(e, p).value.Dir? && i < |Lookup(e, p).value.children|
    ensures Lookup(e, p + [i]) == Some(Lookup(e, p).value.children[i])
    decreases |p|
  {
    if |p| > 0 {
      ChildIsValid(e.children[p[0]], p[1..], i);
      assert (p + [i])[1..] == p[1..] + [i];
    }
  }

  /** Adds `c` to the current directory, keeping the session valid. */
  function AddToCwd(s: Session, c: Entry): (r: Option<Session>)
    requires Valid(s)
    ensures r.Some? <==> Lookup(s.root, s.cwd).value.Dir?
    ensures r.Some? ==> Valid(r.value) && r.value.cwd == s.cwd && r.value.listing == s.listing
    ensures r.Some? ==> (Lookup(r.value.root, s.cwd).value.Dir?
      && Lookup(r.value.root, s.cwd).value.children == Lookup(s.root, s.cwd).value.children + [c])
  {
    match AddChildAt(s.root, s.cwd, c)
    case None => None
    case Some(root) =>
      AddKeepsPaths(s.root, s.cwd, c, s.cwd);
      Some(s.(root := root))
  }

  /** One transcript line. While listing, "dir X" adds a directory, "$" ends
      the listing (and the line is then read as a command), anything else is
      "size name" and adds a file. Outside a listing every line must be a
      "$" command; `cd` moves and `ls` starts a listing. A missing argument,
      a malformed size or a listing into a file aborts. */
  function Step(s: Session, line: string): (r: Option<Session>)
    requires Valid(s)
    ensures r.Some? ==> Valid(r.value)
    ensures var args := Split(line, {' '});
      s.listing && args[0] == "dir" ==>
        r == if |args| < 2 then None else AddToCwd(s, Dir(args[1], []))
    ensures var args := Split(line, {' '});
      s.listing && args[0] != "dir" && args[0] != "$" ==>
        r == if ParseNat(args[0]).None? || |args| < 2 then None
          else AddToCwd(s, File(args[1], ParseNat(args[0]).value))
    ensures var args := Split(line, {' '});
      (!s.listing || args[0] == "$") ==> var t := s.(listing := false);
        if args[0] != "$" || |args| < 2 then r.None?
        else if args[1] == "cd" then r == (if |args| < 3 then None else ChangeDir(t, args[2]))
        else if args[1] == "ls" then r == Some(t.(listing := true))
        else r == Some(t)
  {
    var args := Split(line, {' '});
    var afterListing :=
      if !s.listing then Some(s)
      else if args[0] == "dir" then
        if |args| < 2 then None else AddToCwd(s, Dir(args[1], []))
      else if args[0] == "$" then Some(s.(listing := false))
      else match ParseNat(args[0])
        case None => None
        case Some(size) => if |args| < 2 then None else AddToCwd(s, File(args[1], size));
    match afterListing
    case None => None
    case Some(t) =>
      if t.listing then Some(t)
      else if args[0] != "$" || |args| < 2 then None
      else if args[1] == "cd" then (if |args| < 3 then None else ChangeDir(t, args[2]))
      else if args[1] == "ls" then Some(t.(listing := true))
      else Some(t)
  }

  /** A listing line "N name" adds a file of size N to the current directory. */
  lemma ListedFileIsAdded(s: Session, size: nat, name: string)
    requires Valid(s) && s.listing && Lookup(s.root, s.cwd).value.Dir?
    requires ShowNat(size) != "dir" && ShowNat(size) != "$"
    requires forall i :: 0 <= i < |name| ==> name[i] != ' '
    ensures var r := Step(s, ShowNat(size) + " " + name);
      && r.Some? && r.value.cwd == s.cwd && r.value.listing
      && Lookup(r.value.root, s.cwd).value.children == Lookup(s.root, s.cwd).value.children + [File(name, size)]
  {
    var line := ShowNat(size) + " " + name;
    SplitWordPair(ShowNat(size), name);
    ParseShowNat(size);
  }

  /** A listing line "dir name" adds an empty directory to the current directory. */
  lemma ListedDirIsAdded(s: Session, name: string)
    requires Valid(s) && s.listing && Lookup(s.root, s.cwd).value.Dir?
    requires forall i :: 0 <= i < |name| ==> name[i] != ' '
    ensures var r := Step(s, "dir " + name);
      && r.Some? && r.value.cwd == s.cwd && r.value.listing
      && Lookup(r.value.root, s.cwd).value.children == Lookup(s.root, s.cwd).value.children + [Dir(name, [])]
  {
    SplitWordPair("dir", name);
    assert "dir" + " " + name == "dir " + name;
  }

  lemma {:induction false} SplitWordPair(a: string, b: string)
    requires forall i :: 0 <= i < |a| ==> a[i] != ' '
    requires forall i :: 0 <= i < |b| ==> b[i] != ' '
    ensures Split(a + " " + b, {' '}) == [a, b]
    decreases |a|
  {
    if |a| == 0 {
      assert a == "";
      assert a + " " + b == [' '] + b;
      SplitNoSpace(b);
      assert ([' '] + b)[1..] == b;
    } else {
      SplitWordPair(a[1..], b);
      assert (a + " " + b)[1..] == a[1..] + " " + b;
      assert [a[0]] + a[1..] == a;
    }
  }

  lemma {:induction false} SplitNoSpace(b: string)
    requires forall i :: 0 <= i < |b| ==> b[i] != ' '
    ensures Split(b, {' '}) == [b]
    decreases |b|
  {
    if |b| > 0 {
      SplitNoSpace(b[1..]);
      assert [b[0]] + b[1..] == b;
    }
  }

  /** The transcript loop: lines up to the first empty one. */
  function Run(s: Session, lines: seq<string>): (r: Option<Session>)
    requires Valid(s)
    ensures r.Some? ==> Valid(r.value)
    decreases |lines|
  {
    if |lines| == 0 || |lines[0]| == 0 then Some(s)
    else match Step(s, lines[0])
      case None => None
      case Some(t) => Run(t, lines[1..])
  }

  const DriveSize: nat := 70000000
  const UpdateSize: nat := 30000000
  const SmallLimit: nat := 100000

  /** The two answers: the sum of the directories of at most 100000, and the
      smallest directory whose removal frees enough space for the update.
      The size queries fail on a zero-size file, and the unsigned
      subtractions fail when the tree outgrows the drive or already leaves
      enough room. */
  function Solve(lines: seq<string>): (r: Option<(nat, nat)>)
    ensures r.Some? <==>
      && Run(Start(), lines).Some?
      && WellFormed(Run(Start(), lines).value.root)
      && DriveSize - UpdateSize <= DirSize(Run(Start(), lines).value.root) <= DriveSize
    ensures r.Some? ==> var root := Run(Start(), lines).value.root;
      && r.value.0 == SmallSum(Dirs(root), SmallLimit)
      && (DirSize(root) > DriveSize - UpdateSize ==>
            IsSmallestAtLeast(r.value.1, Dirs(root), DirSize(root) - (DriveSize - UpdateSize)))
      && (DirSize(root) == DriveSize - UpdateSize ==>
            r.value.1 == 0 || exists d :: d in Dirs(root) && DirSize(d) == r.value.1)
  {
    match Run(Start(), lines)
    case None => None
    case Some(s) =>
      if !WellFormed(s.root) then None
      else
        var total := DirSize(s.root);
        if total > DriveSize then None
        else
          var free := DriveSize - total;
          if free > UpdateSize then None
          else
            var needed := UpdateSize - free;
            DirsUnderSizeIsSmallSum(s.root, SmallLimit);
            SmallestIsMinimum(s.root, needed);
            SmallestIsSomeDir(s.root, needed);
            Some((DirsUnderSize(s.root, SmallLimit), SmallestDirAtLeast(s.root, needed)))
  }
}

=== FILE: day08_tree_house.dfy ===
/** Treetop tree house: a grid of tree heights, the trees visible from outside
    the grid (seen along a row or column over strictly shorter trees), and the
    scenic score of each tree (the product of its four viewing distances). */
module TreeHouse {
  import opened Common

  /** The heights, row after row, in a flat sequence; `height` is the number
      of whole rows. */
  datatype Grid = Grid(trees: seq<int>, width: nat, height: nat)

  /** The flat position of column `x` of row `y`. */
  function CellIndex(x: nat, y: nat, width: nat): nat
  {
    x + y * width
  }

  /** The program's position formula, which multiplies the row by the
      height rather than the width. */
  function IndexAsWritten(x: nat, y: nat, height: nat): nat
  {
    x + y * height
  }

  /** Whenever the grid is wider than it is high, the program reads cell
      (height, 0) and cell (0, 1) from the same position, though they are
      different trees; three wide and two high, cells (2, 0) and (0, 1) clash. */
  lemma AsWrittenIndexCollides(width: nat, height: nat)
    requires width > height >= 2
    ensures IndexAsWritten(height, 0, height) == IndexAsWritten(0, 1, height)
    ensures CellIndex(height, 0, width) != CellIndex(0, 1, width)
  {
  }

  /** For square grids the two formulas agree, so the program is right there. */
  lemma AsWrittenAgreesWhenSquare(x: nat, y: nat, g: Grid)
    requires g.width == g.height
    ensures IndexAsWritten(x, y, g.height) == CellIndex(x, y, g.width)
  {
  }

  /** Distinct cells of a row-major grid have distinct positions, all inside
      the rows. */
  lemma CellIndexIsInjective(x1: nat, y1: nat, x2: nat, y2: nat, width: nat, height: nat)
    requires x1 < width && x2 < width && y1 < height && y2 < height
    ensures CellIndex(x1, y1, width) < width * height
    ensures CellIndex(x1, y1, width) == CellIndex(x2, y2, width) ==> x1 == x2 && y1 == y2
  {
    RowMajorInRange(x1, y1, width, height);
    if y1 < y2 {
      MulStep(y1, y2, width);
    } else if y2 < y1 {
      MulStep(y2, y1, width);
    }
  }

  predicate Valid(g: Grid)
  {
    g.width > 0 && g.width * g.height <= |g.trees|
  }

  /** The heights of row `y`, left to right. */
  function Row(g: Grid, y: nat): (r: seq<int>)
    requires Valid(g) && y < g.height
    ensures |r| == g.width
    ensures forall x :: 0 <= x < g.width ==> CellIndex(x, y, g.width) < |g.trees| && r[x] == g.trees[CellIndex(x, y, g.width)]
  {
    forall x | 0 <= x < g.width
      ensures CellIndex(x, y, g.width) < |g.trees|
    {
      RowMajorInRange(x, y, g.width, g.height);
    }
    seq(g.width, x requires 0 <= x < g.width => g.trees[CellIndex(x, y, g.width)])
  }

  /** The heights of column `x`, top to bottom. */
  function Column(g: Grid, x: nat): (r: seq<int>)
    requires Valid(g) && x < g.width
    ensures |r| == g.height
    ensures forall y :: 0 <= y < g.height ==> CellIndex(x, y, g.width) < |g.trees| && r[y] == g.trees[CellIndex(x, y, g.width)]
  {
    forall y | 0 <= y < g.height
      ensures CellIndex(x, y, g.width) < |g.trees|
    {
      RowMajorInRange(x, y, g.width, g.height);
    }
    seq(g.height, y requires 0 <= y < g.height => g.trees[CellIndex(x, y, g.width)])
  }

  /** Reads the grid: the first line fixes the width, each character's
      height is its code minus the code of '0', and the height is the number
      of whole rows. An empty first line leaves the width 0 and the division
      by it aborts. */
  function ParseGrid(lines: seq<string>): (r: Option<Grid>)
    ensures r.Some? <==> |lines| > 0 && |lines[0]| > 0
    ensures r.Some? ==> Valid(r.value) && r.value.width == |lines[0]|
    ensures r.Some? ==> var text := Joined(lines);
      && |r.value.trees| == |text|
      && r.value.height == |text| / |lines[0]|
      && forall k :: 0 <= k < |text| && IsDigit(text[k]) ==> r.value.trees[k] == DigitValue(text[k])
  {
    if |lines| == 0 || |lines[0]| == 0 then None
    else
      var trees := Heights(lines);
      var width := |lines[0]|;
      var height := |trees| / width;
      assert width * height <= |trees|;
      Some(Grid(trees, width, height))
  }

  /** The text of the lines before the first empty one, run together: the
      program does not look at where a line ends, so the rows of the grid are
      cut from this text at the first line's width. */
  function Joined(lines: seq<string>): string
  {
    if |lines| == 0 || |lines[0]| == 0 then "" else lines[0] + Joined(lines[1..])
  }

  /** The heights of the lines up to the first empty one, concatenated. */
  function Heights(lines: seq<string>): (r: seq<int>)
    ensures |r| == |Joined(lines)|
    ensures forall k :: 0 <= k < |r| ==> r[k] == (Joined(lines)[k] as int) - ('0' as int)
  {
    if |lines| == 0 || |lines[0]| == 0 then []
    else seq(|lines[0]|, i requires 0 <= i < |lines[0]| => (lines[0][i] as int) - ('0' as int)) + Heights(lines[1..])
  }

  /** Seen from the start of `line`: taller than the running maximum, which
      starts at -1. */
  predicate VisibleFromStart(line: seq<int>, i: nat)
    requires i < |line|
  {
    line[i] > -1 && forall j :: 0 <= j < i ==> line[j] < line[i]
  }

  /** Seen from the end of `line`. */
  predicate VisibleFromEnd(line: seq<int>, i: nat)
    requires i < |line|
  {
    line[i] > -1 && forall j :: i < j < |line| ==> line[j] < line[i]
  }

  /** One scan of the program: walk the line keeping the running maximum, and
      mark each tree that is taller than it. */
  method ScanLine(line: seq<int>) returns (marks: seq<bool>)
    ensures |marks| == |line|
    ensures forall i :: 0 <= i < |line| ==> (marks[i] <==> VisibleFromStart(line, i))
  {
    marks := [];
    var max := -1;
    var i := 0;
    while i < |line|
      invariant 0 <= i <= |line| && |marks| == i
      invariant forall k :: 0 <= k < i ==> (marks[k] <==> VisibleFromStart(line, k))
      invariant max >= -1
      invariant forall j :: 0 <= j < i ==> line[j] <= max
      invariant max == -1 || exists j :: 0 <= j < i && line[j] == max
    {
      var h := line[i];
      if h > max {
        max := h;
        marks := marks + [true];
      } else {
        marks := marks + [false];
      }
      i := i + 1;
    }
  }

  /** Scanning the reversed line marks the trees visible from the end. */
  lemma ReverseScan(line: seq<int>, i: nat)
    requires i < |line|
    ensures VisibleFromStart(Reverse(line), |line| - 1 - i) <==> VisibleFromEnd(line, i)
  {
    var r := Reverse(line);
    if VisibleFromStart(r, |line| - 1 - i) {
      forall j | i < j < |line|
        ensures line[j] < line[i]
      {
        assert r[|line| - 1 - j] == line[j];
      }
    }
    if VisibleFromEnd(line, i) {
      forall j | 0 <= j < |line| - 1 - i
        ensures r[j] < r[|line| - 1 - i]
      {
        assert r[j] == line[|line| - 1 - j];
      }
    }
  }

  function Reverse(s: seq<int>): (r: seq<int>)
    ensures |r| == |s| && forall i :: 0 <= i < |s| ==> r[i] == s[|s| - 1 - i]
  {
    seq(|s|, i requires 0 <= i < |s| => s[|s| - 1 - i])
  }

  function Count(b: bool): nat
  {
    if b then 1 else 0
  }

  /** The number of the four scans (from the top, the left, the bottom and the
      right) that mark a tree. */
  function ViewCount(g: Grid, x: nat, y: nat): (r: nat)
    requires Valid(g) && x < g.width && y < g.height
    ensures r <= 4
    ensures r > 0 <==> (VisibleFromStart(Column(g, x), y) || VisibleFromStart(Row(g, y), x)
      || VisibleFromEnd(Column(g, x), y) || VisibleFromEnd(Row(g, y), x))
  {
    Count(VisibleFromStart(Column(g, x), y)) + Count(VisibleFromStart(Row(g, y), x))
      + Count(VisibleFromEnd(Column(g, x), y)) + Count(VisibleFromEnd(Row(g, y), x))
  }

  /** With digit heights, every tree on the edge is visible: the first tree
      of a scan always beats -1. */
  lemma EdgeTreesAreVisible(g: Grid, x: nat, y: nat)
    requires Valid(g) && x < g.width && y < g.height
    requires forall i :: 0 <= i < |g.trees| ==> g.trees[i] >= 0
    requires x == 0 || y == 0 || x == g.width - 1 || y == g.height - 1
    ensures ViewCount(g, x, y) > 0
  {
    RowMajorInRange(x, y, g.width, g.height);
    var h := g.trees[CellIndex(x, y, g.width)];
    assert Row(g, y)[x] == h && Column(g, x)[y] == h;
  }

  /** Reference definition: the cells of the trees that some scan marks. */
  function VisibleCells(g: Grid): set<(nat, nat)>
    requires Valid(g)
  {
    set x: nat, y: nat | x < g.width && y < g.height && ViewCount(g, x, y) > 0 :: (x, y)
  }

  /** The visible cells that come before column `cx` of row `cy` in
      row-major order. */
  function VisibleBefore(g: Grid, cy: nat, cx: nat): set<(nat, nat)>
    requires Valid(g)
  {
    set x: nat, y: nat | x < g.width && y < g.height && (y < cy || (y == cy && x < cx))
      && ViewCount(g, x, y) > 0 :: (x, y)
  }

  /** The count of positive view counts, taken over the views in row-major
      order as the program does: it is the number of visible trees. */
  method VisibleCount(g: Grid) returns (n: nat)
    requires Valid(g)
    ensures n == |VisibleCells(g)|
  {
    n := 0;
    var y := 0;
    while y < g.height
      invariant y <= g.height
      invariant n == |VisibleBefore(g, y, 0)|
    {
      var x := 0;
      while x < g.width
        invariant x <= g.width
        invariant n == |VisibleBefore(g, y, x)|
      {
        VisibleBeforeStep(g, x, y);
        if ViewCount(g, x, y) > 0 {
          n := n + 1;
        }
        x := x + 1;
      }
      VisibleBeforeNextRow(g, y);
      y := y + 1;
    }
    VisibleBeforeAll(g);
  }

  /** The end of a row is the start of the next. */
  lemma VisibleBeforeNextRow(g: Grid, y: nat)
    requires Valid(g)
    ensures VisibleBefore(g, y, g.width) == VisibleBefore(g, y + 1, 0)
  {
  }

  /** Past the last row, every visible cell has been passed. */
  lemma VisibleBeforeAll(g: Grid)
    requires Valid(g)
    ensures VisibleBefore(g, g.height, 0) == VisibleCells(g)
  {
  }

  /** Passing one more cell of the row counts it exactly when it is
      visible. */
  lemma VisibleBeforeStep(g: Grid, x: nat, y: nat)
    requires Valid(g) && x < g.width && y < g.height
    ensures |VisibleBefore(g, y, x + 1)| == |VisibleBefore(g, y, x)| + Count(ViewCount(g, x, y) > 0)
  {
    assert (x, y) !in VisibleBefore(g, y, x);
    assert VisibleBefore(g, y, x + 1)
      == VisibleBefore(g, y, x) + (if ViewCount(g, x, y) > 0 then {(x, y)} else {});
  }

  /** Viewing distance towards the end of `line` from position `i`: trees up
      to and including the first one at least as tall, or to the edge. */
  method ViewDistance(line: seq<int>, i: nat) returns (d: nat)
    requires i < |line|
    ensures i + d < |line|
    ensures d == 0 <==> i == |line| - 1
    ensures forall j :: i < j < i + d ==> line[j] < line[i]
    ensures i + d < |line| - 1 ==> line[i + d] >= line[i]
  {
    d := 0;
    var t := i + 1;
    while t < |line|
      invariant i + 1 <= t <= |line|
      invariant d == t - i - 1
      invariant forall j :: i < j < t ==> line[j] < line[i]
    {
      d := d + 1;
      if line[t] >= line[i] {
        return;
      }
      t := t + 1;
    }
  }

  /** Reference definition of the viewing distance. */
  function Distance(line: seq<int>, i: nat): (d: nat)
    requires i < |line|
    ensures i + d < |line|
    decreases |line| - i
  {
    DistanceFrom(line, i, i + 1)
  }

  function DistanceFrom(line: seq<int>, i: nat, t: nat): (d: nat)
    requires i < t <= |line|
    ensures t - i - 1 <= d && i + d < |line|
    decreases |line| - t
  {
    if t == |line| then t - i - 1
    else if line[t] >= line[i] then t - i
    else DistanceFrom(line, i, t + 1)
  }

  /** The loop's contract determines its result: it is the reference distance. */
  lemma {:induction false} DistanceIsUnique(line: seq<int>, i: nat, d: nat)
    requires i < |line| && i + d < |line|
    requires d == 0 <==> i == |line| - 1
    requires forall j :: i < j < i + d ==> line[j] < line[i]
    requires i + d < |line| - 1 ==> line[i + d] >= line[i]
    ensures d == Distance(line, i)
  {
    DistanceFromIsUnique(line, i, i + 1, d);
  }

  lemma {:induction false} DistanceFromIsUnique(line: seq<int>, i: nat, t: nat, d: nat)
    requires i < t <= |line| && i + d < |line| && t - i - 1 <= d
    requires t == |line| || t <= i + d
    requires forall j :: i < j < i + d ==> line[j] < line[i]
    requires i + d < |line| - 1 ==> line[i + d] >= line[i]
    ensures d == DistanceFrom(line, i, t)
    decreases |line| - t
  {
    if t < |line| && line[t] < line[i] {
      DistanceFromIsUnique(line, i, t + 1, d);
    }
  }

  /** The scenic score: the product of the four viewing distances; looking
      left or up is looking along the reversed row or column. */
  function ScenicScore(g: Grid, x: nat, y: nat): (s: nat)
    requires Valid(g) && x < g.width && y < g.height
    ensures x == 0 || y == 0 || x == g.width - 1 || y == g.height - 1 ==> s == 0
  {
    var row := Row(g, y);
    var col := Column(g, x);
    var left := Distance(Reverse(row), g.width - 1 - x);
    var right := Distance(row, x);
    var up := Distance(Reverse(col), g.height - 1 - y);
    var down := Distance(col, y);
    DistanceZeroAtEnd(Reverse(row), g.width - 1 - x);
    DistanceZeroAtEnd(row, x);
    DistanceZeroAtEnd(Reverse(col), g.height - 1 - y);
    DistanceZeroAtEnd(col, y);
    Product(Product(left, right), Product(up, down))
  }

  function Product(a: nat, b: nat): (r: nat)
    ensures a == 0 || b == 0 ==> r == 0
  {
    a * b
  }

  lemma DistanceZeroAtEnd(line: seq<int>, i: nat)
    requires i < |line|
    ensures i == |line| - 1 <==> Distance(line, i) == 0
  {
  }

  /** The best scenic score over the grid: the largest of the rows' largest
      scores. */
  function MostScenic(g: Grid): nat
    requires Valid(g)
  {
    MaxOf(RowMaxima(g))
  }

  function RowMaxima(g: Grid): (s: seq<nat>)
    requires Valid(g)
    ensures |s| == g.height
  {
    seq(g.height, y requires 0 <= y < g.height => MaxOf(RowScores(g, y)))
  }

  /** The best score is at least every tree's score and is attained by some
      tree (0 for an empty grid). */
  lemma MostScenicIsBest(g: Grid)
    requires Valid(g)
    ensures forall x, y :: 0 <= x < g.width && 0 <= y < g.height ==> ScenicScore(g, x, y) <= MostScenic(g)
    ensures MostScenic(g) == 0
      || exists x, y :: 0 <= x < g.width && 0 <= y < g.height && ScenicScore(g, x, y) == MostScenic(g)
  {
    MostScenicBounds(g);
    if MostScenic(g) != 0 {
      var x, y := MostScenicAttained(g);
    }
  }

  lemma MostScenicBounds(g: Grid)
    requires Valid(g)
    ensures forall x, y :: 0 <= x < g.width && 0 <= y < g.height ==> ScenicScore(g, x, y) <= MostScenic(g)
  {
    var t := ScoreTable(g);
    MaxOfMaxima(t, RowMaxima(g));
    forall x, y | 0 <= x < g.width && 0 <= y < g.height
      ensures ScenicScore(g, x, y) <= MostScenic(g)
    {
      assert t[y][x] == ScenicScore(g, x, y);
    }
  }

  lemma MostScenicAttained(g: Grid) returns (x: nat, y: nat)
    requires Valid(g) && MostScenic(g) != 0
    ensures x < g.width && y < g.height && ScenicScore(g, x, y) == MostScenic(g)
  {
    var t := ScoreTable(g);
    MaxOfMaxima(t, RowMaxima(g));
    y, x :| 0 <= y < |t| && 0 <= x < |t[y]| && t[y][x] == MostScenic(g);
  }

  /** The table of every tree's score, row by row, whose row maxima are
      `RowMaxima`. */
  lemma ScoreTable(g: Grid) returns (t: seq<seq<nat>>)
    requires Valid(g)
    ensures |t| == g.height
    ensures forall y :: 0 <= y < |t| ==> |t[y]| == g.width && RowMaxima(g)[y] == MaxOf(t[y])
    ensures forall y, x :: 0 <= y < |t| && 0 <= x < |t[y]| ==> t[y][x] == ScenicScore(g, x, y)
  {
    t := seq(g.height, y requires 0 <= y < g.height => RowScores(g, y));
  }

  /** The largest of the rows' maxima bounds every entry and, unless it is
      0, is one of them. */
  lemma MaxOfMaxima(t: seq<seq<nat>>, rows: seq<nat>)
    requires |rows| == |t| && forall y :: 0 <= y < |t| ==> rows[y] == MaxOf(t[y])
    ensures forall y, x :: 0 <= y < |t| && 0 <= x < |t[y]| ==> t[y][x] <= MaxOf(rows)
    ensures MaxOf(rows) == 0 || exists y, x :: 0 <= y < |t| && 0 <= x < |t[y]| && t[y][x] == MaxOf(rows)
  {
    var r := MaxOf(rows);
    forall y, x | 0 <= y < |t| && 0 <= x < |t[y]|
      ensures t[y][x] <= r
    {
      assert t[y][x] <= rows[y];
    }
    if r != 0 {
      var y :| 0 <= y < |rows| && rows[y] == r;
      var x :| 0 <= x < |t[y]| && t[y][x] == r;
    }
  }

  /** The scores of row `y`, left to right. */
  function RowScores(g: Grid, y: nat): (s: seq<nat>)
    requires Valid(g) && y < g.height
    ensures |s| == g.width
  {
    seq(g.width, x requires 0 <= x < g.width => ScenicScore(g, x, y))
  }

  /** The largest element, or 0 for an empty sequence. */
  function MaxOf(s: seq<nat>): (r: nat)
    ensures forall i :: 0 <= i < |s| ==> s[i] <= r
    ensures r == 0 || exists i :: 0 <= i < |s| && s[i] == r
  {
    if |s| == 0 then 0
    else
      var rest := MaxOf(s[1..]);
      if s[0] >= rest then s[0] else rest
  }
}

=== FILE: day09_rope.dfy ===
/** Rope bridge: a rope of ten knots on the integer plane. The head is moved
    by the commands; every other knot follows its predecessor, and the
    positions of the last knot are collected. */
module Rope {
  import opened Common

  datatype Point = Point(x: int, y: int)

  const Origin: Point := Point(0, 0)
  const KnotCount: nat := 10

  /** Within one step of each other on both axes (touching or overlapping). */
  predicate Touching(a: Point, b: Point)
  {
    Abs(a.x - b.x) <= 1 && Abs(a.y - b.y) <= 1
  }

  /** The largest of the two axis distances. */
  function Chebyshev(a: Point, b: Point): nat
  {
    if Abs(a.x - b.x) >= Abs(a.y - b.y) then Abs(a.x - b.x) else Abs(a.y - b.y)
  }

  function Sign(d: int): (r: int)
    ensures r == 0 <==> d == 0
    ensures r > 0 <==> d > 0
    ensures Abs(r) <= 1
  {
    if d > 0 then 1 else if d < 0 then -1 else 0
  }

  /** One knot `t` following the knot `h` ahead of it: nothing happens while
      they touch; otherwise each coordinate that differs moves one unit toward
      the leader. */
  function MoveTail(h: Point, t: Point): (r: Point)
    ensures Touching(h, t) ==> r == t
    ensures !Touching(h, t) ==> r.x == t.x + Sign(h.x - t.x) && r.y == t.y + Sign(h.y - t.y)
    ensures Abs(r.x - t.x) <= 1 && Abs(r.y - t.y) <= 1
    ensures Abs(h.x - t.x) <= 2 && Abs(h.y - t.y) <= 2 ==> Touching(h, r)
  {
    var dx := t.x - h.x;
    var dy := t.y - h.y;
    if Abs(dx) <= 1 && Abs(dy) <= 1 then t
    else
      var nx := if dx < 0 then t.x + 1 else if dx > 0 then t.x - 1 else t.x;
      var ny := if dy < 0 then t.y + 1 else if dy > 0 then t.y - 1 else t.y;
      Point(nx, ny)
  }

  /** A knot that does not touch its leader gets exactly one step closer in
      the Chebyshev distance; a touching one keeps its distance. */
  lemma MoveTailClosesGap(h: Point, t: Point)
    ensures Touching(h, t) ==> Chebyshev(h, MoveTail(h, t)) == Chebyshev(h, t)
    ensures !Touching(h, t) ==> Chebyshev(h, MoveTail(h, t)) == Chebyshev(h, t) - 1
  {
    var r := MoveTail(h, t);
    if !Touching(h, t) {
      assert Abs(h.x - r.x) == if h.x == t.x then 0 else Abs(h.x - t.x) - 1;
      assert Abs(h.y - r.y) == if h.y == t.y then 0 else Abs(h.y - t.y) - 1;
    }
  }

  /** The knots from `j` on, each moved after its predecessor in turn, the
      predecessor already in its new place. */
  function Follow(rope: seq<Point>, j: nat): (r: seq<Point>)
    requires 1 <= j <= |rope|
    ensures |r| == |rope|
    ensures forall k :: 0 <= k < j ==> r[k] == rope[k]
    ensures forall k :: j <= k < |r| ==> r[k] == MoveTail(r[k - 1], rope[k])
    decreases |rope| - j
  {
    if j == |rope| then rope
    else Follow(rope[j := MoveTail(rope[j - 1], rope[j])], j + 1)
  }

  /** One unit step of the head by (dx, dy), then knots 1.. in order. */
  function StepRope(rope: seq<Point>, dx: int, dy: int): (r: seq<Point>)
    requires |rope| >= 1
    ensures |r| == |rope|
    ensures r[0] == Point(rope[0].x + dx, rope[0].y + dy)
    ensures forall k :: 1 <= k < |r| ==> r[k] == MoveTail(r[k - 1], rope[k])
  {
    Follow(rope[0 := Point(rope[0].x + dx, rope[0].y + dy)], 1)
  }

  /** Every knot touches the one ahead of it. */
  predicate Taut(rope: seq<Point>)
  {
    forall k :: 1 <= k < |rope| ==> Touching(rope[k - 1], rope[k])
  }

  /** A head step of at most one unit per axis keeps the rope taut: each knot's
      leader has moved at most one unit per axis, so the knot is at most two
      away and catches up. */
  lemma StepKeepsTaut(rope: seq<Point>, dx: int, dy: int)
    requires |rope| >= 1
    ensures Taut(rope) && Abs(dx) <= 1 && Abs(dy) <= 1 ==> Taut(StepRope(rope, dx, dy))
  {
    var r := StepRope(rope, dx, dy);
    forall k | 1 <= k < |r| && Taut(rope) && Abs(dx) <= 1 && Abs(dy) <= 1
      ensures Touching(r[k - 1], r[k])
    {
      if k >= 2 {
        assert r[k - 1] == MoveTail(r[k - 2], rope[k - 1]);
      }
      assert Touching(rope[k - 1], rope[k]);
    }
  }

  /** The program state: the rope and the set of places its last knot has
      been. */
  datatype State = State(rope: seq<Point>, visited: set<Point>)

  function Init(): (s: State)
    ensures |s.rope| == KnotCount && Taut(s.rope)
    ensures s.visited == {Origin}
  {
    State(seq(KnotCount, _ => Origin), {Origin})
  }

  function Last(rope: seq<Point>): Point
    requires |rope| >= 1
  {
    rope[|rope| - 1]
  }

  /** `n` unit steps in one direction, recording the last knot after each;
      a count of zero or less does nothing. */
  function Repeat(s: State, dx: int, dy: int, n: int): (r: State)
    requires |s.rope| >= 1
    ensures |r.rope| == |s.rope|
    ensures s.visited <= r.visited
    ensures n > 0 ==> Last(r.rope) in r.visited
    ensures n <= 0 ==> r == s
    ensures Taut(s.rope) && Abs(dx) <= 1 && Abs(dy) <= 1 ==> Taut(r.rope)
    decreases n
  {
    if n <= 0 then s
    else
      var rope := StepRope(s.rope, dx, dy);
      StepKeepsTaut(s.rope, dx, dy);
      Repeat(State(rope, s.visited + {Last(rope)}), dx, dy, n - 1)
  }

  /** A command line "D n": the text is split at spaces, the second piece must
      be an integer and the first one of U, D, L, R, or the program aborts.
      The result is the unit step and the repeat count. */
  function ParseCommand(line: string): (r: Option<(int, int, int)>)
    ensures r.Some? ==> Abs(r.value.0) + Abs(r.value.1) == 1
    ensures r.Some? <==> (|Split(line, {' '})| >= 2
      && ParseInt(Split(line, {' '})[1]).Some?
      && Split(line, {' '})[0] in {"U", "D", "L", "R"})
  {
    var args := Split(line, {' '});
    if |args| < 2 then None
    else match ParseInt(args[1])
      case None => None
      case Some(n) =>
        if args[0] == "U" then Some((0, 1, n))
        else if args[0] == "D" then Some((0, -1, n))
        else if args[0] == "L" then Some((-1, 0, n))
        else if args[0] == "R" then Some((1, 0, n))
        else None
  }

  /** The unit step of a direction letter. */
  function Direction(d: char): (int, int)
  {
    match d
      case 'U' => (0, 1)
      case 'D' => (0, -1)
      case 'L' => (-1, 0)
      case _ => (1, 0)
  }

  /** Parsing a printed command gives back its step and count. */
  lemma ParseShowCommand(d: char, n: nat)
    requires d in {'U', 'D', 'L', 'R'}
    ensures ParseCommand([d, ' '] + ShowNat(n)) == Some((Direction(d).0, Direction(d).1, n))
  {
    var line := [d, ' '] + ShowNat(n);
    SplitAfterPiece([], line[1..], ' ', {' '});
    assert line[1..][1..] == ShowNat(n);
    DigitsHaveNoSeparator(ShowNat(n), {' '});
    SplitNoSeparator(ShowNat(n), {' '});
    assert Split(line[1..], {' '}) == ["", ShowNat(n)];
    var rest := Split(line[1..], {' '});
    assert Split(line, {' '}) == [[line[0]] + rest[0]] + rest[1..];
    assert [d] + "" == [d];
    ParseShowInt(n);
  }

  /** The command lines up to the first empty one, each applied in turn; None
      if one of them is malformed. */
  function Run(s: State, lines: seq<string>): (r: Option<State>)
    requires |s.rope| >= 1
    ensures r.Some? ==> |r.value.rope| == |s.rope|
    ensures r.Some? ==> s.visited <= r.value.visited
    ensures r.Some? && Taut(s.rope) ==> Taut(r.value.rope)
    decreases |lines|
  {
    if |lines| == 0 || |lines[0]| == 0 then Some(s)
    else match ParseCommand(lines[0])
      case None => None
      case Some((dx, dy, n)) => Run(Repeat(s, dx, dy, n), lines[1..])
  }

  /** The number of places the tail visited, the origin included. */
  function Solve(lines: seq<string>): (r: Option<nat>)
    ensures r.Some? ==> r.value >= 1
  {
    match Run(Init(), lines)
      case None => None
      case Some(s) => Some(|s.visited|)
  }

  /** The head moves the command lines ask for, one unit step per entry,
      up to the first empty line; None if a line is malformed. This and
      the two functions below describe the run without any state. */
  function Moves(lines: seq<string>): (r: Option<seq<(int, int)>>)
    decreases |lines|
  {
    if |lines| == 0 || |lines[0]| == 0 then Some([])
    else match ParseCommand(lines[0])
      case None => None
      case Some((dx, dy, n)) =>
        match Moves(lines[1..])
          case None => None
          case Some(rest) => Some(Copies((dx, dy), n) + rest)
  }

  /** `n` copies of one step; none when `n` is zero or less. */
  function Copies(m: (int, int), n: int): (r: seq<(int, int)>)
    ensures |r| == if n <= 0 then 0 else n
    ensures forall k :: 0 <= k < |r| ==> r[k] == m
  {
    if n <= 0 then [] else seq(n, _ => m)
  }

  /** The rope after the head steps through `moves`. */
  function Apply(rope: seq<Point>, moves: seq<(int, int)>): (r: seq<Point>)
    requires |rope| >= 1
    ensures |r| == |rope|
    decreases |moves|
  {
    if |moves| == 0 then rope
    else Apply(StepRope(rope, moves[0].0, moves[0].1), moves[1..])
  }

  /** Where the last knot is after each step of `moves`, in order. */
  function Trace(rope: seq<Point>, moves: seq<(int, int)>): (r: seq<Point>)
    requires |rope| >= 1
    ensures |r| == |moves|
    decreases |moves|
  {
    if |moves| == 0 then []
    else
      var next := StepRope(rope, moves[0].0, moves[0].1);
      [Last(next)] + Trace(next, moves[1..])
  }

  function Elements(t: seq<Point>): set<Point>
  {
    set p | p in t
  }

  lemma ElementsAppend(a: seq<Point>, b: seq<Point>)
    ensures Elements(a + b) == Elements(a) + Elements(b)
  {
    assert forall p :: p in a + b <==> p in a || p in b;
  }

  /** Stepping through two runs of moves is stepping through the first and
      then the second, and so is the trace of the last knot. */
  lemma {:induction false} ApplyAppend(rope: seq<Point>, a: seq<(int, int)>, b: seq<(int, int)>)
    requires |rope| >= 1
    ensures Apply(rope, a + b) == Apply(Apply(rope, a), b)
    ensures Trace(rope, a + b) == Trace(rope, a) + Trace(Apply(rope, a), b)
    decreases |a|
  {
    if |a| > 0 {
      var next := StepRope(rope, a[0].0, a[0].1);
      assert (a + b)[0] == a[0] && (a + b)[1..] == a[1..] + b;
      ApplyAppend(next, a[1..], b);
    } else {
      assert a + b == b;
    }
  }

  /** `n` steps of the loop leave the rope where the moves take it and add
      the places the last knot passes through. */
  lemma {:induction false} RepeatIsTrace(s: State, dx: int, dy: int, n: int)
    requires |s.rope| >= 1
    ensures var r := Repeat(s, dx, dy, n);
      r.rope == Apply(s.rope, Copies((dx, dy), n))
      && r.visited == s.visited + Elements(Trace(s.rope, Copies((dx, dy), n)))
    decreases n
  {
    if n > 0 {
      var rope := StepRope(s.rope, dx, dy);
      var next := State(rope, s.visited + {Last(rope)});
      var ms, tail := Copies((dx, dy), n), Copies((dx, dy), n - 1);
      assert ms[0] == (dx, dy) && ms[1..] == tail;
      assert Repeat(s, dx, dy, n) == Repeat(next, dx, dy, n - 1);
      RepeatIsTrace(next, dx, dy, n - 1);
      assert Apply(s.rope, ms) == Apply(rope, tail);
      assert Trace(s.rope, ms) == [Last(rope)] + Trace(rope, tail);
      ElementsAppend([Last(rope)], Trace(rope, tail));
      assert Elements(Trace(s.rope, ms)) == Elements([Last(rope)]) + Elements(Trace(rope, tail));
      assert Repeat(next, dx, dy, n - 1).visited == (s.visited + {Last(rope)}) + Elements(Trace(rope, tail));
      VisitedStep(s.visited, Last(rope), Elements(Trace(rope, tail)), Elements(Trace(s.rope, ms)),
        Repeat(next, dx, dy, n - 1).visited);
    } else {
      assert Copies((dx, dy), n) == [];
      assert Elements([]) == {};
    }
  }

  lemma VisitedStep(v: set<Point>, p: Point, later: set<Point>, all: set<Point>, r: set<Point>)
    requires all == Elements([p]) + later && r == (v + {p}) + later
    ensures r == v + all
  {
    assert Elements([p]) == {p};
  }

  /** The command loop fails exactly when a line before the first empty one
      is malformed. Otherwise it leaves the rope where the moves take it and
      adds exactly the places of the last knot after each step. */
  lemma {:induction false} RunIsTrace(s: State, lines: seq<string>)
    requires |s.rope| >= 1
    ensures Run(s, lines).Some? <==> Moves(lines).Some?
    ensures Run(s, lines).Some? ==>
      Run(s, lines).value.rope == Apply(s.rope, Moves(lines).value)
      && Run(s, lines).value.visited == s.visited + Elements(Trace(s.rope, Moves(lines).value))
    decreases |lines|
  {
    if |lines| > 0 && |lines[0]| > 0 {
      match ParseCommand(lines[0])
      case None =>
      case Some((dx, dy, n)) =>
        var next := Repeat(s, dx, dy, n);
        RepeatIsTrace(s, dx, dy, n);
        RunIsTrace(next, lines[1..]);
        if Moves(lines[1..]).Some? {
          var ms := Copies((dx, dy), n);
          ApplyAppend(s.rope, ms, Moves(lines[1..]).value);
          ElementsAppend(Trace(s.rope, ms), Trace(Apply(s.rope, ms), Moves(lines[1..]).value));
        }
    }
  }

  /** The answer is the number of different places the last knot occupies:
      the origin and its place after every unit step. */
  lemma SolveCountsTrace(lines: seq<string>)
    ensures Solve(lines).Some? <==> Moves(lines).Some?
    ensures Solve(lines).Some? ==>
      Solve(lines).value == |{Origin} + Elements(Trace(Init().rope, Moves(lines).value))|
  {
    RunIsTrace(Init(), lines);
  }
}

=== FILE: day10_cathode_ray.dfy ===
/** Cathode-ray tube: a one-register CPU runs `noop` (one cycle) and `addx n`
    (two cycles, then x += n). During every cycle the signal strength is
    sampled and one pixel of a 40-wide screen is drawn. */
module CathodeRay {
  import opened Common

  const ScreenWidth: nat := 40

  /** The cycles at which the signal strength is sampled. */
  predicate IsSampleCycle(cycle: int)
  {
    exists k :: 0 <= k <= 5 && cycle == SampleAt(k)
  }

  function SampleAt(k: nat): int
  {
    20 + 40 * k
  }

  /** The signal strength sample of a cycle. */
  function SignalSample(cycle: int, x: int): int
  {
    if cycle < 20 || cycle > 220 then 0
    else if RemT(cycle - 20, 40) == 0 then cycle * x
    else 0
  }

  /** The sample is cycle * x at cycles 20, 60, ..., 220 and 0 at every other
      cycle. */
  lemma SignalSampleAtSampleCycles(cycle: int, x: int)
    ensures IsSampleCycle(cycle) ==> SignalSample(cycle, x) == cycle * x
    ensures !IsSampleCycle(cycle) ==> SignalSample(cycle, x) == 0
  {
    if 20 <= cycle <= 220 && RemT(cycle - 20, 40) == 0 {
      assert cycle == SampleAt((cycle - 20) / 40);
    } else {
      forall k | 0 <= k <= 5
        ensures cycle != SampleAt(k)
      {
      }
    }
  }

  /** Exactly six cycles are sampled. */
  lemma SampleCycles(cycle: int)
    ensures IsSampleCycle(cycle) <==> cycle in {20, 60, 100, 140, 180, 220}
  {
    if cycle in {20, 60, 100, 140, 180, 220} {
      assert cycle == SampleAt((cycle - 20) / 40);
    }
  }

  /** The 1-based column that the beam draws during `cycle`. */
  function Column(cycle: int): int
  {
    RemT(cycle - 1, ScreenWidth) + 1
  }

  lemma ColumnOnScreen(cycle: int)
    requires cycle >= 1
    ensures 1 <= Column(cycle) <= ScreenWidth
    ensures Column(cycle + ScreenWidth) == Column(cycle)
  {
    assert (cycle + ScreenWidth - 1) % ScreenWidth == (cycle - 1) % ScreenWidth;
  }

  /** A pixel is lit when the beam's column is within the three-wide sprite
      whose middle is at 1-based column x + 1. */
  function IsLit(cycle: int, x: int): (r: bool)
    ensures r <==> Abs(Column(cycle) - (x + 1)) <= 1
  {
    var pos := RemT(cycle - 1, ScreenWidth) + 1;
    pos >= x && pos <= x + 2
  }

  function Pixel(cycle: int, x: int): char
  {
    if IsLit(cycle, x) then '#' else '.'
  }

  function Concat(lines: seq<string>): string
  {
    if |lines| == 0 then "" else lines[0] + Concat(lines[1..])
  }

  lemma {:induction false} ConcatAppend(lines: seq<string>, line: string)
    ensures Concat(lines + [line]) == Concat(lines) + line
    decreases |lines|
  {
    if |lines| > 0 {
      assert (lines + [line])[1..] == lines[1..] + [line];
      ConcatAppend(lines[1..], line);
    }
  }

  /** The CPU and the screen: the cycle counter, the register, the running
      signal-strength total, the screen row being drawn and the finished
      rows. */
  datatype Cpu = Cpu(cycle: int, x: int, strength: int, row: string, screen: seq<string>)

  /** Every finished row is a full screen row and the current one is not. */
  predicate ScreenValid(c: Cpu)
  {
    |c.row| < ScreenWidth && forall i :: 0 <= i < |c.screen| ==> |c.screen[i]| == ScreenWidth
  }

  function Init(): (c: Cpu)
    ensures ScreenValid(c)
  {
    Cpu(0, 1, 0, "", [])
  }

  /** One pixel appended to the row; a full row is moved to the screen. */
  function Draw(c: Cpu, p: char): (r: Cpu)
    ensures ScreenValid(c) ==> ScreenValid(r)
    ensures Concat(r.screen) + r.row == Concat(c.screen) + c.row + [p]
    ensures r.cycle == c.cycle && r.x == c.x && r.strength == c.strength
  {
    var row := c.row + [p];
    if |row| == ScreenWidth then
      ConcatAppend(c.screen, row);
      c.(row := "", screen := c.screen + [row])
    else c.(row := row)
  }

  /** One cycle: count it, draw its pixel and add its sample. */
  function Tick(c: Cpu): (r: Cpu)
    ensures r.cycle == c.cycle + 1 && r.x == c.x
    ensures r.strength == c.strength + SignalSample(c.cycle + 1, c.x)
    ensures Concat(r.screen) + r.row == Concat(c.screen) + c.row + [Pixel(c.cycle + 1, c.x)]
    ensures ScreenValid(c) ==> ScreenValid(r)
  {
    var d := Draw(c.(cycle := c.cycle + 1), Pixel(c.cycle + 1, c.x));
    d.(strength := d.strength + SignalSample(c.cycle + 1, c.x))
  }

  datatype Cmd = Noop | Addx(n: int)

  /** The exact text "noop", or "addx n": split at spaces, the first piece must
      be "addx" and the second an integer, or the program aborts. */
  function ParseCmd(line: string): (r: Option<Cmd>)
    ensures line == "noop" ==> r == Some(Noop)
    ensures r.Some? && r.value.Noop? ==> line == "noop"
    ensures var args := Split(line, {' '});
      line != "noop" ==> (r.Some? <==> (args[0] == "addx" && |args| >= 2 && ParseInt(args[1]).Some?))
    ensures var args := Split(line, {' '});
      r.Some? && line != "noop" ==> |args| >= 2 && r == Some(Addx(ParseInt(args[1]).value))
  {
    if line == "noop" then Some(Noop)
    else
      var args := Split(line, {' '});
      if args[0] != "addx" || |args| < 2 then None
      else match ParseInt(args[1])
        case None => None
        case Some(n) => Some(Addx(n))
  }

  /** Parsing a printed addx gives it back. */
  lemma ParseShowAddx(n: nat)
    ensures ParseCmd("addx " + ShowNat(n)) == Some(Addx(n))
  {
    var line := "addx " + ShowNat(n);
    var tail := line[4..];
    assert line == "addx" + tail;
    SplitAfterPiece([], tail, ' ', {' '});
    assert tail[1..] == ShowNat(n);
    DigitsHaveNoSeparator(ShowNat(n), {' '});
    SplitNoSeparator(ShowNat(n), {' '});
    var rest := Split(tail, {' '});
    assert rest == ["", ShowNat(n)];
    SplitWord("addx", tail);
    ParseShowInt(n);
  }

  /** A word of letters in front of a space-led tail joins the tail's first
      piece. */
  lemma {:induction false} SplitWord(w: string, tail: string)
    requires forall i :: 0 <= i < |w| ==> w[i] != ' '
    requires |tail| > 0 && tail[0] == ' '
    ensures Split(w + tail, {' '}) == [w] + Split(tail, {' '})[1..]
    ensures Split(tail, {' '})[0] == ""
    decreases |w|
  {
    if |w| > 0 {
      SplitWord(w[1..], tail);
      assert (w + tail)[1..] == w[1..] + tail;
      assert [w[0]] + w[1..] == w;
    } else {
      assert w + tail == tail;
    }
  }

  /** One instruction: noop takes one cycle; addx takes two, both with the old
      register value, and then adds n. */
  function Exec(c: Cpu, cmd: Cmd): (r: Cpu)
  {
    match cmd
      case Noop => Tick(c)
      case Addx(n) =>
        var t := Tick(Tick(c));
        t.(x := t.x + n)
  }

  function ExecAll(c: Cpu, cmds: seq<Cmd>): Cpu
    decreases |cmds|
  {
    if |cmds| == 0 then c else ExecAll(Exec(c, cmds[0]), cmds[1..])
  }

  /** The instruction lines up to the first empty one, each parsed and then
      run; None if one of them is malformed. */
  function Run(c: Cpu, lines: seq<string>): Option<Cpu>
    decreases |lines|
  {
    if |lines| == 0 || |lines[0]| == 0 then Some(c)
    else match ParseCmd(lines[0])
      case None => None
      case Some(cmd) => Run(Exec(c, cmd), lines[1..])
  }

  function ParseAll(lines: seq<string>): Option<seq<Cmd>>
  {
    if |lines| == 0 || |lines[0]| == 0 then Some([])
    else match (ParseCmd(lines[0]), ParseAll(lines[1..]))
      case (Some(cmd), Some(rest)) => Some([cmd] + rest)
      case _ => None
  }

  /** Running the lines is running their parsed instructions, and it fails
      exactly when one of them does not parse. */
  lemma {:induction false} RunIsExecAll(c: Cpu, lines: seq<string>)
    ensures Run(c, lines).Some? <==> ParseAll(lines).Some?
    ensures ParseAll(lines).Some? ==> Run(c, lines) == Some(ExecAll(c, ParseAll(lines).value))
    decreases |lines|
  {
    if |lines| > 0 && |lines[0]| > 0 && ParseCmd(lines[0]).Some? {
      RunIsExecAll(Exec(c, ParseCmd(lines[0]).value), lines[1..]);
    }
  }

  /** Reference definition: the register's value during each cycle the
      instructions take, starting from x. */
  function Trace(x: int, cmds: seq<Cmd>): seq<int>
    decreases |cmds|
  {
    if |cmds| == 0 then []
    else match cmds[0]
      case Noop => [x] + Trace(x, cmds[1..])
      case Addx(n) => [x, x] + Trace(x + n, cmds[1..])
  }

  /** The sum of the samples of the traced cycles after `start`. */
  function Samples(start: int, trace: seq<int>): int
    decreases |trace|
  {
    if |trace| == 0 then 0 else SignalSample(start + 1, trace[0]) + Samples(start + 1, trace[1..])
  }

  /** The pixels of the traced cycles after `start`. */
  function Pixels(start: int, trace: seq<int>): string
    decreases |trace|
  {
    if |trace| == 0 then "" else [Pixel(start + 1, trace[0])] + Pixels(start + 1, trace[1..])
  }

  /** The final register value: x plus every addx operand. */
  function FinalX(x: int, cmds: seq<Cmd>): int
    decreases |cmds|
  {
    if |cmds| == 0 then x
    else match cmds[0]
      case Noop => FinalX(x, cmds[1..])
      case Addx(n) => FinalX(x + n, cmds[1..])
  }

  /** The CPU spends one cycle per traced register value and ends with the
      register at its final value. */
  lemma ExecAllCycles(c: Cpu, cmds: seq<Cmd>)
    ensures ExecAll(c, cmds).cycle == c.cycle + |Trace(c.x, cmds)|
    ensures ExecAll(c, cmds).x == FinalX(c.x, cmds)
  {
    ExecAllCount(c, cmds);
    ExecAllFinal(c, cmds);
  }

  lemma {:induction false} ExecAllCount(c: Cpu, cmds: seq<Cmd>)
    ensures ExecAll(c, cmds).cycle == c.cycle + |Trace(c.x, cmds)|
    decreases |cmds|
  {
    if |cmds| > 0 {
      var e := Exec(c, cmds[0]);
      var tail := cmds[1..];
      var took := if cmds[0].Noop? then 1 else 2;
      assert e.cycle == c.cycle + took && |Trace(c.x, cmds)| == took + |Trace(e.x, tail)| by {
        ExecCycles(c, cmds[0]);
      }
      ExecAllCount(e, tail);
    }
  }

  lemma {:induction false} ExecAllFinal(c: Cpu, cmds: seq<Cmd>)
    ensures ExecAll(c, cmds).x == FinalX(c.x, cmds)
    decreases |cmds|
  {
    if |cmds| > 0 {
      var e := Exec(c, cmds[0]);
      var tail := cmds[1..];
      assert FinalX(c.x, cmds) == FinalX(e.x, tail) by {
        ExecCycles(c, cmds[0]);
      }
      ExecAllFinal(e, tail);
    }
  }

  lemma ExecCycles(c: Cpu, cmd: Cmd)
    ensures Exec(c, cmd).cycle == c.cycle + (if cmd.Noop? then 1 else 2)
    ensures Exec(c, cmd).x == if cmd.Noop? then c.x else c.x + cmd.n
  {
  }

  /** Each cycle is sampled with the register value the trace gives it. */
  lemma {:induction false} ExecAllSamples(c: Cpu, cmds: seq<Cmd>)
    ensures ExecAll(c, cmds).strength == c.strength + Samples(c.cycle, Trace(c.x, cmds))
    decreases |cmds|
  {
    if |cmds| > 0 {
      ExecSamples(c, cmds);
      ExecAllSamples(Exec(c, cmds[0]), cmds[1..]);
    }
  }

  /** One instruction adds the samples of its own cycles. */
  lemma {:induction false} ExecSamples(c: Cpu, cmds: seq<Cmd>)
    requires |cmds| > 0
    ensures var e := Exec(c, cmds[0]);
      c.strength + Samples(c.cycle, Trace(c.x, cmds)) == e.strength + Samples(e.cycle, Trace(e.x, cmds[1..]))
  {
    var e := Exec(c, cmds[0]);
    var rest := Trace(e.x, cmds[1..]);
    var t := TraceStep(c.x, cmds);
    var s1 := SignalSample(c.cycle + 1, c.x);
    if cmds[0].Noop? {
      assert e == Tick(c);
      assert e.cycle == c.cycle + 1 && e.x == c.x;
      assert Samples(c.cycle, t) == s1 + Samples(c.cycle + 1, t[1..]);
    } else {
      var t1 := Tick(c);
      assert e.strength == t1.strength + SignalSample(c.cycle + 2, c.x);
      assert e.cycle == c.cycle + 2 && e.x == c.x + cmds[0].n;
      assert rest == Trace(c.x + cmds[0].n, cmds[1..]);
      assert Samples(c.cycle, t) == s1 + Samples(c.cycle + 1, t[1..]);
      assert Samples(c.cycle + 1, t[1..]) == SignalSample(c.cycle + 2, c.x) + Samples(c.cycle + 2, rest);
    }
  }

  /** The trace of a program is its first instruction's cycles followed by the
      trace of the rest. */
  lemma {:induction false} TraceStep(x: int, cmds: seq<Cmd>) returns (t: seq<int>)
    requires |cmds| > 0
    ensures t == Trace(x, cmds)
    ensures cmds[0].Noop? ==> t == [x] + Trace(x, cmds[1..]) && t[1..] == Trace(x, cmds[1..])
    ensures cmds[0].Addx? ==> t[1..][1..] == Trace(x + cmds[0].n, cmds[1..]) && t[0] == x && t[1] == x
  {
    t := Trace(x, cmds);
  }

  /** One pixel is drawn for each cycle, from the value the trace gives it,
      and the screen rows stay well formed. */
  lemma {:induction false} ExecAllDraws(c: Cpu, cmds: seq<Cmd>)
    ensures Concat(ExecAll(c, cmds).screen) + ExecAll(c, cmds).row
      == Concat(c.screen) + c.row + Pixels(c.cycle, Trace(c.x, cmds))
    ensures ScreenValid(c) ==> ScreenValid(ExecAll(c, cmds))
    decreases |cmds|
  {
    if |cmds| > 0 {
      var e := Exec(c, cmds[0]);
      ExecDraws(c, cmds);
      ExecKeepsScreen(c, cmds[0]);
      ExecAllDraws(e, cmds[1..]);
      var p := Pixels(e.cycle, Trace(e.x, cmds[1..]));
      assert Concat(c.screen) + c.row + Pixels(c.cycle, Trace(c.x, cmds))
        == (Concat(e.screen) + e.row) + p;
    }
  }

  /** One instruction draws the pixels of its own cycles. */
  lemma ExecDraws(c: Cpu, cmds: seq<Cmd>)
    requires |cmds| > 0
    ensures var e := Exec(c, cmds[0]);
      Concat(c.screen) + c.row + Pixels(c.cycle, Trace(c.x, cmds))
        == Concat(e.screen) + e.row + Pixels(e.cycle, Trace(e.x, cmds[1..]))
  {
    var e := Exec(c, cmds[0]);
    match cmds[0]
    case Noop => NoopDraws(c, e, cmds);
    case Addx(n) => AddxDraws(c, e, cmds, n);
  }

  lemma ExecKeepsScreen(c: Cpu, cmd: Cmd)
    ensures ScreenValid(c) ==> ScreenValid(Exec(c, cmd))
  {
  }

  lemma NoopDraws(c: Cpu, e: Cpu, cmds: seq<Cmd>)
    requires |cmds| > 0 && cmds[0] == Noop && e == Tick(c)
    ensures Concat(c.screen) + c.row + Pixels(c.cycle, Trace(c.x, cmds))
      == Concat(e.screen) + e.row + Pixels(e.cycle, Trace(e.x, cmds[1..]))
  {
    var rest := Trace(e.x, cmds[1..]);
    TraceCons(c.x, cmds, e.x);
    PixelsCons(c.cycle, e.cycle, c.x, rest);
    AppendPixels(Concat(c.screen) + c.row, Concat(e.screen) + e.row, [Pixel(e.cycle, c.x)],
      Pixels(c.cycle, Trace(c.x, cmds)), Pixels(e.cycle, rest));
  }

  lemma AddxDraws(c: Cpu, e: Cpu, cmds: seq<Cmd>, n: int)
    requires |cmds| > 0 && cmds[0] == Addx(n)
    requires e == Tick(Tick(c)).(x := c.x + n)
    ensures Concat(c.screen) + c.row + Pixels(c.cycle, Trace(c.x, cmds))
      == Concat(e.screen) + e.row + Pixels(e.cycle, Trace(e.x, cmds[1..]))
  {
    var a := Concat(c.screen) + c.row;
    var t1 := Tick(c);
    var rest := Trace(e.x, cmds[1..]);
    var (p1, p2) := (Pixel(t1.cycle, c.x), Pixel(e.cycle, c.x));
    assert Pixels(c.cycle, Trace(c.x, cmds)) == [p1, p2] + Pixels(e.cycle, rest) by {
      TraceCons(c.x, cmds, e.x);
      PixelsCons(c.cycle, t1.cycle, c.x, [c.x] + rest);
      PixelsCons(t1.cycle, e.cycle, c.x, rest);
      ConsTwo(p1, p2, Pixels(e.cycle, rest), Pixels(c.cycle, Trace(c.x, cmds)));
    }
    assert Concat(e.screen) + e.row == a + [p1, p2] by {
      var t2 := Tick(t1);
      assert e.screen == t2.screen && e.row == t2.row;
      SnocTwo(a, Concat(t1.screen) + t1.row, Concat(e.screen) + e.row, p1, p2);
    }
    AppendPixels(a, Concat(e.screen) + e.row, [p1, p2], Pixels(c.cycle, Trace(c.x, cmds)), Pixels(e.cycle, rest));
  }

  lemma ConsTwo(p1: char, p2: char, rest: string, all: string)
    requires all == [p1] + ([p2] + rest)
    ensures all == [p1, p2] + rest
  {
  }

  lemma SnocTwo(a: string, mid: string, d: string, p1: char, p2: char)
    requires mid == a + [p1] && d == mid + [p2]
    ensures d == a + [p1, p2]
  {
  }

  /** Drawing `ps` in front of the remaining pixels `rest`. */
  lemma AppendPixels(before: string, after: string, ps: string, all: string, rest: string)
    requires after == before + ps && all == ps + rest
    ensures before + all == after + rest
  {
  }

  /** What one instruction adds to the trace, as a sequence equation. */
  lemma TraceCons(x: int, cmds: seq<Cmd>, y: int)
    requires |cmds| > 0
    requires cmds[0].Noop? ==> y == x
    requires cmds[0].Addx? ==> y == x + cmds[0].n
    ensures cmds[0].Noop? ==> Trace(x, cmds) == [x] + Trace(y, cmds[1..])
    ensures cmds[0].Addx? ==> Trace(x, cmds) == [x] + ([x] + Trace(y, cmds[1..]))
  {
    if cmds[0].Addx? {
      assert [x, x] + Trace(y, cmds[1..]) == [x] + ([x] + Trace(y, cmds[1..]));
    }
  }

  lemma PixelsCons(start: int, next: int, x: int, rest: seq<int>)
    requires next == start + 1
    ensures Pixels(start, [x] + rest) == [Pixel(next, x)] + Pixels(next, rest)
  {
    assert ([x] + rest)[1..] == rest;
  }




  /** The signal-strength answer and the screen rows of a program. */
  function Solve(lines: seq<string>): (r: Option<(int, seq<string>)>)
    ensures r.Some? ==> forall i :: 0 <= i < |r.value.1| ==> |r.value.1[i]| == ScreenWidth
  {
    match Run(Init(), lines)
      case None => None
      case Some(c) =>
        RunIsExecAll(Init(), lines);
        ExecAllDraws(Init(), ParseAll(lines).value);
        Some((c.strength, c.screen))
  }
}

=== FILE: day11_monkeys.dfy ===
/** Monkey in the middle: monkeys inspect the worry levels they hold, change
    each with their operation, reduce it modulo the product of all test
    divisors, and throw it to one of two monkeys depending on a divisibility
    test. The answer is the product of the two largest inspection counts. */
module Monkeys {
  import opened Common
  import opened Sorting

  datatype Operator = MultParam | AddParam | Square

  datatype Monkey = Monkey(
    items: seq<int>,
    op: Operator,
    param: int,
    divisor: int,
    throwFalse: int,
    throwTrue: int,
    inspections: int)

  /** The new worry level after an inspection, before reduction. */
  function Apply(op: Operator, param: int, worry: int): int
  {
    match op
      case AddParam => worry + param
      case MultParam => worry * param
      case Square => worry * worry
  }

  /** The operation line "  Operation: new = old <op> <arg>", split at
      spaces: the third and fifth pieces must be "Operation:" and "=", the
      seventh "+" or "*"; "* old" squares, otherwise the eighth piece is the
      integer parameter. */
  function ParseOperation(line: string): (r: Option<(Operator, int)>)
    ensures var args := Split(line, {' '});
      r.Some? <==> (&& |args| >= 8 && args[2] == "Operation:" && args[4] == "="
                    && (args[6] == "+" || args[6] == "*")
                    && ((args[6] == "*" && args[7] == "old") || ParseInt(args[7]).Some?))
    ensures var args := Split(line, {' '});
      r.Some? ==> (&& (r.value.0 == AddParam <==> args[6] == "+")
                   && (r.value.0 == Square <==> args[6] == "*" && args[7] == "old")
                   && (r.value.0 == Square ==> r.value.1 == 0)
                   && (r.value.0 != Square ==> Some(r.value.1) == ParseInt(args[7])))
  {
    var args := Split(line, {' '});
    if |args| < 7 || args[2] != "Operation:" || args[4] != "=" then None
    else if args[6] != "+" && args[6] != "*" then None
    else if |args| < 8 then None
    else if args[6] == "*" && args[7] == "old" then Some((Square, 0))
    else match ParseInt(args[7])
      case None => None
      case Some(n) => Some((if args[6] == "+" then AddParam else MultParam, n))
  }

  /** The operation line as the puzzle prints it. */
  function ShowOperation(op: Operator, param: nat): string
  {
    Join(["", "", "Operation:", "new", "=", "old", OpSymbol(op), OpArgument(op, param)], ' ')
  }

  function OpSymbol(op: Operator): string
  {
    if op == AddParam then "+" else "*"
  }

  function OpArgument(op: Operator, param: nat): string
  {
    if op == Square then "old" else ShowNat(param)
  }

  /** "old * old" parses as Square, "+ n" as AddParam(n) and "* n" as
      MultParam(n). */
  lemma ParseShowOperation(op: Operator, param: nat)
    ensures ParseOperation(ShowOperation(op, param)) == Some((op, if op == Square then 0 else param))
  {
    if op == Square {
      var args := SplitShowOperation(op, param);
    } else {
      ParseShowParam(op, param);
    }
  }

  lemma ParseShowParam(op: Operator, param: nat)
    requires op != Square
    ensures ParseOperation(ShowOperation(op, param)) == Some((op, param))
  {
    var args := SplitShowOperation(op, param);
    var arg := ShowNat(param);
    assert args[7] == arg;
    assert arg != "old" by {
      assert IsDigit(arg[0]);
    }
    ParseShowInt(param);
  }

  lemma SplitShowOperation(op: Operator, param: nat) returns (args: seq<string>)
    ensures args == Split(ShowOperation(op, param), {' '})
    ensures args == ["", "", "Operation:", "new", "=", "old", OpSymbol(op), OpArgument(op, param)]
  {
    args := ["", "", "Operation:", "new", "=", "old", OpSymbol(op), OpArgument(op, param)];
    if op != Square {
      DigitsHaveNoSeparator(ShowNat(param), {' '});
    }
    forall k | 0 <= k < |args|
      ensures NoSeparator(args[k], {' '})
    {
    }
    SplitJoin(args, ' ');
  }

  /** `a` is a multiple of `d`. */
  ghost predicate Divides(d: int, a: int)
  {
    exists k :: a == d * k
  }

  /** Reducing modulo a multiple of `d` (with Rust's truncating remainder)
      does not change divisibility by `d`. */
  lemma ReductionPreservesDivisibility(w: int, m: int, d: int)
    requires m != 0 && d != 0 && Divides(d, m)
    ensures Divides(d, RemT(w, m)) <==> Divides(d, w)
  {
    var k :| m == d * k;
    var q := DivT(w, m);
    assert RemT(w, m) == w - d * (k * q);
    if Divides(d, w) {
      var a :| w == d * a;
      assert RemT(w, m) == d * (a - k * q);
    }
    if Divides(d, RemT(w, m)) {
      var b :| RemT(w, m) == d * b;
      assert w == d * (b + k * q);
    }
  }

  /** The product of all divisors, which the worry levels are reduced by. */
  function MaxValue(ms: seq<Monkey>): int
  {
    if |ms| == 0 then 1 else MaxValue(ms[..|ms| - 1]) * ms[|ms| - 1].divisor
  }

  /** Every monkey's divisor divides the product. */
  lemma {:induction false} DivisorsDivideMaxValue(ms: seq<Monkey>, i: nat)
    requires i < |ms|
    ensures Divides(ms[i].divisor, MaxValue(ms))
    decreases |ms|
  {
    var last := |ms| - 1;
    var rest := MaxValue(ms[..last]);
    if i == last {
      assert MaxValue(ms) == ms[i].divisor * rest;
    } else {
      DivisorsDivideMaxValue(ms[..last], i);
      var k :| rest == ms[i].divisor * k;
      assert MaxValue(ms) == ms[i].divisor * (k * ms[last].divisor);
    }
  }

  /** One inspection: apply the operation, reduce modulo `maxValue`, and
      choose the target by the divisibility test. Returns (target, worry). */
  function Inspect(mk: Monkey, item: int, maxValue: int): (r: (int, int))
    requires maxValue != 0 && mk.divisor != 0
    ensures r.1 == RemT(Apply(mk.op, mk.param, item), maxValue)
    ensures r.0 == (if Divides(mk.divisor, r.1) then mk.throwTrue else mk.throwFalse)
  {
    var worry := RemT(Apply(mk.op, mk.param, item), maxValue);
    RemTZeroIffDivides(worry, mk.divisor);
    (if RemT(worry, mk.divisor) == 0 then mk.throwTrue else mk.throwFalse, worry)
  }

  /** When the modulus is a multiple of the divisor, the reduction does not
      change where an item is thrown. */
  lemma InspectTargetIgnoresReduction(mk: Monkey, item: int, maxValue: int)
    requires maxValue != 0 && mk.divisor != 0 && Divides(mk.divisor, maxValue)
    ensures Inspect(mk, item, maxValue).0
      == if Divides(mk.divisor, Apply(mk.op, mk.param, item)) then mk.throwTrue else mk.throwFalse
  {
    ReductionPreservesDivisibility(Apply(mk.op, mk.param, item), maxValue, mk.divisor);
  }

  /** The throws of a turn, in item order. */
  function Throws(mk: Monkey, items: seq<int>, maxValue: int): (r: seq<(int, int)>)
    requires maxValue != 0 && mk.divisor != 0
    ensures |r| == |items|
    ensures forall k :: 0 <= k < |items| ==> r[k] == Inspect(mk, items[k], maxValue)
  {
    if |items| == 0 then [] else [Inspect(mk, items[0], maxValue)] + Throws(mk, items[1..], maxValue)
  }

  predicate TargetsInRange(throws: seq<(int, int)>, n: nat)
  {
    forall k :: 0 <= k < |throws| ==> 0 <= throws[k].0 < n
  }

  /** The worry levels thrown to monkey `i`, in throwing order. */
  function ThrownTo(throws: seq<(int, int)>, i: int): seq<int>
  {
    if |throws| == 0 then []
    else (if throws[0].0 == i then [throws[0].1] else []) + ThrownTo(throws[1..], i)
  }

  function TotalItems(ms: seq<Monkey>): nat
  {
    if |ms| == 0 then 0 else |ms[0].items| + TotalItems(ms[1..])
  }

  /** Replacing one monkey's items changes the total by the difference. */
  lemma {:induction false} TotalItemsUpdate(ms: seq<Monkey>, i: nat, items: seq<int>)
    requires i < |ms|
    ensures TotalItems(ms[i := ms[i].(items := items)]) == TotalItems(ms) - |ms[i].items| + |items|
    decreases |ms|
  {
    if i > 0 {
      TotalItemsUpdate(ms[1..], i - 1, items);
      assert ms[i := ms[i].(items := items)][1..] == ms[1..][i - 1 := ms[i].(items := items)];
    }
  }

  /** Each throw appends its worry level to its target's items. */
  function Deliver(ms: seq<Monkey>, throws: seq<(int, int)>): (r: seq<Monkey>)
    requires TargetsInRange(throws, |ms|)
    ensures |r| == |ms|
    ensures TotalItems(r) == TotalItems(ms) + |throws|
    decreases |throws|
  {
    if |throws| == 0 then ms
    else
      var (t, w) := throws[0];
      TotalItemsUpdate(ms, t, ms[t].items + [w]);
      Deliver(ms[t := ms[t].(items := ms[t].items + [w])], throws[1..])
  }

  /** After delivery every monkey holds its old items followed by the items
      thrown to it, in throwing order; nothing else about it changes. */
  lemma {:induction false} DeliverAppends(ms: seq<Monkey>, throws: seq<(int, int)>, i: nat)
    requires TargetsInRange(throws, |ms|) && i < |ms|
    ensures Deliver(ms, throws)[i] == ms[i].(items := ms[i].items + ThrownTo(throws, i))
    decreases |throws|
  {
    if |throws| == 0 {
      assert ms[i].items + [] == ms[i].items;
    } else {
      var (t, w) := throws[0];
      var next := ms[t := ms[t].(items := ms[t].items + [w])];
      DeliverAppends(next, throws[1..], i);
      var mine := if t == i then [w] else [];
      assert next[i].items == ms[i].items + mine;
      assert ThrownTo(throws, i) == mine + ThrownTo(throws[1..], i);
      assert ms[i].items + (mine + ThrownTo(throws[1..], i)) == (ms[i].items + mine) + ThrownTo(throws[1..], i);
    }
  }

  /** One monkey's turn. Every held item is inspected and thrown, its
      inspection count grows by the number of items, and the thrown items are
      appended to their targets afterwards. A zero modulus or divisor, or a
      target that is not a monkey, aborts the program. */
  function Turn(ms: seq<Monkey>, m: nat, maxValue: int): (r: Option<seq<Monkey>>)
    requires m < |ms|
    ensures r.Some? <==> (|ms[m].items| == 0
      || (maxValue != 0 && ms[m].divisor != 0
        && forall k :: 0 <= k < |ms[m].items| ==> 0 <= Inspect(ms[m], ms[m].items[k], maxValue).0 < |ms|))
    ensures r.Some? ==> |r.value| == |ms| && TotalItems(r.value) == TotalItems(ms)
    ensures r.Some? ==> r.value[m].inspections == ms[m].inspections + |ms[m].items|
    ensures r.Some? ==> forall i :: 0 <= i < |ms| && i != m ==> r.value[i].inspections == ms[i].inspections
    ensures r.Some? && maxValue != 0 && ms[m].divisor != 0 ==>
      (forall k :: 0 <= k < |ms[m].items| ==> Inspect(ms[m], ms[m].items[k], maxValue).0 != m)
      ==> r.value[m].items == []
  {
    var mk := ms[m];
    if |mk.items| == 0 then Some(ms)
    else if maxValue == 0 || mk.divisor == 0 then None
    else
      var throws := Throws(mk, mk.items, maxValue);
      if !TargetsInRange(throws, |ms|) then None
      else
        var cleared := ms[m := mk.(items := [], inspections := mk.inspections + |mk.items|)];
        assert cleared == ms[m := mk.(items := [])][m := mk.(items := [], inspections := mk.inspections + |mk.items|)];
        TotalItemsUpdate(ms, m, []);
        assert TotalItems(cleared) == TotalItems(ms[m := mk.(items := [])]) by {
          TotalItemsSameCounts(cleared, ms[m := mk.(items := [])]);
        }
        NotThrownToMeansEmpty(throws, m);
        DeliverAppends(cleared, throws, m);
        assert forall i :: 0 <= i < |ms| && i != m ==> Deliver(cleared, throws)[i].inspections == ms[i].inspections by {
          forall i | 0 <= i < |ms| && i != m
            ensures Deliver(cleared, throws)[i].inspections == ms[i].inspections
          {
            DeliverAppends(cleared, throws, i);
          }
        }
        Some(Deliver(cleared, throws))
  }

  lemma {:induction false} TotalItemsSameCounts(a: seq<Monkey>, b: seq<Monkey>)
    requires |a| == |b| && forall i :: 0 <= i < |a| ==> |a[i].items| == |b[i].items|
    ensures TotalItems(a) == TotalItems(b)
    decreases |a|
  {
    if |a| > 0 {
      TotalItemsSameCounts(a[1..], b[1..]);
    }
  }

  lemma {:induction false} NotThrownToMeansEmpty(throws: seq<(int, int)>, i: int)
    ensures (forall k :: 0 <= k < |throws| ==> throws[k].0 != i) ==> ThrownTo(throws, i) == []
    decreases |throws|
  {
    if |throws| > 0 {
      NotThrownToMeansEmpty(throws[1..], i);
    }
  }

  /** The turns of monkeys m, m+1, ... in order. */
  function RoundFrom(ms: seq<Monkey>, m: nat, maxValue: int): (r: Option<seq<Monkey>>)
    requires m <= |ms|
    ensures r.Some? ==> |r.value| == |ms| && TotalItems(r.value) == TotalItems(ms)
    decreases |ms| - m
  {
    if m == |ms| then Some(ms)
    else match Turn(ms, m, maxValue)
      case None => None
      case Some(next) => RoundFrom(next, m + 1, maxValue)
  }

  /** `n` rounds of every monkey's turn. */
  function Rounds(ms: seq<Monkey>, maxValue: int, n: nat): (r: Option<seq<Monkey>>)
    ensures r.Some? ==> |r.value| == |ms| && TotalItems(r.value) == TotalItems(ms)
    decreases n
  {
    if n == 0 then Some(ms)
    else match RoundFrom(ms, 0, maxValue)
      case None => None
      case Some(next) => Rounds(next, maxValue, n - 1)
  }

  function Inspections(ms: seq<Monkey>): (r: seq<int>)
    ensures |r| == |ms| && forall i :: 0 <= i < |ms| ==> r[i] == ms[i].inspections
  {
    seq(|ms|, i requires 0 <= i < |ms| => ms[i].inspections)
  }

  /** Monkey business: the inspection counts sorted largest first, and the
      product of the first two. Fewer than two monkeys aborts the program. */
  function MonkeyBusiness(ms: seq<Monkey>): (r: Option<int>)
    ensures r.Some? <==> |ms| >= 2
  {
    var sorted := SortDescending(Inspections(ms));
    if |sorted| < 2 then None else Some(sorted[0] * sorted[1])
  }

  /** With non-negative counts, monkey business is the largest product of the
      counts of two different monkeys. */
  lemma MonkeyBusinessIsTopTwo(ms: seq<Monkey>)
    requires |ms| >= 2 && forall i :: 0 <= i < |ms| ==> ms[i].inspections >= 0
    ensures forall i, j :: (0 <= i < |ms| && 0 <= j < |ms| && i != j
      ==> ms[i].inspections * ms[j].inspections <= MonkeyBusiness(ms).value)
    ensures exists i, j :: (0 <= i < |ms| && 0 <= j < |ms| && i != j
      && ms[i].inspections * ms[j].inspections == MonkeyBusiness(ms).value)
  {
    var ins := Inspections(ms);
    TopTwoProduct(ins);
    var i, j :| 0 <= i < |ins| && 0 <= j < |ins| && i != j && ins[i] * ins[j] == MonkeyBusiness(ms).value;
    assert ms[i].inspections * ms[j].inspections == MonkeyBusiness(ms).value;
  }

  /** The starting-items line: the text after the first ": " must follow the
      prefix "  Starting items"; its commas are dropped, it is split at spaces
      and every piece must be an integer. */
  function ParseItems(line: string): (r: Option<seq<int>>)
    ensures r.Some? ==> exists rest :: (line == "  Starting items: " + rest
      && ParseAll(Split(RemoveChar(rest, ','), {' '})) == r)
  {
    match SplitOnce(line, ": ")
      case None => None
      case Some((prefix, rest)) =>
        if prefix != "  Starting items" then None
        else
          assert line == "  Starting items: " + rest;
          ParseAll(Split(RemoveChar(rest, ','), {' '}))
  }

  /** Every piece parsed as an integer, or None. */
  function ParseAll(pieces: seq<string>): (r: Option<seq<int>>)
    ensures r.Some? <==> forall k :: 0 <= k < |pieces| ==> ParseInt(pieces[k]).Some?
    ensures r.Some? ==> (|r.value| == |pieces|
      && forall k :: 0 <= k < |pieces| ==> r.value[k] == ParseInt(pieces[k]).value)
  {
    if |pieces| == 0 then Some([])
    else match (ParseInt(pieces[0]), ParseAll(pieces[1..]))
      case (Some(v), Some(rest)) => Some([v] + rest)
      case _ => None
  }

  /** Any line that starts with the items prefix is read as the integers of
      its space-separated pieces once the commas are dropped; with the
      contract of `ParseItems` this settles exactly which lines are read. */
  lemma ParseItemsOf(rest: string)
    ensures ParseItems("  Starting items: " + rest) == ParseAll(Split(RemoveChar(rest, ','), {' '}))
  {
    var head := "  Starting items";
    assert head + ": " + rest == "  Starting items: " + rest;
    assert ':' !in head;
    SplitOnceStr(head, ": ", rest);
  }

  /** A monkey that starts with no items makes the program abort: the empty
      piece after ": " is not a number. */
  lemma NoStartingItemsAborts()
    ensures ParseItems("  Starting items: ") == None
  {
    ParseItemsOf("");
    assert "  Starting items: " + "" == "  Starting items: ";
    assert Split(RemoveChar("", ','), {' '}) == [""];
  }

  /** A line "<prefix> <number>": split at its last space, the text before
      must be `prefix` and the text after an integer. */
  function ParseTail(line: string, prefix: string): (r: Option<int>)
    ensures r.Some? ==> exists arg ::
      (&& line == prefix + " " + arg && ParseInt(arg) == Some(r.value)
       && forall i :: 0 <= i < |arg| ==> arg[i] != ' ')
  {
    match RSplitOnce(line, ' ')
      case None => None
      case Some((head, arg)) =>
        if head != prefix then None
        else
          assert line == prefix + " " + arg;
          ParseInt(arg)
  }

  /** The prefix, a space and any text without spaces is read as that text's
      integer, or not at all; with the contract of `ParseTail` this settles
      exactly which lines are read. */
  lemma ParseTailOf(prefix: string, arg: string)
    requires forall i :: 0 <= i < |arg| ==> arg[i] != ' '
    ensures ParseTail(prefix + " " + arg, prefix) == ParseInt(arg)
  {
    var line := prefix + " " + arg;
    var r := RSplitOnce(line, ' ');
    assert line[|prefix|] == ' ';
    assert r.Some?;
    var i := LastIndex(line, ' ').value;
    assert i == |prefix|;
    assert line[..i] == prefix && line[i + 1..] == arg;
    assert r.value == (prefix, arg);
  }

  /** Printing a number after the prefix and parsing gives the number back. */
  lemma ParseShowTail(prefix: string, n: nat)
    ensures ParseTail(prefix + " " + ShowNat(n), prefix) == Some(n)
  {
    DigitsHaveNoSeparator(ShowNat(n), {' '});
    ParseTailOf(prefix, ShowNat(n));
    ParseShowInt(n);
  }

  /** One monkey's six lines: the header, items, operation, test and the two
      throw targets. Missing or malformed lines abort the program. */
  function ParseMonkey(lines: seq<string>): (r: Option<Monkey>)
    ensures r.Some? <==> (|lines| >= 6 && StartsWith(lines[0], "Monkey ")
      && ParseItems(lines[1]).Some? && ParseOperation(lines[2]).Some?
      && ParseTail(lines[3], "  Test: divisible by").Some?
      && ParseTail(lines[4], "    If true: throw to monkey").Some?
      && ParseTail(lines[5], "    If false: throw to monkey").Some?)
    ensures r.Some? ==> r.value.inspections == 0
    ensures r.Some? ==> (ParseItems(lines[1]) == Some(r.value.items)
      && ParseOperation(lines[2]) == Some((r.value.op, r.value.param))
      && ParseTail(lines[3], "  Test: divisible by") == Some(r.value.divisor)
      && ParseTail(lines[4], "    If true: throw to monkey") == Some(r.value.throwTrue)
      && ParseTail(lines[5], "    If false: throw to monkey") == Some(r.value.throwFalse))
  {
    if |lines| < 6 || !StartsWith(lines[0], "Monkey ") then None
    else match (ParseItems(lines[1]), ParseOperation(lines[2]), ParseTail(lines[3], "  Test: divisible by"),
                ParseTail(lines[4], "    If true: throw to monkey"), ParseTail(lines[5], "    If false: throw to monkey"))
      case (Some(items), Some((op, param)), Some(divisor), Some(throwTrue), Some(throwFalse)) =>
        Some(Monkey(items, op, param, divisor, throwFalse, throwTrue, 0))
      case _ => None
  }

  /** The lines from the start of block `i`: blocks are seven lines apart,
      six for the monkey and one more that is skipped. */
  function Block(lines: seq<string>, i: nat): seq<string>
  {
    if 7 * i <= |lines| then lines[7 * i..] else []
  }

  /** The number of blocks: one more starts after every seven lines. */
  function BlockCount(lines: seq<string>): nat
  {
    (|lines| + 6) / 7
  }

  lemma BlockShift(lines: seq<string>, i: nat)
    requires |lines| >= 7
    ensures Block(lines[7..], i) == Block(lines, i + 1)
    ensures BlockCount(lines[7..]) + 1 == BlockCount(lines)
  {
  }

  /** Blocks one after another, each read by `parse`. After each block one
      more line is read, whatever it holds; the input ends when there is
      none. */
  function ReadBlocks<T>(parse: seq<string> -> Option<T>, lines: seq<string>): (r: Option<seq<T>>)
    decreases |lines|
  {
    if |lines| == 0 then Some([])
    else match parse(lines)
      case None => None
      case Some(m) =>
        if |lines| <= 6 then Some([m])
        else match ReadBlocks(parse, lines[7..])
          case None => None
          case Some(rest) => Some([m] + rest)
  }

  /** The input is read as blocks seven lines apart: it is read exactly when
      every block is, and then the i-th value is the i-th block's. */
  lemma {:induction false} ReadBlocksIsBlocks<T>(parse: seq<string> -> Option<T>, lines: seq<string>)
    ensures var r := ReadBlocks(parse, lines);
      r.Some? ==> (|r.value| == BlockCount(lines)
        && forall i :: 0 <= i < |r.value| ==> parse(Block(lines, i)) == Some(r.value[i]))
    ensures ReadBlocks(parse, lines).None? <==>
      exists i :: 0 <= i < BlockCount(lines) && parse(Block(lines, i)).None?
    decreases |lines|
  {
    if |lines| > 0 {
      assert Block(lines, 0) == lines;
      if parse(lines).Some? && |lines| > 6 {
        ReadBlocksIsBlocks(parse, lines[7..]);
        forall i | 0 <= i < BlockCount(lines[7..])
          ensures Block(lines[7..], i) == Block(lines, i + 1)
        {
          BlockShift(lines, i);
        }
        BlockShift(lines, 0);
        var r := ReadBlocks(parse, lines);
        if r.None? {
          var i :| 0 <= i < BlockCount(lines[7..]) && parse(Block(lines[7..], i)).None?;
          assert parse(Block(lines, i + 1)).None?;
        } else {
          var rest := ReadBlocks(parse, lines[7..]).value;
          assert r.value == [parse(lines).value] + rest;
          forall i | 0 <= i < BlockCount(lines)
            ensures parse(Block(lines, i)).Some?
          {
            if i > 0 {
              assert parse(Block(lines[7..], i - 1)) == Some(rest[i - 1]);
            }
          }
        }
      }
    }
  }

  /** The monkey blocks: it parses exactly when every block does, and the
      i-th monkey is the i-th block's, with no inspections yet. */
  function ParseMonkeys(lines: seq<string>): (r: Option<seq<Monkey>>)
    ensures r.Some? ==> (|r.value| == BlockCount(lines)
      && forall i :: 0 <= i < |r.value| ==> ParseMonkey(Block(lines, i)) == Some(r.value[i]))
    ensures r.None? <==> exists i :: 0 <= i < BlockCount(lines) && ParseMonkey(Block(lines, i)).None?
    ensures r.Some? ==> forall i :: 0 <= i < |r.value| ==> r.value[i].inspections == 0
  {
    ReadBlocksIsBlocks(ParseMonkey, lines);
    ReadBlocks(ParseMonkey, lines)
  }

  /** The whole program: parse, run `rounds` rounds (10000 in the puzzle)
      with the product of the divisors as modulus, and report the monkey
      business. */
  function Solve(lines: seq<string>, rounds: nat): (r: Option<int>)
  {
    match ParseMonkeys(lines)
      case None => None
      case Some(ms) =>
        match Rounds(ms, MaxValue(ms), rounds)
          case None => None
          case Some(end) => MonkeyBusiness(end)
  }
}

=== FILE: day12_hill_climbing.dfy ===
/** Hill climbing: a breadth-first search backwards from the summit E over a
    grid of elevations 'a'..'z', where a step may climb at most one level.
    Every reached cell records the direction of its next step towards E and
    its distance; the path from S, and from the nearest 'a', are read back by
    following the directions, each with as many steps as the distance the
    search recorded for its first cell. */
module HillClimbing {
  import opened Common

  datatype Pos = Pos(x: int, y: int)

  /** A visited cell: where it is, which way to step next towards E ('<', '>',
      '^', 'v', or 'E' at the summit itself), and how many steps remain. */
  datatype Step = Step(pos: Pos, dir: char, cost: nat)

  datatype HeightMap = HeightMap(rows: seq<seq<int>>, width: nat, height: nat, start: Pos, end: Pos)

  predicate InGrid(g: HeightMap, p: Pos)
  {
    0 <= p.x < g.width && 0 <= p.y < g.height
  }

  /** A rectangular grid whose start and summit lie inside it. */
  predicate Valid(g: HeightMap)
  {
    && g.width > 0 && g.height == |g.rows|
    && (forall y :: 0 <= y < |g.rows| ==> |g.rows[y]| == g.width)
    && InGrid(g, g.start) && InGrid(g, g.end)
  }

  function H(g: HeightMap, p: Pos): int
    requires Valid(g) && InGrid(g, p)
  {
    g.rows[p.y][p.x]
  }

  /** The elevation of a map character: S is at 'a', E at 'z'. */
  function Elevation(c: char): int
  {
    if c == 'S' then 'a' as int else if c == 'E' then 'z' as int else c as int
  }

  /** The last position of `c` in reading order, or (0, 0) if there is none. */
  function FindLast(lines: seq<string>, c: char): (r: Pos)
    ensures (exists y, x :: 0 <= y < |lines| && 0 <= x < |lines[y]| && lines[y][x] == c)
      ==> 0 <= r.y < |lines| && 0 <= r.x < |lines[r.y]| && lines[r.y][r.x] == c
    ensures (forall y, x :: 0 <= y < |lines| && 0 <= x < |lines[y]| ==> lines[y][x] != c) ==> r == Pos(0, 0)
    ensures forall y, x :: 0 <= y < |lines| && 0 <= x < |lines[y]| && lines[y][x] == c ==>
      (y < r.y || (y == r.y && x <= r.x))
    decreases |lines|
  {
    if |lines| == 0 then Pos(0, 0)
    else
      var last := lines[|lines| - 1];
      match LastIndex(last, c)
        case Some(x) => Pos(x, |lines| - 1)
        case None =>
          var r := FindLast(lines[..|lines| - 1], c);
          assert forall y, x :: 0 <= y < |lines| - 1 && 0 <= x < |lines[y]| ==> lines[..|lines| - 1][y][x] == lines[y][x];
          r
  }

  /** The map: one row of elevations per line, the width of the first
      line, and the positions of the last S and the last E. Inputs whose
      lines do not all have that width are not modelled (None). */
  function ParseMap(lines: seq<string>): (r: Option<HeightMap>)
    ensures r.Some? <==> (|lines| > 0 && |lines[0]| > 0
      && forall y :: 0 <= y < |lines| ==> |lines[y]| == |lines[0]|)
    ensures r.Some? ==> r.value.start == FindLast(lines, 'S') && r.value.end == FindLast(lines, 'E')
    ensures r.Some? ==> Valid(r.value) && r.value.height == |lines|
    ensures r.Some? ==> forall y :: 0 <= y < |lines| ==> |lines[y]| == r.value.width
    ensures r.Some? ==> forall y, x :: 0 <= y < |lines| && 0 <= x < |lines[y]| ==>
      H(r.value, Pos(x, y)) == Elevation(lines[y][x])
  {
    if |lines| == 0 || |lines[0]| == 0 then None
    else if exists y :: 0 <= y < |lines| && |lines[y]| != |lines[0]| then None
    else
      var rows := seq(|lines|, y requires 0 <= y < |lines| => seq(|lines[y]|, x requires 0 <= x < |lines[y]| => Elevation(lines[y][x])));
      var start := FindLast(lines, 'S');
      var end := FindLast(lines, 'E');
      var g := HeightMap(rows, |lines[0]|, |lines|, start, end);
      assert InGrid(g, start) && InGrid(g, end);
      Some(g)
  }

  predicate IsMove(d: char)
  {
    d == '<' || d == '>' || d == '^' || d == 'v'
  }

  /** The cell a direction leads to. */
  function Target(p: Pos, d: char): Pos
  {
    if d == '>' then Pos(p.x + 1, p.y)
    else if d == '<' then Pos(p.x - 1, p.y)
    else if d == '^' then Pos(p.x, p.y - 1)
    else if d == 'v' then Pos(p.x, p.y + 1)
    else p
  }

  /** The source of the search: the summit, no steps from itself. */
  function Summit(g: HeightMap): Step
  {
    Step(g.end, 'E', 0)
  }

  /** The neighbours of a popped step that can climb onto it, in the order
      left, up, right, down; each points back at it and is one step further. */
  function Expand(g: HeightMap, n: Step): (r: seq<Step>)
    requires Valid(g) && InGrid(g, n.pos)
    ensures forall k :: 0 <= k < |r| ==> (InGrid(g, r[k].pos) && IsMove(r[k].dir)
      && Target(r[k].pos, r[k].dir) == n.pos && r[k].cost == n.cost + 1
      && H(g, n.pos) <= H(g, r[k].pos) + 1)
  {
    var p := n.pos;
    var left := if p.x > 0 && H(g, p) <= H(g, Pos(p.x - 1, p.y)) + 1
      then [Step(Pos(p.x - 1, p.y), '>', n.cost + 1)] else [];
    var up := if p.y > 0 && H(g, p) <= H(g, Pos(p.x, p.y - 1)) + 1
      then [Step(Pos(p.x, p.y - 1), 'v', n.cost + 1)] else [];
    var right := if p.x < g.width - 1 && H(g, p) <= H(g, Pos(p.x + 1, p.y)) + 1
      then [Step(Pos(p.x + 1, p.y), '<', n.cost + 1)] else [];
    var down := if p.y < g.height - 1 && H(g, p) <= H(g, Pos(p.x, p.y + 1)) + 1
      then [Step(Pos(p.x, p.y + 1), '^', n.cost + 1)] else [];
    left + up + right + down
  }

  /** Every in-grid neighbour that can climb onto the popped cell is
      enqueued. */
  lemma ExpandIsComplete(g: HeightMap, n: Step, m: Pos)
    requires Valid(g) && InGrid(g, n.pos) && InGrid(g, m)
    requires Abs(m.x - n.pos.x) + Abs(m.y - n.pos.y) == 1
    requires H(g, n.pos) <= H(g, m) + 1
    ensures exists k :: 0 <= k < |Expand(g, n)| && Expand(g, n)[k].pos == m
  {
    var r := Expand(g, n);
    var p := n.pos;
    var k :| 0 <= k < |r| && r[k].pos == m by {
      if m.x == p.x - 1 {
        assert r[0].pos == m;
      } else if m.y == p.y - 1 {
        assert r[if p.x > 0 && H(g, p) <= H(g, Pos(p.x - 1, p.y)) + 1 then 1 else 0].pos == m;
      } else if m.x == p.x + 1 {
        assert r[|r| - 1 - (if p.y < g.height - 1 && H(g, p) <= H(g, Pos(p.x, p.y + 1)) + 1 then 1 else 0)].pos == m;
      } else {
        assert r[|r| - 1].pos == m;
      }
    }
  }

  /** The search state: the visited cells (an absent key is an unvisited
      cell) and the queue. */
  datatype Search = Search(visited: map<Pos, Step>, todo: seq<Step>)

  function Initial(g: HeightMap): Search
  {
    Search(map[], [Summit(g)])
  }

  /** One pop of the queue. A cell already visited at no greater cost is
      skipped; otherwise its climbable neighbours are enqueued and the step is
      recorded for the cell. */
  function Pop(g: HeightMap, s: Search): (r: Search)
    requires Valid(g) && |s.todo| > 0 && InGrid(g, s.todo[0].pos)
    ensures |r.todo| >= |s.todo| - 1 && r.todo[..|s.todo| - 1] == s.todo[1..]
    ensures forall k :: |s.todo| - 1 <= k < |r.todo| ==>
      r.todo[k].cost == s.todo[0].cost + 1 && IsMove(r.todo[k].dir)
      && Target(r.todo[k].pos, r.todo[k].dir) == s.todo[0].pos
    ensures r.visited.Keys == s.visited.Keys + {s.todo[0].pos}
    ensures r.visited[s.todo[0].pos].cost <= s.todo[0].cost
    ensures forall p :: p in s.visited && p != s.todo[0].pos ==> r.visited[p] == s.visited[p]
    ensures var n := s.todo[0];
      (n.pos in s.visited && s.visited[n.pos].cost <= n.cost) <==> r.visited == s.visited
  {
    var n := s.todo[0];
    if n.pos in s.visited && s.visited[n.pos].cost <= n.cost then Search(s.visited, s.todo[1..])
    else Visit(g, s)
  }

  /** A pop that is not skipped: the step is recorded for its cell and the
      cell's climbable neighbours join the back of the queue. */
  function Visit(g: HeightMap, s: Search): Search
    requires Valid(g) && |s.todo| > 0 && InGrid(g, s.todo[0].pos)
  {
    var n := s.todo[0];
    Search(s.visited[n.pos := n], s.todo[1..] + Expand(g, n))
  }

  /** `st` is the summit's own step, or it points at a visited neighbour it
      can climb to that is exactly one step closer. */
  predicate Linked(g: HeightMap, visited: map<Pos, Step>, st: Step)
    requires Valid(g) && InGrid(g, st.pos)
  {
    || (st.dir == 'E' && st.pos == g.end && st.cost == 0)
    || (IsMove(st.dir) && st.cost >= 1
      && var t := Target(st.pos, st.dir);
      t in visited && InGrid(g, t) && visited[t].cost + 1 == st.cost
      && H(g, t) <= H(g, st.pos) + 1)
  }

  /** Every queued and visited cell lies in the grid, and a visited cell's
      step is about that cell. */
  predicate InGridAll(g: HeightMap, s: Search)
  {
    && (forall k :: 0 <= k < |s.todo| ==> InGrid(g, s.todo[k].pos))
    && (forall p :: p in s.visited ==> InGrid(g, p) && s.visited[p].pos == p)
  }

  /** The queue is ordered by cost and spans at most two costs. */
  predicate Ordered(todo: seq<Step>)
  {
    forall i, j :: 0 <= i < j < |todo| ==> todo[i].cost <= todo[j].cost <= todo[i].cost + 1
  }

  /** Nothing visited is further than the front of the queue. */
  predicate FrontBound(s: Search)
  {
    |s.todo| > 0 ==> forall p :: p in s.visited ==> s.visited[p].cost <= s.todo[0].cost
  }

  predicate AllLinked(g: HeightMap, s: Search)
    requires Valid(g) && InGridAll(g, s)
  {
    && (forall p :: p in s.visited ==> Linked(g, s.visited, s.visited[p]))
    && (forall k :: 0 <= k < |s.todo| ==> Linked(g, s.visited, s.todo[k]))
  }

  /** The summit is visited first, at cost 0. */
  predicate SummitFirst(g: HeightMap, s: Search)
  {
    && (g.end in s.visited ==> s.visited[g.end].cost == 0)
    && (g.end !in s.visited ==> s.todo == [Summit(g)])
  }

  /** The search invariant. */
  predicate Inv(g: HeightMap, s: Search)
  {
    Valid(g) && InGridAll(g, s) && Ordered(s.todo) && FrontBound(s) && AllLinked(g, s) && SummitFirst(g, s)
  }

  lemma InitialInv(g: HeightMap)
    requires Valid(g)
    ensures Inv(g, Initial(g))
  {
  }

  /** Linked steps stay linked when the visited map only grows. */
  lemma LinkedGrows(g: HeightMap, visited: map<Pos, Step>, p: Pos, n: Step, st: Step)
    requires Valid(g) && InGrid(g, st.pos) && p !in visited
    requires Linked(g, visited, st)
    ensures Linked(g, visited[p := n], st)
  {
  }

  /** Under the invariant a pop that is not skipped visits a new cell, and
      the invariant is kept. */
  lemma PopKeepsInv(g: HeightMap, s: Search)
    requires Inv(g, s) && |s.todo| > 0
    ensures var n := s.todo[0];
      !(n.pos in s.visited && s.visited[n.pos].cost <= n.cost) ==> n.pos !in s.visited
    ensures Inv(g, Pop(g, s))
  {
    var n := s.todo[0];
    if !(n.pos in s.visited && s.visited[n.pos].cost <= n.cost) {
      VisitKeepsInv(g, s);
      assert Pop(g, s) == Visit(g, s);
    } else {
      SkipKeepsInv(g, s);
      assert Pop(g, s) == Search(s.visited, s.todo[1..]);
    }
  }

  lemma SkipKeepsInv(g: HeightMap, s: Search)
    requires Inv(g, s) && |s.todo| > 0
    requires s.todo[0].pos in s.visited && s.visited[s.todo[0].pos].cost <= s.todo[0].cost
    ensures Inv(g, Search(s.visited, s.todo[1..]))
  {
    assert forall k :: 1 <= k < |s.todo| ==> s.todo[0].cost <= s.todo[k].cost;
    assert s.todo[1..] != [] ==> s.todo[1..][0] == s.todo[1];
  }

  lemma VisitKeepsInv(g: HeightMap, s: Search)
    requires Inv(g, s) && |s.todo| > 0
    requires !(s.todo[0].pos in s.visited && s.visited[s.todo[0].pos].cost <= s.todo[0].cost)
    ensures s.todo[0].pos !in s.visited
    ensures Inv(g, Visit(g, s))
  {
    var n := s.todo[0];
    var r := Visit(g, s);
    assert r == Search(s.visited[n.pos := n], s.todo[1..] + Expand(g, n));
    assert InGridAll(g, r);
    VisitLinked(g, s);
    VisitOrdered(g, s);
  }

  lemma VisitLinked(g: HeightMap, s: Search)
    requires Inv(g, s) && |s.todo| > 0
    requires !(s.todo[0].pos in s.visited && s.visited[s.todo[0].pos].cost <= s.todo[0].cost)
    ensures InGridAll(g, Visit(g, s)) && AllLinked(g, Visit(g, s))
  {
    var n := s.todo[0];
    var v := s.visited[n.pos := n];
    var e := Expand(g, n);
    var q := s.todo[1..] + e;
    assert Visit(g, s) == Search(v, q);
    assert n.pos !in s.visited;
    OldStaysLinked(g, s, n);
    ExpandLinked(g, v, n);
    forall k | 0 <= k < |q|
      ensures Linked(g, v, q[k])
    {
      if k < |s.todo| - 1 {
        assert q[k] == s.todo[k + 1];
      } else {
        assert q[k] == e[k - |s.todo| + 1];
      }
    }
  }

  /** Visiting a new cell keeps every earlier link. */
  lemma OldStaysLinked(g: HeightMap, s: Search, n: Step)
    requires Inv(g, s) && InGrid(g, n.pos) && n.pos !in s.visited
    ensures forall p :: p in s.visited ==> Linked(g, s.visited[n.pos := n], s.visited[p])
    ensures forall k :: 0 <= k < |s.todo| ==> Linked(g, s.visited[n.pos := n], s.todo[k])
  {
    forall p | p in s.visited
      ensures Linked(g, s.visited[n.pos := n], s.visited[p])
    {
      LinkedGrows(g, s.visited, n.pos, n, s.visited[p]);
    }
    forall k | 0 <= k < |s.todo|
      ensures Linked(g, s.visited[n.pos := n], s.todo[k])
    {
      LinkedGrows(g, s.visited, n.pos, n, s.todo[k]);
    }
  }

  /** The steps expanded from a visited cell link back to it. */
  lemma ExpandLinked(g: HeightMap, v: map<Pos, Step>, n: Step)
    requires Valid(g) && InGrid(g, n.pos) && n.pos in v && v[n.pos] == n
    ensures forall j :: 0 <= j < |Expand(g, n)| ==> Linked(g, v, Expand(g, n)[j])
  {
  }

  lemma VisitOrdered(g: HeightMap, s: Search)
    requires Valid(g) && |s.todo| > 0 && InGrid(g, s.todo[0].pos)
    requires Ordered(s.todo) && FrontBound(s) && SummitFirst(g, s)
    requires !(s.todo[0].pos in s.visited && s.visited[s.todo[0].pos].cost <= s.todo[0].cost)
    ensures Ordered(Visit(g, s).todo) && FrontBound(Visit(g, s)) && SummitFirst(g, Visit(g, s))
  {
    var n := s.todo[0];
    var v := s.visited[n.pos := n];
    var e := Expand(g, n);
    var q := s.todo[1..] + e;
    assert Visit(g, s) == Search(v, q);
    assert forall k :: 1 <= k < |s.todo| ==> n.cost <= s.todo[k].cost;
    QueueOrder(s.todo, e, n.cost);
    if |q| > 0 {
      if |s.todo| > 1 {
        assert q[0] == s.todo[1];
      } else {
        assert q[0] == e[0];
      }
    }
  }

  /** Appending steps of cost c + 1 to a queue whose costs lie in [c, c + 1]
      keeps it ordered within two costs. */
  lemma QueueOrder(todo: seq<Step>, e: seq<Step>, c: nat)
    requires |todo| > 0 && todo[0].cost == c
    requires forall i, j :: 0 <= i < j < |todo| ==> todo[i].cost <= todo[j].cost <= todo[i].cost + 1
    requires forall k :: 0 <= k < |e| ==> e[k].cost == c + 1
    ensures var q := todo[1..] + e;
      forall i, j :: 0 <= i < j < |q| ==> q[i].cost <= q[j].cost <= q[i].cost + 1
  {
    var q := todo[1..] + e;
    forall i, j | 0 <= i < j < |q|
      ensures q[i].cost <= q[j].cost <= q[i].cost + 1
    {
      if j < |todo| - 1 {
        assert q[i] == todo[i + 1] && q[j] == todo[j + 1];
      } else if i < |todo| - 1 {
        assert q[i] == todo[i + 1];
        assert c <= todo[i + 1].cost <= c + 1;
      }
    }
  }

  /** The cells of the grid. */
  function Cells(g: HeightMap): set<Pos>
  {
    set x, y | 0 <= x < g.width && 0 <= y < g.height :: Pos(x, y)
  }

  /** A pop either visits a new cell of the grid or leaves the visited cells
      as they are and shortens the queue. */
  lemma PopProgress(g: HeightMap, s: Search)
    requires Inv(g, s) && |s.todo| > 0
    ensures var r := Pop(g, s);
      || |Cells(g) - r.visited.Keys| < |Cells(g) - s.visited.Keys|
      || (r.visited == s.visited && |r.todo| < |s.todo|)
  {
    var n := s.todo[0];
    if !(n.pos in s.visited && s.visited[n.pos].cost <= n.cost) {
      var r := Pop(g, s);
      assert n.pos !in s.visited;
      assert n.pos in Cells(g);
      assert Cells(g) - s.visited.Keys == (Cells(g) - r.visited.Keys) + {n.pos};
    }
  }

  /** Pops until the queue is empty. Each pop either visits a new cell or
      shortens the queue, so the search ends. */
  function Run(g: HeightMap, s: Search): (r: Search)
    requires Inv(g, s)
    ensures Inv(g, r) && |r.todo| == 0
    ensures s.visited.Keys <= r.visited.Keys
    decreases |Cells(g) - s.visited.Keys|, |s.todo|
  {
    if |s.todo| == 0 then s
    else
      PopKeepsInv(g, s);
      PopProgress(g, s);
      Run(g, Pop(g, s))
  }

  /** The directions from a visited cell to the summit, as the program
      prints them. */
  function ComputePath(g: HeightMap, visited: map<Pos, Step>, p: Pos): (r: string)
    requires Valid(g) && p in visited
    requires forall q :: q in visited ==> InGrid(g, q) && visited[q].pos == q && Linked(g, visited, visited[q])
    ensures g.end in visited && |r| + visited[g.end].cost == visited[p].cost
    ensures Walk(p, r) == g.end
    decreases visited[p].cost
  {
    if p == g.end then ""
    else
      var st := visited[p];
      assert Linked(g, visited, st);
      [st.dir] + ComputePath(g, visited, Target(p, st.dir))
  }

  /** Where following directions from `p` ends. */
  function Walk(p: Pos, path: string): Pos
    decreases |path|
  {
    if |path| == 0 then p else Walk(Target(p, path[0]), path[1..])
  }

  /** After the search, the path from any reached cell has exactly as many
      steps as its recorded cost, ends on the summit, and never climbs more
      than one level. */
  lemma {:induction false} PathIsRecordedCost(g: HeightMap, s: Search, p: Pos)
    requires Inv(g, s) && p in s.visited
    ensures |ComputePath(g, s.visited, p)| == s.visited[p].cost
    ensures PathClimbs(g, p, ComputePath(g, s.visited, p))
    decreases s.visited[p].cost
  {
    var v := s.visited;
    if p != g.end {
      var t := Target(p, v[p].dir);
      PathIsRecordedCost(g, s, t);
    }
  }

  /** Every step of the path stays in the grid and climbs at most one
      level. */
  predicate PathClimbs(g: HeightMap, p: Pos, path: string)
    requires Valid(g)
    decreases |path|
  {
    |path| == 0 || (InGrid(g, p) && InGrid(g, Target(p, path[0]))
      && H(g, Target(p, path[0])) <= H(g, p) + 1 && PathClimbs(g, Target(p, path[0]), path[1..]))
  }

  const U32Max: nat := 4294967295

  /** The cells of rows y, y+1, ... in the order of the program's visited
      vector: row by row, left to right. */
  function RowMajor(g: HeightMap, y: nat): (r: seq<Pos>)
    requires Valid(g)
    ensures forall k :: 0 <= k < |r| ==> InGrid(g, r[k])
    ensures forall p :: InGrid(g, p) && p.y >= y ==> p in r
    decreases g.height - y
  {
    if y >= g.height then []
    else
      var row := seq(g.width, x requires 0 <= x < g.width => Pos(x, y));
      var rest := RowMajor(g, y + 1);
      assert forall p :: InGrid(g, p) && p.y == y ==> row[p.x] == p;
      row + rest
  }

  /** The scan for the nearest 'a': over the cells in order, remember a
      reached 'a' cell whose cost is strictly lower than the best so far. */
  function LowestA(g: HeightMap, visited: map<Pos, Step>, cells: seq<Pos>, best: (nat, Pos)): (r: (nat, Pos))
    requires Valid(g) && forall k :: 0 <= k < |cells| ==> InGrid(g, cells[k])
    ensures r.0 <= best.0
    ensures r == best || (r.1 in visited && r.1 in cells && H(g, r.1) == 'a' as int && r.0 == visited[r.1].cost)
    ensures forall k :: (0 <= k < |cells| && cells[k] in visited && H(g, cells[k]) == 'a' as int
      ==> r.0 <= visited[cells[k]].cost)
    ensures r != best ==> r.0 < best.0
    ensures r != best ==> forall k :: 0 <= k < |cells| ==>
      ((cells[k] in visited && H(g, cells[k]) == 'a' as int && visited[cells[k]].cost == r.0 && cells[k] != r.1)
        ==> r.1 in cells[..k])
    decreases |cells|
  {
    if |cells| == 0 then best
    else
      var p := cells[0];
      var next := if p in visited && H(g, p) == 'a' as int && visited[p].cost < best.0
        then (visited[p].cost, p) else best;
      var r := LowestA(g, visited, cells[1..], next);
      assert forall k :: 1 <= k <= |cells| ==> cells[1..][..k - 1] == cells[1..k];
      assert forall k :: 1 <= k <= |cells| ==> cells[..k] == [p] + cells[1..k];
      r
  }

  /** The nearest 'a' is no further from the summit than S, which is an
      'a' itself (while costs stay below the u32 sentinel). */
  lemma NearestANoFurther(g: HeightMap, visited: map<Pos, Step>, start: Pos)
    requires Valid(g) && InGrid(g, start) && start in visited && H(g, start) == 'a' as int
    requires visited[start].cost < U32Max
    ensures var r := LowestA(g, visited, RowMajor(g, 0), (U32Max, Pos(0, 0)));
      r.1 in visited && r.0 == visited[r.1].cost && r.0 <= visited[start].cost && H(g, r.1) == 'a' as int
  {
    var cells := RowMajor(g, 0);
    var k :| 0 <= k < |cells| && cells[k] == start;
  }

  /** The search the program runs: backwards from E until the queue is
      empty. */
  function Searched(g: HeightMap): (s: Search)
    requires Valid(g)
    ensures Inv(g, s) && g.end in s.visited
  {
    InitialInv(g);
    Run(g, Initial(g))
  }

  /** The cell the hiking path starts from: the first reached 'a' of least
      cost in row-major order, or the corner (0, 0) when no 'a' is reached
      below the u32 sentinel. */
  function Nearest(g: HeightMap, visited: map<Pos, Step>): Pos
    requires Valid(g)
  {
    LowestA(g, visited, RowMajor(g, 0), (U32Max, Pos(0, 0))).1
  }

  /** The whole program: the path from S and the path from the nearest 'a'.
      It aborts when the map is malformed, when S is not reached (its
      direction is unset) and when the cell picked for hiking is not
      reached. */
  function Solve(lines: seq<string>): (r: Option<(string, string)>)
    ensures r.Some? <==> ParseMap(lines).Some? && var g := ParseMap(lines).value;
      g.start in Searched(g).visited && Nearest(g, Searched(g).visited) in Searched(g).visited
    ensures r.Some? ==> var g := ParseMap(lines).value; var v := Searched(g).visited;
      && Walk(g.start, r.value.0) == g.end && |r.value.0| == v[g.start].cost
      && PathClimbs(g, g.start, r.value.0)
      && Walk(Nearest(g, v), r.value.1) == g.end && |r.value.1| == v[Nearest(g, v)].cost
      && PathClimbs(g, Nearest(g, v), r.value.1)
    ensures r.Some? && |r.value.0| < U32Max && H(ParseMap(lines).value, ParseMap(lines).value.start) == 'a' as int
      ==> |r.value.1| <= |r.value.0|
  {
    match ParseMap(lines)
      case None => None
      case Some(g) =>
        var s := Searched(g);
        if g.start !in s.visited then None
        else
          var low := Nearest(g, s.visited);
          if low !in s.visited then None
          else
            var fromStart := ComputePath(g, s.visited, g.start);
            var fromLow := ComputePath(g, s.visited, low);
            PathIsRecordedCost(g, s, g.start);
            PathIsRecordedCost(g, s, low);
            HikingNoLonger(g, s);
            Some((fromStart, fromLow))
  }

  lemma HikingNoLonger(g: HeightMap, s: Search)
    requires Inv(g, s) && g.start in s.visited
    ensures var low := Nearest(g, s.visited);
      low in s.visited && |ComputePath(g, s.visited, g.start)| < U32Max && H(g, g.start) == 'a' as int
      ==> |ComputePath(g, s.visited, low)| <= |ComputePath(g, s.visited, g.start)|
  {
    PathIsRecordedCost(g, s, g.start);
    if |ComputePath(g, s.visited, g.start)| < U32Max && H(g, g.start) == 'a' as int {
      NearestANoFurther(g, s.visited, g.start);
      PathIsRecordedCost(g, s, Nearest(g, s.visited));
    }
  }
}

=== FILE: day13_distress_signal.dfy ===
/** Distress signal: packets are nested lists of integers. Two packets are
    compared element by element, an integer facing a list being wrapped into
    a one-element list; the pairs in order are counted and all packets, with
    two divider packets, are sorted to find the decoder key. */
module DistressSignal {
  import opened Common
  import opened Sorting

  datatype Element = List(items: seq<Element>) | Int(n: int)

  datatype Ordering = Less | Equal | Greater

  function Size(e: Element): nat
  {
    match e
      case Int(_) => 1
      case List(xs) => 1 + SizeSeq(xs)
  }

  function SizeSeq(xs: seq<Element>): nat
  {
    if |xs| == 0 then 0 else Size(xs[0]) + SizeSeq(xs[1..])
  }

  /** The order of two integers. */
  function CompareInts(a: int, b: int): (r: Ordering)
    ensures r == Equal <==> a == b
    ensures r == Less <==> a < b
    ensures r == Greater <==> a > b
  {
    if a == b then Equal else if a < b then Less else Greater
  }

  /** The packet order. An integer facing a list is compared as the list
      holding just that integer. */
  function Compare(a: Element, b: Element): Ordering
    decreases Size(a) + Size(b), 0
  {
    match (a, b)
      case (Int(na), Int(nb)) => CompareInts(na, nb)
      case (Int(na), List(lb)) => SizeSeqSingleton(a); CompareLists([a], lb)
      case (List(la), Int(nb)) => SizeSeqSingleton(b); CompareLists(la, [b])
      case (List(la), List(lb)) => CompareLists(la, lb)
  }

  /** Two lists: the first pair of elements that are not Equal decides;
      when one list runs out first it is the Less one. */
  function CompareLists(xs: seq<Element>, ys: seq<Element>): Ordering
    decreases SizeSeq(xs) + SizeSeq(ys), 1
  {
    if |xs| == 0 && |ys| == 0 then Equal
    else if |xs| == 0 then Less
    else if |ys| == 0 then Greater
    else
      var r := Compare(xs[0], ys[0]);
      if r != Equal then r else CompareLists(xs[1..], ys[1..])
  }

  /** An integer facing a list is wrapped into a one-element list and
      compared again, on either side. */
  lemma IntFacingListIsWrapped(n: int, lb: seq<Element>)
    ensures Compare(Int(n), List(lb)) == Compare(List([Int(n)]), List(lb))
    ensures Compare(List(lb), Int(n)) == Compare(List(lb), List([Int(n)]))
  {
  }

  /** The first pair of elements that compare unequal decides the order of
      two lists. */
  lemma {:induction false} FirstDifferenceDecides(xs: seq<Element>, ys: seq<Element>, k: nat)
    requires k < |xs| && k < |ys|
    requires forall i :: 0 <= i < k ==> Compare(xs[i], ys[i]) == Equal
    requires Compare(xs[k], ys[k]) != Equal
    ensures CompareLists(xs, ys) == Compare(xs[k], ys[k])
    decreases k
  {
    if k > 0 {
      FirstDifferenceDecides(xs[1..], ys[1..], k - 1);
    }
  }

  /** When every common position compares Equal, the shorter list is Less
      and lists of the same length are Equal. */
  lemma {:induction false} EqualPrefixComparesLengths(xs: seq<Element>, ys: seq<Element>)
    requires forall i :: 0 <= i < |xs| && i < |ys| ==> Compare(xs[i], ys[i]) == Equal
    ensures CompareLists(xs, ys) == CompareInts(|xs|, |ys|)
    decreases |xs|
  {
    if |xs| > 0 && |ys| > 0 {
      EqualPrefixComparesLengths(xs[1..], ys[1..]);
    }
  }

  function Flip(o: Ordering): Ordering
  {
    match o
      case Less => Greater
      case Equal => Equal
      case Greater => Less
  }

  /** Every packet is Equal to itself. */
  lemma {:induction false} CompareReflexive(a: Element)
    ensures Compare(a, a) == Equal
    decreases Size(a), 0
  {
    if a.List? {
      CompareListsReflexive(a.items);
    }
  }

  lemma {:induction false} CompareListsReflexive(xs: seq<Element>)
    ensures CompareLists(xs, xs) == Equal
    decreases SizeSeq(xs), 1
  {
    if |xs| > 0 {
      CompareReflexive(xs[0]);
      CompareListsReflexive(xs[1..]);
    }
  }

  /** Swapping the packets flips the order. */
  lemma {:induction false} CompareAntisymmetric(a: Element, b: Element)
    ensures Compare(b, a) == Flip(Compare(a, b))
    decreases Size(a) + Size(b), 0
  {
    match (a, b)
      case (Int(na), Int(nb)) =>
      case (Int(na), List(lb)) =>
        SizeSeqSingleton(a);
        CompareListsAntisymmetric([a], lb);
      case (List(la), Int(nb)) =>
        SizeSeqSingleton(b);
        CompareListsAntisymmetric(la, [b]);
      case (List(la), List(lb)) => CompareListsAntisymmetric(la, lb);
  }

  lemma {:induction false} CompareListsAntisymmetric(xs: seq<Element>, ys: seq<Element>)
    ensures CompareLists(ys, xs) == Flip(CompareLists(xs, ys))
    decreases SizeSeq(xs) + SizeSeq(ys), 1
  {
    if |xs| > 0 && |ys| > 0 {
      CompareAntisymmetric(xs[0], ys[0]);
      CompareListsAntisymmetric(xs[1..], ys[1..]);
    }
  }

  /** The elements a packet is compared by: its items, or itself alone when
      it is an integer. */
  function AsList(e: Element): seq<Element>
  {
    match e
      case Int(_) => [e]
      case List(xs) => xs
  }

  lemma SizeSeqSingleton(e: Element)
    ensures SizeSeq([e]) == Size(e)
  {
    assert [e][1..] == [];
  }

  /** Orders compose: two Equal steps give Equal, and a Less step with a
      step that is not Greater gives Less. */
  predicate Composes(ab: Ordering, bc: Ordering, ac: Ordering)
  {
    && (ab == Equal && bc == Equal ==> ac == Equal)
    && (ab == Less && bc != Greater ==> ac == Less)
    && (ab != Greater && bc == Less ==> ac == Less)
  }

  lemma {:induction false} CompareTransitive(a: Element, b: Element, c: Element)
    ensures Composes(Compare(a, b), Compare(b, c), Compare(a, c))
    decreases Size(a) + Size(b) + Size(c), 0
  {
    if a.Int? && b.Int? && c.Int? {
    } else {
      SizeSeqSingleton(a);
      SizeSeqSingleton(b);
      SizeSeqSingleton(c);
      CompareListsTransitive(AsList(a), AsList(b), AsList(c));
      CompareViaLists(a, b);
      CompareViaLists(b, c);
      CompareViaLists(a, c);
    }
  }

  /** Every comparison is the comparison of the element lists. */
  lemma CompareViaLists(a: Element, b: Element)
    ensures Compare(a, b) == CompareLists(AsList(a), AsList(b))
  {
    if a.Int? && b.Int? {
      assert CompareLists([a], [b]) == Compare(a, b) by {
        assert [a][1..] == [] && [b][1..] == [];
      }
    }
  }

  lemma {:induction false} CompareListsTransitive(xs: seq<Element>, ys: seq<Element>, zs: seq<Element>)
    ensures Composes(CompareLists(xs, ys), CompareLists(ys, zs), CompareLists(xs, zs))
    decreases SizeSeq(xs) + SizeSeq(ys) + SizeSeq(zs), 1
  {
    if |xs| > 0 && |ys| > 0 && |zs| > 0 {
      CompareTransitive(xs[0], ys[0], zs[0]);
      CompareListsTransitive(xs[1..], ys[1..], zs[1..]);
    }
  }

  /** The comparator used by the sort: not Greater. */
  predicate InOrder(a: Element, b: Element)
  {
    Compare(a, b) != Greater
  }

  /** The packet order is total and transitive, as the sort requires. */
  lemma InOrderIsTotalPreorder()
    ensures TotalPreorder(InOrder)
  {
    forall a, b
      ensures InOrder(a, b) || InOrder(b, a)
    {
      CompareAntisymmetric(a, b);
    }
    forall a, b, c | InOrder(a, b) && InOrder(b, c)
      ensures InOrder(a, c)
    {
      CompareTransitive(a, b, c);
    }
  }

  // Parsing

  /** The tokenizer's state: bracket depth, the token being built and the
      tokens finished so far. */
  datatype ScanState = ScanState(depth: int, token: string, tokens: seq<string>)

  /** One character: brackets move the depth, a ',' or the closing ']' at
      depth 1 ends a token (an empty token is dropped), and a character is
      kept unless it is structure at depth 1. */
  function ScanChar(st: ScanState, c: char): ScanState
  {
    var depth := if c == '[' then st.depth + 1 else st.depth;
    var add := if c == '[' then depth > 1 else if c == ']' || c == ',' then st.depth > 1 else true;
    var finish := (c == ']' || c == ',') && st.depth == 1;
    var token := if add then st.token + [c] else st.token;
    var newDepth := if c == ']' then st.depth - 1 else depth;
    if finish && |token| > 0 then ScanState(newDepth, "", st.tokens + [token])
    else ScanState(newDepth, token, st.tokens)
  }

  function Scan(s: string, st: ScanState): ScanState
    decreases |s|
  {
    if |s| == 0 then st else Scan(s[1..], ScanChar(st, s[0]))
  }

  const StartScan := ScanState(0, "", [])

  /** The child texts of a list text. */
  function Tokens(s: string): seq<string>
  {
    Scan(s, StartScan).tokens
  }

  lemma {:induction false} ScanBound(s: string, st: ScanState, n: nat)
    requires |st.token| + |s| <= n
    requires forall k :: 0 <= k < |st.tokens| ==> |st.tokens[k]| <= n
    ensures forall k :: 0 <= k < |Scan(s, st).tokens| ==> |Scan(s, st).tokens[k]| <= n
    decreases |s|
  {
    if |s| > 0 {
      ScanBound(s[1..], ScanChar(st, s[0]), n);
    }
  }

  /** Every child text of a list text is shorter than it: the opening
      bracket is never part of a token. */
  lemma TokensShorter(s: string)
    requires |s| > 0 && s[0] == '['
    ensures forall k :: 0 <= k < |Tokens(s)| ==> |Tokens(s)[k]| < |s|
  {
    assert ScanChar(StartScan, '[') == ScanState(1, "", []);
    assert Scan(s, StartScan) == Scan(s[1..], ScanState(1, "", []));
    ScanBound(s[1..], ScanState(1, "", []), |s| - 1);
  }

  /** A packet: a text starting with '[' is a list whose children are its
      tokens, parsed in turn; any other text must be an i32, or the program
      aborts (None). */
  function Parse(s: string): Option<Element>
    decreases |s|, 1
  {
    if |s| > 0 && s[0] == '[' then
      TokensShorter(s);
      match ParseAll(Tokens(s), |s|)
        case Some(xs) => Some(List(xs))
        case None => None
    else
      match ParseI32(s)
        case Some(n) => Some(Int(n))
        case None => None
  }

  function ParseAll(ts: seq<string>, bound: nat): (r: Option<seq<Element>>)
    requires forall k :: 0 <= k < |ts| ==> |ts[k]| < bound
    ensures r.Some? ==> |r.value| == |ts|
    decreases bound, 0, |ts|
  {
    if |ts| == 0 then Some([])
    else match (Parse(ts[0]), ParseAll(ts[1..], bound))
      case (Some(x), Some(xs)) => Some([x] + xs)
      case _ => None
  }

  /** An empty pair of brackets is the empty list. */
  lemma EmptyBracketsAreEmptyList()
    ensures Parse("[]") == Some(List([]))
  {
    assert Scan("[]", StartScan) == ScanState(0, "", []);
  }

  /** Empty tokens are dropped: "[,]" is also the empty list. */
  lemma EmptyTokensAreDropped()
    ensures Parse("[,]") == Some(List([]))
  {
    assert Scan("[,]", StartScan) == ScanState(0, "", []);
  }

  // Printing, and the round trip

  /** Every integer of the packet fits in an i32. */
  predicate Fits(e: Element)
  {
    match e
      case Int(n) => I32Min <= n <= I32Max
      case List(xs) => forall k :: 0 <= k < |xs| ==> Fits(xs[k])
  }

  /** The packet's text: integers in decimal, lists in brackets with ','
      between items. */
  function Show(e: Element): (s: string)
    ensures |s| > 0
  {
    match e
      case Int(n) => ShowInt(n)
      case List(xs) => "[" + ShowItems(xs) + "]"
  }

  function ShowItems(xs: seq<Element>): string
  {
    if |xs| == 0 then ""
    else if |xs| == 1 then Show(xs[0])
    else Show(xs[0]) + "," + ShowItems(xs[1..])
  }

  function ShowAll(xs: seq<Element>): (r: seq<string>)
    ensures |r| == |xs|
    ensures forall k :: 0 <= k < |xs| ==> r[k] == Show(xs[k])
  {
    if |xs| == 0 then [] else [Show(xs[0])] + ShowAll(xs[1..])
  }

  lemma {:induction false} ScanConcat(a: string, b: string, st: ScanState)
    ensures Scan(a + b, st) == Scan(b, Scan(a, st))
    decreases |a|
  {
    if |a| == 0 {
      assert a + b == b;
    } else {
      assert (a + b)[1..] == a[1..] + b;
      ScanConcat(a[1..], b, ScanChar(st, a[0]));
    }
  }

  /** Text without structure characters is just appended to the token. */
  lemma {:induction false} ScanPlain(s: string, st: ScanState)
    requires forall k :: 0 <= k < |s| ==> s[k] != '[' && s[k] != ']' && s[k] != ','
    ensures Scan(s, st) == ScanState(st.depth, st.token + s, st.tokens)
    decreases |s|
  {
    if |s| > 0 {
      ScanPlain(s[1..], ScanChar(st, s[0]));
      assert st.token + [s[0]] + s[1..] == st.token + s;
    }
  }

  /** Inside a list, a whole printed packet is appended to the token. */
  lemma {:induction false} ScanShow(e: Element, d: int, tok: string, toks: seq<string>)
    requires d >= 1
    ensures Scan(Show(e), ScanState(d, tok, toks)) == ScanState(d, tok + Show(e), toks)
    decreases e, 1
  {
    match e
      case Int(n) =>
        ScanPlain(Show(e), ScanState(d, tok, toks));
      case List(xs) =>
        var items := ShowItems(xs);
        ScanShowItems(xs, d + 1, tok + "[", toks);
        ScanBracketed(items, d, tok, toks);
        assert Show(e) == "[" + items + "]";
  }

  /** A bracketed text whose inside is kept one level deeper is kept whole. */
  lemma ScanBracketed(s: string, d: int, tok: string, toks: seq<string>)
    requires d >= 1
    requires Scan(s, ScanState(d + 1, tok + "[", toks)) == ScanState(d + 1, tok + "[" + s, toks)
    ensures Scan("[" + s + "]", ScanState(d, tok, toks)) == ScanState(d, tok + ("[" + s + "]"), toks)
  {
    var st0 := ScanState(d, tok, toks);
    var st1 := ScanState(d + 1, tok + "[", toks);
    var st2 := ScanState(d + 1, tok + "[" + s, toks);
    assert Scan("[", st0) == st1 by {
      ScanOne('[', st0);
    }
    assert Scan("]", st2) == ScanState(d, tok + "[" + s + "]", toks) by {
      ScanOne(']', st2);
    }
    assert "[" + s + "]" == "[" + (s + "]");
    ScanConcat("[", s + "]", st0);
    ScanConcat(s, "]", st1);
    assert tok + "[" + s + "]" == tok + ("[" + s + "]");
  }

  lemma ScanOne(c: char, st: ScanState)
    ensures Scan([c], st) == ScanChar(st, c)
  {
    assert [c][1..] == [];
  }

  /** Deeper than depth 1, the items and their commas are all kept. */
  lemma {:induction false} ScanShowItems(xs: seq<Element>, d: int, tok: string, toks: seq<string>)
    requires d >= 2
    ensures Scan(ShowItems(xs), ScanState(d, tok, toks)) == ScanState(d, tok + ShowItems(xs), toks)
    decreases xs, 0
  {
    if |xs| == 1 {
      ScanShow(xs[0], d, tok, toks);
    } else if |xs| > 1 {
      var a, b := Show(xs[0]), ShowItems(xs[1..]);
      ScanShow(xs[0], d, tok, toks);
      ScanShowItems(xs[1..], d, tok + a + ",", toks);
      ScanCommaStep(a, b, d, tok, toks);
    }
  }

  /** Two kept texts with a ',' between them, deeper than depth 1. */
  lemma ScanCommaStep(a: string, b: string, d: int, tok: string, toks: seq<string>)
    requires d >= 2
    requires Scan(a, ScanState(d, tok, toks)) == ScanState(d, tok + a, toks)
    requires Scan(b, ScanState(d, tok + a + ",", toks)) == ScanState(d, tok + a + "," + b, toks)
    ensures Scan(a + "," + b, ScanState(d, tok, toks)) == ScanState(d, tok + (a + "," + b), toks)
  {
    ScanCommaDeep(d, tok + a, toks, b);
    ScanConcat(a, "," + b, ScanState(d, tok, toks));
    assert a + "," + b == a + ("," + b);
    Associate(tok, a, ",", b);
  }

  /** Deeper than depth 1, a ',' is kept in the token. */
  lemma ScanCommaDeep(d: int, tok: string, toks: seq<string>, b: string)
    requires d >= 2
    ensures Scan("," + b, ScanState(d, tok, toks)) == Scan(b, ScanState(d, tok + ",", toks))
  {
    var st1 := ScanState(d, tok, toks);
    ScanOne(',', st1);
    assert [','] == ",";
    ScanConcat(",", b, st1);
  }

  /** At depth 1, a printed item followed by ',' or ']' is finished as one
      token. */
  lemma ScanItemThen(x: Element, c: char, rest: string, toks: seq<string>)
    requires c == ',' || c == ']'
    ensures Scan(Show(x) + ([c] + rest), ScanState(1, "", toks))
      == Scan(rest, ScanState(if c == ']' then 0 else 1, "", toks + [Show(x)]))
  {
    var st := ScanState(1, "", toks);
    ScanShow(x, 1, "", toks);
    assert "" + Show(x) == Show(x);
    var st1 := ScanState(1, Show(x), toks);
    ScanConcat(Show(x), [c] + rest, st);
    ScanConcat([c], rest, st1);
    assert Scan([c], st1) == ScanChar(st1, c);
  }

  /** At depth 1, each printed item becomes one token. */
  lemma {:induction false} ScanTopItems(xs: seq<Element>, toks: seq<string>)
    ensures Scan(ShowItems(xs) + "]", ScanState(1, "", toks)) == ScanState(0, "", toks + ShowAll(xs))
    decreases |xs|
  {
    if |xs| == 0 {
      ScanTopEmpty(toks);
    } else if |xs| == 1 {
      ScanTopLast(xs, toks);
    } else {
      ScanTopItems(xs[1..], toks + [Show(xs[0])]);
      ScanTopStep(xs, toks);
    }
  }

  lemma ScanTopStep(xs: seq<Element>, toks: seq<string>)
    requires |xs| > 1
    requires Scan(ShowItems(xs[1..]) + "]", ScanState(1, "", toks + [Show(xs[0])]))
      == ScanState(0, "", toks + [Show(xs[0])] + ShowAll(xs[1..]))
    ensures Scan(ShowItems(xs) + "]", ScanState(1, "", toks)) == ScanState(0, "", toks + ShowAll(xs))
  {
    var a, b := Show(xs[0]), ShowItems(xs[1..]);
    var rest := b + "]";
    var text := ShowItems(xs) + "]";
    assert ShowItems(xs) == a + "," + b;
    Associate(a, ",", b, "]");
    assert text == a + ([','] + rest);
    ScanItemThen(xs[0], ',', rest, toks);
    var r := Scan(text, ScanState(1, "", toks));
    assert r == Scan(rest, ScanState(1, "", toks + [a]));
    assert ShowAll(xs) == [a] + ShowAll(xs[1..]);
    Associate(toks, [a], ShowAll(xs[1..]), []);
    assert ShowAll(xs[1..]) + [] == ShowAll(xs[1..]);
    assert toks + [a] + ShowAll(xs[1..]) == toks + ShowAll(xs);
    assert r == ScanState(0, "", toks + [a] + ShowAll(xs[1..]));
  }

  lemma Associate<T>(a: seq<T>, b: seq<T>, c: seq<T>, d: seq<T>)
    ensures a + b + c + d == a + (b + (c + d))
  {
  }

  lemma ScanTopEmpty(toks: seq<string>)
    ensures Scan(ShowItems([]) + "]", ScanState(1, "", toks)) == ScanState(0, "", toks + ShowAll([]))
  {
    assert ShowItems([]) + "]" == "]";
    assert Scan("]", ScanState(1, "", toks)) == Scan("", ScanChar(ScanState(1, "", toks), ']'));
    assert toks + ShowAll([]) == toks;
  }

  lemma ScanTopLast(xs: seq<Element>, toks: seq<string>)
    requires |xs| == 1
    ensures Scan(ShowItems(xs) + "]", ScanState(1, "", toks)) == ScanState(0, "", toks + ShowAll(xs))
  {
    var a := Show(xs[0]);
    assert ShowItems(xs) == a;
    assert a + "]" == a + ("]" + "");
    ScanItemThen(xs[0], ']', "", toks);
    assert ShowAll(xs) == [a];
  }

  lemma TokensOfShow(xs: seq<Element>)
    ensures Tokens(Show(List(xs))) == ShowAll(xs)
  {
    assert ScanChar(StartScan, '[') == ScanState(1, "", []);
    assert Show(List(xs)) == "[" + (ShowItems(xs) + "]");
    ScanConcat("[", ShowItems(xs) + "]", StartScan);
    ScanTopItems(xs, []);
    assert [] + ShowAll(xs) == ShowAll(xs);
  }

  /** Parsing a printed packet gives it back. */
  lemma {:induction false} ParseShow(e: Element)
    requires Fits(e)
    ensures Parse(Show(e)) == Some(e)
    decreases e, 1
  {
    match e
      case Int(n) =>
        ParseShowIntText(n);
      case List(xs) =>
        TokensOfShow(xs);
        TokensShorter(Show(e));
        ParseAllShow(xs, |Show(e)|);
  }

  lemma {:induction false} ParseAllShow(xs: seq<Element>, bound: nat)
    requires forall k :: 0 <= k < |xs| ==> Fits(xs[k]) && |Show(xs[k])| < bound
    ensures ParseAll(ShowAll(xs), bound) == Some(xs)
    decreases xs, 0
  {
    if |xs| > 0 {
      ParseShow(xs[0]);
      ParseAllShow(xs[1..], bound);
      assert ShowAll(xs)[1..] == ShowAll(xs[1..]);
      assert [xs[0]] + xs[1..] == xs;
    }
  }

  // The driver: pairs, the index sum and the decoder key

  /** Packets come in pairs of consecutive non-empty lines; empty lines are
      skipped. A first line with no second line after it, or a line that
      does not parse, aborts the program (None). */
  function ReadPairs(lines: seq<string>): (r: Option<seq<(Element, Element)>>)
    decreases |lines|
  {
    if |lines| == 0 then Some([])
    else if |lines[0]| == 0 then ReadPairs(lines[1..])
    else if |lines| == 1 then None
    else match (Parse(lines[0]), Parse(lines[1]), ReadPairs(lines[2..]))
      case (Some(a), Some(b), Some(rest)) => Some([(a, b)] + rest)
      case _ => None
  }

  /** The input text of a list of pairs, a blank line after each pair. */
  function ShowPairs(pairs: seq<(Element, Element)>): seq<string>
  {
    if |pairs| == 0 then [] else [Show(pairs[0].0), Show(pairs[0].1), ""] + ShowPairs(pairs[1..])
  }

  /** Reading the printed pairs gives them back. */
  lemma {:induction false} ReadShowPairs(pairs: seq<(Element, Element)>)
    requires forall k :: 0 <= k < |pairs| ==> Fits(pairs[k].0) && Fits(pairs[k].1)
    ensures ReadPairs(ShowPairs(pairs)) == Some(pairs)
    decreases |pairs|
  {
    if |pairs| > 0 {
      var lines := ShowPairs(pairs);
      ParseShow(pairs[0].0);
      ParseShow(pairs[0].1);
      ReadShowPairs(pairs[1..]);
      assert lines[2..][1..] == ShowPairs(pairs[1..]);
      assert ReadPairs(lines[2..]) == ReadPairs(ShowPairs(pairs[1..]));
      assert [pairs[0]] + pairs[1..] == pairs;
    }
  }

  /** The sum of the 1-based numbers of the pairs that are in order. */
  function IndexSum(pairs: seq<(Element, Element)>): nat
  {
    if |pairs| == 0 then 0
    else
      var n := |pairs|;
      IndexSum(pairs[..n - 1]) + (if InOrder(pairs[n - 1].0, pairs[n - 1].1) then n else 0)
  }

  function Triangle(n: nat): nat
  {
    if n == 0 then 0 else Triangle(n - 1) + n
  }

  /** The index sum is at most 1 + 2 + ... + n, with equality exactly when
      every pair is in order. */
  lemma {:induction false} IndexSumBounds(pairs: seq<(Element, Element)>)
    ensures IndexSum(pairs) <= Triangle(|pairs|)
    ensures IndexSum(pairs) == Triangle(|pairs|)
      <==> forall k :: 0 <= k < |pairs| ==> InOrder(pairs[k].0, pairs[k].1)
    decreases |pairs|
  {
    if |pairs| > 0 {
      var n := |pairs|;
      var init := pairs[..n - 1];
      IndexSumBounds(init);
      assert forall k :: 0 <= k < n - 1 ==> init[k] == pairs[k];
    }
  }

  function Flatten(pairs: seq<(Element, Element)>): (r: seq<Element>)
    ensures |r| == 2 * |pairs|
    ensures forall k :: 0 <= k < |pairs| ==> r[2 * k] == pairs[k].0 && r[2 * k + 1] == pairs[k].1
  {
    if |pairs| == 0 then [] else [pairs[0].0, pairs[0].1] + Flatten(pairs[1..])
  }

  function Divider(n: int): Element
  {
    List([Int(n)])
  }

  const First: Element := Divider(2)
  const Second: Element := Divider(6)

  lemma DividersAreOrdered()
    ensures Compare(First, Second) == Less
    ensures Compare(First, First) == Equal && Compare(Second, Second) == Equal
  {
  }

  /** Every packet of the input, after the two dividers. */
  function Packets(pairs: seq<(Element, Element)>): seq<Element>
  {
    [First, Second] + Flatten(pairs)
  }

  /** The packets sorted into the packet order. */
  function Sorted(pairs: seq<(Element, Element)>): (r: seq<Element>)
    ensures SortedBy(r, InOrder)
    ensures multiset(r) == multiset(Packets(pairs))
  {
    InOrderIsTotalPreorder();
    SortBy(Packets(pairs), InOrder)
  }

  /** A packet Equal to one of the dividers. */
  predicate IsMarker(e: Element)
  {
    Compare(First, e) == Equal || Compare(Second, e) == Equal
  }

  /** The product of the 1-based positions of the markers. */
  function Key(s: seq<Element>): nat
  {
    if |s| == 0 then 1
    else
      var n := |s|;
      Key(s[..n - 1]) * (if IsMarker(s[n - 1]) then n else 1)
  }

  lemma {:induction false} KeyPrefix(s: seq<Element>, p: nat, q: nat, m: nat)
    requires m <= |s|
    requires forall i :: 0 <= i < |s| ==> (IsMarker(s[i]) <==> i == p || i == q)
    requires p != q
    ensures Key(s[..m]) == (if p < m then p + 1 else 1) * (if q < m then q + 1 else 1)
    decreases m
  {
    if m > 0 {
      assert s[..m][..m - 1] == s[..m - 1];
      KeyPrefix(s, p, q, m - 1);
    }
  }

  /** When exactly two positions hold markers, the key is the product of
      their 1-based numbers. */
  lemma KeyOfTwoMarkers(s: seq<Element>, p: nat, q: nat)
    requires p < |s| && q < |s| && p != q
    requires forall i :: 0 <= i < |s| ==> (IsMarker(s[i]) <==> i == p || i == q)
    ensures Key(s) == (p + 1) * (q + 1)
  {
    KeyPrefix(s, p, q, |s|);
    assert s[..|s|] == s;
  }

  /** The packets strictly before `d` in the packet order. */
  function LessThan(d: Element): Element -> bool
  {
    e => Compare(e, d) == Less
  }

  function EqualTo(d: Element): Element -> bool
  {
    e => Compare(d, e) == Equal
  }

  lemma {:induction false} CountBelow<T>(s: seq<T>, f: T -> bool, p: nat)
    requires p <= |s|
    requires forall i :: 0 <= i < |s| ==> (f(s[i]) <==> i < p)
    ensures CountWhere(s, f) == p
    decreases |s|
  {
    if |s| > 0 {
      var n := |s| - 1;
      if p == |s| {
        CountBelow(s[..n], f, n);
      } else {
        CountBelow(s[..n], f, p);
      }
    }
  }

  lemma {:induction false} CountNone<T>(s: seq<T>, f: T -> bool)
    requires forall i :: 0 <= i < |s| ==> !f(s[i])
    ensures CountWhere(s, f) == 0
    decreases |s|
  {
    if |s| > 0 {
      CountNone(s[..|s| - 1], f);
    }
  }

  /** A predicate that holds once in a sequence holds at exactly one
      position. */
  lemma {:induction false} CountOne<T>(s: seq<T>, f: T -> bool) returns (p: nat)
    requires CountWhere(s, f) == 1
    ensures p < |s| && f(s[p])
    ensures forall i :: 0 <= i < |s| && f(s[i]) ==> i == p
    decreases |s|
  {
    var n := |s| - 1;
    if f(s[n]) {
      p := n;
      assert CountWhere(s[..n], f) == 0;
      forall i | 0 <= i < n
        ensures !f(s[i])
      {
        if f(s[i]) {
          CountPositive(s[..n], f, i);
        }
      }
    } else {
      p := CountOne(s[..n], f);
    }
  }

  lemma {:induction false} CountPositive<T>(s: seq<T>, f: T -> bool, i: nat)
    requires i < |s| && f(s[i])
    ensures CountWhere(s, f) > 0
    decreases |s|
  {
    var n := |s| - 1;
    if i < n {
      CountPositive(s[..n], f, i);
    }
  }

  /** In a sorted sequence, the one packet Equal to `d` sits at the position
      given by the number of packets Less than `d`. */
  lemma PositionIsRank(s: seq<Element>, d: Element, p: nat)
    requires SortedBy(s, InOrder)
    requires p < |s| && Compare(d, s[p]) == Equal
    requires forall i :: 0 <= i < |s| && Compare(d, s[i]) == Equal ==> i == p
    ensures CountWhere(s, LessThan(d)) == p
  {
    forall i | 0 <= i < |s|
      ensures LessThan(d)(s[i]) <==> i < p
    {
      CompareAntisymmetric(d, s[p]);
      CompareAntisymmetric(d, s[i]);
      if i < p {
        assert InOrder(s[i], s[p]);
        CompareTransitive(s[i], s[p], d);
      } else if i > p {
        assert InOrder(s[p], s[i]);
        CompareTransitive(d, s[p], s[i]);
      }
    }
    CountBelow(s, LessThan(d), p);
  }

  /** Among the packets, exactly one is Equal to the divider `d` when no
      input packet is Equal to a divider. */
  lemma DividerCount(pairs: seq<(Element, Element)>, d: Element)
    requires d == First || d == Second
    requires forall k :: 0 <= k < |pairs| ==> !IsMarker(pairs[k].0) && !IsMarker(pairs[k].1)
    ensures CountWhere(Packets(pairs), EqualTo(d)) == 1
  {
    var f := EqualTo(d);
    var flat := Flatten(pairs);
    forall i | 0 <= i < |flat|
      ensures !f(flat[i])
    {
      assert flat[2 * (i / 2)] == pairs[i / 2].0 && flat[2 * (i / 2) + 1] == pairs[i / 2].1;
    }
    CountNone(flat, f);
    DividersAreOrdered();
    CompareAntisymmetric(First, Second);
    assert [First, Second][..1] == [First] && [First][..0] == [];
    assert CountWhere([First], f) == (if f(First) then 1 else 0);
    assert f(First) <==> d == First;
    assert f(Second) <==> d == Second;
    assert CountWhere([First, Second], f) == 1;
    CountAppend([First, Second], flat, f);
  }

  /** The divider `d` sits at exactly one position of the sorted packets,
      and that position is the number of packets Less than `d`. */
  lemma DividerRank(pairs: seq<(Element, Element)>, d: Element) returns (p: nat)
    requires d == First || d == Second
    requires forall k :: 0 <= k < |pairs| ==> !IsMarker(pairs[k].0) && !IsMarker(pairs[k].1)
    ensures p < |Sorted(pairs)| && Compare(d, Sorted(pairs)[p]) == Equal
    ensures forall i :: 0 <= i < |Sorted(pairs)| && Compare(d, Sorted(pairs)[i]) == Equal ==> i == p
    ensures p == CountWhere(Packets(pairs), LessThan(d))
  {
    var s := Sorted(pairs);
    DividerCount(pairs, d);
    CountPermutation(s, Packets(pairs), EqualTo(d));
    p := CountOne(s, EqualTo(d));
    PositionIsRank(s, d, p);
    CountPermutation(s, Packets(pairs), LessThan(d));
  }

  /** The decoder key: when no input packet is Equal to a divider, it is the
      product of the dividers' 1-based positions among the sorted packets,
      that is of one more than the number of packets ordered before each
      divider. */
  lemma DecoderKeyIsRanks(pairs: seq<(Element, Element)>)
    requires forall k :: 0 <= k < |pairs| ==> !IsMarker(pairs[k].0) && !IsMarker(pairs[k].1)
    ensures Key(Sorted(pairs)) == (CountWhere(Packets(pairs), LessThan(First)) + 1)
      * (CountWhere(Packets(pairs), LessThan(Second)) + 1)
  {
    var p, q := DividerRanks(pairs);
  }

  /** The sorted positions of both dividers, and the key they give. */
  lemma DividerRanks(pairs: seq<(Element, Element)>) returns (p: nat, q: nat)
    requires forall k :: 0 <= k < |pairs| ==> !IsMarker(pairs[k].0) && !IsMarker(pairs[k].1)
    ensures p == CountWhere(Packets(pairs), LessThan(First))
    ensures q == CountWhere(Packets(pairs), LessThan(Second))
    ensures Key(Sorted(pairs)) == (p + 1) * (q + 1)
  {
    p := DividerRank(pairs, First);
    q := DividerRank(pairs, Second);
    KeyOfDividers(Sorted(pairs), p, q);
  }

  /** The key of a sorted list in which each divider is Equal to exactly one
      packet. */
  lemma KeyOfDividers(s: seq<Element>, p: nat, q: nat)
    requires p < |s| && Compare(First, s[p]) == Equal
    requires forall i :: 0 <= i < |s| && Compare(First, s[i]) == Equal ==> i == p
    requires q < |s| && Compare(Second, s[q]) == Equal
    requires forall i :: 0 <= i < |s| && Compare(Second, s[i]) == Equal ==> i == q
    ensures Key(s) == (p + 1) * (q + 1)
  {
    MarkersAt(s, p, q);
    KeyOfTwoMarkers(s, p, q);
  }

  /** When each divider is Equal to exactly one packet, those two packets
      are the only markers, and they differ. */
  lemma MarkersAt(s: seq<Element>, p: nat, q: nat)
    requires p < |s| && Compare(First, s[p]) == Equal
    requires forall i :: 0 <= i < |s| && Compare(First, s[i]) == Equal ==> i == p
    requires q < |s| && Compare(Second, s[q]) == Equal
    requires forall i :: 0 <= i < |s| && Compare(Second, s[i]) == Equal ==> i == q
    ensures p != q
    ensures forall i :: 0 <= i < |s| ==> (IsMarker(s[i]) <==> i == p || i == q)
  {
    DividersDistinct(s[p]);
  }

  /** No packet is Equal to both dividers. */
  lemma DividersDistinct(e: Element)
    ensures !(Compare(First, e) == Equal && Compare(Second, e) == Equal)
  {
    if Compare(First, e) == Equal && Compare(Second, e) == Equal {
      DividersAreOrdered();
      CompareAntisymmetric(Second, e);
      CompareTransitive(First, e, Second);
    }
  }

  /** The program's two answers, or None when it aborts. */
  function Solve(lines: seq<string>): (r: Option<(nat, nat)>)
    ensures r.Some? <==> ReadPairs(lines).Some?
    ensures r.Some? ==> r.value.0 <= Triangle(|ReadPairs(lines).value|)
  {
    match ReadPairs(lines)
      case None => None
      case Some(pairs) =>
        IndexSumBounds(pairs);
        Some((IndexSum(pairs), Key(Sorted(pairs))))
  }
}

=== FILE: day14_regolith.dfy ===
/** Falling sand: rock paths are drawn into a cave with a floor two rows
    below the lowest rock, and grains of sand dropped from (500, 0) fall
    until one comes to rest at the source. */
module Regolith {
  import opened Common

  datatype Point = Point(x: int, y: int)

  const Source: Point := Point(500, 0)

  // Parsing

  /** "x,y": split at the first ',' into two unsigned numbers, or abort. */
  function ParsePoint(s: string): (r: Option<Point>)
    ensures r.Some? <==> (SplitOnce(s, ",").Some?
      && ParseNat(SplitOnce(s, ",").value.0).Some?
      && ParseNat(SplitOnce(s, ",").value.1).Some?)
    ensures r.Some? ==> r.value.x >= 0 && r.value.y >= 0
  {
    match SplitOnce(s, ",")
      case None => None
      case Some((sx, sy)) =>
        match (ParseNat(sx), ParseNat(sy))
          case (Some(x), Some(y)) => Some(Point(x, y))
          case _ => None
  }

  function ShowPoint(p: Point): string
    requires p.x >= 0 && p.y >= 0
  {
    ShowNat(p.x) + "," + ShowNat(p.y)
  }

  /** Parsing a printed point gives it back. */
  lemma ParseShowPoint(p: Point)
    requires p.x >= 0 && p.y >= 0
    ensures ParsePoint(ShowPoint(p)) == Some(p)
  {
    var a := ShowNat(p.x);
    assert forall i :: 0 <= i < |a| ==> a[i] != ',' by {
      assert AllDigits(a);
    }
    SplitOnceAt(a, ',', ShowNat(p.y));
    ParseShowNat(p.x);
    ParseShowNat(p.y);
  }

  /** A rock path: points separated by " -> ". */
  function ParsePath(line: string): (r: Option<seq<Point>>)
    ensures var ts := SplitStr(line, " -> ");
      r.Some? ==> |r.value| == |ts| && forall k :: 0 <= k < |ts| ==> ParsePoint(ts[k]) == Some(r.value[k])
  {
    var ts := SplitStr(line, " -> ");
    ParsePoints(ts)
  }

  function ParsePoints(ts: seq<string>): (r: Option<seq<Point>>)
    ensures r.Some? ==> |r.value| == |ts|
    ensures r.Some? ==> forall k :: 0 <= k < |ts| ==> ParsePoint(ts[k]) == Some(r.value[k])
    ensures r.Some? <==> forall k :: 0 <= k < |ts| ==> ParsePoint(ts[k]).Some?
  {
    if |ts| == 0 then Some([])
    else match (ParsePoint(ts[0]), ParsePoints(ts[1..]))
      case (Some(p), Some(ps)) => Some([p] + ps)
      case _ => None
  }

  // Rock segments

  predicate Between(v: int, a: int, b: int)
  {
    Min(a, b) <= v <= Max(a, b)
  }

  /** `c` lies in the box spanned by `p` and `q`, which for an aligned pair
      is the segment from one to the other, both ends included. */
  predicate OnSegment(p: Point, q: Point, c: Point)
  {
    Between(c.x, p.x, q.x) && Between(c.y, p.y, q.y)
  }

  /** The cells one segment of a path blocks. Equal x gives a vertical run;
      otherwise the y must agree, or the program aborts (None). */
  function Segment(p: Point, q: Point): (r: Option<set<Point>>)
    ensures r.Some? <==> p.x == q.x || p.y == q.y
    ensures r.Some? ==> forall c :: c in r.value <==> OnSegment(p, q, c)
  {
    if q.x == p.x then
      Some(set y | Min(p.y, q.y) <= y <= Max(p.y, q.y) :: Point(p.x, y))
    else if q.y == p.y then
      Some(set x | Min(p.x, q.x) <= x <= Max(p.x, q.x) :: Point(x, p.y))
    else None
  }

  /** A segment blocks both its ends, whichever way it is drawn. */
  lemma SegmentSymmetric(p: Point, q: Point)
    ensures Segment(p, q) == Segment(q, p)
    ensures Segment(p, q).Some? ==> p in Segment(p, q).value && q in Segment(p, q).value
  {
    if Segment(p, q).Some? {
      assert Segment(p, q).value == Segment(q, p).value;
    }
  }

  /** Consecutive points of a path share a row or a column. */
  predicate Aligned(pts: seq<Point>)
  {
    forall i :: 0 <= i < |pts| - 1 ==> pts[i].x == pts[i + 1].x || pts[i].y == pts[i + 1].y
  }

  /** The cells of every segment of a path. */
  function PathCells(pts: seq<Point>): (r: Option<set<Point>>)
    ensures r.Some? <==> Aligned(pts)
    ensures r.Some? ==> forall c :: c in r.value <==>
      exists i :: 0 <= i < |pts| - 1 && OnSegment(pts[i], pts[i + 1], c)
  {
    if |pts| <= 1 then Some({})
    else
      var rest := PathCells(pts[1..]);
      assert rest.Some? ==> forall c :: c in rest.value <==>
        exists i :: 1 <= i < |pts| - 1 && OnSegment(pts[i], pts[i + 1], c) by {
        if rest.Some? {
          forall c
            ensures c in rest.value <==> exists i :: 1 <= i < |pts| - 1 && OnSegment(pts[i], pts[i + 1], c)
          {
            if c in rest.value {
              var j :| 0 <= j < |pts| - 2 && OnSegment(pts[1..][j], pts[1..][j + 1], c);
              assert OnSegment(pts[j + 1], pts[j + 2], c);
            }
          }
        }
      }
      match (Segment(pts[0], pts[1]), rest)
        case (Some(a), Some(b)) => Some(a + b)
        case _ => None
  }

  /** Cell `c` is on a segment of the path `pts`. */
  predicate InPath(pts: seq<Point>, c: Point)
  {
    PathCells(pts).Some? && c in PathCells(pts).value
  }

  /** The rock cells of all paths. */
  function Rocks(paths: seq<seq<Point>>): (r: Option<set<Point>>)
    ensures r.Some? <==> forall k :: 0 <= k < |paths| ==> Aligned(paths[k])
    ensures r.Some? ==> forall c :: c in r.value <==> exists k :: 0 <= k < |paths| && InPath(paths[k], c)
  {
    if |paths| == 0 then Some({})
    else match (PathCells(paths[0]), Rocks(paths[1..]))
      case (Some(a), Some(b)) =>
        forall c
          ensures c in b <==> exists k :: 1 <= k < |paths| && InPath(paths[k], c)
        {
          TailPaths(paths, c);
        }
        Some(a + b)
      case _ =>
        assert forall k :: 1 <= k < |paths| ==> paths[k] == paths[1..][k - 1];
        None
  }

  /** The paths after the first, indexed from 1. */
  lemma TailPaths(paths: seq<seq<Point>>, c: Point)
    requires |paths| > 0
    ensures (exists j :: 0 <= j < |paths| - 1 && InPath(paths[1..][j], c))
      <==> exists k :: 1 <= k < |paths| && InPath(paths[k], c)
  {
    if exists j :: 0 <= j < |paths| - 1 && InPath(paths[1..][j], c) {
      var j :| 0 <= j < |paths| - 1 && InPath(paths[1..][j], c);
      assert paths[1..][j] == paths[j + 1];
    }
    if exists k :: 1 <= k < |paths| && InPath(paths[k], c) {
      var k :| 1 <= k < |paths| && InPath(paths[k], c);
      assert paths[1..][k - 1] == paths[k];
    }
  }

  /** The lowest row any segment reaches (rows grow downwards), starting
      from 1. */
  function Bottom(paths: seq<seq<Point>>): int
  {
    if |paths| == 0 then 1 else Max(PathBottom(paths[0]), Bottom(paths[1..]))
  }

  function PathBottom(pts: seq<Point>): int
  {
    if |pts| <= 1 then 1 else Max(Max(pts[0].y, pts[1].y), PathBottom(pts[1..]))
  }

  /** No rock lies below the bottom row, and the bottom row is 1 or the row
      of some rock. */
  lemma {:induction false} PathBottomBounds(pts: seq<Point>)
    requires Aligned(pts)
    ensures PathBottom(pts) >= 1
    ensures forall c :: c in PathCells(pts).value ==> c.y <= PathBottom(pts)
    ensures PathBottom(pts) == 1 || exists c :: c in PathCells(pts).value && c.y == PathBottom(pts)
    decreases |pts|
  {
    if |pts| > 1 {
      var p, q := pts[0], pts[1];
      PathBottomBounds(pts[1..]);
      assert OnSegment(p, q, p) && OnSegment(p, q, q);
      assert p in PathCells(pts).value && q in PathCells(pts).value;
      forall c | c in PathCells(pts[1..]).value
        ensures c in PathCells(pts).value
      {
        var j :| 0 <= j < |pts| - 2 && OnSegment(pts[1..][j], pts[1..][j + 1], c);
        assert OnSegment(pts[j + 1], pts[j + 2], c);
      }
    }
  }

  lemma {:induction false} BottomBounds(paths: seq<seq<Point>>)
    requires Rocks(paths).Some?
    ensures Bottom(paths) >= 1
    ensures forall c :: c in Rocks(paths).value ==> c.y <= Bottom(paths)
    ensures Bottom(paths) == 1 || exists c :: c in Rocks(paths).value && c.y == Bottom(paths)
    decreases |paths|
  {
    if |paths| > 0 {
      PathBottomBounds(paths[0]);
      BottomBounds(paths[1..]);
      forall c | c in Rocks(paths).value
        ensures c.y <= Bottom(paths)
      {
        var k :| 0 <= k < |paths| && InPath(paths[k], c);
        if k > 0 {
          assert paths[1..][k - 1] == paths[k];
        }
      }
    }
  }

  // The cave and the fall of one grain

  /** The rock cells and the floor row, two below the bottom. */
  datatype Cave = Cave(rocks: set<Point>, floor: int)

  predicate Blocked(cave: Cave, sand: set<Point>, p: Point)
  {
    p in cave.rocks || p in sand || p.y == cave.floor
  }

  /** Where a grain at `p` moves next: straight down, else down-left, else
      down-right; None when all three are blocked and it comes to rest. */
  function NextCell(cave: Cave, sand: set<Point>, p: Point): (r: Option<Point>)
    ensures r.Some? ==> r.value.y == p.y + 1 && -1 <= r.value.x - p.x <= 1 && !Blocked(cave, sand, r.value)
    ensures r.None? <==> (Blocked(cave, sand, Point(p.x, p.y + 1))
      && Blocked(cave, sand, Point(p.x - 1, p.y + 1)) && Blocked(cave, sand, Point(p.x + 1, p.y + 1)))
  {
    var down, left, right := Point(p.x, p.y + 1), Point(p.x - 1, p.y + 1), Point(p.x + 1, p.y + 1);
    if !Blocked(cave, sand, down) then Some(down)
    else if !Blocked(cave, sand, left) then Some(left)
    else if !Blocked(cave, sand, right) then Some(right)
    else None
  }

  /** The cell where a grain dropped at `p` comes to rest. The inner loop's
      test `y <= bottom` never fails, because the floor row stops every
      grain above it. */
  function Drop(cave: Cave, sand: set<Point>, p: Point): (r: Point)
    requires p.y < cave.floor
    ensures p.y <= r.y < cave.floor
    ensures Abs(r.x - p.x) <= r.y - p.y
    ensures NextCell(cave, sand, r).None?
    ensures r == p || !Blocked(cave, sand, r)
    decreases cave.floor - p.y
  {
    match NextCell(cave, sand, p)
      case None => p
      case Some(q) => Drop(cave, sand, q)
  }

  /** A grain that lands on the cell under the source, blocked on all three
      sides, rests at the source. */
  lemma RestsAtSourceWhenCovered(cave: Cave, sand: set<Point>)
    requires cave.floor > 0
    requires Point(499, 1) in sand && Point(500, 1) in sand && Point(501, 1) in sand
    ensures Drop(cave, sand, Source) == Source
  {
  }

  /** The cells a grain from the source can reach: inside the triangle below
      it and above the floor. */
  function Region(floor: int): set<Point>
  {
    set y: int, x: int | 0 <= y < floor && 500 - y <= x <= 500 + y :: Point(x, y)
  }

  /** Grains are dropped until one rests at the source; the result is the
      number of grains and the final sand. */
  function Pour(cave: Cave, sand: set<Point>): (r: (nat, set<Point>))
    requires cave.floor > 0
    requires Source !in sand
    ensures r.0 >= 1
    ensures sand <= r.1 && Source in r.1
    ensures |r.1| == |sand| + r.0
    ensures r.1 - sand <= Region(cave.floor)
    decreases |Region(cave.floor) - (cave.rocks + sand)|
  {
    var g := Drop(cave, sand, Source);
    assert g in Region(cave.floor);
    if g == Source then (1, sand + {g})
    else
      var before := Region(cave.floor) - (cave.rocks + sand);
      assert Region(cave.floor) - (cave.rocks + (sand + {g})) == before - {g};
      assert g in before;
      var rest := Pour(cave, sand + {g});
      (1 + rest.0, rest.1)
  }

  /** Every grain rests inside the triangle, so the count is at most the
      triangle's size. */
  lemma PourIsBounded(cave: Cave)
    requires cave.floor > 0
    ensures Pour(cave, {}).0 <= |Region(cave.floor)|
  {
    var r := Pour(cave, {});
    assert r.1 - {} == r.1;
    SubsetCard(r.1, Region(cave.floor));
  }

  lemma SubsetCard<T>(a: set<T>, b: set<T>)
    requires a <= b
    ensures |a| <= |b|
  {
    assert b == a + (b - a);
  }

  /** The program's answer: the number of grains poured, or None when the
      input does not describe aligned paths of points. */
  function Solve(lines: seq<string>): (r: Option<nat>)
    ensures r.Some? ==> r.value >= 1
  {
    match ParsePaths(lines)
      case None => None
      case Some(paths) =>
        match Rocks(paths)
          case None => None
          case Some(rocks) =>
            BottomBounds(paths);
            Some(Pour(Cave(rocks, Bottom(paths) + 2), {}).0)
  }

  function ParsePaths(lines: seq<string>): (r: Option<seq<seq<Point>>>)
    ensures r.Some? ==> |r.value| == |lines|
    ensures r.Some? ==> forall k :: 0 <= k < |lines| ==> ParsePath(lines[k]) == Some(r.value[k])
  {
    if |lines| == 0 then Some([])
    else match (ParsePath(lines[0]), ParsePaths(lines[1..]))
      case (Some(p), Some(ps)) => Some([p] + ps)
      case _ => None
  }
}

=== FILE: day15_beacon_exclusion.dfy ===
/** Beacon exclusion: each sensor rules out the cells no farther (in the
    Manhattan metric) than its closest beacon. For one row, the ruled-out
    column ranges are sorted and merged, and a row whose merged ranges leave
    a single free column reveals the distress beacon. */
module BeaconExclusion {
  import opened Common
  import opened Sorting

  datatype Pos = Pos(x: int, y: int)

  datatype Sensor = Sensor(at: Pos, beacon: Pos)

  /** An inclusive range of columns; start > end means no column. */
  type Range = (int, int)

  function Radius(s: Sensor): nat
  {
    Abs(s.beacon.x - s.at.x) + Abs(s.beacon.y - s.at.y)
  }

  function Distance(s: Sensor, x: int, y: int): nat
  {
    Abs(x - s.at.x) + Abs(y - s.at.y)
  }

  predicate InRange(r: Range, x: int)
  {
    r.0 <= x <= r.1
  }

  /** The columns of row `y` the sensor rules out, or None when the row is
      beyond its reach. */
  function SensorCovers(s: Sensor, y: int): (r: Option<Range>)
    ensures r.None? <==> Abs(s.at.y - y) > Radius(s)
    ensures r.Some? ==> r.value.0 <= r.value.1 && r.value.0 + r.value.1 == 2 * s.at.x
    ensures r.Some? ==> forall x :: InRange(r.value, x) <==> Distance(s, x, y) <= Radius(s)
    ensures r.None? ==> forall x :: Distance(s, x, y) > Radius(s)
  {
    var range := Radius(s);
    var dist := Abs(s.at.y - y);
    var dx := range - dist;
    if dx < 0 then None else Some((s.at.x - dx, s.at.x + dx))
  }

  // Merging

  /** Some range of the list holds column `x`. */
  predicate Covered(ranges: seq<Range>, x: int)
  {
    exists i :: 0 <= i < |ranges| && InRange(ranges[i], x)
  }

  predicate WellFormed(ranges: seq<Range>)
  {
    forall i :: 0 <= i < |ranges| ==> ranges[i].0 <= ranges[i].1
  }

  /** Consecutive ranges leave at least one free column between them. */
  predicate Gapped(ranges: seq<Range>)
  {
    forall i :: 0 <= i < |ranges| - 1 ==> ranges[i + 1].0 - ranges[i].1 >= 2
  }

  predicate SortedByStart(ranges: seq<Range>)
  {
    forall i, j :: 0 <= i < j < |ranges| ==> ranges[i].0 <= ranges[j].0
  }

  /** The merging loop: `cur` is the range being grown, `acc` the ranges
      already closed. A range that starts at most one column past the end
      of `cur` extends it; any other range closes `cur` and becomes the new
      one. */
  function MergeLoop(rest: seq<Range>, cur: Range, acc: seq<Range>): (r: seq<Range>)
    ensures 1 <= |r| <= |acc| + 1 + |rest|
    decreases |rest|
  {
    if |rest| == 0 then acc + [cur]
    else
      var x := rest[0];
      if x.0 - cur.1 <= 1 then
        if x.1 <= cur.1 then MergeLoop(rest[1..], cur, acc)
        else MergeLoop(rest[1..], (cur.0, x.1), acc)
      else MergeLoop(rest[1..], x, acc + [cur])
  }

  /** Fewer than two ranges give no ranges at all. */
  function MergeRanges(ranges: seq<Range>): (r: seq<Range>)
    ensures |ranges| < 2 <==> |r| == 0
    ensures |r| <= |ranges|
  {
    if |ranges| < 2 then [] else MergeLoop(ranges[1..], ranges[0], [])
  }

  /** The merged ranges are separated by free columns, whatever the input. */
  lemma {:induction false} MergeLoopGapped(rest: seq<Range>, cur: Range, acc: seq<Range>)
    requires Gapped(acc)
    requires |acc| > 0 ==> cur.0 - acc[|acc| - 1].1 >= 2
    ensures Gapped(MergeLoop(rest, cur, acc))
    decreases |rest|
  {
    if |rest| > 0 {
      var x := rest[0];
      if x.0 - cur.1 <= 1 {
        if x.1 <= cur.1 {
          MergeLoopGapped(rest[1..], cur, acc);
        } else {
          MergeLoopGapped(rest[1..], (cur.0, x.1), acc);
        }
      } else {
        MergeLoopGapped(rest[1..], x, acc + [cur]);
      }
    }
  }

  /** Well-formed input gives well-formed ranges. */
  lemma {:induction false} MergeLoopWellFormed(rest: seq<Range>, cur: Range, acc: seq<Range>)
    requires WellFormed(rest) && WellFormed(acc) && cur.0 <= cur.1
    ensures WellFormed(MergeLoop(rest, cur, acc))
    decreases |rest|
  {
    if |rest| > 0 {
      var x := rest[0];
      if x.0 - cur.1 <= 1 {
        if x.1 <= cur.1 {
          MergeLoopWellFormed(rest[1..], cur, acc);
        } else {
          MergeLoopWellFormed(rest[1..], (cur.0, x.1), acc);
        }
      } else {
        MergeLoopWellFormed(rest[1..], x, acc + [cur]);
      }
    }
  }

  lemma CoveredAppend(a: seq<Range>, b: seq<Range>, x: int)
    ensures Covered(a + b, x) <==> Covered(a, x) || Covered(b, x)
  {
    if Covered(a + b, x) {
      var i :| 0 <= i < |a + b| && InRange((a + b)[i], x);
      if i >= |a| {
        assert InRange(b[i - |a|], x);
      }
    }
    if Covered(b, x) {
      var i :| 0 <= i < |b| && InRange(b[i], x);
      assert InRange((a + b)[|a| + i], x);
    }
    if Covered(a, x) {
      var i :| 0 <= i < |a| && InRange(a[i], x);
      assert InRange((a + b)[i], x);
    }
  }

  lemma CoveredTail(rest: seq<Range>, x: int)
    requires |rest| > 0
    ensures Covered(rest, x) <==> InRange(rest[0], x) || Covered(rest[1..], x)
  {
    assert rest == [rest[0]] + rest[1..];
    CoveredAppend([rest[0]], rest[1..], x);
  }

  /** With every remaining range starting no earlier than `cur`, merging
      keeps exactly the covered columns. */
  lemma {:induction false} MergeLoopUnion(rest: seq<Range>, cur: Range, acc: seq<Range>, x: int)
    requires SortedByStart(rest)
    requires forall i :: 0 <= i < |rest| ==> cur.0 <= rest[i].0
    ensures Covered(MergeLoop(rest, cur, acc), x) <==> Covered(acc, x) || InRange(cur, x) || Covered(rest, x)
    decreases |rest|
  {
    if |rest| == 0 {
      CoveredAppend(acc, [cur], x);
      assert Covered([cur], x) <==> InRange(cur, x) by {
        if InRange(cur, x) {
          assert InRange([cur][0], x);
        }
      }
    } else {
      var r := rest[0];
      CoveredTail(rest, x);
      if r.0 - cur.1 <= 1 {
        if r.1 <= cur.1 {
          assert cur.0 <= r.0;
          MergeLoopUnion(rest[1..], cur, acc, x);
        } else {
          assert cur.0 <= r.0;
          assert InRange((cur.0, r.1), x) <==> InRange(cur, x) || InRange(r, x);
          MergeLoopUnion(rest[1..], (cur.0, r.1), acc, x);
        }
      } else {
        assert forall i :: 0 <= i < |rest[1..]| ==> r.0 <= rest[1..][i].0 by {
          forall i | 0 <= i < |rest[1..]|
            ensures r.0 <= rest[1..][i].0
          {
            assert rest[1..][i] == rest[i + 1];
          }
        }
        MergeLoopUnion(rest[1..], r, acc + [cur], x);
        CoveredAppend(acc, [cur], x);
        assert Covered([cur], x) <==> InRange(cur, x) by {
          if InRange(cur, x) {
            assert InRange([cur][0], x);
          }
        }
      }
    }
  }

  /** For input sorted by start, with at least two ranges, a column is in a
      merged range exactly when it is in an input range. */
  lemma MergePreservesUnion(ranges: seq<Range>, x: int)
    requires SortedByStart(ranges) && |ranges| >= 2
    ensures Covered(MergeRanges(ranges), x) <==> Covered(ranges, x)
  {
    MergeLoopUnion(ranges[1..], ranges[0], [], x);
    CoveredTail(ranges, x);
  }

  // Sorting the ranges

  /** The tuple order `sort` uses: by start, then by end. */
  predicate RangeLe(a: Range, b: Range)
  {
    a.0 < b.0 || (a.0 == b.0 && a.1 <= b.1)
  }

  lemma RangeLeIsTotalPreorder()
    ensures TotalPreorder(RangeLe)
  {
  }

  function SortRanges(ranges: seq<Range>): (r: seq<Range>)
    ensures SortedByStart(r)
    ensures multiset(r) == multiset(ranges)
    ensures |r| == |ranges|
  {
    RangeLeIsTotalPreorder();
    var s := SortBy(ranges, RangeLe);
    assert forall i, j :: 0 <= i < j < |s| ==> RangeLe(s[i], s[j]);
    s
  }

  lemma CoveredPermutation(a: seq<Range>, b: seq<Range>, x: int)
    requires multiset(a) == multiset(b)
    ensures Covered(a, x) ==> Covered(b, x)
  {
    if Covered(a, x) {
      var i :| 0 <= i < |a| && InRange(a[i], x);
      assert a[i] in multiset(b);
      var j :| 0 <= j < |b| && b[j] == a[i];
    }
  }

  lemma WellFormedPermutation(a: seq<Range>, b: seq<Range>)
    requires multiset(a) == multiset(b) && WellFormed(a)
    ensures WellFormed(b)
  {
    forall j | 0 <= j < |b|
      ensures b[j].0 <= b[j].1
    {
      assert b[j] in multiset(a);
      var i :| 0 <= i < |a| && a[i] == b[j];
    }
  }

  // One row

  /** The ranges of every sensor that reaches row `y`, in sensor order. */
  function RowRanges(sensors: seq<Sensor>, y: int): (r: seq<Range>)
    ensures |r| <= |sensors|
    ensures WellFormed(r)
  {
    if |sensors| == 0 then []
    else match SensorCovers(sensors[0], y)
      case Some(c) => [c] + RowRanges(sensors[1..], y)
      case None => RowRanges(sensors[1..], y)
  }

  /** Some sensor rules out cell (x, y). */
  predicate Seen(sensors: seq<Sensor>, x: int, y: int)
  {
    exists k :: 0 <= k < |sensors| && Distance(sensors[k], x, y) <= Radius(sensors[k])
  }

  /** The row's ranges cover exactly the cells the sensors rule out. */
  lemma {:induction false} RowRangesCover(sensors: seq<Sensor>, y: int, x: int)
    ensures Covered(RowRanges(sensors, y), x) <==> Seen(sensors, x, y)
    decreases |sensors|
  {
    if |sensors| > 0 {
      var s := sensors[0];
      RowRangesCover(sensors[1..], y, x);
      if Seen(sensors[1..], x, y) {
        var k :| 0 <= k < |sensors| - 1 && Distance(sensors[1..][k], x, y) <= Radius(sensors[1..][k]);
        assert sensors[k + 1] == sensors[1..][k];
      }
      if Seen(sensors, x, y) {
        var k :| 0 <= k < |sensors| && Distance(sensors[k], x, y) <= Radius(sensors[k]);
        if k > 0 {
          assert sensors[1..][k - 1] == sensors[k];
        }
      }
      match SensorCovers(s, y)
        case Some(c) => CoveredTail(RowRanges(sensors, y), x);
        case None =>
    }
  }

  /** The merged ranges of a row. */
  function Row(sensors: seq<Sensor>, y: int): (r: seq<Range>)
    ensures Gapped(r) && WellFormed(r)
  {
    var sorted := SortRanges(RowRanges(sensors, y));
    WellFormedPermutation(RowRanges(sensors, y), sorted);
    if |sorted| >= 2 then
      MergeLoopGapped(sorted[1..], sorted[0], []);
      MergeLoopWellFormed(sorted[1..], sorted[0], []);
      MergeRanges(sorted)
    else MergeRanges(sorted)
  }

  /** With at least two sensors reaching the row, a column is in the row's
      merged ranges exactly when some sensor rules it out. */
  lemma RowCoversSeen(sensors: seq<Sensor>, y: int, x: int)
    requires |RowRanges(sensors, y)| >= 2
    ensures Covered(Row(sensors, y), x) <==> Seen(sensors, x, y)
  {
    var unsorted := RowRanges(sensors, y);
    var sorted := SortRanges(unsorted);
    MergePreservesUnion(sorted, x);
    CoveredPermutation(sorted, unsorted, x);
    CoveredPermutation(unsorted, sorted, x);
    RowRangesCover(sensors, y, x);
  }

  const FrequencyFactor: int := 4000000

  /** A row whose merged ranges are exactly two, one column apart, reveals
      the beacon: the column between them and its tuning frequency. */
  function Gap(sensors: seq<Sensor>, y: int): (r: Option<(int, int)>)
    ensures r.Some? ==> !Seen(sensors, r.value.0, y)
    ensures r.Some? ==> Seen(sensors, r.value.0 - 1, y) && Seen(sensors, r.value.0 + 1, y)
    ensures r.Some? ==> r.value.1 == FrequencyFactor * r.value.0 + y
  {
    var ranges := Row(sensors, y);
    if |ranges| != 2 || ranges[0].1 + 2 != ranges[1].0 then None
    else
      var x := ranges[0].1 + 1;
      GapIsUnseen(sensors, y, x);
      Some((x, FrequencyFactor * x + y))
  }

  lemma GapIsUnseen(sensors: seq<Sensor>, y: int, x: int)
    requires |Row(sensors, y)| == 2 && Row(sensors, y)[0].1 + 2 == Row(sensors, y)[1].0
    requires x == Row(sensors, y)[0].1 + 1
    ensures !Seen(sensors, x, y)
    ensures Seen(sensors, x - 1, y) && Seen(sensors, x + 1, y)
  {
    var ranges := Row(sensors, y);
    assert |SortRanges(RowRanges(sensors, y))| >= 2;
    RowCoversSeen(sensors, y, x);
    RowCoversSeen(sensors, y, x - 1);
    RowCoversSeen(sensors, y, x + 1);
    assert InRange(ranges[0], x - 1);
    assert InRange(ranges[1], x + 1);
    assert forall i :: 0 <= i < |ranges| ==> !InRange(ranges[i], x);
  }

  // Parsing

  /** "Sensor at x=A, y=B: closest beacon is at x=C, y=D": the words are
      replaced by commas, the text is split at ',' and the first four pieces
      must be integers, or the program aborts (None). */
  function ParseSensor(line: string): (r: Option<Sensor>)
    ensures var coord := Split(Trim(line), {','});
      r.Some? <==> (|coord| >= 4 && ParseInt(coord[0]).Some? && ParseInt(coord[1]).Some?
        && ParseInt(coord[2]).Some? && ParseInt(coord[3]).Some?)
    ensures var coord := Split(Trim(line), {','});
      r.Some? ==> (|coord| >= 4
        && r.value.at == Pos(ParseInt(coord[0]).value, ParseInt(coord[1]).value)
        && r.value.beacon == Pos(ParseInt(coord[2]).value, ParseInt(coord[3]).value))
  {
    var coord := Split(Trim(line), {','});
    if |coord| < 4 then None
    else match (ParseInt(coord[0]), ParseInt(coord[1]), ParseInt(coord[2]), ParseInt(coord[3]))
      case (Some(sx), Some(sy), Some(bx), Some(bY)) => Some(Sensor(Pos(sx, sy), Pos(bx, bY)))
      case _ => None
  }

  const SensorPrefix := "Sensor at x="
  const YPrefix := ", y="
  const BeaconPrefix := ": closest beacon is at x="

  /** The four replacements that leave "A,B,C,D". */
  function Trim(line: string): string
  {
    var t := Replace(line, SensorPrefix, "");
    var t := Replace(t, YPrefix, ",");
    var t := Replace(t, BeaconPrefix, ",");
    Replace(t, YPrefix, ",")
  }

  /** The input line describing a sensor. */
  function ShowSensor(s: Sensor): string
  {
    SensorPrefix + SensorFields(s)
  }

  function SensorFields(s: Sensor): string
  {
    ShowInt(s.at.x) + YPrefix + BeaconPart(s) + YPrefix + ShowInt(s.beacon.y)
  }

  function BeaconPart(s: Sensor): string
  {
    ShowInt(s.at.y) + BeaconPrefix + ShowInt(s.beacon.x)
  }

  /** Parsing a printed sensor line gives the sensor back. */
  lemma ParseShowSensor(s: Sensor)
    ensures ParseSensor(ShowSensor(s)) == Some(s)
  {
    TrimShowSensor(s);
    SplitIntTexts(s);
    ParseShowIntText(s.at.x);
    ParseShowIntText(s.at.y);
    ParseShowIntText(s.beacon.x);
    ParseShowIntText(s.beacon.y);
  }

  /** The replacements turn a printed line into "A,B,C,D". */
  lemma TrimShowSensor(s: Sensor)
    ensures Trim(ShowSensor(s)) == Fields(s)
  {
    DropSensorPrefix(s);
    ReplaceFirstY(s);
    ReplaceBeacon(s);
    ReplaceSecondY(s);
  }

  /** The integer texts hold none of the characters the patterns start
      with, nor a space. */
  lemma TextsAvoid(s: Sensor, ch: char)
    requires ch in {'S', ',', ':', ' '}
    ensures ch !in ShowInt(s.at.x) && ch !in ShowInt(s.at.y)
    ensures ch !in ShowInt(s.beacon.x) && ch !in ShowInt(s.beacon.y)
  {
    NotInIntText(s.at.x, ch);
    NotInIntText(s.at.y, ch);
    NotInIntText(s.beacon.x, ch);
    NotInIntText(s.beacon.y, ch);
  }

  lemma DropSensorPrefix(s: Sensor)
    ensures Replace(ShowSensor(s), SensorPrefix, "") == SensorFields(s)
  {
    var f := SensorFields(s);
    TextsAvoid(s, 'S');
    assert ShowSensor(s) == "" + SensorPrefix + f;
    assert 'S' !in f;
    ReplaceOne("", SensorPrefix, f, "");
    assert "" + "" + f == f;
  }

  lemma ReplaceFirstY(s: Sensor)
    ensures Replace(SensorFields(s), YPrefix, ",")
      == ShowInt(s.at.x) + "," + BeaconPart(s) + "," + ShowInt(s.beacon.y)
  {
    TextsAvoid(s, ',');
    ReplaceTwo(ShowInt(s.at.x), YPrefix, BeaconPart(s), ShowInt(s.beacon.y), ",");
  }

  lemma ReplaceBeacon(s: Sensor)
    ensures Replace(ShowInt(s.at.x) + "," + BeaconPart(s) + "," + ShowInt(s.beacon.y), BeaconPrefix, ",")
      == Fields(s)
  {
    var a, b, c, d := ShowInt(s.at.x), ShowInt(s.at.y), ShowInt(s.beacon.x), ShowInt(s.beacon.y);
    TextsAvoid(s, ':');
    Regroup(a, b, c, d, BeaconPrefix);
    ReplaceOne(a + "," + b, BeaconPrefix, c + "," + d, ",");
    Regroup(a, b, c, d, ",");
  }

  lemma ReplaceSecondY(s: Sensor)
    ensures Replace(Fields(s), YPrefix, ",") == Fields(s)
  {
    TextsAvoid(s, ' ');
    assert ' ' !in Fields(s) && YPrefix[1] == ' ';
    ReplaceNone(Fields(s), YPrefix, ",", 1);
  }

  /** The text "A,B,C,D". */
  function Fields(s: Sensor): string
  {
    ShowInt(s.at.x) + "," + ShowInt(s.at.y) + "," + ShowInt(s.beacon.x) + "," + ShowInt(s.beacon.y)
  }

  lemma Regroup(a: string, b: string, c: string, d: string, mid: string)
    ensures a + "," + (b + mid + c) + "," + d == (a + "," + b) + mid + (c + "," + d)
  {
  }

  lemma SplitIntTexts(s: Sensor)
    ensures Split(Fields(s), {','}) == [ShowInt(s.at.x), ShowInt(s.at.y), ShowInt(s.beacon.x), ShowInt(s.beacon.y)]
  {
    var a, b, c, d := ShowInt(s.at.x), ShowInt(s.at.y), ShowInt(s.beacon.x), ShowInt(s.beacon.y);
    var parts := [a, b, c, d];
    forall k | 0 <= k < 4
      ensures NoSeparator(parts[k], {','})
    {
    }
    assert Join(parts[3..], ',') == d;
    assert Join(parts[2..], ',') == c + [','] + d;
    assert Join(parts[1..], ',') == b + [','] + (c + [','] + d);
    assert Join(parts, ',') == a + [','] + (b + [','] + (c + [','] + d));
    assert Join(parts, ',') == Fields(s);
    SplitJoin(parts, ',');
  }
}

=== FILE: day16_valves.dfy ===
/** Pressure valves: each valve has a flow rate and tunnels to other valves.
    Two-hop routes are folded into direct exits until nothing changes, and a
    given path through the valves is scored by the pressure it releases in
    thirty minutes. */
module Valves {
  import opened Common

  /** A tunnel and its travel time. */
  datatype Exit = Exit(dest: string, cost: int)

  /** A valve's exits stand in for the program's hash map: each destination
      at most once, in some enumeration order that no result depends on. */
  datatype Valve = Valve(name: string, rate: int, exits: seq<Exit>)

  predicate UniqueDests(exits: seq<Exit>)
  {
    forall i, j :: 0 <= i < j < |exits| ==> exits[i].dest != exits[j].dest
  }

  /** The position of `d` among the exits. */
  function IndexOfDest(exits: seq<Exit>, d: string): (r: Option<nat>)
    ensures r.Some? ==> r.value < |exits| && exits[r.value].dest == d
    ensures r.None? <==> forall i :: 0 <= i < |exits| ==> exits[i].dest != d
  {
    if |exits| == 0 then None
    else if exits[|exits| - 1].dest == d then Some(|exits| - 1)
    else IndexOfDest(exits[..|exits| - 1], d)
  }

  /** The cost recorded for exit `d`. */
  function Lookup(exits: seq<Exit>, d: string): Option<int>
  {
    match IndexOfDest(exits, d)
      case Some(i) => Some(exits[i].cost)
      case None => None
  }

  lemma LookupAt(exits: seq<Exit>, i: nat)
    requires UniqueDests(exits) && i < |exits|
    ensures Lookup(exits, exits[i].dest) == Some(exits[i].cost)
  {
  }

  // Relaxing exits

  /** One candidate route to `d2` of the given cost: it is inserted when
      `d2` is not yet an exit and replaces the recorded cost when cheaper.
      The flag says whether anything changed. */
  function Relax(exits: seq<Exit>, cand: Exit): (r: (seq<Exit>, bool))
    requires UniqueDests(exits)
    ensures UniqueDests(r.0)
    ensures Lookup(r.0, cand.dest) == Some(
      if Lookup(exits, cand.dest).Some? then Min(Lookup(exits, cand.dest).value, cand.cost) else cand.cost)
    ensures forall d :: d != cand.dest ==> Lookup(r.0, d) == Lookup(exits, d)
    ensures r.1 <==> Lookup(exits, cand.dest).None? || cand.cost < Lookup(exits, cand.dest).value
  {
    match IndexOfDest(exits, cand.dest)
      case Some(i) =>
        if cand.cost < exits[i].cost then
          var e := exits[i := Exit(cand.dest, cand.cost)];
          LookupAt(e, i);
          forall d | d != cand.dest
            ensures Lookup(e, d) == Lookup(exits, d)
          {
            LookupUpdate(exits, i, cand.cost, d);
          }
          (e, true)
        else (exits, false)
      case None =>
        var e := exits + [cand];
        LookupAt(e, |exits|);
        assert e[..|exits|] == exits;
        (e, true)
  }

  lemma LookupUpdate(exits: seq<Exit>, i: nat, c: int, d: string)
    requires UniqueDests(exits) && i < |exits| && d != exits[i].dest
    ensures Lookup(exits[i := Exit(exits[i].dest, c)], d) == Lookup(exits, d)
  {
    var e := exits[i := Exit(exits[i].dest, c)];
    assert forall k :: 0 <= k < |e| ==> e[k].dest == exits[k].dest;
    match IndexOfDest(exits, d)
      case Some(k) =>
        LookupAt(exits, k);
        LookupAt(e, k);
      case None =>
        assert IndexOfDest(e, d).None?;
  }

  /** The candidates in order, the flag recording any change. */
  function RelaxAll(exits: seq<Exit>, cands: seq<Exit>): (r: (seq<Exit>, bool))
    requires UniqueDests(exits)
    ensures UniqueDests(r.0)
    decreases |cands|
  {
    if |cands| == 0 then (exits, false)
    else
      var first := Relax(exits, cands[0]);
      var rest := RelaxAll(first.0, cands[1..]);
      (rest.0, first.1 || rest.1)
  }

  /** A candidate improves on the exits: a new destination or a cheaper
      route. */
  predicate Improves(exits: seq<Exit>, cand: Exit)
  {
    Lookup(exits, cand.dest).None? || cand.cost < Lookup(exits, cand.dest).value
  }

  /** No recorded exit gets dearer or disappears. */
  lemma {:induction false} RelaxAllKeeps(exits: seq<Exit>, cands: seq<Exit>, d: string)
    requires UniqueDests(exits)
    requires Lookup(exits, d).Some?
    ensures Lookup(RelaxAll(exits, cands).0, d).Some?
    ensures Lookup(RelaxAll(exits, cands).0, d).value <= Lookup(exits, d).value
    decreases |cands|
  {
    if |cands| > 0 {
      var e1 := Relax(exits, cands[0]).0;
      RelaxAllKeeps(e1, cands[1..], d);
    }
  }

  /** The candidate's destination is an exit no dearer than the candidate. */
  predicate Covered(exits: seq<Exit>, c: Exit)
  {
    Lookup(exits, c.dest).Some? && Lookup(exits, c.dest).value <= c.cost
  }

  /** Every candidate route ends as an exit no dearer than the candidate. */
  lemma {:induction false} RelaxAllCovers(exits: seq<Exit>, cands: seq<Exit>, k: nat)
    requires UniqueDests(exits) && k < |cands|
    ensures Covered(RelaxAll(exits, cands).0, cands[k])
    decreases |cands|, 1
  {
    if k == 0 {
      CoversFirst(exits, cands);
    } else {
      CoversLater(exits, cands, k);
    }
  }

  /** The first candidate is covered by its own step and stays covered. */
  lemma CoversFirst(exits: seq<Exit>, cands: seq<Exit>)
    requires UniqueDests(exits) && 0 < |cands|
    ensures Covered(RelaxAll(exits, cands).0, cands[0])
  {
    var c := cands[0];
    RelaxCovers(exits, c);
    CoveredStays(Relax(exits, c).0, cands[1..], c);
    CoveredThroughStep(exits, cands, c);
  }

  /** A later candidate is covered by the rest of the pass. */
  lemma {:induction false} CoversLater(exits: seq<Exit>, cands: seq<Exit>, k: nat)
    requires UniqueDests(exits) && 0 < k < |cands|
    ensures Covered(RelaxAll(exits, cands).0, cands[k])
    decreases |cands|, 0
  {
    var tail := cands[1..];
    var c := cands[k];
    assert tail[k - 1] == c;
    RelaxAllCovers(Relax(exits, cands[0]).0, tail, k - 1);
    CoveredThroughStep(exits, cands, c);
  }

  /** What the rest of the pass covers, the whole pass covers. */
  lemma CoveredThroughStep(exits: seq<Exit>, cands: seq<Exit>, c: Exit)
    requires UniqueDests(exits) && 0 < |cands|
    requires Covered(RelaxAll(Relax(exits, cands[0]).0, cands[1..]).0, c)
    ensures Covered(RelaxAll(exits, cands).0, c)
  {
  }

  lemma RelaxCovers(exits: seq<Exit>, c: Exit)
    requires UniqueDests(exits)
    ensures Covered(Relax(exits, c).0, c)
  {
  }

  lemma CoveredStays(exits: seq<Exit>, cands: seq<Exit>, c: Exit)
    requires UniqueDests(exits) && Covered(exits, c)
    ensures Covered(RelaxAll(exits, cands).0, c)
  {
    RelaxAllKeeps(exits, cands, c.dest);
  }

  /** Every exit afterwards is an exit from before or a candidate, with the
      cost it came with. */
  lemma {:induction false} RelaxAllSources(exits: seq<Exit>, cands: seq<Exit>, d: string)
    requires UniqueDests(exits)
    requires Lookup(RelaxAll(exits, cands).0, d).Some?
    ensures var c := Lookup(RelaxAll(exits, cands).0, d).value;
      Lookup(exits, d) == Some(c) || exists k :: 0 <= k < |cands| && cands[k] == Exit(d, c)
    decreases |cands|
  {
    if |cands| > 0 {
      var e1 := Relax(exits, cands[0]).0;
      var c := Lookup(RelaxAll(exits, cands).0, d).value;
      RelaxAllSources(e1, cands[1..], d);
      if Lookup(e1, d) == Some(c) {
        if d == cands[0].dest && Lookup(exits, d) != Some(c) {
          assert cands[0] == Exit(d, c);
        }
      } else {
        var k :| 0 <= k < |cands| - 1 && cands[1..][k] == Exit(d, c);
        assert cands[k + 1] == Exit(d, c);
      }
    }
  }

  /** The flag is set exactly when some candidate improves on the exits as
      they were before the pass. */
  lemma {:induction false} RelaxAllFlag(exits: seq<Exit>, cands: seq<Exit>)
    requires UniqueDests(exits)
    ensures RelaxAll(exits, cands).1 <==> exists k :: 0 <= k < |cands| && Improves(exits, cands[k])
    decreases |cands|
  {
    if |cands| > 0 {
      var (e1, b1) := Relax(exits, cands[0]);
      RelaxAllFlag(e1, cands[1..]);
      if !b1 {
        assert forall d :: Lookup(e1, d) == Lookup(exits, d);
        assert e1 == exits;
        if exists k :: 0 <= k < |cands| && Improves(exits, cands[k]) {
          var k :| 0 <= k < |cands| && Improves(exits, cands[k]);
          assert k > 0 && Improves(e1, cands[1..][k - 1]);
        }
        if exists k :: 0 <= k < |cands| - 1 && Improves(e1, cands[1..][k]) {
          var k :| 0 <= k < |cands| - 1 && Improves(e1, cands[1..][k]);
          assert Improves(exits, cands[k + 1]);
        }
      } else {
        assert Improves(exits, cands[0]);
      }
    }
  }

  // One pass over every valve

  /** The valve with the given name. */
  function FindValve(valves: seq<Valve>, name: string): (r: Option<Valve>)
    ensures r.Some? ==> r.value in valves && r.value.name == name
    ensures r.None? ==> forall i :: 0 <= i < |valves| ==> valves[i].name != name
  {
    if |valves| == 0 then None
    else if valves[0].name == name then Some(valves[0])
    else FindValve(valves[1..], name)
  }

  /** The two-hop routes out of a valve: through each exit (d, c), to each
      exit (d2, c2) of d other than the valve itself, at cost c + c2. None
      when an exit names no valve, which aborts the program. */
  function Candidates(valves: seq<Valve>, name: string, exits: seq<Exit>): (r: Option<seq<Exit>>)
    ensures r.Some? ==> forall k :: 0 <= k < |r.value| ==> r.value[k].dest != name
  {
    if |exits| == 0 then Some([])
    else
      match (FindValve(valves, exits[0].dest), Candidates(valves, name, exits[1..]))
        case (Some(w), Some(more)) => Some(Onward(name, exits[0].cost, w.exits) + more)
        case _ => None
  }

  /** The candidates are missing, and the program aborts, exactly when some
      exit names no valve. */
  lemma {:induction false} CandidatesMissing(valves: seq<Valve>, name: string, exits: seq<Exit>)
    ensures Candidates(valves, name, exits).None? <==> exists k :: 0 <= k < |exits| && FindValve(valves, exits[k].dest).None?
    decreases |exits|
  {
    if |exits| > 0 {
      CandidatesMissing(valves, name, exits[1..]);
      if Candidates(valves, name, exits[1..]).None? {
        var k :| 0 <= k < |exits| - 1 && FindValve(valves, exits[1..][k].dest).None?;
        assert FindValve(valves, exits[k + 1].dest).None?;
      }
      if k :| 0 <= k < |exits| && FindValve(valves, exits[k].dest).None? {
        if k > 0 {
          assert exits[1..][k - 1] == exits[k];
        }
      }
    }
  }

  /** `c` is the route from the valve through its exit `i` and then the
      exit `j` of the valve that exit leads to, which does not lead back. */
  predicate RouteVia(valves: seq<Valve>, name: string, exits: seq<Exit>, i: int, j: int, c: Exit)
  {
    && 0 <= i < |exits| && FindValve(valves, exits[i].dest).Some?
    && 0 <= j < |FindValve(valves, exits[i].dest).value.exits|
    && var n := FindValve(valves, exits[i].dest).value.exits[j];
      n.dest != name && c == Exit(n.dest, exits[i].cost + n.cost)
  }

  /** Every candidate is a two-hop route: through some exit, then some exit
      of the valve it leads to, other than back to the valve. */
  lemma {:induction false} CandidatesAreRoutes(valves: seq<Valve>, name: string, exits: seq<Exit>, k: nat)
    requires Candidates(valves, name, exits).Some?
    requires k < |Candidates(valves, name, exits).value|
    ensures exists i, j :: RouteVia(valves, name, exits, i, j, Candidates(valves, name, exits).value[k])
    decreases |exits|
  {
    var w := FindValve(valves, exits[0].dest).value;
    var more := Candidates(valves, name, exits[1..]).value;
    var here := Onward(name, exits[0].cost, w.exits);
    var c := Candidates(valves, name, exits).value[k];
    assert Candidates(valves, name, exits).value == here + more;
    if k < |here| {
      var j := OnwardFrom(name, exits[0].cost, w.exits, k);
      assert RouteVia(valves, name, exits, 0, j, c);
    } else {
      CandidatesAreRoutes(valves, name, exits[1..], k - |here|);
      var i, j :| RouteVia(valves, name, exits[1..], i, j, more[k - |here|]);
      assert exits[1..][i] == exits[i + 1];
      assert RouteVia(valves, name, exits, i + 1, j, c);
    }
  }

  /** The exit of `next` that a route through `Onward` continues by. */
  lemma {:induction false} OnwardFrom(name: string, c: int, next: seq<Exit>, k: nat) returns (j: nat)
    requires k < |Onward(name, c, next)|
    ensures j < |next| && next[j].dest != name
    ensures Onward(name, c, next)[k] == Exit(next[j].dest, c + next[j].cost)
    decreases |next|
  {
    if next[0].dest == name {
      j := OnwardFrom(name, c, next[1..], k);
      j := j + 1;
    } else if k == 0 {
      j := 0;
    } else {
      j := OnwardFrom(name, c, next[1..], k - 1);
      j := j + 1;
    }
  }

  /** The routes from one exit costing `c` onwards through `next`. */
  function Onward(name: string, c: int, next: seq<Exit>): (r: seq<Exit>)
    ensures forall k :: 0 <= k < |r| ==> r[k].dest != name
  {
    if |next| == 0 then []
    else if next[0].dest == name then Onward(name, c, next[1..])
    else [Exit(next[0].dest, c + next[0].cost)] + Onward(name, c, next[1..])
  }

  lemma {:induction false} OnwardHas(name: string, c: int, next: seq<Exit>, j: nat)
    requires j < |next| && next[j].dest != name
    ensures Exit(next[j].dest, c + next[j].cost) in Onward(name, c, next)
    decreases |next|
  {
    if j > 0 {
      OnwardHas(name, c, next[1..], j - 1);
    }
  }

  /** Each route through an exit to a further exit is a candidate. */
  lemma {:induction false} CandidatesHave(valves: seq<Valve>, name: string, exits: seq<Exit>, i: nat, j: nat)
    requires Candidates(valves, name, exits).Some?
    requires i < |exits|
    requires FindValve(valves, exits[i].dest).Some?
    requires j < |FindValve(valves, exits[i].dest).value.exits|
    requires FindValve(valves, exits[i].dest).value.exits[j].dest != name
    ensures var n := FindValve(valves, exits[i].dest).value.exits[j];
      Exit(n.dest, exits[i].cost + n.cost) in Candidates(valves, name, exits).value
    decreases |exits|
  {
    var w := FindValve(valves, exits[0].dest).value;
    if i == 0 {
      OnwardHas(name, exits[0].cost, w.exits, j);
    } else {
      CandidatesHave(valves, name, exits[1..], i - 1, j);
    }
  }

  predicate WellFormed(valves: seq<Valve>)
  {
    forall i :: 0 <= i < |valves| ==> UniqueDests(valves[i].exits)
  }

  /** One valve's new exits and whether they changed. */
  function CollapseValve(valves: seq<Valve>, v: Valve): (r: Option<(Valve, bool)>)
    requires UniqueDests(v.exits)
    ensures r.Some? ==> r.value.0.name == v.name && r.value.0.rate == v.rate
    ensures r.Some? ==> UniqueDests(r.value.0.exits)
  {
    match Candidates(valves, v.name, v.exits)
      case None => None
      case Some(cands) =>
        var (e, changed) := RelaxAll(v.exits, cands);
        Some((Valve(v.name, v.rate, e), changed))
  }

  /** One pass: every valve gets its two-hop routes; the flag is set when any
      valve changed. */
  function AddSecondaryLinks(valves: seq<Valve>): (r: Option<(bool, seq<Valve>)>)
    requires WellFormed(valves)
    ensures r.Some? ==> |r.value.1| == |valves| && WellFormed(r.value.1)
  {
    PassFrom(valves, valves)
  }

  function PassFrom(valves: seq<Valve>, todo: seq<Valve>): (r: Option<(bool, seq<Valve>)>)
    requires WellFormed(todo)
    ensures r.Some? ==> |r.value.1| == |todo| && WellFormed(r.value.1)
  {
    if |todo| == 0 then Some((false, []))
    else
      var first, rest := CollapseValve(valves, todo[0]), PassFrom(valves, todo[1..]);
      if first.None? || rest.None? then None
      else
        var vs := [first.value.0] + rest.value.1;
        assert forall i :: 1 <= i < |vs| ==> vs[i] == rest.value.1[i - 1];
        Some((first.value.1 || rest.value.0, vs))
  }

  /** A pass succeeds when every valve's exits lead to valves; each valve
      then gets its own new exits, and the flag says whether any changed. */
  lemma PassFromPerValve(valves: seq<Valve>, todo: seq<Valve>)
    requires WellFormed(todo)
    ensures PassFrom(valves, todo).Some? <==> forall i :: 0 <= i < |todo| ==> CollapseValve(valves, todo[i]).Some?
    ensures PassFrom(valves, todo).Some? ==> forall i :: 0 <= i < |todo| ==>
      PassFrom(valves, todo).value.1[i] == CollapseValve(valves, todo[i]).value.0
    ensures PassFrom(valves, todo).Some? ==> (PassFrom(valves, todo).value.0 <==>
      exists i :: 0 <= i < |todo| && CollapseValve(valves, todo[i]).value.1)
  {
    PassFromSucceeds(valves, todo);
    if PassFrom(valves, todo).Some? {
      PassFromEntries(valves, todo);
      PassFromFlag(valves, todo);
    }
  }

  lemma {:induction false} PassFromSucceeds(valves: seq<Valve>, todo: seq<Valve>)
    requires WellFormed(todo)
    ensures PassFrom(valves, todo).Some? <==> forall i :: 0 <= i < |todo| ==> CollapseValve(valves, todo[i]).Some?
    decreases |todo|
  {
    if |todo| > 0 {
      var tail := todo[1..];
      PassFromSucceeds(valves, tail);
      assert forall i :: 1 <= i < |todo| ==> todo[i] == tail[i - 1];
    }
  }

  lemma PassFromEntries(valves: seq<Valve>, todo: seq<Valve>)
    requires WellFormed(todo) && PassFrom(valves, todo).Some?
    ensures forall i :: 0 <= i < |todo| ==>
      (CollapseValve(valves, todo[i]).Some? &&
       PassFrom(valves, todo).value.1[i] == CollapseValve(valves, todo[i]).value.0)
  {
    forall i | 0 <= i < |todo|
      ensures CollapseValve(valves, todo[i]).Some? &&
        PassFrom(valves, todo).value.1[i] == CollapseValve(valves, todo[i]).value.0
    {
      PassFromEntry(valves, todo, i);
    }
  }

  lemma {:induction false} PassFromEntry(valves: seq<Valve>, todo: seq<Valve>, i: nat)
    requires WellFormed(todo) && PassFrom(valves, todo).Some? && i < |todo|
    ensures CollapseValve(valves, todo[i]).Some? &&
      PassFrom(valves, todo).value.1[i] == CollapseValve(valves, todo[i]).value.0
  {
    var tail := todo[1..];
    PassFromHead(valves, todo);
    var vs := PassFrom(valves, todo).value.1;
    var rest := PassFrom(valves, tail).value.1;
    if i > 0 {
      PassFromEntry(valves, tail, i - 1);
      assert todo[i] == tail[i - 1] && vs[i] == rest[i - 1];
    }
  }

  lemma PassFromFlag(valves: seq<Valve>, todo: seq<Valve>)
    requires WellFormed(todo) && PassFrom(valves, todo).Some?
    ensures PassFrom(valves, todo).value.0 <==>
      exists i :: 0 <= i < |todo| && CollapseValve(valves, todo[i]).Some? && CollapseValve(valves, todo[i]).value.1
  {
    if exists i :: 0 <= i < |todo| && CollapseValve(valves, todo[i]).Some? && CollapseValve(valves, todo[i]).value.1 {
      var i :| 0 <= i < |todo| && CollapseValve(valves, todo[i]).Some? && CollapseValve(valves, todo[i]).value.1;
      PassFromFlagged(valves, todo, i);
    }
    if PassFrom(valves, todo).value.0 {
      var i := PassFromFlagSource(valves, todo);
    }
  }

  /** A valve that changed raises the pass's flag. */
  lemma {:induction false} PassFromFlagged(valves: seq<Valve>, todo: seq<Valve>, i: nat)
    requires WellFormed(todo) && PassFrom(valves, todo).Some? && i < |todo|
    requires CollapseValve(valves, todo[i]).Some? && CollapseValve(valves, todo[i]).value.1
    ensures PassFrom(valves, todo).value.0
  {
    if i > 0 {
      var tail := todo[1..];
      assert todo[i] == tail[i - 1];
      PassFromFlagged(valves, tail, i - 1);
    }
  }

  /** A successful pass over a non-empty list collapses its head and passes
      over its tail, and raises the flag when either changed. */
  lemma PassFromHead(valves: seq<Valve>, todo: seq<Valve>)
    requires WellFormed(todo) && PassFrom(valves, todo).Some? && |todo| > 0
    ensures WellFormed(todo[1..])
    ensures CollapseValve(valves, todo[0]).Some? && PassFrom(valves, todo[1..]).Some?
    ensures PassFrom(valves, todo).value.0 ==
      (CollapseValve(valves, todo[0]).value.1 || PassFrom(valves, todo[1..]).value.0)
    ensures PassFrom(valves, todo).value.1 ==
      [CollapseValve(valves, todo[0]).value.0] + PassFrom(valves, todo[1..]).value.1
  {
  }

  /** A raised flag comes from some valve that changed. */
  lemma PassFromFlagSource(valves: seq<Valve>, todo: seq<Valve>) returns (i: nat)
    requires WellFormed(todo) && PassFrom(valves, todo).Some? && PassFrom(valves, todo).value.0
    ensures i < |todo| && CollapseValve(valves, todo[i]).Some? && CollapseValve(valves, todo[i]).value.1
  {
    PassFromSucceeds(valves, todo);
    if !exists k :: 0 <= k < |todo| && CollapseValve(valves, todo[k]).value.1 {
      PassFromQuiet(valves, todo);
      assert false;
    }
    i :| 0 <= i < |todo| && CollapseValve(valves, todo[i]).value.1;
  }

  /** A pass in which no valve changed leaves the flag down. */
  lemma {:induction false} PassFromQuiet(valves: seq<Valve>, todo: seq<Valve>)
    requires WellFormed(todo) && PassFrom(valves, todo).Some?
    requires forall k :: 0 <= k < |todo| ==> CollapseValve(valves, todo[k]).Some? ==> !CollapseValve(valves, todo[k]).value.1
    ensures !PassFrom(valves, todo).value.0
    decreases |todo|
  {
    if |todo| > 0 {
      PassFromHead(valves, todo);
      assert forall k :: 0 <= k < |todo| - 1 ==> todo[1..][k] == todo[k + 1];
      PassFromQuiet(valves, todo[1..]);
    }
  }

  lemma PassPerValve(valves: seq<Valve>)
    requires WellFormed(valves)
    ensures AddSecondaryLinks(valves).Some? <==> forall i :: 0 <= i < |valves| ==> CollapseValve(valves, valves[i]).Some?
    ensures AddSecondaryLinks(valves).Some? ==> forall i :: 0 <= i < |valves| ==>
      AddSecondaryLinks(valves).value.1[i] == CollapseValve(valves, valves[i]).value.0
    ensures AddSecondaryLinks(valves).Some? ==> (AddSecondaryLinks(valves).value.0 <==>
      exists i :: 0 <= i < |valves| && CollapseValve(valves, valves[i]).value.1)
  {
    PassFromPerValve(valves, valves);
  }

  /** A quiet pass keeps every exit of every valve. */
  lemma QuietPassChangesNothing(valves: seq<Valve>)
    requires WellFormed(valves)
    requires AddSecondaryLinks(valves).Some? && !AddSecondaryLinks(valves).value.0
    ensures forall i, d :: 0 <= i < |valves| ==>
      Lookup(AddSecondaryLinks(valves).value.1[i].exits, d) == Lookup(valves[i].exits, d)
  {
    PassPerValve(valves);
    forall i, d | 0 <= i < |valves|
      ensures Lookup(AddSecondaryLinks(valves).value.1[i].exits, d) == Lookup(valves[i].exits, d)
    {
      var v := valves[i];
      var cands := Candidates(valves, v.name, v.exits).value;
      RelaxAllFlag(v.exits, cands);
      RelaxAllUnchanged(v.exits, cands);
    }
  }

  /** When no candidate improves, the exits come back unchanged. */
  lemma {:induction false} RelaxAllUnchanged(exits: seq<Exit>, cands: seq<Exit>)
    requires UniqueDests(exits)
    requires !RelaxAll(exits, cands).1
    ensures RelaxAll(exits, cands).0 == exits
    decreases |cands|
  {
    if |cands| > 0 {
      var e1 := Relax(exits, cands[0]).0;
      assert forall d :: Lookup(e1, d) == Lookup(exits, d);
      assert e1 == exits;
      RelaxAllUnchanged(e1, cands[1..]);
    }
  }

  /** No route through a neighbour, other than back to the valve itself, is
      cheaper than the recorded exit. */
  predicate NoShortcut(valves: seq<Valve>)
  {
    forall i, a, b :: 0 <= i < |valves| && 0 <= a < |valves[i].exits|
      && FindValve(valves, valves[i].exits[a].dest).Some?
      && 0 <= b < |FindValve(valves, valves[i].exits[a].dest).value.exits|
      && FindValve(valves, valves[i].exits[a].dest).value.exits[b].dest != valves[i].name
      ==> (var n := FindValve(valves, valves[i].exits[a].dest).value.exits[b];
           Lookup(valves[i].exits, n.dest).Some?
           && Lookup(valves[i].exits, n.dest).value <= valves[i].exits[a].cost + n.cost)
  }

  /** When a pass changes nothing, no two-hop route is cheaper than a
      recorded exit. */
  lemma QuietPassIsFixpoint(valves: seq<Valve>)
    requires WellFormed(valves)
    requires AddSecondaryLinks(valves).Some? && !AddSecondaryLinks(valves).value.0
    ensures NoShortcut(valves)
  {
    forall i, a, b | 0 <= i < |valves| && 0 <= a < |valves[i].exits|
      && FindValve(valves, valves[i].exits[a].dest).Some?
      && 0 <= b < |FindValve(valves, valves[i].exits[a].dest).value.exits|
      && FindValve(valves, valves[i].exits[a].dest).value.exits[b].dest != valves[i].name
      ensures var n := FindValve(valves, valves[i].exits[a].dest).value.exits[b];
        Lookup(valves[i].exits, n.dest).Some?
        && Lookup(valves[i].exits, n.dest).value <= valves[i].exits[a].cost + n.cost
    {
      PassPerValve(valves);
      QuietValveNoShortcut(valves, valves[i], a, b);
    }
  }

  /** A valve whose collapse changed nothing already has every two-hop route
      through its exit `a` and that valve's exit `b` at no greater cost. */
  lemma QuietValveNoShortcut(valves: seq<Valve>, v: Valve, a: nat, b: nat)
    requires UniqueDests(v.exits)
    requires CollapseValve(valves, v).Some? && !CollapseValve(valves, v).value.1
    requires a < |v.exits| && FindValve(valves, v.exits[a].dest).Some?
    requires b < |FindValve(valves, v.exits[a].dest).value.exits|
    requires FindValve(valves, v.exits[a].dest).value.exits[b].dest != v.name
    ensures var n := FindValve(valves, v.exits[a].dest).value.exits[b];
      Lookup(v.exits, n.dest).Some? && Lookup(v.exits, n.dest).value <= v.exits[a].cost + n.cost
  {
    var cands := Candidates(valves, v.name, v.exits).value;
    var n := FindValve(valves, v.exits[a].dest).value.exits[b];
    CandidatesHave(valves, v.name, v.exits, a, b);
    var k :| 0 <= k < |cands| && cands[k] == Exit(n.dest, v.exits[a].cost + n.cost);
    RelaxAllFlag(v.exits, cands);
    assert !Improves(v.exits, cands[k]);
  }

  /** Passes are repeated until one changes nothing. The number of passes
      is bounded by `fuel`; running out gives None. */
  function Settle(valves: seq<Valve>, fuel: nat): (r: Option<seq<Valve>>)
    requires WellFormed(valves)
    ensures r.Some? ==> |r.value| == |valves| && WellFormed(r.value)
    decreases fuel
  {
    var pass := AddSecondaryLinks(valves);
    if pass.None? then None
    else if !pass.value.0 then Some(valves)
    else if fuel == 0 then None
    else Settle(pass.value.1, fuel - 1)
  }

  /** What the repeated passes settle on has no shortcut left. */
  lemma {:induction false} SettleIsFixpoint(valves: seq<Valve>, fuel: nat)
    requires WellFormed(valves)
    requires Settle(valves, fuel).Some?
    ensures NoShortcut(Settle(valves, fuel).value)
    decreases fuel
  {
    var pass := AddSecondaryLinks(valves);
    if !pass.value.0 {
      QuietPassIsFixpoint(valves);
    } else {
      SettleIsFixpoint(pass.value.1, fuel - 1);
    }
  }

  // Scoring a path

  const Minutes: int := 30

  /** One hop of a path: its travel time and the rate of the valve opened
      at its end. */
  datatype Hop = Hop(cost: int, rate: int)

  /** Step k of the path leaves a valve through one of its exits to a valve. */
  predicate StepIsExit(path: seq<string>, valves: seq<Valve>, k: nat)
    requires k + 1 < |path|
  {
    && FindValve(valves, path[k]).Some?
    && FindValve(valves, path[k + 1]).Some?
    && Lookup(FindValve(valves, path[k]).value.exits, path[k + 1]).Some?
  }

  /** Hop h is step k of the path: its cost is that exit's travel time and
      its rate is the rate of the valve the step reaches. */
  predicate HopIs(path: seq<string>, valves: seq<Valve>, h: Hop, k: nat)
    requires k + 1 < |path|
  {
    && StepIsExit(path, valves, k)
    && h.cost == Lookup(FindValve(valves, path[k]).value.exits, path[k + 1]).value
    && h.rate == FindValve(valves, path[k + 1]).value.rate
  }

  /** The hops of a path of valve names; None when a name is not a valve or
      a step is not an exit. */
  function Hops(path: seq<string>, valves: seq<Valve>): (r: Option<seq<Hop>>)
    ensures r.Some? <==> forall k :: 0 <= k < |path| - 1 ==> StepIsExit(path, valves, k)
    ensures r.Some? ==> |r.value| == if |path| == 0 then 0 else |path| - 1
    ensures r.Some? ==> forall k :: 0 <= k < |r.value| ==> HopIs(path, valves, r.value[k], k)
  {
    if |path| < 2 then Some([])
    else
      var a, b, rest := FindValve(valves, path[0]), FindValve(valves, path[1]), Hops(path[1..], valves);
      if a.None? || b.None? then
        assert !StepIsExit(path, valves, 0);
        None
      else if rest.None? then
        var k :| 0 <= k < |path| - 2 && !StepIsExit(path[1..], valves, k);
        HopShift(path, valves, Hop(0, 0), k);
        None
      else match Lookup(a.value.exits, b.value.name)
        case Some(c) =>
          var hops := [Hop(c, b.value.rate)] + rest.value;
          HopsCons(path, valves, Hop(c, b.value.rate), rest.value);
          Some(hops)
        case None =>
          assert !StepIsExit(path, valves, 0);
          None
  }

  /** Step k of the path without its first valve is step k + 1 of the
      path. */
  lemma HopShift(path: seq<string>, valves: seq<Valve>, h: Hop, k: nat)
    requires k + 2 < |path|
    ensures StepIsExit(path[1..], valves, k) <==> StepIsExit(path, valves, k + 1)
    ensures HopIs(path[1..], valves, h, k) <==> HopIs(path, valves, h, k + 1)
  {
    assert path[1..][k] == path[k + 1] && path[1..][k + 1] == path[k + 2];
  }

  /** A first hop followed by the hops of the rest of the path are the hops
      of the path. */
  lemma HopsCons(path: seq<string>, valves: seq<Valve>, h: Hop, rest: seq<Hop>)
    requires |path| >= 2 && |rest| == |path| - 2 && HopIs(path, valves, h, 0)
    requires forall k :: 0 <= k < |rest| ==> HopIs(path[1..], valves, rest[k], k)
    ensures forall k :: 0 <= k < |rest| + 1 ==> HopIs(path, valves, ([h] + rest)[k], k)
    ensures forall k :: 0 <= k < |path| - 1 ==> StepIsExit(path, valves, k)
  {
    forall k | 1 <= k < |rest| + 1
      ensures HopIs(path, valves, ([h] + rest)[k], k)
    {
      HopShift(path, valves, rest[k - 1], k - 1);
      assert ([h] + rest)[k] == rest[k - 1];
    }
    forall k | 0 <= k < |path| - 1
      ensures StepIsExit(path, valves, k)
    {
      assert HopIs(path, valves, ([h] + rest)[k], k);
    }
  }

  /** The scoring loop: each hop takes cost + 1 minutes (travel, then opening
      the valve), during which the valves already open release pressure;
      the program asserts that every hop leaves time over. */
  function Run(hops: seq<Hop>, total: int, flow: int, left: int): (r: Option<int>)
    ensures r.Some? <==> TimeLasts(hops, left)
  {
    if |hops| == 0 then Some(total + flow * left)
    else
      var h := hops[0];
      TimeLastsFromHead(hops, left);
      if !(h.cost + 1 < left) then None
      else Run(hops[1..], total + flow * (h.cost + 1), flow + h.rate, left - (h.cost + 1))
  }

  /** Every hop of the path leaves some time over. */
  predicate TimeLasts(hops: seq<Hop>, left: int)
  {
    forall k :: 0 < k <= |hops| ==> TimeAfter(hops[..k], left) > 0
  }

  /** Time lasts for a path exactly when the first hop leaves time over and
      time lasts for the rest from there. */
  lemma TimeLastsFromHead(hops: seq<Hop>, left: int)
    requires |hops| > 0
    ensures var after := left - (hops[0].cost + 1);
      TimeLasts(hops, left) <==> after > 0 && TimeLasts(hops[1..], after)
  {
    var after := left - (hops[0].cost + 1);
    assert TimeAfter(hops[..1], left) == after by {
      assert hops[..1][1..] == [];
    }
    forall k | 1 < k <= |hops|
      ensures TimeAfter(hops[..k], left) == TimeAfter(hops[1..][..k - 1], after)
    {
      assert hops[..k][1..] == hops[1..][..k - 1];
    }
    if after > 0 && TimeLasts(hops[1..], after) {
      forall k | 0 < k <= |hops|
        ensures TimeAfter(hops[..k], left) > 0
      {
        if k > 1 {
          assert TimeAfter(hops[1..][..k - 1], after) > 0;
        }
      }
    }
    if TimeLasts(hops, left) {
      forall k | 0 < k <= |hops| - 1
        ensures TimeAfter(hops[1..][..k], after) > 0
      {
        assert TimeAfter(hops[..k + 1], left) > 0;
      }
    }
  }

  /** The minutes left after the given hops. */
  function TimeAfter(hops: seq<Hop>, left: int): int
  {
    if |hops| == 0 then left else TimeAfter(hops[1..], left - (hops[0].cost + 1))
  }

  /** Reference definition: each valve opened releases its rate for every
      minute that remains after it is opened. */
  function Released(hops: seq<Hop>, left: int): int
  {
    if |hops| == 0 then 0
    else
      var after := left - (hops[0].cost + 1);
      hops[0].rate * after + Released(hops[1..], after)
  }

  /** The loop's total is the sum over the opened valves of rate times the
      minutes that remain after opening. */
  lemma {:induction false} RunIsReleased(hops: seq<Hop>, total: int, flow: int, left: int)
    requires Run(hops, total, flow, left).Some?
    ensures Run(hops, total, flow, left).value == total + flow * left + Released(hops, left)
    decreases |hops|
  {
    if |hops| > 0 {
      var h := hops[0];
      var after := left - (h.cost + 1);
      RunIsReleased(hops[1..], total + flow * (h.cost + 1), flow + h.rate, after);
      assert flow * (h.cost + 1) + (flow + h.rate) * after == flow * left + h.rate * after;
    }
  }

  /** With non-negative rates, the score is never negative. */
  lemma {:induction false} ReleasedNonNegative(hops: seq<Hop>, left: int)
    requires forall k :: 0 <= k < |hops| ==> hops[k].rate >= 0
    requires Run(hops, 0, 0, left).Some? || |hops| == 0
    requires left >= 0
    ensures Released(hops, left) >= 0
    decreases |hops|
  {
    if |hops| > 0 {
      var h := hops[0];
      var after := left - (h.cost + 1);
      assert after > 0;
      RunPositive(hops, 0, 0, left);
      if |hops| > 1 {
        assert Run(hops[1..], 0, 0, after).Some? by {
          RunFlowIrrelevant(hops[1..], 0, h.rate, 0, 0, after);
        }
      }
      ReleasedNonNegative(hops[1..], after);
    }
  }

  lemma RunPositive(hops: seq<Hop>, total: int, flow: int, left: int)
    requires |hops| > 0 && Run(hops, total, flow, left).Some?
    ensures hops[0].cost + 1 < left
  {
  }

  /** Whether the loop finishes depends only on the times, not on the
      running totals. */
  lemma {:induction false} RunFlowIrrelevant(hops: seq<Hop>, t1: int, f1: int, t2: int, f2: int, left: int)
    requires Run(hops, t1, f1, left).Some?
    ensures Run(hops, t2, f2, left).Some?
    decreases |hops|
  {
    if |hops| > 0 {
      var h := hops[0];
      RunFlowIrrelevant(hops[1..], t1 + f1 * (h.cost + 1), f1 + h.rate,
        t2 + f2 * (h.cost + 1), f2 + h.rate, left - (h.cost + 1));
    }
  }

  /** The pressure a path releases in thirty minutes; None when the program
      would abort. */
  function RunFlow(path: seq<string>, valves: seq<Valve>): (r: Option<int>)
    ensures r.Some? <==> Hops(path, valves).Some? && TimeLasts(Hops(path, valves).value, Minutes)
    ensures r.Some? ==> r.value == Released(Hops(path, valves).value, Minutes)
  {
    match Hops(path, valves)
      case None => None
      case Some(hops) =>
        var r := Run(hops, 0, 0, Minutes);
        if r.Some? then
          RunIsReleased(hops, 0, 0, Minutes);
          r
        else r
  }

  // Parsing

  /** The exits of a parsed line: every listed name at cost 1, each once
      however often it is listed. */
  function ExitsOf(names: seq<string>): (r: seq<Exit>)
    ensures UniqueDests(r)
    ensures forall d :: Lookup(r, d) == if d in names then Some(1) else None
  {
    if |names| == 0 then []
    else
      var init := names[..|names| - 1];
      var last := names[|names| - 1];
      var e := ExitsOf(init);
      assert names == init + [last];
      if Lookup(e, last).Some? then e
      else
        var r := e + [Exit(last, 1)];
        assert r[..|e|] == e;
        LookupAt(r, |e|);
        r
  }

  const ValveWord: string := "Valve "
  const RateWord: string := "has flow rate="
  const PluralWord: string := "; tunnels lead to valves"
  const SingularWord: string := "; tunnel leads to valve"

  /** One line "Valve AA has flow rate=0; tunnels lead to valves DD, II, BB":
      the fixed words are deleted, the name is everything up to the first
      space, and what is left is split at ", " into the rate and the exit
      names. A rate that is not a 32-bit integer aborts the program (None);
      so does a line with no space after its name. */
  function ParseValve(line: string): (r: Option<Valve>)
    ensures r.Some? ==> UniqueDests(r.value.exits)
    ensures r.Some? ==> forall k :: 0 <= k < |r.value.exits| ==> r.value.exits[k].cost == 1
  {
    var l1 := Replace(line, ValveWord, "");
    match SplitOnce(l1, " ")
      case None => None
      case Some((name, rest)) =>
        var args := Arguments(rest);
        match ParseI32(args[0])
          case None => None
          case Some(rate) =>
            var exits := ExitsOf(args[1..]);
            assert forall k :: 0 <= k < |exits| ==> exits[k].cost == 1 by {
              forall k | 0 <= k < |exits|
                ensures exits[k].cost == 1
              {
                LookupAt(exits, k);
              }
            }
            Some(Valve(name, rate, exits))
  }

  /** The text after the name with the words deleted, split at ", ". */
  function Arguments(rest: string): (r: seq<string>)
    ensures |r| >= 1
  {
    var l2 := Replace(rest, RateWord, "");
    var l3 := Replace(l2, PluralWord, ",");
    var l4 := Replace(l3, SingularWord, ",");
    SplitStr(l4, ", ")
  }

  /** Valve names are upper-case letters. */
  predicate IsName(s: string)
  {
    forall i :: 0 <= i < |s| ==> 'A' <= s[i] <= 'Z'
  }

  /** Names, commas and spaces. */
  predicate ListText(s: string)
  {
    forall i :: 0 <= i < |s| ==> ('A' <= s[i] <= 'Z') || s[i] == ',' || s[i] == ' '
  }

  predicate AllNames(dests: seq<string>)
  {
    |dests| >= 1 && forall k :: 0 <= k < |dests| ==> IsName(dests[k])
  }

  lemma {:induction false} JoinedNames(names: seq<string>)
    requires AllNames(names)
    ensures ListText(JoinStr(names, ", "))
    decreases |names|
  {
    if |names| > 1 {
      JoinedNames(names[1..]);
    }
  }

  lemma NotInList(s: string, c: char)
    requires ListText(s) && !('A' <= c <= 'Z') && c != ',' && c != ' '
    ensures c !in s
  {
  }

  /** The exit list as printed. */
  function ExitText(dests: seq<string>): string
    requires |dests| >= 1
  {
    " " + JoinStr(dests, ", ")
  }

  /** The text after the name. */
  function RateAndExits(rate: int, dests: seq<string>): string
    requires |dests| >= 1
  {
    RateWord + (ShowInt(rate) + (PluralWord + ExitText(dests)))
  }

  /** The text of a valve with the given exits, always in the plural
      wording. */
  function ShowValve(name: string, rate: int, dests: seq<string>): string
    requires |dests| >= 1
  {
    ValveWord + (name + (" " + RateAndExits(rate, dests)))
  }

  /** Parsing a printed valve gives back its name, its rate and every exit
      at cost 1. */
  lemma ParseShowValve(name: string, rate: int, dests: seq<string>)
    requires IsName(name) && I32Min <= rate <= I32Max
    requires AllNames(dests)
    ensures ParseValve(ShowValve(name, rate, dests)) == Some(Valve(name, rate, ExitsOf(dests)))
  {
    var rest := RateAndExits(rate, dests);
    assert SplitOnce(Replace(ShowValve(name, rate, dests), ValveWord, ""), " ") == Some((name, rest)) by {
      SplitName(name, rate, dests);
    }
    var args := Arguments(rest);
    assert args == [ShowInt(rate)] + dests by {
      ArgumentsOfText(rate, dests);
    }
    assert ParseI32(args[0]) == Some(rate) by {
      ParseShowIntText(rate);
    }
    assert args[1..] == dests;
  }

  /** Deleting "Valve " and splitting at the first space separates the
      name. */
  lemma SplitName(name: string, rate: int, dests: seq<string>)
    requires IsName(name) && AllNames(dests)
    ensures SplitOnce(Replace(ShowValve(name, rate, dests), ValveWord, ""), " ") == Some((name, RateAndExits(rate, dests)))
  {
    var t := name + (" " + RateAndExits(rate, dests));
    DropValveWord(name, rate, dests);
    ReplaceOnce("", ValveWord, t, "");
    assert ShowValve(name, rate, dests) == "" + ValveWord + t;
    assert "" + "" + t == t;
    assert t == name + [' '] + RateAndExits(rate, dests);
    SplitOnceAt(name, ' ', RateAndExits(rate, dests));
  }

  /** The rate's digits and the exit list never put 'a' after 'V'. */
  lemma NumberAndExitsNoPair(rate: int, dests: seq<string>)
    requires AllNames(dests)
    ensures NoPair(ShowInt(rate) + (PluralWord + ExitText(dests)), 'V', 'a')
  {
    var n := ShowInt(rate);
    var e := ExitText(dests);
    var tail := PluralWord + e;
    assert NoPair(tail, 'V', 'a') by {
      JoinedNames(dests);
      assert ListText(e);
      NoPairWithout(e, 'V', 'a');
      NoPairWithout(PluralWord, 'V', 'a');
      NoPairConcat(PluralWord, e, 'V', 'a');
    }
    NotInIntText(rate, 'a');
    NoPairWithout(n, 'V', 'a');
    NoPairConcat(n, tail, 'V', 'a');
  }

  /** "Valve " occurs only at the head of a printed valve. */
  lemma DropValveWord(name: string, rate: int, dests: seq<string>)
    requires IsName(name) && AllNames(dests)
    ensures forall i :: 0 <= i ==> !OccursAt(name + (" " + RateAndExits(rate, dests)), ValveWord, i)
  {
    var mid := ShowInt(rate) + (PluralWord + ExitText(dests));
    NumberAndExitsNoPair(rate, dests);
    var all := name + (" " + (RateWord + mid));
    NameAndRateNoPair(name, mid);
    assert name + (" " + RateAndExits(rate, dests)) == all;
    NoPairNoOccurrence(all, ValveWord);
  }

  /** A name, a space and the rate word never put 'a' after 'V' before a
      text that does not either. */
  lemma NameAndRateNoPair(name: string, mid: string)
    requires IsName(name) && NoPair(mid, 'V', 'a')
    ensures NoPair(name + (" " + (RateWord + mid)), 'V', 'a')
  {
    var lit := " " + RateWord;
    var after := lit + mid;
    assert NoPair(after, 'V', 'a') by {
      NoPairWithout(lit, 'V', 'a');
      NoPairConcat(lit, mid, 'V', 'a');
    }
    assert 'a' !in name;
    NoPairWithout(name, 'V', 'a');
    NoPairConcat(name, after, 'V', 'a');
    assert " " + (RateWord + mid) == after;
  }

  /** The arguments of a printed valve: the rate's text, then the exit
      names. */
  lemma ArgumentsOfText(rate: int, dests: seq<string>)
    requires AllNames(dests)
    ensures Arguments(RateAndExits(rate, dests)) == [ShowInt(rate)] + dests
  {
    var n := ShowInt(rate);
    var j := JoinStr(dests, ", ");
    JoinedNames(dests);
    DropRateWord(rate, dests);
    DropPluralWord(rate, dests);
    var l3 := n + "," + ExitText(dests);
    assert ';' !in l3 by {
      NotInIntText(rate, ';');
      NotInList(j, ';');
    }
    ReplaceNone(l3, SingularWord, ",", 0);
    NotInIntText(rate, ',');
    assert l3 == n + ", " + j;
    SplitStrAt(n, ", ", j);
    SplitJoinStr(dests, ", ");
  }

  lemma DropRateWord(rate: int, dests: seq<string>)
    requires AllNames(dests)
    ensures Replace(RateAndExits(rate, dests), RateWord, "") == ShowInt(rate) + (PluralWord + ExitText(dests))
  {
    var rest := ShowInt(rate) + (PluralWord + ExitText(dests));
    JoinedNames(dests);
    NotInIntText(rate, 'h');
    NotInList(JoinStr(dests, ", "), 'h');
    assert 'h' !in rest;
    NoCharNoOccurrence(rest, RateWord, 0);
    ReplaceOnce("", RateWord, rest, "");
    assert RateAndExits(rate, dests) == "" + RateWord + rest;
    assert "" + "" + rest == rest;
  }

  lemma DropPluralWord(rate: int, dests: seq<string>)
    requires AllNames(dests)
    ensures Replace(ShowInt(rate) + (PluralWord + ExitText(dests)), PluralWord, ",") == ShowInt(rate) + "," + ExitText(dests)
  {
    NotInIntText(rate, ';');
    ExitTextAvoids(dests, ';');
    ReplacePlural(ShowInt(rate), ExitText(dests));
  }

  lemma ReplacePlural(n: string, e: string)
    requires ';' !in n && ';' !in e
    ensures Replace(n + (PluralWord + e), PluralWord, ",") == n + "," + e
  {
    var w := PluralWord;
    assert w[0] == ';';
    assert n + (w + e) == n + w + e;
    NoCharNoOccurrence(e, w, 0);
    ReplaceOnce(n, w, e, ",");
  }

  lemma ExitTextAvoids(dests: seq<string>, c: char)
    requires AllNames(dests)
    requires !('A' <= c <= 'Z') && c != ',' && c != ' '
    ensures c !in ExitText(dests)
  {
    JoinedNames(dests);
    NotInList(JoinStr(dests, ", "), c);
  }
}

=== FILE: day17_falling_rocks.dfy ===
/** Falling rocks: five rock shapes drop one at a time into a chamber seven
    cells wide, pushed left and right by a repeating jet pattern. The
    chamber is a column of 8-bit rows, one bit per cell. */
module FallingRocks {
  import opened Common

  const ChamberWidth: nat := 7

  datatype Dir = Left | Right

  datatype RockType = Horiz | Plus | Seven | Vert | Box

  /** The cells of each shape, relative to its lower-left corner, in the
      program's order. */
  function Shape(t: RockType): seq<(nat, nat)>
  {
    match t
      case Horiz => [(0, 0), (1, 0), (2, 0), (3, 0)]
      case Plus => [(1, 0), (0, 1), (1, 1), (2, 1), (1, 2)]
      case Seven => [(0, 0), (1, 0), (2, 0), (2, 1), (2, 2)]
      case Vert => [(0, 0), (0, 1), (0, 2), (0, 3)]
      case Box => [(0, 0), (1, 0), (0, 1), (1, 1)]
  }

  /** Every shape fits in a 4 by 4 box, has a cell on its bottom row and one
      in its left column, and lists no cell twice. */
  lemma ShapeFacts(t: RockType)
    ensures |Shape(t)| > 0
    ensures forall k :: 0 <= k < |Shape(t)| ==> Shape(t)[k].0 <= 3 && Shape(t)[k].1 <= 3
    ensures Shape(t)[0].1 == 0
    ensures Shape(t)[LeftCell(t)].0 == 0
    ensures forall j, k :: 0 <= j < k < |Shape(t)| ==> Shape(t)[j] != Shape(t)[k]
  {
  }

  /** The index of a cell in the left column. */
  function LeftCell(t: RockType): (k: nat)
    ensures k < |Shape(t)|
  {
    if t == Plus then 1 else 0
  }

  /** The rocks in the order they fall. */
  const RockPattern: seq<RockType> := [Horiz, Plus, Seven, Vert, Box]

  // The grid

  /** The chamber: one byte per row, bit x for column x; `maxHeight` is one
      above the highest row a rock has been drawn in. The number of rows is
      fixed when the grid is made. */
  datatype Grid = Grid(maxHeight: nat, cells: seq<bv8>)

  function NewGrid(height: nat): (g: Grid)
    ensures |g.cells| == height && g.maxHeight == 0
    ensures forall x: nat, y: nat :: !Cell(g, x, y)
  {
    Grid(0, seq(height, _ => 0))
  }

  /** `1 << x` on a byte. */
  function Mask(x: nat): bv8
    requires x < 8
  {
    (1 as bv8) << x
  }

  predicate Bit(row: bv8, x: nat)
    requires x < 8
  {
    row & Mask(x) != 0
  }

  lemma BitOr(row: bv8, x: nat, x': nat)
    requires x < 8 && x' < 8
    ensures Bit(row | Mask(x), x') <==> x == x' || Bit(row, x')
  {
    assert (row | Mask(x)) & Mask(x') == (row & Mask(x')) | (Mask(x) & Mask(x'));
    if x != x' {
      assert Mask(x) & Mask(x') == 0;
    }
  }

  /** The cell is inside the grid and set. */
  predicate Cell(g: Grid, x: nat, y: nat)
  {
    y < |g.cells| && x < 8 && Bit(g.cells[y], x)
  }

  /** The program's `is_set`: it asserts that the row exists, and `1 << x`
      overflows a byte for x >= 8. */
  function IsSet(g: Grid, x: nat, y: nat): (r: Option<bool>)
    ensures r.Some? <==> y < |g.cells| && x < 8
    ensures r.Some? ==> (r.value <==> Cell(g, x, y))
  {
    if y >= |g.cells| || x >= 8 then None else Some(Bit(g.cells[y], x))
  }

  /** The program's `set`: it asserts that the row exists and the cell is
      clear, then raises `maxHeight` to cover the row. */
  function Set(g: Grid, x: nat, y: nat): (r: Option<Grid>)
    ensures r.Some? <==> y < |g.cells| && x < 8 && !Cell(g, x, y)
    ensures r.Some? ==> Cell(r.value, x, y)
    ensures r.Some? ==> forall x': nat, y': nat :: (x', y') != (x, y) ==> (Cell(r.value, x', y') <==> Cell(g, x', y'))
    ensures r.Some? ==> |r.value.cells| == |g.cells| && r.value.maxHeight == Max(g.maxHeight, y + 1)
  {
    if y >= |g.cells| || x >= 8 || Bit(g.cells[y], x) then None
    else
      var r := Grid(Max(g.maxHeight, y + 1), g.cells[y := g.cells[y] | Mask(x)]);
      forall x': nat, y': nat
        ensures (x', y') != (x, y) ==> (Cell(r, x', y') <==> Cell(g, x', y'))
      {
        if y' == y && x' < 8 {
          BitOr(g.cells[y], x, x');
        }
      }
      BitOr(g.cells[y], x, x);
      Some(r)
  }

  /** Every set cell lies below `maxHeight`. */
  ghost predicate Bounded(g: Grid)
  {
    forall x: nat, y: nat :: Cell(g, x, y) ==> y < g.maxHeight
  }

  lemma SetKeepsBounded(g: Grid, x: nat, y: nat)
    requires Bounded(g) && Set(g, x, y).Some?
    ensures Bounded(Set(g, x, y).value)
  {
  }

  // Rocks

  /** A rock is its type and the position of its lower-left corner. */
  datatype Rock = Rock(kind: RockType, x: nat, y: nat)

  /** A new rock starts two cells from the left wall. */
  function NewRock(kind: RockType, y: nat): Rock
  {
    Rock(kind, 2, y)
  }

  /** A cell a rock may occupy: inside the walls, not below the floor, and
      not set. */
  predicate Free(g: Grid, x: int, y: int)
  {
    0 <= x < ChamberWidth && 0 <= y && !Cell(g, x, y)
  }

  /** Reference definition: every cell of the shape, offset by (ox, oy), is
      free. */
  predicate FitsAt(g: Grid, ox: int, oy: int, shape: seq<(nat, nat)>)
  {
    forall k :: 0 <= k < |shape| ==> Free(g, ox + shape[k].0, oy + shape[k].1)
  }

  /** Every cell of the shape, offset by (ox, oy), lies in an existing row. */
  predicate InRows(g: Grid, oy: int, shape: seq<(nat, nat)>)
  {
    forall k :: 0 <= k < |shape| ==> oy + shape[k].1 < |g.cells|
  }

  /** The cell loop of `will_fit`: the first cell outside the walls, below
      the floor or already set answers false; a cell above the last row
      reaches the `is_set` assertion. */
  function FitCells(g: Grid, ox: int, oy: int, shape: seq<(nat, nat)>): (r: Option<bool>)
    ensures r == Some(true) ==> FitsAt(g, ox, oy, shape)
    ensures r == Some(false) ==> !FitsAt(g, ox, oy, shape)
    ensures InRows(g, oy, shape) ==> r.Some?
  {
    if |shape| == 0 then Some(true)
    else
      var x := ox + shape[0].0;
      var y := oy + shape[0].1;
      if x < 0 || x >= ChamberWidth as int then Some(false)
      else if y < 0 then Some(false)
      else if y >= |g.cells| then None
      else if Bit(g.cells[y], x) then Some(false)
      else
        var r := FitCells(g, ox, oy, shape[1..]);
        assert FitsAt(g, ox, oy, shape) <==> FitsAt(g, ox, oy, shape[1..]) by {
          assert forall k :: 1 <= k < |shape| ==> shape[k] == shape[1..][k - 1];
        }
        r
  }

  /** `will_fit`: the rock moved by (dx, dy) still fits. */
  function WillFit(r: Rock, dx: int, dy: int, g: Grid): (res: Option<bool>)
    ensures InRows(g, r.y + dy, Shape(r.kind)) ==> res.Some?
    ensures res.Some? ==> (res.value <==> FitsAt(g, r.x + dx, r.y + dy, Shape(r.kind)))
  {
    FitCells(g, r.x + dx, r.y + dy, Shape(r.kind))
  }

  /** `fall`: the rock drops one row when it fits there. */
  function Fall(r: Rock, g: Grid): (res: Option<(Rock, bool)>)
    ensures InRows(g, r.y - 1, Shape(r.kind)) ==> res.Some?
    ensures res.Some? ==> (res.value.1 <==> FitsAt(g, r.x, r.y - 1, Shape(r.kind)))
    ensures res.Some? && res.value.1 ==> res.value.0 == Rock(r.kind, r.x, r.y - 1)
    ensures res.Some? && !res.value.1 ==> res.value.0 == r
  {
    match WillFit(r, 0, -1, g)
      case None => None
      case Some(fits) =>
        if fits then
          ShapeFacts(r.kind);
          assert Free(g, r.x + Shape(r.kind)[0].0, r.y - 1 + Shape(r.kind)[0].1);
          Some((Rock(r.kind, r.x, r.y - 1), true))
        else Some((r, false))
  }

  function Offset(d: Dir): int
  {
    match d
      case Left => -1
      case Right => 1
  }

  /** `push`: the jet moves the rock one column when it fits there; the row
      never changes. */
  function Push(r: Rock, d: Dir, g: Grid): (res: Option<Rock>)
    ensures InRows(g, r.y, Shape(r.kind)) ==> res.Some?
    ensures res.Some? ==> res.value.kind == r.kind && res.value.y == r.y
    ensures res.Some? ==> if FitsAt(g, r.x + Offset(d), r.y, Shape(r.kind))
      then res.value.x == r.x + Offset(d) else res.value == r
  {
    match WillFit(r, Offset(d), 0, g)
      case None => None
      case Some(fits) =>
        if fits then
          var k := LeftCell(r.kind);
          ShapeFacts(r.kind);
          assert Free(g, r.x + Offset(d) + Shape(r.kind)[k].0, r.y + Shape(r.kind)[k].1);
          Some(Rock(r.kind, r.x + Offset(d), r.y))
        else Some(r)
  }

  /** The cells of a shape placed at (ox, oy). */
  ghost predicate Covers(shape: seq<(nat, nat)>, ox: nat, oy: nat, x: nat, y: nat)
  {
    exists k :: 0 <= k < |shape| && ox + shape[k].0 == x && oy + shape[k].1 == y
  }

  /** The highest row of a shape placed at `oy`, plus one. */
  function Top(shape: seq<(nat, nat)>, oy: nat): nat
  {
    if |shape| == 0 then 0 else Max(oy + shape[0].1 + 1, Top(shape[1..], oy))
  }

  lemma {:induction false} TopBound(shape: seq<(nat, nat)>, oy: nat)
    requires forall k :: 0 <= k < |shape| ==> shape[k].1 <= 3
    ensures Top(shape, oy) <= oy + 4
    decreases |shape|
  {
    if |shape| > 0 {
      TopBound(shape[1..], oy);
    }
  }

  /** The cell loop of `draw`: set each cell of the shape in turn. */
  function DrawCells(g: Grid, ox: nat, oy: nat, shape: seq<(nat, nat)>): (r: Option<Grid>)
    ensures r.Some? ==> |r.value.cells| == |g.cells|
    ensures r.Some? ==> forall x: nat, y: nat :: Cell(r.value, x, y) <==> Cell(g, x, y) || Covers(shape, ox, oy, x, y)
    ensures r.Some? ==> r.value.maxHeight == Max(g.maxHeight, Top(shape, oy))
    decreases |shape|
  {
    if |shape| == 0 then Some(g)
    else match Set(g, ox + shape[0].0, oy + shape[0].1)
      case None => None
      case Some(g1) =>
        var r := DrawCells(g1, ox, oy, shape[1..]);
        if r.None? then None
        else
          forall x: nat, y: nat
            ensures Cell(r.value, x, y) <==> Cell(g, x, y) || Covers(shape, ox, oy, x, y)
          {
            CoversStep(shape, ox, oy, x, y);
          }
          r
  }

  /** A shape covers its first cell and whatever the rest covers. */
  lemma CoversStep(shape: seq<(nat, nat)>, ox: nat, oy: nat, x: nat, y: nat)
    requires |shape| > 0
    ensures Covers(shape, ox, oy, x, y) <==>
      (x, y) == (ox + shape[0].0, oy + shape[0].1) || Covers(shape[1..], ox, oy, x, y)
  {
    if Covers(shape[1..], ox, oy, x, y) {
      var k :| 0 <= k < |shape| - 1 && ox + shape[1..][k].0 == x && oy + shape[1..][k].1 == y;
      assert shape[k + 1] == shape[1..][k];
    }
    if Covers(shape, ox, oy, x, y) && (x, y) != (ox + shape[0].0, oy + shape[0].1) {
      var k :| 0 <= k < |shape| && ox + shape[k].0 == x && oy + shape[k].1 == y;
      assert shape[1..][k - 1] == shape[k];
    }
  }

  /** `draw`: the rock's cells become set. */
  function Draw(r: Rock, g: Grid): (res: Option<Grid>)
    ensures res.Some? ==> |res.value.cells| == |g.cells|
    ensures res.Some? ==> forall x: nat, y: nat :: Cell(res.value, x, y) <==> Cell(g, x, y) || Covers(Shape(r.kind), r.x, r.y, x, y)
    ensures res.Some? ==> res.value.maxHeight == Max(g.maxHeight, Top(Shape(r.kind), r.y))
  {
    DrawCells(g, r.x, r.y, Shape(r.kind))
  }

  /** Drawing a shape whose cells are free, in existing rows and distinct
      always succeeds. */
  lemma {:induction false} DrawCellsSucceeds(g: Grid, ox: nat, oy: nat, shape: seq<(nat, nat)>)
    requires FitsAt(g, ox, oy, shape) && InRows(g, oy, shape)
    requires forall j, k :: 0 <= j < k < |shape| ==> shape[j] != shape[k]
    ensures DrawCells(g, ox, oy, shape).Some?
    decreases |shape|
  {
    if |shape| > 0 {
      var g1 := Set(g, ox + shape[0].0, oy + shape[0].1).value;
      var rest := shape[1..];
      forall k | 0 <= k < |rest|
        ensures Free(g1, ox + rest[k].0, oy + rest[k].1)
      {
        assert rest[k] == shape[k + 1];
      }
      forall k | 0 <= k < |rest|
        ensures oy + rest[k].1 < |g1.cells|
      {
        assert rest[k] == shape[k + 1];
      }
      forall j, k | 0 <= j < k < |rest|
        ensures rest[j] != rest[k]
      {
        assert rest[j] == shape[j + 1] && rest[k] == shape[k + 1];
      }
      DrawCellsSucceeds(g1, ox, oy, rest);
    }
  }

  /** Drawing keeps every set cell below `maxHeight`. */
  lemma {:induction false} DrawKeepsBounded(r: Rock, g: Grid)
    requires Bounded(g) && Draw(r, g).Some?
    ensures Bounded(Draw(r, g).value)
  {
    var g' := Draw(r, g).value;
    forall x: nat, y: nat | Cell(g', x, y)
      ensures y < g'.maxHeight
    {
      if !Cell(g, x, y) {
        var k :| 0 <= k < |Shape(r.kind)| && r.x + Shape(r.kind)[k].0 == x && r.y + Shape(r.kind)[k].1 == y;
        TopCovers(Shape(r.kind), r.y, k);
      }
    }
  }

  lemma {:induction false} TopCovers(shape: seq<(nat, nat)>, oy: nat, k: nat)
    requires k < |shape|
    ensures oy + shape[k].1 < Top(shape, oy)
    decreases |shape|
  {
    if k > 0 {
      TopCovers(shape[1..], oy, k - 1);
    }
  }

  // Dropping one rock

  /** The rock for the given count: the type cycles through the five
      shapes, and it appears three rows above the highest rock. */
  function Spawn(rocks: nat, g: Grid): (r: Rock)
    ensures r.x == 2 && r.y == g.maxHeight + 3
  {
    NewRock(RockPattern[rocks % |RockPattern|], g.maxHeight + 3)
  }

  /** The rock types repeat every five rocks, starting with the
      horizontal bar. */
  lemma SpawnCycles(rocks: nat, g: Grid, h: Grid)
    ensures Spawn(rocks + 5, g).kind == Spawn(rocks, h).kind
    ensures Spawn(0, g).kind == Horiz && Spawn(1, g).kind == Plus && Spawn(4, g).kind == Box
  {
    assert (rocks + 5) % 5 == rocks % 5;
  }

  /** The jet for the given round: the pattern repeats. */
  function Jet(pattern: seq<Dir>, rounds: nat): Dir
    requires |pattern| > 0
  {
    pattern[rounds % |pattern|]
  }

  /** Grid g' is g with a rock of the given kind drawn at (x, y), where it
      rests: one row lower it would not fit. */
  ghost predicate RestsIn(g: Grid, g': Grid, kind: RockType, x: nat, y: nat)
  {
    && !FitsAt(g, x, y - 1, Shape(kind))
    && |g'.cells| == |g.cells|
    && g'.maxHeight == Max(g.maxHeight, Top(Shape(kind), y))
    && forall cx: nat, cy: nat :: Cell(g', cx, cy) <==> Cell(g, cx, cy) || Covers(Shape(kind), x, y, cx, cy)
  }

  /** The inner loop: push, then fall; a rock that cannot fall is drawn.
      Each iteration uses one jet. The result is the new grid and round
      count. */
  function DropRock(g: Grid, pattern: seq<Dir>, rounds: nat, r: Rock): (res: Option<(Grid, nat)>)
    requires |pattern| > 0
    ensures res.Some? ==> res.value.1 > rounds
    ensures res.Some? ==> exists x: nat, y: nat :: RestsIn(g, res.value.0, r.kind, x, y)
    decreases r.y
  {
    match Push(r, Jet(pattern, rounds), g)
      case None => None
      case Some(r1) =>
        match Fall(r1, g)
          case None => None
          case Some((r2, fell)) =>
            if fell then DropRock(g, pattern, rounds + 1, r2)
            else match Draw(r2, g)
              case None => None
              case Some(g') =>
                assert RestsIn(g, g', r.kind, r2.x, r2.y);
                Some((g', rounds + 1))
  }

  /** A rock that fits, in rows the grid has, at most three rows above the
      highest rock: what a freshly spawned rock is and what every step of
      the loop keeps. */
  predicate Placed(g: Grid, r: Rock)
  {
    FitsAt(g, r.x, r.y, Shape(r.kind)) && r.y + 3 < |g.cells| && r.y <= g.maxHeight + 3
  }

  /** A rock above the highest set cell can always fall a row. */
  lemma {:induction false} FallsWhileAbove(g: Grid, r: Rock)
    requires Bounded(g) && Placed(g, r) && r.y > g.maxHeight
    ensures FitsAt(g, r.x, r.y - 1, Shape(r.kind))
  {
    var s := Shape(r.kind);
    forall k | 0 <= k < |s|
      ensures Free(g, r.x + s[k].0, r.y - 1 + s[k].1)
    {
      assert Free(g, r.x + s[k].0, r.y + s[k].1);
    }
  }

  lemma ShapeRows(g: Grid, r: Rock, dy: int)
    requires r.y + 3 < |g.cells| && dy <= 0
    ensures InRows(g, r.y + dy, Shape(r.kind))
  {
    ShapeFacts(r.kind);
  }

  /** Dropping a placed rock into a bounded grid never reaches an assertion:
      the rock comes to rest no higher than the highest rock, so the new
      height is at most four more. */
  lemma {:induction false} DropRockSucceeds(g: Grid, pattern: seq<Dir>, rounds: nat, r: Rock)
    requires |pattern| > 0
    requires Bounded(g) && Placed(g, r)
    ensures DropRock(g, pattern, rounds, r).Some?
    ensures var g' := DropRock(g, pattern, rounds, r).value.0;
      Bounded(g') && |g'.cells| == |g.cells| && g.maxHeight <= g'.maxHeight <= g.maxHeight + 4
    decreases r.y
  {
    var r1 := PushPlaced(g, r, Jet(pattern, rounds));
    var res := FallPlaced(g, r1);
    var (r2, fell) := res;
    if fell {
      DropRockSucceeds(g, pattern, rounds + 1, r2);
    } else {
      RestingDraws(g, r1, r2);
    }
  }

  /** A placed rock pushed by a jet is still placed. */
  lemma PushPlaced(g: Grid, r: Rock, d: Dir) returns (r1: Rock)
    requires Bounded(g) && Placed(g, r)
    ensures Push(r, d, g) == Some(r1) && Placed(g, r1) && r1.y == r.y
  {
    ShapeRows(g, r, 0);
    r1 := Push(r, d, g).value;
  }

  /** A placed rock either falls a row, staying placed, or stays put. */
  lemma FallPlaced(g: Grid, r1: Rock) returns (res: (Rock, bool))
    requires Bounded(g) && Placed(g, r1)
    ensures Fall(r1, g) == Some(res)
    ensures res.1 ==> Placed(g, res.0) && res.0.y < r1.y
  {
    ShapeRows(g, r1, -1);
    res := Fall(r1, g).value;
  }

  /** A rock that can no longer fall rests no higher than the highest rock
      and is drawn into the grid. */
  lemma RestingDraws(g: Grid, r1: Rock, r2: Rock)
    requires Bounded(g) && Placed(g, r1) && Fall(r1, g) == Some((r2, false))
    ensures Draw(r2, g).Some?
    ensures var g' := Draw(r2, g).value;
      Bounded(g') && |g'.cells| == |g.cells| && g.maxHeight <= g'.maxHeight <= g.maxHeight + 4
  {
    ShapeRows(g, r1, -1);
    if r1.y > g.maxHeight {
      FallsWhileAbove(g, r1);
    }
    ShapeFacts(r2.kind);
    ShapeRows(g, r2, 0);
    DrawCellsSucceeds(g, r2.x, r2.y, Shape(r2.kind));
    DrawKeepsBounded(r2, g);
    TopBound(Shape(r2.kind), r2.y);
  }

  /** A freshly spawned rock is placed, given seven rows above the highest
      rock. */
  lemma SpawnIsPlaced(rocks: nat, g: Grid)
    requires Bounded(g) && g.maxHeight + 7 <= |g.cells|
    ensures Placed(g, Spawn(rocks, g))
  {
    var r := Spawn(rocks, g);
    ShapeFacts(r.kind);
  }

  /** The height is reached: nothing is drawn yet, or some cell of the row
      just below `maxHeight` is set. */
  ghost predicate Topped(g: Grid)
  {
    g.maxHeight == 0 || exists x: nat, y: nat :: y + 1 == g.maxHeight && Cell(g, x, y)
  }

  /** The top of a non-empty shape is reached by one of its cells. */
  lemma {:induction false} TopAttained(shape: seq<(nat, nat)>, oy: nat) returns (k: nat)
    requires |shape| > 0
    ensures k < |shape| && oy + shape[k].1 + 1 == Top(shape, oy)
    decreases |shape|
  {
    if |shape| == 1 || Top(shape[1..], oy) <= oy + shape[0].1 + 1 {
      k := 0;
    } else {
      var j := TopAttained(shape[1..], oy);
      k := j + 1;
      assert shape[k] == shape[1..][j];
    }
  }

  /** Drawing a resting rock keeps the height reached. */
  lemma RestsKeepsTopped(g: Grid, g': Grid, kind: RockType, x: nat, y: nat)
    requires Topped(g) && RestsIn(g, g', kind, x, y)
    ensures Topped(g')
  {
    var s := Shape(kind);
    ShapeFacts(kind);
    if Top(s, y) > g.maxHeight {
      var k := TopAttained(s, y);
      assert Covers(s, x, y, x + s[k].0, y + s[k].1);
      assert Cell(g', x + s[k].0, y + s[k].1);
    } else if g.maxHeight > 0 {
      var cx: nat, cy: nat :| cy + 1 == g.maxHeight && Cell(g, cx, cy);
      assert Cell(g', cx, cy);
    }
  }

  // The driver

  /** The outer loop, for any way `drop` of letting the `rocks`-th rock
      fall into grid `g` with the jet counter at `rounds`: rocks are dropped
      until `count` of them have come to rest. The result is the grid and
      the number of jets used. */
  function SimulateWith(drop: (Grid, nat, nat) -> Option<(Grid, nat)>,
                        g: Grid, rocks: nat, rounds: nat, count: nat): Option<(Grid, nat)>
    decreases count - rocks
  {
    if rocks >= count then Some((g, rounds))
    else
      var next := drop(g, rocks, rounds);
      if next.None? then None
      else SimulateWith(drop, next.value.0, rocks + 1, next.value.1, count)
  }

  /** The program's drop: the next rock spawned above the highest one. */
  function Dropper(pattern: seq<Dir>): (Grid, nat, nat) -> Option<(Grid, nat)>
    requires |pattern| > 0
  {
    (g: Grid, rocks: nat, rounds: nat) => DropRock(g, pattern, rounds, Spawn(rocks, g))
  }

  /** The outer loop of the program. */
  function Simulate(g: Grid, pattern: seq<Dir>, rocks: nat, rounds: nat, count: nat): Option<(Grid, nat)>
    requires |pattern| > 0
  {
    SimulateWith(Dropper(pattern), g, rocks, rounds, count)
  }

  /** The outer loop's invariant: a bounded grid of four rows per rock and
      eight more, no higher than four rows per rock dropped so far. */
  ghost predicate Roomy(g: Grid, rocks: nat, count: nat)
  {
    Bounded(g) && Topped(g) && g.maxHeight <= 4 * rocks && |g.cells| == 4 * count + 8
  }

  /** A drop that succeeds on every roomy grid, keeps it roomy and does not
      lower it. */
  ghost predicate SafeDrop(drop: (Grid, nat, nat) -> Option<(Grid, nat)>, count: nat)
  {
    forall g: Grid, rocks: nat, rounds: nat :: rocks < count && Roomy(g, rocks, count) ==>
      drop(g, rocks, rounds).Some?
      && Roomy(drop(g, rocks, rounds).value.0, rocks + 1, count)
      && g.maxHeight <= drop(g, rocks, rounds).value.0.maxHeight
  }

  /** The program's drop is safe: the spawned rock is placed and comes to
      rest at most four rows above the highest rock. */
  lemma DropperSafe(pattern: seq<Dir>, count: nat)
    requires |pattern| > 0
    ensures SafeDrop(Dropper(pattern), count)
  {
    forall g: Grid, rocks: nat, rounds: nat | rocks < count && Roomy(g, rocks, count)
      ensures Dropper(pattern)(g, rocks, rounds).Some?
      ensures Roomy(Dropper(pattern)(g, rocks, rounds).value.0, rocks + 1, count)
      ensures g.maxHeight <= Dropper(pattern)(g, rocks, rounds).value.0.maxHeight
    {
      var next := DropSpawned(g, pattern, rocks, rounds, count);
    }
  }

  /** One iteration of the outer loop, from a bounded grid with room for
      the rock. */
  lemma DropSpawned(g: Grid, pattern: seq<Dir>, rocks: nat, rounds: nat, count: nat) returns (next: (Grid, nat))
    requires |pattern| > 0 && rocks < count
    requires Bounded(g) && Topped(g) && g.maxHeight <= 4 * rocks && |g.cells| == 4 * count + 8
    ensures DropRock(g, pattern, rounds, Spawn(rocks, g)) == Some(next)
    ensures Bounded(next.0) && Topped(next.0) && |next.0.cells| == |g.cells|
    ensures g.maxHeight <= next.0.maxHeight <= 4 * (rocks + 1)
  {
    var r := Spawn(rocks, g);
    SpawnIsPlaced(rocks, g);
    DropRockSucceeds(g, pattern, rounds, r);
    next := DropRock(g, pattern, rounds, r).value;
    var x: nat, y: nat :| RestsIn(g, next.0, r.kind, x, y);
    RestsKeepsTopped(g, next.0, r.kind, x, y);
  }

  /** A safe drop never fails and the height stays within four rows per
      rock. */
  lemma {:induction false} SimulateWithSucceeds(drop: (Grid, nat, nat) -> Option<(Grid, nat)>,
                                                g: Grid, rocks: nat, rounds: nat, count: nat)
    requires SafeDrop(drop, count) && rocks <= count && Roomy(g, rocks, count)
    ensures SimulateWith(drop, g, rocks, rounds, count).Some?
    ensures var g' := SimulateWith(drop, g, rocks, rounds, count).value.0;
      Bounded(g') && Topped(g') && g.maxHeight <= g'.maxHeight <= 4 * count
    decreases count - rocks
  {
    if rocks < count {
      var next := drop(g, rocks, rounds).value;
      SimulateWithSucceeds(drop, next.0, rocks + 1, next.1, count);
    }
  }

  /** Each rock raises the height by at most four, so a grid of four rows
      per rock and eight more, as the program makes, never runs out of
      rows. */
  lemma SimulateSucceeds(g: Grid, pattern: seq<Dir>, rocks: nat, rounds: nat, count: nat)
    requires |pattern| > 0
    requires Bounded(g) && Topped(g) && rocks <= count
    requires g.maxHeight <= 4 * rocks && |g.cells| == 4 * count + 8
    ensures Simulate(g, pattern, rocks, rounds, count).Some?
    ensures var g' := Simulate(g, pattern, rocks, rounds, count).value.0;
      Bounded(g') && Topped(g') && g.maxHeight <= g'.maxHeight <= 4 * count
  {
    DropperSafe(pattern, count);
    SimulateWithSucceeds(Dropper(pattern), g, rocks, rounds, count);
  }


  /** The jet pattern: '<' and '>' only; anything else aborts. */
  function ParsePattern(line: string): (r: Option<seq<Dir>>)
    ensures r.Some? <==> forall i :: 0 <= i < |line| ==> line[i] in "<>"
    ensures r.Some? ==> |r.value| == |line|
    ensures r.Some? ==> forall i :: 0 <= i < |line| ==> (r.value[i] == Left <==> line[i] == '<')
  {
    if |line| == 0 then Some([])
    else
      var d := if line[0] == '<' then Some(Left) else if line[0] == '>' then Some(Right) else None;
      match (d, ParsePattern(line[1..]))
        case (Some(d), Some(rest)) =>
          assert forall i :: 1 <= i < |line| ==> line[i] == line[1..][i - 1];
          Some([d] + rest)
        case _ =>
          assert forall i :: 1 <= i < |line| ==> line[i] == line[1..][i - 1];
          None
  }

  /** The reading loop over the input lines: before each line the program
      asserts that no jet has been read yet, so every line but the last must
      be empty, and the jets are those of the last line. */
  function ReadPattern(lines: seq<string>, pattern: seq<Dir>): (r: Option<seq<Dir>>)
    ensures r.Some? <==> (
      || |lines| == 0
      || (&& pattern == []
          && (forall i :: 0 <= i < |lines| - 1 ==> lines[i] == "")
          && ParsePattern(lines[|lines| - 1]).Some?))
    ensures r.Some? ==> r.value == if |lines| == 0 then pattern else ParsePattern(lines[|lines| - 1]).value
    decreases |lines|
  {
    if |lines| == 0 then Some(pattern)
    else if pattern != [] then None
    else match ParsePattern(lines[0])
      case None => None
      case Some(jets) =>
        var rest := ReadPattern(lines[1..], jets);
        assert forall i :: 1 <= i < |lines| ==> lines[1..][i - 1] == lines[i];
        rest
  }

  /** The number of rocks the program drops: twenty rounds of five rocks
      per jet. */
  function RockCount(pattern: seq<Dir>): nat
  {
    |pattern| * |RockPattern| * 20
  }

  /** The height after the program's run, in a grid of four rows per rock
      and eight more: one above the highest set cell of the final grid. */
  function TowerHeight(pattern: seq<Dir>): (r: nat)
    ensures r <= 4 * RockCount(pattern)
    ensures |pattern| == 0 ==> r == 0
    ensures |pattern| > 0 ==>
      var g := Simulate(NewGrid(4 * RockCount(pattern) + 8), pattern, 0, 0, RockCount(pattern));
      && g.Some?
      && (forall x: nat, y: nat :: Cell(g.value.0, x, y) ==> y < r)
      && (r > 0 ==> exists x: nat, y: nat :: y + 1 == r && Cell(g.value.0, x, y))
  {
    if |pattern| == 0 then 0
    else
      var g := NewGrid(4 * RockCount(pattern) + 8);
      SimulateSucceeds(g, pattern, 0, 0, RockCount(pattern));
      var g' := Simulate(g, pattern, 0, 0, RockCount(pattern)).value.0;
      g'.maxHeight
  }
}

=== FILE: day18_boiling_boulders.dfy ===
/** Lava droplet cubes: count the faces not touching another cube, and find
    the air pockets sealed inside the droplet by flooding the air cells
    within the droplet's bounding box. */
module BoilingBoulders {
  import opened Common
  import Sorting

  datatype Cube = Cube(x: int, y: int, z: int)

  // Neighbours

  /** The neighbour iterator: `n` counts the neighbours handed out so far. */
  datatype CubeIter = CubeIter(x: int, y: int, z: int, n: int)

  /** The iterator's `next`: +x, -x, +y, -y, +z, -z, then nothing. */
  function Next(it: CubeIter): (r: Option<(Cube, CubeIter)>)
    ensures r.Some? <==> 0 <= it.n < 6
    ensures r.Some? ==> r.value.1 == CubeIter(it.x, it.y, it.z, it.n + 1)
  {
    var d: Option<(int, int, int)> := match it.n
      case 0 => Some((1, 0, 0))
      case 1 => Some((-1, 0, 0))
      case 2 => Some((0, 1, 0))
      case 3 => Some((0, -1, 0))
      case 4 => Some((0, 0, 1))
      case 5 => Some((0, 0, -1))
      case _ => None;
    match d
      case None => None
      case Some((dx, dy, dz)) => Some((Cube(it.x + dx, it.y + dy, it.z + dz), CubeIter(it.x, it.y, it.z, it.n + 1)))
  }

  /** Everything the iterator still hands out. */
  function Drain(it: CubeIter): (r: seq<Cube>)
    ensures |r| == if 0 <= it.n < 6 then 6 - it.n else 0
    decreases if 0 <= it.n < 6 then 6 - it.n else 0
  {
    match Next(it)
      case None => []
      case Some((c, rest)) => [c] + Drain(rest)
  }

  function Neighbors(c: Cube): (r: seq<Cube>)
    ensures |r| == 6
  {
    Drain(CubeIter(c.x, c.y, c.z, 0))
  }

  /** Reference definition: the cubes sharing a face differ by one in exactly
      one coordinate. */
  predicate Adjacent(a: Cube, b: Cube)
  {
    Abs(a.x - b.x) + Abs(a.y - b.y) + Abs(a.z - b.z) == 1
  }

  lemma NeighborsSpelledOut(c: Cube)
    ensures Neighbors(c) == [Cube(c.x + 1, c.y, c.z), Cube(c.x - 1, c.y, c.z), Cube(c.x, c.y + 1, c.z),
      Cube(c.x, c.y - 1, c.z), Cube(c.x, c.y, c.z + 1), Cube(c.x, c.y, c.z - 1)]
  {
    var d6 := Drain(CubeIter(c.x, c.y, c.z, 6));
    assert d6 == [];
    var d5 := Drain(CubeIter(c.x, c.y, c.z, 5));
    assert d5 == [Cube(c.x, c.y, c.z - 1)] + d6;
    var d4 := Drain(CubeIter(c.x, c.y, c.z, 4));
    assert d4 == [Cube(c.x, c.y, c.z + 1)] + d5;
    var d3 := Drain(CubeIter(c.x, c.y, c.z, 3));
    assert d3 == [Cube(c.x, c.y - 1, c.z)] + d4;
    var d2 := Drain(CubeIter(c.x, c.y, c.z, 2));
    assert d2 == [Cube(c.x, c.y + 1, c.z)] + d3;
    var d1 := Drain(CubeIter(c.x, c.y, c.z, 1));
    assert d1 == [Cube(c.x - 1, c.y, c.z)] + d2;
    assert Neighbors(c) == [Cube(c.x + 1, c.y, c.z)] + d1;
  }

  /** The six neighbours are exactly the adjacent cubes, all different. */
  lemma NeighborsAreAdjacent(c: Cube)
    ensures forall b :: b in Neighbors(c) <==> Adjacent(c, b)
    ensures forall j, k :: 0 <= j < k < 6 ==> Neighbors(c)[j] != Neighbors(c)[k]
  {
    NeighborsSpelledOut(c);
  }

  /** Adjacency is symmetric. */
  lemma NeighborSymmetric(a: Cube, b: Cube)
    requires b in Neighbors(a)
    ensures a in Neighbors(b)
  {
    NeighborsAreAdjacent(a);
    NeighborsAreAdjacent(b);
  }

  // Counting faces

  /** The neighbours of `c` that are not cubes. */
  function OpenFaces(c: Cube, cubes: seq<Cube>): (r: nat)
    ensures r <= 6
  {
    OpenAmong(Neighbors(c), cubes)
  }

  function OpenAmong(ns: seq<Cube>, cubes: seq<Cube>): (r: nat)
    ensures r <= |ns|
  {
    if |ns| == 0 then 0
    else (if ns[0] in cubes then 0 else 1) + OpenAmong(ns[1..], cubes)
  }

  /** `count_faces`: for each cube of the set, in its enumeration order,
      the neighbours that are not cubes. */
  function CountFacesOf(list: seq<Cube>, cubes: seq<Cube>): (r: nat)
    ensures r <= 6 * |list|
  {
    if |list| == 0 then 0 else OpenFaces(list[0], cubes) + CountFacesOf(list[1..], cubes)
  }

  function CountFaces(cubes: seq<Cube>): nat
  {
    CountFacesOf(cubes, cubes)
  }

  /** Exposed faces are bounded by six per cube. */
  lemma CountFacesBound(cubes: seq<Cube>)
    ensures CountFaces(cubes) <= 6 * |cubes|
  {
  }

  /** A lone cube shows all six faces. */
  lemma SingleCube(c: Cube)
    ensures CountFaces([c]) == 6
  {
    NeighborsSpelledOut(c);
    var ns := Neighbors(c);
    assert forall k :: 0 <= k < 6 ==> ns[k] !in [c];
    assert OpenAmong(ns[6..], [c]) == 0;
    assert OpenAmong(ns[5..], [c]) == 1 by { assert ns[5..][1..] == ns[6..]; }
    assert OpenAmong(ns[4..], [c]) == 2 by { assert ns[4..][1..] == ns[5..]; }
    assert OpenAmong(ns[3..], [c]) == 3 by { assert ns[3..][1..] == ns[4..]; }
    assert OpenAmong(ns[2..], [c]) == 4 by { assert ns[2..][1..] == ns[3..]; }
    assert OpenAmong(ns[1..], [c]) == 5 by { assert ns[1..][1..] == ns[2..]; }
    assert OpenAmong(ns, [c]) == 6 by { assert ns[0..] == ns; }
    assert CountFaces([c]) == OpenFaces(c, [c]) + CountFacesOf([], [c]);
  }

  /** Two cubes sharing a face show ten faces. */
  lemma TwoCubes(a: Cube, b: Cube)
    requires b == Cube(a.x + 1, a.y, a.z)
    ensures CountFaces([a, b]) == 10
  {
    var cs := [a, b];
    assert OpenFaces(a, cs) == 5 by {
      NeighborsSpelledOut(a);
      OneBlocked(Neighbors(a), cs, 0);
    }
    assert OpenFaces(b, cs) == 5 by {
      NeighborsSpelledOut(b);
      OneBlocked(Neighbors(b), cs, 1);
    }
    assert CountFacesOf([b], cs) == OpenFaces(b, cs) by {
      assert [b][1..] == [];
    }
    assert cs[1..] == [b];
  }

  /** With exactly one neighbour taken, the others are open. */
  lemma {:induction false} OneBlocked(ns: seq<Cube>, cubes: seq<Cube>, k: nat)
    requires k < |ns| && ns[k] in cubes
    requires forall j :: 0 <= j < |ns| && j != k ==> ns[j] !in cubes
    ensures OpenAmong(ns, cubes) == |ns| - 1
    decreases |ns|
  {
    var tail := ns[1..];
    if k == 0 {
      NoneBlocked(tail, cubes);
    } else {
      assert forall j :: 0 <= j < |tail| && j != k - 1 ==> tail[j] == ns[j + 1];
      OneBlocked(tail, cubes, k - 1);
    }
  }

  lemma {:induction false} NoneBlocked(ns: seq<Cube>, cubes: seq<Cube>)
    requires forall j :: 0 <= j < |ns| ==> ns[j] !in cubes
    ensures OpenAmong(ns, cubes) == |ns|
    decreases |ns|
  {
    if |ns| > 0 {
      var tail := ns[1..];
      assert forall j :: 0 <= j < |tail| ==> tail[j] == ns[j + 1];
      NoneBlocked(tail, cubes);
    }
  }

  /** The count does not depend on the order the set is enumerated in. */
  lemma {:induction false} CountFacesOrder(list: seq<Cube>, other: seq<Cube>, cubes: seq<Cube>)
    requires multiset(list) == multiset(other)
    ensures CountFacesOf(list, cubes) == CountFacesOf(other, cubes)
    decreases |list|
  {
    if |list| > 0 {
      var i := Sorting.RemoveMatching(list, other);
      var rest := other[..i] + other[i + 1..];
      CountFacesOrder(list[1..], rest, cubes);
      CountFacesRemove(other, i, cubes);
    }
  }

  lemma {:induction false} CountFacesRemove(list: seq<Cube>, i: nat, cubes: seq<Cube>)
    requires i < |list|
    ensures CountFacesOf(list, cubes) == OpenFaces(list[i], cubes) + CountFacesOf(list[..i] + list[i + 1..], cubes)
    decreases |list|
  {
    var r := list[..i] + list[i + 1..];
    if i > 0 {
      CountFacesRemove(list[1..], i - 1, cubes);
      assert r[0] == list[0];
      assert list[1..][..i - 1] + list[1..][i..] == r[1..];
      CountFacesFirst(r, cubes);
    } else {
      assert r == list[1..];
    }
  }

  lemma CountFacesFirst(list: seq<Cube>, cubes: seq<Cube>)
    requires |list| > 0
    ensures CountFacesOf(list, cubes) == OpenFaces(list[0], cubes) + CountFacesOf(list[1..], cubes)
  {
  }

  // Parsing

  /** "x,y,z": the first three comma-separated fields must be 32-bit
      integers, or the program aborts. */
  function ParseCube(line: string): (r: Option<Cube>)
    ensures var args := Split(line, {','});
      r.Some? <==> (|args| >= 3 && ParseI32(args[0]).Some? && ParseI32(args[1]).Some? && ParseI32(args[2]).Some?)
    ensures var args := Split(line, {','});
      r.Some? ==> (|args| >= 3
        && r.value == Cube(ParseI32(args[0]).value, ParseI32(args[1]).value, ParseI32(args[2]).value))
  {
    var args := Split(line, {','});
    if |args| < 3 then None
    else match (ParseI32(args[0]), ParseI32(args[1]), ParseI32(args[2]))
      case (Some(x), Some(y), Some(z)) => Some(Cube(x, y, z))
      case _ => None
  }

  function ShowCube(c: Cube): string
  {
    Join([ShowInt(c.x), ShowInt(c.y), ShowInt(c.z)], ',')
  }

  lemma ParseShowCube(c: Cube)
    requires I32Min <= c.x <= I32Max && I32Min <= c.y <= I32Max && I32Min <= c.z <= I32Max
    ensures ParseCube(ShowCube(c)) == Some(c)
  {
    var parts := [ShowInt(c.x), ShowInt(c.y), ShowInt(c.z)];
    forall k | 0 <= k < 3
      ensures NoSeparator(parts[k], {','})
    {
    }
    SplitJoin(parts, ',');
    ParseShowIntText(c.x);
    ParseShowIntText(c.y);
    ParseShowIntText(c.z);
  }

  // Bounds

  datatype Bounds = Bounds(minX: int, minY: int, minZ: int, maxX: int, maxY: int, maxZ: int)

  predicate Contains(b: Bounds, c: Cube)
  {
    b.minX <= c.x && b.minY <= c.y && b.minZ <= c.z && b.maxX >= c.x && b.maxY >= c.y && b.maxZ >= c.z
  }

  /** The starting bounds, which contain nothing. */
  const EmptyBounds: Bounds := Bounds(I32Max, I32Max, I32Max, I32Min, I32Min, I32Min)

  function Widen(b: Bounds, c: Cube): Bounds
  {
    Bounds(Min(b.minX, c.x), Min(b.minY, c.y), Min(b.minZ, c.z), Max(b.maxX, c.x), Max(b.maxY, c.y), Max(b.maxZ, c.z))
  }

  /** `Bounds::new`: the componentwise minimum and maximum of the cubes, from
      the 32-bit extremes. */
  function BoundsOf(cubes: seq<Cube>): (b: Bounds)
    ensures forall c :: c in cubes ==> Contains(b, c)
  {
    if |cubes| == 0 then EmptyBounds
    else
      var init, last := cubes[..|cubes| - 1], cubes[|cubes| - 1];
      assert cubes == init + [last];
      Widen(BoundsOf(init), last)
  }

  predicate In32(c: Cube)
  {
    I32Min <= c.x <= I32Max && I32Min <= c.y <= I32Max && I32Min <= c.z <= I32Max
  }

  /** The bounds are tight: each extreme is a coordinate of some cube. */
  lemma {:induction false} BoundsAttained(cubes: seq<Cube>)
    requires |cubes| > 0 && forall i :: 0 <= i < |cubes| ==> In32(cubes[i])
    ensures var b := BoundsOf(cubes);
      (exists i :: 0 <= i < |cubes| && cubes[i].x == b.minX) && (exists i :: 0 <= i < |cubes| && cubes[i].x == b.maxX)
      && (exists i :: 0 <= i < |cubes| && cubes[i].y == b.minY) && (exists i :: 0 <= i < |cubes| && cubes[i].y == b.maxY)
      && (exists i :: 0 <= i < |cubes| && cubes[i].z == b.minZ) && (exists i :: 0 <= i < |cubes| && cubes[i].z == b.maxZ)
    decreases |cubes|
  {
    var init := cubes[..|cubes| - 1];
    var last := |cubes| - 1;
    if |init| == 0 {
      assert BoundsOf(cubes) == Widen(EmptyBounds, cubes[last]);
    } else {
      BoundsAttained(init);
      var b := BoundsOf(init);
      assert forall i :: 0 <= i < |init| ==> init[i] == cubes[i];
    }
  }

  /** Reference definition: every cube inside the bounds. */
  ghost function Box(b: Bounds): set<Cube>
  {
    set x: int, y: int, z: int | b.minX <= x <= b.maxX && b.minY <= y <= b.maxY && b.minZ <= z <= b.maxZ :: Cube(x, y, z)
  }

  lemma InBox(b: Bounds, c: Cube)
    ensures c in Box(b) <==> Contains(b, c)
  {
    if Contains(b, c) {
      assert c == Cube(c.x, c.y, c.z);
    }
  }

  // Flooding

  /** Air inside the bounds: where a flood may spread. */
  predicate Open(c: Cube, cubes: seq<Cube>, b: Bounds)
  {
    Contains(b, c) && c !in cubes
  }

  /** The neighbours of `node` the flood queues: neither cubes nor already in
      the cluster. */
  function Pushes(ns: seq<Cube>, cubes: seq<Cube>, cluster: set<Cube>): (r: seq<Cube>)
    ensures forall t :: t in r <==> t in ns && t !in cubes && t !in cluster
  {
    if |ns| == 0 then []
    else (if ns[0] !in cubes && ns[0] !in cluster then [ns[0]] else []) + Pushes(ns[1..], cubes, cluster)
  }

  /** The flood from one start: take the front of the queue; a cell outside
      the bounds marks the cluster as no pocket; a cell already in the
      cluster is skipped; otherwise its open neighbours are queued and it
      joins the cluster. The program asserts that such a cell is in neither
      the pockets nor the non-pockets found so far (`classified`); that
      assertion failing is None. */
  function Flood(cubes: seq<Cube>, b: Bounds, classified: set<Cube>, todo: seq<Cube>, cluster: set<Cube>, isPocket: bool)
    : (r: Option<(set<Cube>, bool)>)
    requires cluster <= Box(b)
    ensures r.Some? ==> cluster <= r.value.0 <= Box(b)
    decreases |Box(b) - cluster|, |todo|
  {
    if |todo| == 0 then Some((cluster, isPocket))
    else
      var node := todo[0];
      if !Contains(b, node) then Flood(cubes, b, classified, todo[1..], cluster, false)
      else if node in cluster then Flood(cubes, b, classified, todo[1..], cluster, isPocket)
      else if node in classified then None
      else
        InBox(b, node);
        assert |Box(b) - (cluster + {node})| < |Box(b) - cluster| by {
          assert Box(b) - (cluster + {node}) < Box(b) - cluster;
        }
        Flood(cubes, b, classified, todo[1..] + Pushes(Neighbors(node), cubes, cluster), cluster + {node}, isPocket)
  }

  /** Some cell of the set has an air neighbour outside the bounds. */
  ghost predicate Escapes(s: set<Cube>, cubes: seq<Cube>, b: Bounds)
  {
    exists c, k :: c in s && 0 <= k < 6 && Neighbors(c)[k] !in cubes && !Contains(b, Neighbors(c)[k])
  }

  /** Every air neighbour of a cell of the set is in the set, queued, or
      outside the bounds with the flag already cleared. */
  ghost predicate Tracked(s: set<Cube>, todo: seq<Cube>, isPocket: bool, cubes: seq<Cube>, b: Bounds)
  {
    forall c, k :: c in s && 0 <= k < 6 && Neighbors(c)[k] !in cubes ==>
      Neighbors(c)[k] in s || Neighbors(c)[k] in todo || (!Contains(b, Neighbors(c)[k]) && !isPocket)
  }

  /** Every queued cell is air, and either inside the bounds and not yet
      classified, or a neighbour of the cluster. */
  ghost predicate Queued(todo: seq<Cube>, cluster: set<Cube>, classified: set<Cube>, cubes: seq<Cube>, b: Bounds)
  {
    forall t :: t in todo ==> t !in cubes && (if Contains(b, t) then t !in classified
      else exists c, k :: c in cluster && 0 <= k < 6 && Neighbors(c)[k] == t)
  }

  /** Every open neighbour of a cell of the set is in the set. */
  ghost predicate Closed(s: set<Cube>, cubes: seq<Cube>, b: Bounds)
  {
    forall c, k :: c in s && 0 <= k < 6 && Open(Neighbors(c)[k], cubes, b) ==> Neighbors(c)[k] in s
  }

  /** What the flood keeps while it runs. */
  ghost predicate FloodInv(cubes: seq<Cube>, b: Bounds, classified: set<Cube>, todo: seq<Cube>, cluster: set<Cube>, isPocket: bool)
  {
    && cluster <= Box(b)
    && (forall c :: c in cluster ==> c !in cubes && c !in classified)
    && Tracked(cluster, todo, isPocket, cubes, b)
    && Queued(todo, cluster, classified, cubes, b)
    && (!isPocket ==> Escapes(cluster, cubes, b))
  }

  /** When the classified cells are closed, the flood never meets one: the
      program's assertions hold. The cluster it returns is closed, avoids
      the cubes and the classified cells, and is a pocket exactly when no
      cell of it has air outside the bounds. */
  lemma {:induction false} FloodCorrect(cubes: seq<Cube>, b: Bounds, classified: set<Cube>, todo: seq<Cube>, cluster: set<Cube>, isPocket: bool)
    requires Closed(classified, cubes, b)
    requires FloodInv(cubes, b, classified, todo, cluster, isPocket)
    ensures Flood(cubes, b, classified, todo, cluster, isPocket).Some?
    ensures var (s, p) := Flood(cubes, b, classified, todo, cluster, isPocket).value;
      Closed(s, cubes, b) && (forall c :: c in s ==> c !in cubes && c !in classified)
      && (p <==> !Escapes(s, cubes, b))
    decreases |Box(b) - cluster|, |todo|
  {
    if |todo| == 0 {
      FloodDone(cubes, b, classified, cluster, isPocket);
    } else {
      var node := todo[0];
      if !Contains(b, node) {
        PopOutside(cubes, b, classified, todo, cluster, isPocket);
        FloodCorrect(cubes, b, classified, todo[1..], cluster, false);
      } else if node in cluster {
        PopKnown(cubes, b, classified, todo, cluster, isPocket);
        FloodCorrect(cubes, b, classified, todo[1..], cluster, isPocket);
      } else {
        var todo' := todo[1..] + Pushes(Neighbors(node), cubes, cluster);
        InBox(b, node);
        assert |Box(b) - (cluster + {node})| < |Box(b) - cluster| by {
          assert Box(b) - (cluster + {node}) < Box(b) - cluster;
        }
        PopExpand(cubes, b, classified, todo, cluster, isPocket);
        FloodCorrect(cubes, b, classified, todo', cluster + {node}, isPocket);
      }
    }
  }

  lemma FloodDone(cubes: seq<Cube>, b: Bounds, classified: set<Cube>, cluster: set<Cube>, isPocket: bool)
    requires FloodInv(cubes, b, classified, [], cluster, isPocket)
    ensures Closed(cluster, cubes, b)
    ensures isPocket <==> !Escapes(cluster, cubes, b)
  {
    if isPocket && Escapes(cluster, cubes, b) {
      var c, k :| c in cluster && 0 <= k < 6 && Neighbors(c)[k] !in cubes && !Contains(b, Neighbors(c)[k]);
      InBox(b, Neighbors(c)[k]);
    }
  }

  lemma PopOutside(cubes: seq<Cube>, b: Bounds, classified: set<Cube>, todo: seq<Cube>, cluster: set<Cube>, isPocket: bool)
    requires |todo| > 0 && !Contains(b, todo[0])
    requires FloodInv(cubes, b, classified, todo, cluster, isPocket)
    ensures FloodInv(cubes, b, classified, todo[1..], cluster, false)
  {
    var node := todo[0];
    assert node in todo;
    forall t | t in todo[1..]
      ensures t in todo
    {
    }
    forall c, k | c in cluster && 0 <= k < 6 && Neighbors(c)[k] !in cubes
      ensures Neighbors(c)[k] in cluster || Neighbors(c)[k] in todo[1..] || !Contains(b, Neighbors(c)[k])
    {
      if Neighbors(c)[k] in todo && Neighbors(c)[k] != node {
        assert todo == [node] + todo[1..];
      }
    }
  }

  lemma PopKnown(cubes: seq<Cube>, b: Bounds, classified: set<Cube>, todo: seq<Cube>, cluster: set<Cube>, isPocket: bool)
    requires |todo| > 0 && todo[0] in cluster
    requires FloodInv(cubes, b, classified, todo, cluster, isPocket)
    ensures FloodInv(cubes, b, classified, todo[1..], cluster, isPocket)
  {
    var node := todo[0];
    forall t | t in todo[1..]
      ensures t in todo
    {
    }
    forall c, k | c in cluster && 0 <= k < 6 && Neighbors(c)[k] !in cubes
      ensures Neighbors(c)[k] in cluster || Neighbors(c)[k] in todo[1..] || (!Contains(b, Neighbors(c)[k]) && !isPocket)
    {
      if Neighbors(c)[k] in todo && Neighbors(c)[k] != node {
        assert todo == [node] + todo[1..];
      }
    }
  }

  /** A queued cell inside the bounds is never classified: were it, closure
      would put the cell that queued it among the classified too. */
  lemma PopExpand(cubes: seq<Cube>, b: Bounds, classified: set<Cube>, todo: seq<Cube>, cluster: set<Cube>, isPocket: bool)
    requires Closed(classified, cubes, b)
    requires |todo| > 0 && Contains(b, todo[0]) && todo[0] !in cluster
    requires FloodInv(cubes, b, classified, todo, cluster, isPocket)
    ensures todo[0] !in classified
    ensures cluster + {todo[0]} <= Box(b)
    ensures FloodInv(cubes, b, classified, todo[1..] + Pushes(Neighbors(todo[0]), cubes, cluster), cluster + {todo[0]}, isPocket)
  {
    var node := todo[0];
    assert node in todo;
    InBox(b, node);
    var pushed := Pushes(Neighbors(node), cubes, cluster);
    var todo' := todo[1..] + pushed;
    var cluster' := cluster + {node};
    forall t | t in todo'
      ensures t !in cubes && (if Contains(b, t) then t !in classified
        else exists c, k :: c in cluster' && 0 <= k < 6 && Neighbors(c)[k] == t)
    {
      if t in todo[1..] {
        assert t in todo;
      } else {
        assert t in Neighbors(node);
        var k :| 0 <= k < 6 && Neighbors(node)[k] == t;
        if Contains(b, t) && t in classified {
          NeighborSymmetric(node, t);
          assert false;
        }
      }
    }
    forall c, k | c in cluster' && 0 <= k < 6 && Neighbors(c)[k] !in cubes
      ensures Neighbors(c)[k] in cluster' || Neighbors(c)[k] in todo' || (!Contains(b, Neighbors(c)[k]) && !isPocket)
    {
      var n := Neighbors(c)[k];
      if c == node {
        if n !in cluster {
          assert n in Neighbors(node);
          assert n in pushed;
        }
      } else if n in todo && n != node {
        assert todo == [node] + todo[1..];
      }
    }
    if !isPocket {
      var c, k :| c in cluster && 0 <= k < 6 && Neighbors(c)[k] !in cubes && !Contains(b, Neighbors(c)[k]);
      assert c in cluster';
    }
  }

  // Classifying every candidate

  /** The outer loop over the candidate cells (every neighbour of every
      cube, in the set's drain order): cells outside the bounds, cubes, and
      cells already classified are skipped; any other starts a flood whose
      cluster joins the pockets or the non-pockets. */
  function Classify(cubes: seq<Cube>, b: Bounds, candidates: seq<Cube>, pockets: set<Cube>, notPockets: set<Cube>)
    : (r: Option<(set<Cube>, set<Cube>)>)
    ensures r.Some? ==> pockets <= r.value.0 && notPockets <= r.value.1
  {
    if |candidates| == 0 then Some((pockets, notPockets))
    else
      var start := candidates[0];
      if !Contains(b, start) || start in cubes || start in pockets || start in notPockets then
        Classify(cubes, b, candidates[1..], pockets, notPockets)
      else
        InBox(b, start);
        match Flood(cubes, b, pockets + notPockets, [start], {}, true)
          case None => None
          case Some((cluster, isPocket)) =>
            if isPocket then Classify(cubes, b, candidates[1..], pockets + cluster, notPockets)
            else Classify(cubes, b, candidates[1..], pockets, notPockets + cluster)
  }

  /** What the outer loop keeps: both sets closed and made of air inside the
      bounds, disjoint, every pocket sealed and every non-pocket leaking. */
  ghost predicate Sorted(cubes: seq<Cube>, b: Bounds, pockets: set<Cube>, notPockets: set<Cube>)
  {
    && Closed(pockets, cubes, b) && Closed(notPockets, cubes, b)
    && (forall c :: c in pockets ==> Open(c, cubes, b))
    && (forall c :: c in notPockets ==> Open(c, cubes, b))
    && pockets !! notPockets
    && !Escapes(pockets, cubes, b)
  }

  lemma ClosedUnion(s: set<Cube>, t: set<Cube>, cubes: seq<Cube>, b: Bounds)
    requires Closed(s, cubes, b) && Closed(t, cubes, b)
    ensures Closed(s + t, cubes, b)
  {
  }

  lemma FirstFlood(cubes: seq<Cube>, b: Bounds, pockets: set<Cube>, notPockets: set<Cube>, start: Cube)
    requires Sorted(cubes, b, pockets, notPockets)
    requires Contains(b, start) && start !in cubes && start !in pockets && start !in notPockets
    ensures {} <= Box(b)
    ensures Flood(cubes, b, pockets + notPockets, [start], {}, true).Some?
    ensures var (s, p) := Flood(cubes, b, pockets + notPockets, [start], {}, true).value;
      Closed(s, cubes, b) && (forall c :: c in s ==> Open(c, cubes, b) && c !in pockets && c !in notPockets)
      && (p <==> !Escapes(s, cubes, b))
  {
    ClosedUnion(pockets, notPockets, cubes, b);
    FloodCorrect(cubes, b, pockets + notPockets, [start], {}, true);
    var (s, p) := Flood(cubes, b, pockets + notPockets, [start], {}, true).value;
    forall c | c in s
      ensures Contains(b, c)
    {
      InBox(b, c);
    }
  }

  /** The program's assertions never fail, and every pocket it reports is
      sealed air inside the bounds, never a cube and never also a
      non-pocket. */
  lemma {:induction false} ClassifyCorrect(cubes: seq<Cube>, b: Bounds, candidates: seq<Cube>, pockets: set<Cube>, notPockets: set<Cube>)
    requires Sorted(cubes, b, pockets, notPockets)
    ensures Classify(cubes, b, candidates, pockets, notPockets).Some?
    ensures var (p, n) := Classify(cubes, b, candidates, pockets, notPockets).value;
      Sorted(cubes, b, p, n)
    decreases |candidates|
  {
    if |candidates| > 0 {
      var start := candidates[0];
      if !(!Contains(b, start) || start in cubes || start in pockets || start in notPockets) {
        FirstFlood(cubes, b, pockets, notPockets, start);
        var (s, p) := Flood(cubes, b, pockets + notPockets, [start], {}, true).value;
        if p {
          ClosedUnion(pockets, s, cubes, b);
          ClassifyCorrect(cubes, b, candidates[1..], pockets + s, notPockets);
        } else {
          ClosedUnion(notPockets, s, cubes, b);
          ClassifyCorrect(cubes, b, candidates[1..], pockets, notPockets + s);
        }
      } else {
        ClassifyCorrect(cubes, b, candidates[1..], pockets, notPockets);
      }
    }
  }

  /** `fill_pockets`: the pockets found from the given candidates. */
  function FillPockets(cubes: seq<Cube>, candidates: seq<Cube>): (r: set<Cube>)
    ensures forall c :: c in r ==> Contains(BoundsOf(cubes), c) && c !in cubes
    ensures Closed(r, cubes, BoundsOf(cubes)) && !Escapes(r, cubes, BoundsOf(cubes))
  {
    var b := BoundsOf(cubes);
    ClassifyCorrect(cubes, b, candidates, {}, {});
    Classify(cubes, b, candidates, {}, {}).value.0
  }
}

=== FILE: day20_mixing.dfy ===
/** Grove positioning: every number of the file is moved, in its original
    order, as many places around the circular list as its value says; the
    answer is the sum of the values 1000, 2000 and 3000 places after the 0. */
module Mixing {
  import opened Common

  /** A number of the file together with its line number, which stays
      attached to it while the list is reordered. */
  datatype Num = Num(id: nat, number: int)

  /** The list as read: the line number of each value is its id. */
  function Numbered(values: seq<int>): (r: seq<Num>)
    ensures |r| == |values|
    ensures forall i :: 0 <= i < |r| ==> r[i].id == i && r[i].number == values[i]
  {
    seq(|values|, i requires 0 <= i < |values| => Num(i, values[i]))
  }

  /** The ids of the numbered list are distinct: an entry is fixed by its id. */
  lemma {:induction false} NumberedById(values: seq<int>, x: Num)
    requires x in multiset(Numbered(values))
    ensures x.id < |values| && x == Num(x.id, values[x.id])
  {
    var s := Numbered(values);
    assert x in s;
    var k :| 0 <= k < |s| && s[k] == x;
  }

  // Vec::remove and Vec::insert

  function RemoveAt<T>(s: seq<T>, i: nat): (r: seq<T>)
    requires i < |s|
    ensures |r| == |s| - 1
    ensures multiset(r) + multiset{s[i]} == multiset(s)
  {
    assert s == s[..i] + [s[i]] + s[i + 1..];
    s[..i] + s[i + 1..]
  }

  function InsertAt<T>(s: seq<T>, i: nat, x: T): (r: seq<T>)
    requires i <= |s|
    ensures |r| == |s| + 1 && r[i] == x
    ensures multiset(r) == multiset(s) + multiset{x}
  {
    assert s == s[..i] + s[i..];
    s[..i] + [x] + s[i..]
  }

  /** Removing what was just inserted gives the list back. */
  lemma {:induction false} RemoveInserted<T>(s: seq<T>, i: nat, x: T)
    requires i <= |s|
    ensures RemoveAt(InsertAt(s, i, x), i) == s
  {
    var t := InsertAt(s, i, x);
    assert t[..i] == s[..i];
    assert t[i + 1..] == s[i..];
  }

  /** Putting back what was just removed gives the list back. */
  lemma {:induction false} InsertRemoved<T>(s: seq<T>, i: nat)
    requires i < |s|
    ensures InsertAt(RemoveAt(s, i), i, s[i]) == s
  {
    var t := RemoveAt(s, i);
    assert t[..i] == s[..i];
    assert t[i..] == s[i + 1..];
  }

  // Finding a number by id and the 0 by value

  /** The search loops: the first position from `k` on whose entry satisfies
      `p`, or |s| when there is none. */
  function FirstWhere(s: seq<Num>, p: Num -> bool, k: nat): (ind: nat)
    requires k <= |s|
    ensures k <= ind <= |s|
    ensures ind < |s| ==> p(s[ind])
    ensures forall j :: k <= j < ind ==> !p(s[j])
    decreases |s| - k
  {
    if k == |s| then k
    else if p(s[k]) then k
    else FirstWhere(s, p, k + 1)
  }

  /** Where the number with id `id` currently sits; 0 (the loop's initial
      value) when no entry has that id. */
  function Locate(nums: seq<Num>, id: nat): (ind: nat)
    ensures |nums| > 0 ==> ind < |nums|
    ensures (exists j :: 0 <= j < |nums| && nums[j].id == id) ==>
      ind < |nums| && nums[ind].id == id && forall j :: 0 <= j < ind ==> nums[j].id != id
    ensures (forall j :: 0 <= j < |nums| ==> nums[j].id != id) ==> ind == 0
  {
    var f := FirstWhere(nums, (n: Num) => n.id == id, 0);
    if f < |nums| then f else 0
  }

  /** The search for the 0 before the coordinates are read; 0 when there is
      no 0. */
  function ZeroAt(nums: seq<Num>): (ind: nat)
    ensures |nums| > 0 ==> ind < |nums|
    ensures (forall j :: 0 <= j < |nums| ==> nums[j].number != 0) ==> ind == 0
    ensures (exists j :: 0 <= j < |nums| && nums[j].number == 0) ==>
      ind < |nums| && nums[ind].number == 0 && forall j :: 0 <= j < ind ==> nums[j].number != 0
  {
    var f := FirstWhere(nums, (n: Num) => n.number == 0, 0);
    if f < |nums| then f else 0
  }

  /** In a rearrangement of the numbered list, the search by id finds the
      entry read on line `id`, carrying its original value. */
  lemma {:induction false} LocateFindsOriginal(values: seq<int>, nums: seq<Num>, id: nat)
    requires multiset(nums) == multiset(Numbered(values))
    requires id < |values|
    ensures Locate(nums, id) < |nums| && nums[Locate(nums, id)] == Num(id, values[id])
  {
    var x := Numbered(values)[id];
    assert x in multiset(Numbered(values));
    assert x in nums;
    var j :| 0 <= j < |nums| && nums[j] == x;
    var ind := Locate(nums, id);
    assert nums[ind] in multiset(nums);
    NumberedById(values, nums[ind]);
  }

  // The source's move, as written

  /** The slot after which the number goes: its position plus its value,
      moved one further left when that falls before the start, then brought
      into [0, len) by adding a multiple of the length and taking the
      remainder. */
  function InsertAfter(ind: nat, v: int, len: nat): (r: int)
    requires len > 0
    ensures 0 <= r < len
    ensures r == (if ind + v < 0 then ind + v - 1 else ind + v) % len
  {
    var a := ind + v;
    if a >= 0 then RemT(a, len)
    else
      var b := a - 1;
      var lifted := b + (Abs(b) / len + 1) * len;
      LiftNegative(b, len);
      RemT(lifted, len)
  }

  /** Adding (|b| / len + 1) lengths to a negative `b` lands in (0, len]
      without changing its residue. */
  lemma LiftNegative(b: int, len: nat)
    requires b < 0 && len > 0
    ensures var lifted := b + (Abs(b) / len + 1) * len;
      0 < lifted <= len && lifted % len == b % len
  {
    var q, r0 := (-b) / len, (-b) % len;
    assert -b == len * q + r0;
    var lifted := b + (Abs(b) / len + 1) * len;
    assert lifted == len - r0;
    if r0 == 0 {
      DivUnique(b, len, -q, 0);
      DivUnique(lifted, len, 1, 0);
    } else {
      DivUnique(b, len, -q - 1, len - r0);
      DivUnique(lifted, len, 0, len - r0);
    }
  }

  /** One move of the source: remove the number and put it back after slot
      `insert_after` (at the end when that is 0), correcting the slot by one
      when it lay before the number. Numbers with value 0 stay. When the
      slot is the number's own and it was the last one, `insert` is asked for
      a position past the end and the program panics (None). */
  function MoveAsWritten(nums: seq<Num>, ind: nat): (r: Option<seq<Num>>)
    requires ind < |nums|
    ensures r.None? <==> (nums[ind].number != 0 && 2 <= |nums| && ind == |nums| - 1
      && InsertAfter(ind, nums[ind].number, |nums|) == ind)
    ensures r.Some? ==> multiset(r.value) == multiset(nums)
    ensures nums[ind].number == 0 ==> r == Some(nums)
  {
    var x := nums[ind];
    if x.number == 0 then Some(nums)
    else
      var ia := InsertAfter(ind, x.number, |nums|);
      var rest := RemoveAt(nums, ind);
      if ia == |nums| || ia == 0 then Some(rest + [x])
      else if ia > ind then Some(InsertAt(rest, ia, x))
      else if ia + 1 <= |rest| then Some(InsertAt(rest, ia + 1, x))
      else None
  }

  /** The mixing loop as written: ids 0, 1, ... in turn, each moved from
      wherever it currently sits. */
  function MixAsWrittenFrom(nums: seq<Num>, i: nat): (r: Option<seq<Num>>)
    ensures r.Some? ==> |r.value| == |nums| && multiset(r.value) == multiset(nums)
    decreases |nums| - i
  {
    if i >= |nums| then Some(nums)
    else match MoveAsWritten(nums, Locate(nums, i))
      case None => None
      case Some(next) => MixAsWrittenFrom(next, i + 1)
  }

  /** The program's mixing of the numbers read: when it does not panic, it
      rearranges them and neither loses nor invents any. */
  function MixAsWritten(values: seq<int>): (r: Option<seq<Num>>)
    ensures r.Some? ==> |r.value| == |values| && multiset(r.value) == multiset(Numbered(values))
  {
    MixAsWrittenFrom(Numbered(values), 0)
  }

  /** A move to the left that stays inside the list lands one slot to the
      right of where the puzzle puts it, because the extra step left is taken
      only when the target wraps past the start; a -1 there does not move at
      all (in 0, 5, -1, 7 it should move in front of the 5). */
  lemma {:induction false} LeftMoveAsWritten(nums: seq<Num>, ind: nat)
    requires ind < |nums| && nums[ind].number < 0 && ind + nums[ind].number >= 1
    ensures var v, rest := nums[ind].number, RemoveAt(nums, ind);
      MoveAsWritten(nums, ind) == Some(InsertAt(rest, ind + v + 1, nums[ind]))
      && Move(nums, ind) == InsertAt(rest, ind + v, nums[ind])
    ensures nums[ind].number == -1 ==> MoveAsWritten(nums, ind) == Some(nums)
  {
    var n, v := |nums|, nums[ind].number;
    DivUnique(ind + v, n, 0, ind + v);
    assert InsertAfter(ind, v, n) == ind + v;
    DivUnique(ind + v, n - 1, 0, ind + v);
    assert Target(ind, v, n) == ind + v;
    if v == -1 {
      InsertRemoved(nums, ind);
    }
  }

  /** The wrap is modulo the length rather than the number of gaps left after
      the removal, so mixing 1, 0, 3 asks `insert` for position 3 of a
      two-element list and panics. */
  lemma PanicsAsWritten()
    ensures MixAsWritten([1, 0, 3]) == None
  {
    var s0 := Numbered([1, 0, 3]);
    assert s0 == [Num(0, 1), Num(1, 0), Num(2, 3)];
    var s1 := [Num(1, 0), Num(0, 1), Num(2, 3)];
    FirstMoveAsWritten(Num(0, 1), Num(1, 0), Num(2, 3));
    assert MixAsWrittenFrom(s0, 0) == MixAsWrittenFrom(s1, 1);
    SecondMoveAsWritten();
    LastMoveAsWritten();
  }

  lemma FirstMoveAsWritten(a: Num, b: Num, c: Num)
    requires a == Num(0, 1) && b == Num(1, 0) && c == Num(2, 3)
    ensures Locate([a, b, c], 0) == 0 && MoveAsWritten([a, b, c], 0) == Some([b, a, c])
  {
    var s0 := [a, b, c];
    assert InsertAfter(0, 1, 3) == 1;
    RemoveFirstOfThree(a, b, c);
    InsertSecondOfThree(b, a, c);
  }

  lemma RemoveFirstOfThree<T>(x: T, y: T, z: T)
    ensures RemoveAt([x, y, z], 0) == [y, z]
  {
    var s := [x, y, z];
    assert s[..0] == [] && s[1..] == [y, z];
  }

  lemma InsertSecondOfThree<T>(x: T, y: T, z: T)
    ensures InsertAt([x, z], 1, y) == [x, y, z]
  {
    var s := [x, z];
    assert s[..1] == [x] && s[1..] == [z];
  }

  lemma SecondMoveAsWritten()
    ensures var s1 := [Num(1, 0), Num(0, 1), Num(2, 3)];
      MixAsWrittenFrom(s1, 1) == MixAsWrittenFrom(s1, 2)
  {
    var s1 := [Num(1, 0), Num(0, 1), Num(2, 3)];
    assert Locate(s1, 1) == 0;
  }

  lemma LastMoveAsWritten()
    ensures var s1 := [Num(1, 0), Num(0, 1), Num(2, 3)];
      MixAsWrittenFrom(s1, 2) == None
  {
    var s1 := [Num(1, 0), Num(0, 1), Num(2, 3)];
    assert Locate(s1, 2) == 2;
    assert InsertAfter(2, 3, 3) == 2;
  }

  // The move the puzzle describes

  /** Where a number at `ind` lands after `v` steps around a circle of `len`
      entries: once it is lifted out, `len - 1` gaps remain. */
  function Target(ind: nat, v: int, len: nat): (p: nat)
    requires len >= 2
    ensures p < len - 1 && SameResidue(ind + v, p, len - 1)
  {
    ModIsResidue(ind + v, len - 1);
    (ind + v) % (len - 1)
  }

  /** A number and its remainder leave the same remainder. */
  lemma ModIsResidue(a: int, m: nat)
    requires m > 0
    ensures SameResidue(a, a % m, m)
  {
    ModAddMod(a, -(a % m), m);
  }

  /** `a` and `b` leave the same remainder on division by `m`. */
  predicate SameResidue(a: int, b: int, m: nat)
    requires m > 0
  {
    (a - b) % m == 0
  }

  /** The landing gap is the only gap in [0, len - 1) congruent to `ind + v`
      modulo `len - 1`. */
  lemma TargetIsOnlyResidue(ind: nat, v: int, len: nat, q: int)
    requires len >= 2 && 0 <= q < len - 1
    ensures SameResidue(ind + v, q, len - 1) <==> q == Target(ind, v, len)
  {
    var a, m := ind + v, len - 1;
    if SameResidue(a, q, m) {
      ModAddMod(a - q, q, m);
      DivUnique(q, m, 0, q);
    }
  }

  /** The number at `ind` taken out and put back `v` gaps further round; the
      others keep their order. */
  function Shift(nums: seq<Num>, ind: nat, v: int): (r: seq<Num>)
    requires ind < |nums|
    ensures |r| == |nums| && multiset(r) == multiset(nums)
    ensures |nums| >= 2 ==> var p := Target(ind, v, |nums|);
      r[p] == nums[ind] && RemoveAt(r, p) == RemoveAt(nums, ind)
  {
    if |nums| < 2 then nums
    else
      var p := Target(ind, v, |nums|);
      RemoveInserted(RemoveAt(nums, ind), p, nums[ind]);
      InsertAt(RemoveAt(nums, ind), p, nums[ind])
  }

  /** Moving back by the same amount undoes a move (when the number did not
      start in the last slot, which the circle identifies with the first). */
  lemma {:induction false} ShiftBack(nums: seq<Num>, ind: nat, v: int)
    requires 2 <= |nums| && ind < |nums| - 1
    ensures Shift(Shift(nums, ind, v), Target(ind, v, |nums|), -v) == nums
  {
    var n := |nums|;
    var p := Target(ind, v, n);
    var r := Shift(nums, ind, v);
    var rest, x := RemoveAt(nums, ind), nums[ind];
    assert r[p] == x && RemoveAt(r, p) == rest;
    TargetBack(ind, v, n);
    assert Shift(r, p, -v) == InsertAt(rest, ind, x);
    InsertRemoved(nums, ind);
  }

  /** Stepping back by the same amount returns to the starting gap. */
  lemma TargetBack(ind: nat, v: int, n: nat)
    requires 2 <= n && ind < n - 1
    ensures Target(Target(ind, v, n), -v, n) == ind
  {
    ModAddMod(ind + v, -v, n - 1);
    DivUnique(ind, n - 1, 0, ind);
  }

  /** Adding to a residue is adding to the number. */
  lemma ModAddMod(a: int, b: int, n: nat)
    requires n > 0
    ensures (a % n + b) % n == (a + b) % n
  {
    var q, r := a / n, a % n;
    var q2, r2 := (r + b) / n, (r + b) % n;
    assert r + b == n * q2 + r2;
    assert a + b == n * (q + q2) + r2;
    DivUnique(a + b, n, q + q2, r2);
  }

  /** One step of the mixing: numbers with value 0 stay where they are. */
  function Move(nums: seq<Num>, ind: nat): (r: seq<Num>)
    requires ind < |nums|
    ensures |r| == |nums| && multiset(r) == multiset(nums)
    ensures nums[ind].number == 0 ==> r == nums
  {
    if nums[ind].number == 0 then nums else Shift(nums, ind, nums[ind].number)
  }

  /** The mixing loop from id `i` on: every id in turn, wherever it sits. */
  function MixFrom(nums: seq<Num>, i: nat): (r: seq<Num>)
    ensures |r| == |nums| && multiset(r) == multiset(nums)
    decreases |nums| - i
  {
    if i >= |nums| then nums
    else MixFrom(Move(nums, Locate(nums, i)), i + 1)
  }

  /** Mixing rearranges the numbers read and loses or invents none. */
  function Mix(values: seq<int>): (r: seq<Num>)
    ensures |r| == |values| && multiset(r) == multiset(Numbered(values))
  {
    MixFrom(Numbered(values), 0)
  }

  /** Each step of the mixing moves the number read on line `i` by its own
      value, and leaves everything as it is when that value is 0. */
  lemma {:induction false} MixStep(values: seq<int>, nums: seq<Num>, i: nat)
    requires multiset(nums) == multiset(Numbered(values))
    requires i < |values|
    ensures var ind := Locate(nums, i);
      ind < |nums| && nums[ind] == Num(i, values[i])
      && Move(nums, ind) == (if values[i] == 0 then nums else Shift(nums, ind, values[i]))
  {
    LocateFindsOriginal(values, nums, i);
  }

  /** In a list in reading order, the search for id i finds slot i. */
  lemma LocateInOrder(nums: seq<Num>, i: nat)
    requires i < |nums| && forall j :: 0 <= j < |nums| ==> nums[j].id == j
    ensures Locate(nums, i) == i
  {
    assert nums[i].id == i;
  }

  lemma RemoveLastOfFour<T>(a: T, b: T, c: T, d: T)
    ensures RemoveAt([a, b, c, d], 3) == [a, b, c]
  {
    var s := [a, b, c, d];
    assert s[..3] == [a, b, c];
  }

  lemma InsertThirdOfThree<T>(a: T, b: T, c: T, d: T)
    ensures InsertAt([a, b, c], 2, d) == [a, b, d, c]
  {
    var r := [a, b, c];
    assert r[..2] == [a, b] && r[2..] == [c];
  }

  /** In 0, 0, 3, -1 the program moves nothing: the 3 comes back to its
      own slot and the -1 is put back where it was taken from. */
  lemma StaysAsWritten()
    ensures MixAsWritten([0, 0, 3, -1]) == Some(Numbered([0, 0, 3, -1]))
  {
    var s := [Num(0, 0), Num(1, 0), Num(2, 3), Num(3, -1)];
    assert Numbered([0, 0, 3, -1]) == s;
    LocateInOrder(s, 0);
    LocateInOrder(s, 1);
    LocateInOrder(s, 2);
    LocateInOrder(s, 3);
    assert MixAsWrittenFrom(s, 0) == MixAsWrittenFrom(s, 1);
    assert MixAsWrittenFrom(s, 1) == MixAsWrittenFrom(s, 2);
    assert InsertAfter(2, 3, 4) == 1;
    InsertRemoved(s, 2);
    assert MoveAsWritten(s, 2) == Some(s);
    assert MixAsWrittenFrom(s, 2) == MixAsWrittenFrom(s, 3);
    LeftMoveAsWritten(s, 3);
    assert MixAsWrittenFrom(s, 3) == MixAsWrittenFrom(s, 4);
  }

  /** In 0, 0, 3, -1 the puzzle's mixing moves the -1 one place left, in
      front of the 3. */
  lemma MovesWhenCorrected()
    ensures Mix([0, 0, 3, -1]) == [Num(0, 0), Num(1, 0), Num(3, -1), Num(2, 3)]
  {
    var a, b, c, d := Num(0, 0), Num(1, 0), Num(2, 3), Num(3, -1);
    var s, t := [a, b, c, d], [a, b, d, c];
    assert Numbered([0, 0, 3, -1]) == s;
    LocateInOrder(s, 0);
    LocateInOrder(s, 1);
    LocateInOrder(s, 2);
    LocateInOrder(s, 3);
    assert MixFrom(s, 0) == MixFrom(s, 1);
    assert MixFrom(s, 1) == MixFrom(s, 2);
    assert Target(2, 3, 4) == 2;
    InsertRemoved(s, 2);
    assert Move(s, 2) == s;
    assert MixFrom(s, 2) == MixFrom(s, 3);
    assert Target(3, -1, 4) == 2;
    RemoveLastOfFour(a, b, c, d);
    InsertThirdOfThree(a, b, c, d);
    assert Move(s, 3) == t;
    assert MixFrom(s, 3) == MixFrom(t, 4);
  }

  // Grove coordinates

  /** The values 1000, 2000 and 3000 places after the 0, counting round the
      circle; an empty list makes the `%` divide by zero (None). */
  function GroveSum(nums: seq<Num>): (r: Option<int>)
    ensures r.None? <==> |nums| == 0
  {
    if |nums| == 0 then None
    else
      var z := ZeroAt(nums);
      var n := |nums|;
      Some(nums[(z + 1000) % n].number + nums[(z + 2000) % n].number + nums[(z + 3000) % n].number)
  }

  /** The list holds exactly one 0. */
  predicate OneZero(nums: seq<Num>)
  {
    (exists j :: 0 <= j < |nums| && nums[j].number == 0)
    && forall j, k :: 0 <= j < |nums| && 0 <= k < |nums| && nums[j].number == 0 && nums[k].number == 0 ==> j == k
  }

  function Rotate(nums: seq<Num>, k: nat): (r: seq<Num>)
    requires k < |nums|
    ensures |r| == |nums|
  {
    nums[k..] + nums[..k]
  }

  /** Entry `j` of the rotated list is entry `j + k` of the original, counting
      round the circle. */
  lemma RotateAt(nums: seq<Num>, k: nat, j: nat)
    requires k < |nums| && j < |nums|
    ensures Rotate(nums, k)[j] == nums[(j + k) % |nums|]
  {
    var n := |nums|;
    if j + k < n {
      DivUnique(j + k, n, 0, j + k);
    } else {
      DivUnique(j + k, n, 1, j + k - n);
    }
  }

  /** The coordinates depend only on the circular order: starting the list at
      another place gives the same sum. */
  lemma {:induction false} GroveSumRotate(nums: seq<Num>, k: nat)
    requires OneZero(nums) && k < |nums|
    ensures GroveSum(Rotate(nums, k)) == GroveSum(nums)
  {
    var n := |nums|;
    var r := Rotate(nums, k);
    var z := ZeroAt(nums);
    var w := RotatedZero(nums, k);
    GroveOffset(nums, k, w, z, 1000);
    GroveOffset(nums, k, w, z, 2000);
    GroveOffset(nums, k, w, z, 3000);
  }

  /** The 0 of the rotated list is the original's 0. */
  lemma {:induction false} RotatedZero(nums: seq<Num>, k: nat) returns (w: nat)
    requires OneZero(nums) && k < |nums|
    ensures w == ZeroAt(Rotate(nums, k)) && (w + k) % |nums| == ZeroAt(nums)
  {
    var r := Rotate(nums, k);
    forall j | 0 <= j < |r|
      ensures r[j] == nums[(j + k) % |nums|]
    {
      RotateAt(nums, k, j);
    }
    var z := ZeroAt(nums);
    w := ShiftedZero(nums, r, k, z);
    ZeroUnique(nums, (w + k) % |nums|, z);
  }

  /** A list that reads `nums` from `k` onwards, round the circle, has its
      first 0 where `nums` has a 0. */
  lemma {:induction false} ShiftedZero(nums: seq<Num>, r: seq<Num>, k: nat, z: nat) returns (w: nat)
    requires k < |nums| && |r| == |nums| && z < |nums| && nums[z].number == 0
    requires forall j :: 0 <= j < |r| ==> r[j] == nums[(j + k) % |nums|]
    ensures w == ZeroAt(r) && nums[(w + k) % |nums|].number == 0
  {
    var n := |nums|;
    var zr := (z + n - k) % n;
    assert (zr + k) % n == z by {
      ModAddMod(z + n - k, k, n);
      DivUnique(z + n, n, 1, z);
    }
    assert r[zr].number == 0;
    w := ZeroAt(r);
    assert r[w] == nums[(w + k) % n];
  }

  lemma ZeroUnique(nums: seq<Num>, a: nat, b: nat)
    requires OneZero(nums) && a < |nums| && b < |nums|
    requires nums[a].number == 0 && nums[b].number == 0
    ensures a == b
  {
  }

  lemma {:induction false} GroveOffset(nums: seq<Num>, k: nat, w: nat, z: nat, d: nat)
    requires k < |nums| && w < |nums| && (w + k) % |nums| == z
    ensures Rotate(nums, k)[(w + d) % |nums|] == nums[(z + d) % |nums|]
  {
    var n := |nums|;
    RotateAt(nums, k, (w + d) % n);
    OffsetSum(w, k, d, z, n);
  }

  /** Offsetting by `d` then by `k` lands where offsetting by `k` then `d` does. */
  lemma OffsetSum(w: nat, k: nat, d: nat, z: nat, n: nat)
    requires n > 0 && (w + k) % n == z
    ensures ((w + d) % n + k) % n == (z + d) % n
  {
    var t := w + k + d;
    ResidueAdd(w + d, (w + d) % n, k, t, n);
    ResidueAdd(w + k, z, d, t, n);
  }

  /** Adding to a residue `r` of `a` is adding to `a`. */
  lemma ResidueAdd(a: int, r: int, b: int, s: int, n: nat)
    requires n > 0 && a % n == r && s == a + b
    ensures (r + b) % n == s % n
  {
    ModAddMod(a, b, n);
  }
}

=== FILE: day21_monkey_math.dfy ===
/** Monkey math: every monkey yells a number or combines the numbers of two
    other monkeys; the human's number is unknown, and the program works back
    from the root to the number that makes the root's two operands equal. */
module MonkeyMath {
  import opened Common

  datatype Kind = Plus | Minus | Times | Over

  /** A monkey's job. */
  datatype Op = Number(n: int) | Human | Binary(kind: Kind, left: string, right: string)

  /** The equations `result = known op human` (or, reversed, `human op known`)
      that are solved for the human. */
  datatype SimpleOp = Add | Subtract | SubtractReverse | Multiply | Divide | DivideReverse

  type Monkeys = map<string, Op>

  const RootName: string := "root"
  const HumanName: string := "humn"

  /** Every operand names a monkey of the map, of lower rank than the monkey
      that uses it: the jobs form no cycle, so evaluation ends. */
  predicate Ranked(m: Monkeys, rank: map<string, nat>)
  {
    forall name :: name in m ==> name in rank && (m[name].Binary? ==>
      m[name].left in m && m[name].right in m
      && m[name].left in rank && m[name].right in rank
      && rank[m[name].left] < rank[name] && rank[m[name].right] < rank[name])
  }

  /** `match_pair`: the operands of a combining job; any other job panics (None). */
  function MatchPair(op: Op): (r: Option<(string, string)>)
    ensures r.Some? <==> op.Binary?
  {
    if op.Binary? then Some((op.left, op.right)) else None
  }

  /** One operation on i64 values; dividing by zero panics (None) and the
      quotient is truncated toward zero. */
  function Apply(kind: Kind, x: int, y: int): (r: Option<int>)
    ensures r.None? <==> kind == Over && y == 0
  {
    match kind
      case Plus => Some(x + y)
      case Minus => Some(x - y)
      case Times => Some(x * y)
      case Over => if y == 0 then None else Some(DivT(x, y))
  }

  // Evaluation

  /** A monkey's number: known, unknown because it depends on the human, or
      a panic on the way. */
  datatype Eval = Known(value: int) | Unknown | Crash

  /** `run_op`: both operands are evaluated, left first; a panic in either
      ends the run, an unknown operand makes the result unknown. */
  function RunOp(m: Monkeys, rank: map<string, nat>, name: string): (r: Eval)
    requires Ranked(m, rank) && name in m
    ensures m[name].Human? ==> r == Unknown
    ensures m[name].Number? ==> r == Known(m[name].n)
    decreases rank[name]
  {
    match m[name]
      case Human => Unknown
      case Number(n) => Known(n)
      case Binary(kind, a, b) =>
        var x := RunOp(m, rank, a);
        var y := RunOp(m, rank, b);
        if x.Crash? || y.Crash? then Crash
        else if x.Unknown? || y.Unknown? then Unknown
        else match Apply(kind, x.value, y.value)
          case None => Crash
          case Some(v) => Known(v)
  }

  /** The human's job is reached from `name` through the operands. */
  predicate ReachesHuman(m: Monkeys, rank: map<string, nat>, name: string)
    requires Ranked(m, rank) && name in m
    decreases rank[name]
  {
    match m[name]
      case Human => true
      case Number(_) => false
      case Binary(_, a, b) => ReachesHuman(m, rank, a) || ReachesHuman(m, rank, b)
  }

  /** Reference evaluation with the human yelling `h`; None on a division by
      zero. */
  function EvalWith(m: Monkeys, rank: map<string, nat>, name: string, h: int): Option<int>
    requires Ranked(m, rank) && name in m
    decreases rank[name]
  {
    match m[name]
      case Human => Some(h)
      case Number(n) => Some(n)
      case Binary(kind, a, b) =>
        match (EvalWith(m, rank, a, h), EvalWith(m, rank, b, h))
          case (Some(x), Some(y)) => Apply(kind, x, y)
          case _ => None
  }

  /** A known number is what the monkey yells whatever the human says; a
      panic happens whatever the human says; and, short of a panic, the
      number is unknown exactly when the human's job is reached. */
  lemma {:induction false} RunOpMeaning(m: Monkeys, rank: map<string, nat>, name: string, h: int)
    requires Ranked(m, rank) && name in m
    ensures RunOp(m, rank, name).Known? ==> EvalWith(m, rank, name, h) == Some(RunOp(m, rank, name).value)
    ensures RunOp(m, rank, name).Crash? ==> EvalWith(m, rank, name, h).None?
    ensures !RunOp(m, rank, name).Crash? ==> (RunOp(m, rank, name).Unknown? <==> ReachesHuman(m, rank, name))
    decreases rank[name]
  {
    if m[name].Binary? {
      RunOpMeaning(m, rank, m[name].left, h);
      RunOpMeaning(m, rank, m[name].right, h);
    }
  }

  // Solving for the human

  /** The equation each simple operation stands for, with the human's number
      `h` in the unknown position. */
  predicate Solves(op: SimpleOp, known: int, h: int, result: int)
  {
    match op
      case Add => known + h == result
      case Subtract => known - h == result
      case SubtractReverse => h - known == result
      case Multiply => known * h == result
      case Divide => h != 0 && DivT(known, h) == result
      case DivideReverse => known != 0 && DivT(h, known) == result
  }

  /** `compute_unknown_value`: the inverse of each equation; a division by
      zero panics (None). */
  function ComputeUnknown(result: int, known: int, op: SimpleOp): (r: Option<int>)
    ensures r.None? <==> (op == Multiply && known == 0) || (op == Divide && result == 0)
  {
    match op
      case Add => Some(result - known)
      case Subtract => Some(known - result)
      case SubtractReverse => Some(result + known)
      case Multiply => if known == 0 then None else Some(DivT(result, known))
      case Divide => if result == 0 then None else Some(DivT(known, result))
      case DivideReverse => Some(known * result)
  }

  /** The inverse solves its equation. */
  predicate Exact(op: SimpleOp, result: int, known: int)
  {
    var u := ComputeUnknown(result, known, op);
    u.Some? && Solves(op, known, u.value, result)
  }

  /** The additive inverses always solve their equations; a multiplication
      is solved exactly when the known factor divides the result, a reversed
      division exactly when the divisor is not 0, and a division at least
      when the result divides the known number. */
  lemma ComputeUnknownSolves(result: int, known: int, op: SimpleOp)
    ensures op == Add || op == Subtract || op == SubtractReverse ==> Exact(op, result, known)
    ensures op == Multiply ==> (Exact(op, result, known) <==> known != 0 && RemT(result, known) == 0)
    ensures op == Divide && result != 0 && known != 0 && RemT(known, result) == 0 ==> Exact(op, result, known)
    ensures op == DivideReverse ==> (Exact(op, result, known) <==> known != 0)
  {
    match op
      case Multiply =>
        if known != 0 {
          RemTZeroIffDivides(result, known);
          if RemT(result, known) == 0 {
            var k :| result == known * k;
            DivTExact(known, k);
          }
        }
      case Divide =>
        if result != 0 && known != 0 && RemT(known, result) == 0 {
          RemTZeroIffDivides(known, result);
          var k :| known == result * k;
          DivTExact(result, k);
          assert k != 0;
          assert known == k * result;
          DivTExact(k, result);
        }
      case DivideReverse =>
        if known != 0 {
          DivTExact(known, result);
        }
      case _ =>
  }
  /** For a division the even-division condition is not necessary: 7 / x
      == 2 is solved by the inverse 7 / 2 == 3, although 2 does not divide
      7. */
  lemma DivideSolvesUnevenly()
    ensures Exact(Divide, 2, 7) && RemT(7, 2) != 0
  {
    assert DivT(7, 2) == 3 && DivT(7, 3) == 2;
  }


  /** The equation for a combining job whose left operand is the known one. */
  function Simple(kind: Kind): SimpleOp
  {
    match kind
      case Plus => Add
      case Minus => Subtract
      case Times => Multiply
      case Over => Divide
  }

  /** With the unknown on the left, subtraction and division turn round. */
  function Reverse(op: SimpleOp): (r: SimpleOp)
  {
    match op
      case Subtract => SubtractReverse
      case Divide => DivideReverse
      case _ => op
  }

  /** The equations solved on the way down are exactly the job's own
      operation, whichever operand holds the unknown. */
  lemma EquationIsTheJob(kind: Kind, x: int, y: int, v: int)
    ensures Solves(Simple(kind), x, y, v) <==> Apply(kind, x, y) == Some(v)
    ensures Solves(Reverse(Simple(kind)), y, x, v) <==> Apply(kind, x, y) == Some(v)
  {
    if kind == Plus {
      assert y + x == x + y;
    } else if kind == Times {
      assert y * x == x * y;
    }
  }

  /** `make_human_equal`: solve `result = known op branch` for the branch's
      number, then go down into the branch's unknown operand until the human
      is reached. A plain number on the unknown side, two unknown operands,
      a panic while evaluating, or a division by zero in the inverse all
      panic (None). */
  function MakeHumanEqual(m: Monkeys, rank: map<string, nat>, result: int, known: int, op: SimpleOp, branch: string): Option<int>
    requires Ranked(m, rank) && branch in m
    decreases rank[branch]
  {
    match ComputeUnknown(result, known, op)
      case None => None
      case Some(u) =>
        match m[branch]
          case Human => Some(u)
          case Number(_) => None
          case Binary(kind, a, b) =>
            var x := RunOp(m, rank, a);
            var y := RunOp(m, rank, b);
            if x.Crash? || y.Crash? then None
            else if x.Unknown? then
              if y.Known? then MakeHumanEqual(m, rank, u, y.value, Reverse(Simple(kind)), a) else None
            else MakeHumanEqual(m, rank, u, x.value, Simple(kind), b)
  }

  /** Every inverse taken on the way down solves its equation (truncating
      division has no exact inverse in general). */
  predicate ExactPath(m: Monkeys, rank: map<string, nat>, result: int, known: int, op: SimpleOp, branch: string)
    requires Ranked(m, rank) && branch in m
    decreases rank[branch]
  {
    Exact(op, result, known) &&
    match m[branch]
      case Binary(kind, a, b) =>
        var u := ComputeUnknown(result, known, op).value;
        var x := RunOp(m, rank, a);
        var y := RunOp(m, rank, b);
        if x.Crash? || y.Crash? then true
        else if x.Unknown? then
          y.Known? ==> ExactPath(m, rank, u, y.value, Reverse(Simple(kind)), a)
        else ExactPath(m, rank, u, x.value, Simple(kind), b)
      case _ => true
  }

  /** The number found for the human makes the branch yell a number that
      solves the equation it was asked to solve. */
  lemma {:induction false} MakeHumanEqualSolves(m: Monkeys, rank: map<string, nat>, result: int, known: int, op: SimpleOp, branch: string, h: int)
    requires Ranked(m, rank) && branch in m
    requires MakeHumanEqual(m, rank, result, known, op, branch) == Some(h)
    requires ExactPath(m, rank, result, known, op, branch)
    ensures EvalWith(m, rank, branch, h).Some?
    ensures Solves(op, known, EvalWith(m, rank, branch, h).value, result)
    decreases rank[branch]
  {
    var u := ComputeUnknown(result, known, op).value;
    match m[branch]
      case Human =>
      case Binary(kind, a, b) =>
        var x := RunOp(m, rank, a);
        var y := RunOp(m, rank, b);
        if x.Unknown? {
          MakeHumanEqualSolves(m, rank, u, y.value, Reverse(Simple(kind)), a, h);
          RunOpMeaning(m, rank, b, h);
          EquationIsTheJob(kind, EvalWith(m, rank, a, h).value, y.value, u);
        } else {
          MakeHumanEqualSolves(m, rank, u, x.value, Simple(kind), b, h);
          RunOpMeaning(m, rank, a, h);
          EquationIsTheJob(kind, x.value, EvalWith(m, rank, b, h).value, u);
        }
  }

  /** The program: evaluate the root's operands, then solve `other = 0 + branch`
      for the side that depends on the human. A missing or non-combining root
      panics (None). */
  function Solve(m: Monkeys, rank: map<string, nat>): Option<int>
    requires Ranked(m, rank)
  {
    if RootName !in m then None
    else match MatchPair(m[RootName])
      case None => None
      case Some((a, b)) =>
        var x := RunOp(m, rank, a);
        var y := RunOp(m, rank, b);
        if x.Crash? || y.Crash? then None
        else if x.Unknown? then
          if y.Known? then MakeHumanEqual(m, rank, y.value, 0, Add, a) else None
        else MakeHumanEqual(m, rank, x.value, 0, Add, b)
  }

  /** Every inverse taken from the root down solves its equation. */
  predicate SolveExact(m: Monkeys, rank: map<string, nat>)
    requires Ranked(m, rank)
  {
    RootName in m && m[RootName].Binary? &&
    var a, b := m[RootName].left, m[RootName].right;
    var x := RunOp(m, rank, a);
    var y := RunOp(m, rank, b);
    if x.Unknown? then y.Known? ==> ExactPath(m, rank, y.value, 0, Add, a)
    else x.Known? ==> ExactPath(m, rank, x.value, 0, Add, b)
  }

  /** With the number found, the root's two operands yell the same number. */
  lemma SolveBalancesRoot(m: Monkeys, rank: map<string, nat>, h: int)
    requires Ranked(m, rank)
    requires Solve(m, rank) == Some(h) && SolveExact(m, rank)
    ensures var a, b := m[RootName].left, m[RootName].right;
      EvalWith(m, rank, a, h).Some? && EvalWith(m, rank, a, h) == EvalWith(m, rank, b, h)
  {
    var a, b := m[RootName].left, m[RootName].right;
    var x := RunOp(m, rank, a);
    var y := RunOp(m, rank, b);
    if x.Unknown? {
      MakeHumanEqualSolves(m, rank, y.value, 0, Add, a, h);
      RunOpMeaning(m, rank, b, h);
    } else {
      MakeHumanEqualSolves(m, rank, x.value, 0, Add, b, h);
      RunOpMeaning(m, rank, a, h);
    }
  }

  // Reading the jobs

  function KindText(kind: Kind): string
  {
    match kind
      case Plus => "+"
      case Minus => "-"
      case Times => "*"
      case Over => "/"
  }

  function ParseKind(s: string): (r: Option<Kind>)
    ensures r.Some? ==> KindText(r.value) == s
  {
    if s == "+" then Some(Plus)
    else if s == "-" then Some(Minus)
    else if s == "*" then Some(Times)
    else if s == "/" then Some(Over)
    else None
  }

  /** One line "name: job", split at the first ": "; a line without one
      panics (None). */
  function ParseMonkey(line: string): Option<(string, Op)>
  {
    match SplitOnce(line, ": ")
      case None => None
      case Some((name, details)) => ParseJob(name, Split(details, {' '}))
  }

  /** The words of a job: a single word is the human's (for "humn", whose
      number is ignored) or an i64; three words are an operand, an operator
      and an operand. Anything else panics (None). */
  function ParseJob(name: string, args: seq<string>): Option<(string, Op)>
  {
    if |args| == 1 then
      if name == HumanName then Some((name, Human))
      else match ParseI64(args[0])
        case None => None
        case Some(n) => Some((name, Number(n)))
    else if |args| != 3 then None
    else match ParseKind(args[1])
      case None => None
      case Some(kind) => Some((name, Binary(kind, args[0], args[2])))
  }

  /** Monkey names are lower-case words. */
  predicate IsName(s: string)
  {
    |s| > 0 && forall k :: 0 <= k < |s| ==> 'a' <= s[k] <= 'z'
  }

  /** A job that can be printed and read back under `name`. */
  predicate Printable(name: string, op: Op)
  {
    IsName(name) && match op
      case Human => name == HumanName
      case Number(n) => name != HumanName && I64Min <= n <= I64Max
      case Binary(_, a, b) => IsName(a) && IsName(b)
  }

  /** The line for a job; the human's line carries a 0 that is never read. */
  function ShowMonkey(name: string, op: Op): string
  {
    name + ": " + JobText(op)
  }

  function JobText(op: Op): string
  {
    match op
      case Human => "0"
      case Number(n) => ShowInt(n)
      case Binary(kind, a, b) => Join([a, KindText(kind), b], ' ')
  }

  lemma NameHasNoSeparator(s: string, c: char)
    requires IsName(s) && !('a' <= c <= 'z')
    ensures NoSeparator(s, {c}) && c !in s
  {
  }

  /** Reading a printed job gives it back. */
  lemma ParseShowMonkey(name: string, op: Op)
    requires Printable(name, op)
    ensures ParseMonkey(ShowMonkey(name, op)) == Some((name, op))
  {
    NameHasNoSeparator(name, ':');
    SplitOnceStr(name, ": ", JobText(op));
    ParseJobText(name, op);
  }

  lemma ParseJobText(name: string, op: Op)
    requires Printable(name, op)
    ensures ParseJob(name, Split(JobText(op), {' '})) == Some((name, op))
  {
    match op
      case Human =>
        SplitNoSeparator("0", {' '});
      case Number(n) =>
        NotInIntText(n, ' ');
        SplitNoSeparator(ShowInt(n), {' '});
        ParseShowIntText(n);
      case Binary(kind, a, b) =>
        NameHasNoSeparator(a, ' ');
        NameHasNoSeparator(b, ' ');
        var parts := [a, KindText(kind), b];
        SplitJoin(parts, ' ');
        assert Split(JobText(op), {' '}) == parts;
  }

  /** Every line parsed, or None when one of them panics. */
  function ParseAll(lines: seq<string>): (r: Option<seq<(string, Op)>>)
    ensures r.Some? <==> forall i :: 0 <= i < |lines| ==> ParseMonkey(lines[i]).Some?
    ensures r.Some? ==> (|r.value| == |lines|
      && forall i :: 0 <= i < |lines| ==> ParseMonkey(lines[i]) == Some(r.value[i]))
  {
    if |lines| == 0 then Some([])
    else match (ParseMonkey(lines[0]), ParseAll(lines[1..]))
      case (Some(first), Some(rest)) => Some([first] + rest)
      case _ => None
  }

  /** The input loop: each job is inserted under its name, a later line
      replacing an earlier one. */
  function Insert(jobs: seq<(string, Op)>): Monkeys
    decreases |jobs|
  {
    if |jobs| == 0 then map[]
    else Insert(jobs[..|jobs| - 1])[jobs[|jobs| - 1].0 := jobs[|jobs| - 1].1]
  }

  function BuildMonkeys(lines: seq<string>): Option<Monkeys>
  {
    match ParseAll(lines)
      case None => None
      case Some(jobs) => Some(Insert(jobs))
  }

  /** The map holds the names of the jobs, each with the last job that names
      it. */
  lemma {:induction false} InsertContents(jobs: seq<(string, Op)>)
    ensures forall name :: name in Insert(jobs) <==> exists i :: 0 <= i < |jobs| && jobs[i].0 == name
    ensures forall i :: 0 <= i < |jobs| ==>
      (forall j :: i < j < |jobs| ==> jobs[j].0 != jobs[i].0) ==> Insert(jobs)[jobs[i].0] == jobs[i].1
  {
    forall name
      ensures name in Insert(jobs) <==> exists i :: 0 <= i < |jobs| && jobs[i].0 == name
    {
      InsertHas(jobs, name);
    }
    forall i | 0 <= i < |jobs| && forall j :: i < j < |jobs| ==> jobs[j].0 != jobs[i].0
      ensures Insert(jobs)[jobs[i].0] == jobs[i].1
    {
      InsertLast(jobs, i);
    }
  }

  /** A name is in the map exactly when some line gives it a job. */
  lemma {:induction false} InsertHas(jobs: seq<(string, Op)>, name: string)
    ensures name in Insert(jobs) <==> exists i :: 0 <= i < |jobs| && jobs[i].0 == name
    decreases |jobs|
  {
    if |jobs| > 0 {
      var init := jobs[..|jobs| - 1];
      InsertHas(init, name);
      if name != jobs[|jobs| - 1].0 {
        if name in Insert(jobs) {
          var i :| 0 <= i < |init| && init[i].0 == name;
          assert jobs[i] == init[i];
        }
        if exists i :: 0 <= i < |jobs| && jobs[i].0 == name {
          var i :| 0 <= i < |jobs| && jobs[i].0 == name;
          assert init[i] == jobs[i];
        }
      }
    }
  }

  /** The job a name keeps is the one on its last line. */
  lemma {:induction false} InsertLast(jobs: seq<(string, Op)>, i: nat)
    requires i < |jobs| && forall j :: i < j < |jobs| ==> jobs[j].0 != jobs[i].0
    ensures jobs[i].0 in Insert(jobs) && Insert(jobs)[jobs[i].0] == jobs[i].1
    decreases |jobs|
  {
    if i < |jobs| - 1 {
      var init := jobs[..|jobs| - 1];
      assert init[i] == jobs[i];
      assert forall j :: i < j < |init| ==> init[j] == jobs[j];
      InsertLast(init, i);
    }
  }
}

=== FILE: day22_monkey_map.dfy ===
/** Monkey map: a walker follows a path of moves and turns over a board of
    open tiles and walls; stepping off the board wraps to the other end of the
    row or column. The password encodes where it ends and which way it faces. */
module MonkeyMap {
  import opened Common

  /** Facings, in the order the password numbers them. */
  datatype Dir = Right | Down | Left | Up

  function Facing(d: Dir): (f: nat)
    ensures f < 4
  {
    match d
      case Right => 0
      case Down => 1
      case Left => 2
      case Up => 3
  }

  /** The turn tables of the command loop. */
  function LeftOf(d: Dir): Dir
  {
    match d
      case Up => Left
      case Left => Down
      case Down => Right
      case Right => Up
  }

  function RightOf(d: Dir): Dir
  {
    match d
      case Down => Left
      case Right => Down
      case Up => Right
      case Left => Up
  }

  /** The two tables undo each other, four equal turns come back to the start,
      and a right turn is one step clockwise in the password's numbering. */
  lemma TurnTables(d: Dir)
    ensures LeftOf(RightOf(d)) == d && RightOf(LeftOf(d)) == d
    ensures LeftOf(LeftOf(LeftOf(LeftOf(d)))) == d
    ensures RightOf(RightOf(RightOf(RightOf(d)))) == d
    ensures Facing(RightOf(d)) == (Facing(d) + 1) % 4
    ensures Facing(LeftOf(d)) == (Facing(d) + 3) % 4
  {
  }

  // The board

  /** A grid cell: not part of the board, open, or a wall. */
  datatype Tile = Void | Open | Wall

  /** The cells, row after row, `width` to a row. */
  datatype Grid = Grid(width: nat, height: nat, data: seq<Tile>)

  predicate WellFormed(g: Grid)
  {
    |g.data| == g.width * g.height
  }

  /** `get`: the cell at column `x` of row `y`. */
  function At(g: Grid, x: nat, y: nat): Tile
    requires WellFormed(g) && x < g.width && y < g.height
  {
    RowMajorInRange(x, y, g.width, g.height);
    g.data[x + y * g.width]
  }

  function Row(g: Grid, y: nat): (r: seq<Tile>)
    requires WellFormed(g) && y < g.height
    ensures |r| == g.width && forall x :: 0 <= x < |r| ==> r[x] == At(g, x, y)
  {
    seq(g.width, x requires 0 <= x < g.width => At(g, x, y))
  }

  function Column(g: Grid, x: nat): (r: seq<Tile>)
    requires WellFormed(g) && x < g.width
    ensures |r| == g.height && forall y :: 0 <= y < |r| ==> r[y] == At(g, x, y)
  {
    seq(g.height, y requires 0 <= y < g.height => At(g, x, y))
  }

  datatype Pt = Pt(x: int, y: int)

  predicate InGrid(g: Grid, p: Pt)
  {
    0 <= p.x < g.width && 0 <= p.y < g.height
  }

  predicate IsOpen(g: Grid, p: Pt)
    requires WellFormed(g)
  {
    InGrid(g, p) && At(g, p.x, p.y) == Open
  }

  /** The character of a board line; anything else panics (None). */
  function TileOf(c: char): (r: Option<Tile>)
    ensures r.Some? <==> c in {' ', '.', '#'}
  {
    if c == ' ' then Some(Void)
    else if c == '.' then Some(Open)
    else if c == '#' then Some(Wall)
    else None
  }

  /** The longest line. */
  function Width(lines: seq<string>): (w: nat)
    ensures forall y :: 0 <= y < |lines| ==> |lines[y]| <= w
    ensures |lines| > 0 ==> exists y :: 0 <= y < |lines| && |lines[y]| == w
    ensures |lines| == 0 ==> w == 0
  {
    if |lines| == 0 then 0
    else
      var w := Width(lines[1..]);
      assert forall y :: 1 <= y < |lines| ==> lines[y] == lines[1..][y - 1];
      if |lines[0]| >= w then |lines[0]| else w
  }

  predicate Readable(lines: seq<string>)
  {
    forall y, x :: 0 <= y < |lines| && 0 <= x < |lines[y]| ==> TileOf(lines[y][x]).Some?
  }

  /** The cell a line gives column `x`, void past its end. */
  function CellOf(lines: seq<string>, x: nat, y: nat): Tile
    requires Readable(lines) && y < |lines|
  {
    if x < |lines[y]| then TileOf(lines[y][x]).value else Void
  }

  /** `Grid::new`: as wide as the longest line, one row per line, shorter
      lines padded with void. */
  function NewGrid(lines: seq<string>): (r: Option<Grid>)
    ensures r.Some? <==> Readable(lines)
    ensures r.Some? ==> WellFormed(r.value) && r.value.width == Width(lines) && r.value.height == |lines|
  {
    if !Readable(lines) then None
    else Some(Grid(Width(lines), |lines|, Cells(lines)))
  }

  /** The cells of all lines, row after row. */
  function Cells(lines: seq<string>): (data: seq<Tile>)
    requires Readable(lines)
    ensures |data| == Width(lines) * |lines|
    ensures forall i :: 0 <= i < |data| ==> Width(lines) > 0 && data[i] == CellAtIndex(lines, Width(lines), i)
  {
    var w, h := Width(lines), |lines|;
    if w == 0 then []
    else seq(w * h, i requires 0 <= i < w * h => CellAtIndex(lines, w, i))
  }

  /** The cell at position `i` of the row-after-row layout. */
  function CellAtIndex(lines: seq<string>, w: nat, i: nat): Tile
    requires Readable(lines) && w > 0 && i < w * |lines|
  {
    QuotientBound(i, w, |lines|);
    CellOf(lines, i % w, i / w)
  }

  lemma QuotientBound(i: nat, w: nat, h: nat)
    requires w > 0 && i < w * h
    ensures i / w < h
  {
    if i / w >= h {
      MulMagnitude(w, i / w - h + 1);
      assert false;
    }
  }

  /** Every cell of the new grid is the one its line gives. */
  lemma NewGridCells(lines: seq<string>, x: nat, y: nat)
    requires Readable(lines) && y < |lines| && x < Width(lines)
    ensures At(NewGrid(lines).value, x, y) == CellOf(lines, x, y)
  {
    var g := NewGrid(lines).value;
    var w := Width(lines);
    assert g.width == w && g.data == Cells(lines);
    CellsAt(lines, x, y);
    var i := x + y * w;
    assert At(g, x, y) == g.data[i];
  }

  lemma IndexSplits(w: nat, x: nat, y: nat)
    requires x < w
    ensures (x + y * w) % w == x && (x + y * w) / w == y
  {
    DivUnique(x + y * w, w, y, x);
  }

  lemma CellsAt(lines: seq<string>, x: nat, y: nat)
    requires Readable(lines) && y < |lines| && x < Width(lines)
    ensures 0 <= x + y * Width(lines) < |Cells(lines)|
    ensures Cells(lines)[x + y * Width(lines)] == CellOf(lines, x, y)
  {
    var w := Width(lines);
    RowMajorInRange(x, y, w, |lines|);
    IndexSplits(w, x, y);
    var i: nat := x + y * w;
    assert Cells(lines)[i] == CellAtIndex(lines, w, i);
  }

  // Searching rows and columns

  /** The first index from `k` on whose tile satisfies `p`. */
  function FirstIn(s: seq<Tile>, p: Tile -> bool, k: nat): (r: Option<nat>)
    requires k <= |s|
    ensures r.Some? ==> k <= r.value < |s| && p(s[r.value]) && forall j :: k <= j < r.value ==> !p(s[j])
    ensures r.None? ==> forall j :: k <= j < |s| ==> !p(s[j])
    decreases |s| - k
  {
    if k == |s| then None
    else if p(s[k]) then Some(k)
    else FirstIn(s, p, k + 1)
  }

  /** The last index below `k` whose tile satisfies `p`, searching down. */
  function LastIn(s: seq<Tile>, p: Tile -> bool, k: nat): (r: Option<nat>)
    requires k <= |s|
    ensures r.Some? ==> r.value < k && p(s[r.value]) && forall j :: r.value < j < k ==> !p(s[j])
    ensures r.None? ==> forall j :: 0 <= j < k ==> !p(s[j])
    decreases k
  {
    if k == 0 then None
    else if p(s[k - 1]) then Some(k - 1)
    else LastIn(s, p, k - 1)
  }

  predicate OnBoard(t: Tile)
  {
    t != Void
  }

  /** `first_in_row`, `last_in_row`, `first_in_column`, `last_in_column`:
      the least or greatest position of a board cell; an empty line panics
      (None). */
  function FirstInRow(g: Grid, y: nat): (r: Option<nat>)
    requires WellFormed(g) && y < g.height
    ensures r.Some? ==> r.value < g.width && At(g, r.value, y) != Void
    ensures r.Some? ==> forall x :: 0 <= x < r.value ==> At(g, x, y) == Void
    ensures r.None? ==> forall x :: 0 <= x < g.width ==> At(g, x, y) == Void
  {
    FirstIn(Row(g, y), OnBoard, 0)
  }

  function LastInRow(g: Grid, y: nat): (r: Option<nat>)
    requires WellFormed(g) && y < g.height
    ensures r.Some? ==> r.value < g.width && At(g, r.value, y) != Void
    ensures r.Some? ==> forall x :: r.value < x < g.width ==> At(g, x, y) == Void
    ensures r.None? ==> forall x :: 0 <= x < g.width ==> At(g, x, y) == Void
  {
    LastIn(Row(g, y), OnBoard, g.width)
  }

  function FirstInColumn(g: Grid, x: nat): (r: Option<nat>)
    requires WellFormed(g) && x < g.width
    ensures r.Some? ==> r.value < g.height && At(g, x, r.value) != Void
    ensures r.Some? ==> forall y :: 0 <= y < r.value ==> At(g, x, y) == Void
    ensures r.None? ==> forall y :: 0 <= y < g.height ==> At(g, x, y) == Void
  {
    FirstIn(Column(g, x), OnBoard, 0)
  }

  function LastInColumn(g: Grid, x: nat): (r: Option<nat>)
    requires WellFormed(g) && x < g.width
    ensures r.Some? ==> r.value < g.height && At(g, x, r.value) != Void
    ensures r.Some? ==> forall y :: r.value < y < g.height ==> At(g, x, y) == Void
    ensures r.None? ==> forall y :: 0 <= y < g.height ==> At(g, x, y) == Void
  {
    LastIn(Column(g, x), OnBoard, g.height)
  }

  /** `start_point`: the leftmost open cell of the top row; none panics. */
  function StartPoint(g: Grid): (r: Option<Pt>)
    requires WellFormed(g)
    ensures r.Some? ==> (IsOpen(g, r.value) && r.value.y == 0
      && forall x :: 0 <= x < r.value.x ==> At(g, x, 0) != Open)
    ensures r.None? ==> g.height == 0 || forall x :: 0 <= x < g.width ==> At(g, x, 0) != Open
  {
    if g.height == 0 then None
    else match FirstIn(Row(g, 0), t => t == Open, 0)
      case None => None
      case Some(x) => Some(Pt(x, 0))
  }

  // Walking

  function Delta(d: Dir): (int, int)
  {
    match d
      case Up => (0, -1)
      case Down => (0, 1)
      case Left => (-1, 0)
      case Right => (1, 0)
  }

  /** The neighbour in direction `d`, round the edges of the grid. */
  function Neighbour(g: Grid, p: Pt, d: Dir): (q: Pt)
    requires InGrid(g, p)
    ensures InGrid(g, q)
  {
    var (dx, dy) := Delta(d);
    Pt((p.x + dx + g.width) % g.width, (p.y + dy + g.height) % g.height)
  }

  /** The cell one step on: the neighbour when it is on the board, else the
      far end of the neighbour's row or column, whichever the walker came
      from. An empty row or column panics (None). */
  function Target(g: Grid, p: Pt, d: Dir): (r: Option<Pt>)
    requires WellFormed(g) && InGrid(g, p)
    ensures r.Some? ==> InGrid(g, r.value) && At(g, r.value.x, r.value.y) != Void
    ensures var n := Neighbour(g, p, d);
      At(g, n.x, n.y) != Void ==> r == Some(n)
    ensures r.None? ==> var n := Neighbour(g, p, d);
      At(g, n.x, n.y) == Void
      && if d == Up || d == Down
         then forall y :: 0 <= y < g.height ==> At(g, n.x, y) == Void
         else forall x :: 0 <= x < g.width ==> At(g, x, n.y) == Void
  {
    var n := Neighbour(g, p, d);
    if At(g, n.x, n.y) != Void then Some(n)
    else
      var wrapped := match d
        case Up => LastInColumn(g, n.x)
        case Down => FirstInColumn(g, n.x)
        case Left => LastInRow(g, n.y)
        case Right => FirstInRow(g, n.y);
      match wrapped
        case None => None
        case Some(k) => if d == Up || d == Down then Some(Pt(n.x, k)) else Some(Pt(k, n.y))
  }

  /** Off the board, the step lands on the first board cell of the row or
      column in the walking direction, counting from the edge it re-enters. */
  lemma TargetWraps(g: Grid, p: Pt, d: Dir)
    requires WellFormed(g) && InGrid(g, p)
    requires At(g, Neighbour(g, p, d).x, Neighbour(g, p, d).y) == Void
    requires Target(g, p, d).Some?
    ensures var n, t := Neighbour(g, p, d), Target(g, p, d).value;
      (d == Right ==> t.y == n.y && forall x :: 0 <= x < t.x ==> At(g, x, t.y) == Void)
      && (d == Left ==> t.y == n.y && forall x :: t.x < x < g.width ==> At(g, x, t.y) == Void)
      && (d == Down ==> t.x == n.x && forall y :: 0 <= y < t.y ==> At(g, t.x, y) == Void)
      && (d == Up ==> t.x == n.x && forall y :: t.y < y < g.height ==> At(g, t.x, y) == Void)
  {
    var n := Neighbour(g, p, d);
    var t := Target(g, p, d).value;
    if d == Right {
      forall x | 0 <= x < t.x
        ensures At(g, x, t.y) == Void
      {
        assert Row(g, n.y)[x] == At(g, x, n.y);
      }
    } else if d == Left {
      forall x | t.x < x < g.width
        ensures At(g, x, t.y) == Void
      {
        assert Row(g, n.y)[x] == At(g, x, n.y);
      }
    } else if d == Down {
      forall y | 0 <= y < t.y
        ensures At(g, t.x, y) == Void
      {
        assert Column(g, n.x)[y] == At(g, n.x, y);
      }
    } else {
      forall y | t.y < y < g.height
        ensures At(g, t.x, y) == Void
      {
        assert Column(g, n.x)[y] == At(g, n.x, y);
      }
    }
  }

  /** From a board cell the wrap always finds one: the row or column it
      searches is the walker's own. */
  lemma TargetFromBoard(g: Grid, p: Pt, d: Dir)
    requires WellFormed(g) && InGrid(g, p) && At(g, p.x, p.y) != Void
    ensures Target(g, p, d).Some?
  {
    var n := Neighbour(g, p, d);
    NeighbourLine(g, p, d);
    if At(g, n.x, n.y) == Void {
      if d == Up || d == Down {
        var c := Column(g, p.x);
        assert OnBoard(c[p.y]);
        assert LastInColumn(g, n.x).Some? && FirstInColumn(g, n.x).Some?;
      } else {
        var r := Row(g, p.y);
        assert OnBoard(r[p.x]);
        assert LastInRow(g, n.y).Some? && FirstInRow(g, n.y).Some?;
      }
    }
  }

  /** A vertical step stays in the column, a horizontal one in the row. */
  lemma NeighbourLine(g: Grid, p: Pt, d: Dir)
    requires InGrid(g, p)
    ensures d == Up || d == Down ==> Neighbour(g, p, d).x == p.x
    ensures d == Left || d == Right ==> Neighbour(g, p, d).y == p.y
  {
    DivUnique(p.x + g.width, g.width, 1, p.x);
    DivUnique(p.y + g.height, g.height, 1, p.y);
  }

  datatype StepResult = Moved(p: Pt) | Stopped | Fail

  /** One pass of the walk loop: a wall ahead stops the walk. */
  function Step(g: Grid, p: Pt, d: Dir): (r: StepResult)
    requires WellFormed(g) && InGrid(g, p)
    ensures r.Moved? ==> IsOpen(g, r.p) && Target(g, p, d) == Some(r.p)
    ensures r.Stopped? ==> Target(g, p, d).Some? && At(g, Target(g, p, d).value.x, Target(g, p, d).value.y) == Wall
    ensures r.Fail? <==> Target(g, p, d).None?
  {
    match Target(g, p, d)
      case None => Fail
      case Some(t) => if At(g, t.x, t.y) == Wall then Stopped else Moved(t)
  }

  /** `walk`: up to `dist` steps, stopping in front of the first wall. */
  function Walk(g: Grid, p: Pt, d: Dir, dist: nat): (r: Option<Pt>)
    requires WellFormed(g) && InGrid(g, p)
    ensures r.Some? ==> InGrid(g, r.value)
    decreases dist
  {
    if dist == 0 then Some(p)
    else match Step(g, p, d)
      case Fail => None
      case Stopped => Some(p)
      case Moved(q) => Walk(g, q, d, dist - 1)
  }

  /** `k` successful steps in a row. */
  function Steps(g: Grid, p: Pt, d: Dir, k: nat): Option<Pt>
    requires WellFormed(g) && InGrid(g, p)
    decreases k
  {
    if k == 0 then Some(p)
    else match Step(g, p, d)
      case Moved(q) => Steps(g, q, d, k - 1)
      case _ => None
  }

  /** The walk takes some number of steps no greater than `dist`, and when it
      takes fewer, the next step runs into a wall. */
  lemma {:induction false} WalkSteps(g: Grid, p: Pt, d: Dir, dist: nat) returns (k: nat)
    requires WellFormed(g) && InGrid(g, p) && Walk(g, p, d, dist).Some?
    ensures k <= dist && Steps(g, p, d, k) == Walk(g, p, d, dist)
    ensures k < dist ==> Step(g, Walk(g, p, d, dist).value, d).Stopped?
    decreases dist
  {
    if dist == 0 {
      k := 0;
    } else {
      match Step(g, p, d)
        case Stopped =>
          k := 0;
        case Moved(q) =>
          var j := WalkSteps(g, q, d, dist - 1);
          k := j + 1;
    }
  }

  /** From an open cell the walk never panics and ends on an open cell. */
  lemma {:induction false} WalkStaysOpen(g: Grid, p: Pt, d: Dir, dist: nat)
    requires WellFormed(g) && IsOpen(g, p)
    ensures Walk(g, p, d, dist).Some? && IsOpen(g, Walk(g, p, d, dist).value)
    decreases dist
  {
    if dist > 0 {
      TargetFromBoard(g, p, d);
      match Step(g, p, d)
        case Stopped =>
        case Moved(q) =>
          WalkStaysOpen(g, q, d, dist - 1);
    }
  }

  // The path description

  datatype Command = LeftTurn | RightTurn | Move(dist: nat)

  /** Moves are separated by turns and fit in a usize. */
  predicate Tokenizable(cmds: seq<Command>)
  {
    (forall i :: 0 <= i < |cmds| ==> cmds[i].Move? ==> cmds[i].dist <= UsizeMax)
    && forall i :: 0 <= i < |cmds| - 1 ==> !(cmds[i].Move? && cmds[i + 1].Move?)
  }

  /** A character the path may hold. */
  predicate PathChar(c: char)
  {
    IsDigit(c) || c == 'L' || c == 'R'
  }

  /** The command a turn letter stands for. */
  function TurnOf(c: char): Command
  {
    if c == 'L' then LeftTurn else RightTurn
  }

  /** A pending run of digits becomes a move; a number too big for usize
      panics (None). */
  function Flush(digits: string): (r: Option<seq<Command>>)
    requires AllDigits(digits)
    ensures |digits| == 0 ==> r == Some([])
    ensures |digits| > 0 ==> (r.Some? <==> DigitsValue(digits) <= UsizeMax)
    ensures |digits| > 0 && r.Some? ==> r.value == [Move(DigitsValue(digits))]
  {
    if |digits| == 0 then Some([])
    else match ParseNat(digits)
      case None => None
      case Some(n) => if n <= UsizeMax then Some([Move(n)]) else None
  }

  /** The tokenizer: digits collect into a number, L and R flush it and add
      a turn, the end flushes it; any other character panics (None). */
  function Scan(s: string, pending: string): Option<seq<Command>>
    requires AllDigits(pending)
    decreases |s|
  {
    if |s| == 0 then Flush(pending)
    else if IsDigit(s[0]) then Scan(s[1..], pending + [s[0]])
    else if s[0] == 'L' || s[0] == 'R' then
      match (Flush(pending), Scan(s[1..], ""))
        case (Some(f), Some(rest)) => Some(f + [TurnOf(s[0])] + rest)
        case _ => None
    else None
  }

  /** The path read from `s` after the digits `pending`: it is read only
      when every character is a digit, L or R, and what is read has its moves
      separated by turns and within usize. */
  function Tokenize(s: string, pending: string): (r: Option<seq<Command>>)
    requires AllDigits(pending)
    ensures r.Some? ==> forall i :: 0 <= i < |s| ==> PathChar(s[i])
    ensures r.Some? ==> Tokenizable(r.value)
  {
    ScanReads(s, pending);
    Scan(s, pending)
  }

  lemma {:induction false} ScanReads(s: string, pending: string)
    requires AllDigits(pending)
    ensures Scan(s, pending).Some? ==> forall i :: 0 <= i < |s| ==> PathChar(s[i])
    ensures Scan(s, pending).Some? ==> Tokenizable(Scan(s, pending).value)
    decreases |s|
  {
    if |s| > 0 {
      assert forall i :: 1 <= i < |s| ==> s[1..][i - 1] == s[i];
      if IsDigit(s[0]) {
        ScanReads(s[1..], pending + [s[0]]);
      } else if s[0] == 'L' || s[0] == 'R' {
        ScanReads(s[1..], "");
        var f, rest := Flush(pending), Scan(s[1..], "");
        if f.Some? && rest.Some? {
          TurnKeepsTokenizable(f.value, TurnOf(s[0]), rest.value);
        }
      }
    }
  }

  /** A flushed number, a turn and a tokenized rest make a tokenized
      whole. */
  lemma TurnKeepsTokenizable(f: seq<Command>, t: Command, rest: seq<Command>)
    requires |f| <= 1 && Tokenizable(f) && !t.Move? && Tokenizable(rest)
    ensures Tokenizable(f + [t] + rest)
  {
    var all := f + [t] + rest;
    assert all[|f|] == t;
    assert forall i :: |f| < i < |all| ==> all[i] == rest[i - |f| - 1];
  }

  function CommandText(c: Command): string
  {
    match c
      case LeftTurn => "L"
      case RightTurn => "R"
      case Move(n) => ShowNat(n)
  }

  /** The text of a path: a move is its decimal number. */
  function ShowCommands(cmds: seq<Command>): string
  {
    if |cmds| == 0 then "" else CommandText(cmds[0]) + ShowCommands(cmds[1..])
  }

  /** Digits only extend the pending number. */
  lemma {:induction false} ScanDigits(d: string, rest: string, pending: string)
    requires AllDigits(d) && AllDigits(pending)
    ensures AllDigits(pending + d)
    ensures Scan(d + rest, pending) == Scan(rest, pending + d)
    decreases |d|
  {
    if |d| > 0 {
      assert (d + rest)[0] == d[0] && (d + rest)[1..] == d[1..] + rest;
      assert IsDigit(d[0]);
      var next := pending + [d[0]];
      assert AllDigits(next) by {
        forall i | 0 <= i < |next|
          ensures IsDigit(next[i])
        {
          if i < |pending| {
            assert next[i] == pending[i];
          }
        }
      }
      assert AllDigits(d[1..]) by {
        forall i | 0 <= i < |d| - 1
          ensures IsDigit(d[1..][i])
        {
          assert d[1..][i] == d[i + 1];
        }
      }
      assert pending + d == next + d[1..];
      ScanDigits(d[1..], rest, next);
    } else {
      assert pending + d == pending;
      assert d + rest == rest;
    }
  }

  /** A turn flushes the pending number and starts afresh. */
  lemma ScanTurn(c: char, tail: string, pending: string)
    requires c == 'L' || c == 'R'
    requires AllDigits(pending)
    ensures Scan([c] + tail, pending) ==
      match (Flush(pending), Scan(tail, ""))
        case (Some(f), Some(rest)) => Some(f + [TurnOf(c)] + rest)
        case _ => None
  {
    assert ([c] + tail)[0] == c && ([c] + tail)[1..] == tail;
  }

  /** Reading a printed path gives it back. */
  lemma TokenizeShow(cmds: seq<Command>)
    requires Tokenizable(cmds)
    ensures Tokenize(ShowCommands(cmds), "") == Some(cmds)
  {
    ScanShow(cmds);
  }

  lemma {:induction false} ScanShow(cmds: seq<Command>)
    requires Tokenizable(cmds)
    ensures Scan(ShowCommands(cmds), "") == Some(cmds)
    decreases |cmds|
  {
    if |cmds| > 0 {
      var rest := cmds[1..];
      assert Tokenizable(rest);
      ScanShow(rest);
      var t := ShowCommands(rest);
      assert ShowCommands(cmds) == CommandText(cmds[0]) + t;
      assert cmds == [cmds[0]] + rest;
      match cmds[0]
        case LeftTurn =>
          ScanTurn('L', t, "");
          assert [] + [LeftTurn] + rest == cmds;
        case RightTurn =>
          ScanTurn('R', t, "");
          assert [] + [RightTurn] + rest == cmds;
        case Move(n) =>
          ScanMove(n, rest);
    }
  }

  /** A move, then (unless it is last) a turn. */
  lemma {:induction false} ScanMove(n: nat, rest: seq<Command>)
    requires n <= UsizeMax
    requires |rest| > 0 ==> !rest[0].Move?
    requires Scan(ShowCommands(rest), "") == Some(rest)
    ensures Scan(ShowNat(n) + ShowCommands(rest), "") == Some([Move(n)] + rest)
  {
    var digits := ShowNat(n);
    var t := ShowCommands(rest);
    ScanDigits(digits, t, "");
    assert "" + digits == digits;
    if |rest| == 0 {
      assert t == "" && [Move(n)] + rest == [Move(n)];
      MoveThenEnd(n);
    } else {
      MoveThenTurn(n, rest);
    }
  }

  /** A printed number flushes to the move it prints. */
  lemma FlushShown(n: nat)
    requires n <= UsizeMax
    ensures Flush(ShowNat(n)) == Some([Move(n)])
  {
    ShowDigitsValue(n);
  }

  /** A printed move read at the end of the text. */
  lemma MoveThenEnd(n: nat)
    requires n <= UsizeMax
    ensures Scan("", ShowNat(n)) == Some([Move(n)])
  {
    ShowDigitsValue(n);
    assert Flush(ShowNat(n)) == Some([Move(n)]);
  }

  /** A printed move read up to the turn that follows it. */
  lemma MoveThenTurn(n: nat, rest: seq<Command>)
    requires n <= UsizeMax
    requires |rest| > 0 && !rest[0].Move?
    requires Scan(ShowCommands(rest), "") == Some(rest)
    ensures Scan(ShowCommands(rest), ShowNat(n)) == Some([Move(n)] + rest)
  {
    var tail := ShowCommands(rest[1..]);
    var c := ShowTurnFirst(rest);
    TurnSplits(c, tail, rest);
    var r := Scan(tail, "").value;
    FlushShown(n);
    TurnJoins(c, tail, ShowNat(n), [Move(n)], r);
    assert [Move(n)] + [TurnOf(c)] + r == [Move(n)] + ([TurnOf(c)] + r);
  }

  /** A path that starts with a turn prints as its letter, then the rest. */
  lemma ShowTurnFirst(cmds: seq<Command>) returns (c: char)
    requires |cmds| > 0 && !cmds[0].Move?
    ensures (c == 'L' || c == 'R') && cmds[0] == TurnOf(c)
    ensures ShowCommands(cmds) == [c] + ShowCommands(cmds[1..])
  {
    c := if cmds[0].LeftTurn? then 'L' else 'R';
  }

  /** What a turn reads as, with nothing pending. */
  lemma TurnSplits(c: char, tail: string, cmds: seq<Command>)
    requires c == 'L' || c == 'R'
    requires Scan([c] + tail, "") == Some(cmds)
    ensures Scan(tail, "").Some? && cmds == [TurnOf(c)] + Scan(tail, "").value
  {
    ScanTurn(c, tail, "");
  }

  /** A turn after a flushed number. */
  lemma TurnJoins(c: char, tail: string, pending: string, f: seq<Command>, r: seq<Command>)
    requires c == 'L' || c == 'R'
    requires AllDigits(pending) && Flush(pending) == Some(f) && Scan(tail, "") == Some(r)
    ensures Scan([c] + tail, pending) == Some(f + [TurnOf(c)] + r)
  {
    ScanTurn(c, tail, pending);
  }

  // The whole journey

  /** The facing after the turns of a path, whatever the moves do. */
  function Turned(d: Dir, cmds: seq<Command>): Dir
    decreases |cmds|
  {
    if |cmds| == 0 then d
    else match cmds[0]
      case LeftTurn => Turned(LeftOf(d), cmds[1..])
      case RightTurn => Turned(RightOf(d), cmds[1..])
      case Move(_) => Turned(d, cmds[1..])
  }

  /** The command loop: moves walk, turns turn. The journey ends inside the
      grid, facing the way the turns alone make it face, and a path of turns
      only never leaves the starting cell. */
  function Follow(g: Grid, p: Pt, d: Dir, cmds: seq<Command>): (r: Option<(Pt, Dir)>)
    requires WellFormed(g) && InGrid(g, p)
    ensures r.Some? ==> InGrid(g, r.value.0) && r.value.1 == Turned(d, cmds)
    ensures (forall i :: 0 <= i < |cmds| ==> !cmds[i].Move?) ==> r == Some((p, Turned(d, cmds)))
    decreases |cmds|
  {
    assert forall i :: 1 <= i < |cmds| ==> cmds[1..][i - 1] == cmds[i];
    if |cmds| == 0 then Some((p, d))
    else match cmds[0]
      case LeftTurn => Follow(g, p, LeftOf(d), cmds[1..])
      case RightTurn => Follow(g, p, RightOf(d), cmds[1..])
      case Move(n) =>
        match Walk(g, p, d, n)
          case None => None
          case Some(q) => Follow(g, q, d, cmds[1..])
  }

  /** Starting on an open cell, the journey never panics and ends on one. */
  lemma {:induction false} FollowStaysOpen(g: Grid, p: Pt, d: Dir, cmds: seq<Command>)
    requires WellFormed(g) && IsOpen(g, p)
    ensures Follow(g, p, d, cmds).Some? && IsOpen(g, Follow(g, p, d, cmds).value.0)
    decreases |cmds|
  {
    if |cmds| > 0 {
      match cmds[0]
        case LeftTurn => FollowStaysOpen(g, p, LeftOf(d), cmds[1..]);
        case RightTurn => FollowStaysOpen(g, p, RightOf(d), cmds[1..]);
        case Move(n) =>
          WalkStaysOpen(g, p, d, n);
          FollowStaysOpen(g, Walk(g, p, d, n).value, d, cmds[1..]);
    }
  }

  /** 1000 times the row plus 4 times the column (both counted from 1) plus
      the facing. */
  function Password(p: Pt, d: Dir): (r: int)
    ensures r % 4 == Facing(d)
  {
    var r := (p.y + 1) * 1000 + (p.x + 1) * 4 + Facing(d);
    DivUnique(r, 4, (p.y + 1) * 250 + p.x + 1, Facing(d));
    r
  }

  /** On boards narrower than 249 columns the password gives back the row,
      the column and the facing. */
  lemma PasswordDecodes(p: Pt, d: Dir)
    requires 0 <= p.x < 249 && 0 <= p.y
    ensures Password(p, d) / 1000 == p.y + 1
    ensures Password(p, d) % 1000 / 4 == p.x + 1
    ensures Password(p, d) % 4 == Facing(d)
  {
    var pw := Password(p, d);
    var low := (p.x + 1) * 4 + Facing(d);
    DivUnique(pw, 1000, p.y + 1, low);
    DivUnique(low, 4, p.x + 1, Facing(d));
    DivUnique(pw, 4, (p.y + 1) * 250 + p.x + 1, Facing(d));
  }

  /** The program: read the board and the path, start on the top row facing
      right, follow the path and report the password. */
  function Solve(boardLines: seq<string>, path: string): (r: Option<int>)
    ensures r.Some? <==> (&& NewGrid(boardLines).Some?
                          && Tokenize(path, "").Some?
                          && StartPoint(NewGrid(boardLines).value).Some?)
  {
    match NewGrid(boardLines)
      case None => None
      case Some(g) =>
        match Tokenize(path, "")
          case None => None
          case Some(cmds) =>
            match StartPoint(g)
              case None => None
              case Some(start) =>
                FollowStaysOpen(g, start, Right, cmds);
                match Follow(g, start, Right, cmds)
                  case None => None
                  case Some((p, d)) => Some(Password(p, d))
  }
}

=== FILE: day23_unstable_diffusion.dfy ===
/** Unstable diffusion: elves on an unbounded grid spread out. In each round
    every elf with a neighbour proposes a step in the first clear direction of
    a rotating preference list, and the steps nobody else proposed are taken.
    The simulation stops at the first round in which no elf moves. */
module UnstableDiffusion {
  import opened Common

  datatype Pt = Pt(x: int, y: int)

  // Geometry

  /** The cell one step in direction `k`: 0 north, 1 south, 2 west, 3 east
      (north is towards smaller y). */
  function Dest(p: Pt, k: nat): Pt
    requires k < 4
  {
    if k == 0 then Pt(p.x, p.y - 1)
    else if k == 1 then Pt(p.x, p.y + 1)
    else if k == 2 then Pt(p.x - 1, p.y)
    else Pt(p.x + 1, p.y)
  }

  /** The three cells an elf looks at before stepping in direction `k`: the
      destination and its two diagonal neighbours. */
  function Side(p: Pt, k: nat): set<Pt>
    requires k < 4
  {
    var d := Dest(p, k);
    if k < 2 then {Pt(d.x - 1, d.y), d, Pt(d.x + 1, d.y)}
    else {Pt(d.x, d.y - 1), d, Pt(d.x, d.y + 1)}
  }

  /** The eight cells around `p`. */
  function Around(p: Pt): set<Pt>
  {
    {Pt(p.x - 1, p.y - 1), Pt(p.x, p.y - 1), Pt(p.x + 1, p.y - 1),
     Pt(p.x - 1, p.y), Pt(p.x + 1, p.y),
     Pt(p.x - 1, p.y + 1), Pt(p.x, p.y + 1), Pt(p.x + 1, p.y + 1)}
  }

  predicate Clear(occ: set<Pt>, p: Pt, k: nat)
    requires k < 4
  {
    Side(p, k) !! occ
  }

  predicate Alone(occ: set<Pt>, p: Pt)
  {
    Around(p) !! occ
  }

  /** One orthogonal step apart. */
  predicate Adjacent(p: Pt, q: Pt)
  {
    (q.x == p.x && (q.y == p.y - 1 || q.y == p.y + 1))
    || (q.y == p.y && (q.x == p.x - 1 || q.x == p.x + 1))
  }

  /** No two elves share a cell. */
  predicate Distinct(elves: seq<Pt>)
  {
    forall i, j :: 0 <= i < |elves| && 0 <= j < |elves| && i != j ==> elves[i] != elves[j]
  }

  lemma {:induction false} DistinctAppend(a: seq<Pt>, b: seq<Pt>)
    requires Distinct(a) && Distinct(b)
    requires forall p :: p in a ==> p !in b
    ensures Distinct(a + b)
  {
    var s := a + b;
    forall i, j | 0 <= i < |s| && 0 <= j < |s| && i != j
      ensures s[i] != s[j]
    {
      if i < |a| && j >= |a| {
        assert s[i] in a && s[j] == b[j - |a|];
      } else if j < |a| && i >= |a| {
        assert s[j] in a && s[i] == b[i - |a|];
      } else if i >= |a| {
        assert s[i] == b[i - |a|] && s[j] == b[j - |a|];
      }
    }
  }

  /** `elf_occupied`: the set of cells holding an elf, built one insertion
      at a time. */
  function Occupied(elves: seq<Pt>): (occ: set<Pt>)
    ensures forall q :: q in occ <==> q in elves
    ensures Distinct(elves) ==> |occ| == |elves|
    decreases |elves|
  {
    if |elves| == 0 then {}
    else
      var init := elves[..|elves| - 1];
      assert elves == init + [elves[|elves| - 1]];
      assert Distinct(elves) ==> Distinct(init) && elves[|elves| - 1] !in init by {
        if Distinct(elves) {
          forall i, j | 0 <= i < |init| && 0 <= j < |init| && i != j
            ensures init[i] != init[j]
          {
            assert init[i] == elves[i] && init[j] == elves[j];
          }
          forall i | 0 <= i < |init|
            ensures init[i] != elves[|elves| - 1]
          {
            assert init[i] == elves[i];
          }
        }
      }
      Occupied(init) + {elves[|elves| - 1]}
  }

  // Proposals

  /** The direction tried `j` places after the round's first choice. */
  function Rot(round: nat, j: nat): (k: nat)
    ensures k < 4
  {
    (j + round) % 4
  }

  /** The first entry of the preference table, scanning `n..3` positions
      after `round % 4` cyclically, whose test passed. */
  function FirstOpen(order: seq<(bool, Pt)>, round: nat, n: nat): (r: Option<Pt>)
    requires |order| == 4 && n <= 4
    ensures r.Some? <==> exists j :: n <= j < 4 && order[Rot(round, j)].0
    ensures r.Some? ==> exists j :: (n <= j < 4 && order[Rot(round, j)].0
      && r.value == order[Rot(round, j)].1
      && forall i :: n <= i < j ==> !order[Rot(round, i)].0)
    decreases 4 - n
  {
    if n == 4 then None
    else
      var (test, res) := order[Rot(round, n)];
      if test then Some(res) else FirstOpen(order, round, n + 1)
  }

  /** `elf_proposal`: an elf with no neighbour stays; otherwise it proposes
      the first direction, starting at `round % 4`, whose three cells are
      free, or nothing when none is. */
  function Proposal(p: Pt, occ: set<Pt>, round: nat): (r: Option<Pt>)
    ensures Alone(occ, p) ==> r.None?
    ensures !Alone(occ, p) ==> (r.Some? <==> exists k :: 0 <= k < 4 && Clear(occ, p, k))
    ensures r.Some? ==> exists j :: (0 <= j < 4 && Clear(occ, p, Rot(round, j))
      && r.value == Dest(p, Rot(round, j))
      && forall i :: 0 <= i < j ==> !Clear(occ, p, Rot(round, i)))
  {
    var (x, y) := (p.x, p.y);
    var nw := Pt(x - 1, y - 1) in occ;
    var n := Pt(x, y - 1) in occ;
    var ne := Pt(x + 1, y - 1) in occ;
    var sw := Pt(x - 1, y + 1) in occ;
    var s := Pt(x, y + 1) in occ;
    var se := Pt(x + 1, y + 1) in occ;
    var e := Pt(x + 1, y) in occ;
    var w := Pt(x - 1, y) in occ;
    if !nw && !n && !ne && !e && !w && !sw && !s && !se then
      assert Alone(occ, p);
      None
    else
      var order := [
        (!nw && !n && !ne, Pt(x, y - 1)),
        (!sw && !s && !se, Pt(x, y + 1)),
        (!nw && !w && !sw, Pt(x - 1, y)),
        (!ne && !e && !se, Pt(x + 1, y))];
      OrderTable(p, occ, order);
      assert !Alone(occ, p) by {
        assert nw || n || ne || e || w || sw || s || se;
      }
      FirstOpenClear(p, occ, order, round);
      FirstOpen(order, round, 0)
  }

  /** Each row of the table tests one side and offers its destination. */
  lemma OrderTable(p: Pt, occ: set<Pt>, order: seq<(bool, Pt)>)
    requires order == [
      (Pt(p.x - 1, p.y - 1) !in occ && Pt(p.x, p.y - 1) !in occ && Pt(p.x + 1, p.y - 1) !in occ, Pt(p.x, p.y - 1)),
      (Pt(p.x - 1, p.y + 1) !in occ && Pt(p.x, p.y + 1) !in occ && Pt(p.x + 1, p.y + 1) !in occ, Pt(p.x, p.y + 1)),
      (Pt(p.x - 1, p.y - 1) !in occ && Pt(p.x - 1, p.y) !in occ && Pt(p.x - 1, p.y + 1) !in occ, Pt(p.x - 1, p.y)),
      (Pt(p.x + 1, p.y - 1) !in occ && Pt(p.x + 1, p.y) !in occ && Pt(p.x + 1, p.y + 1) !in occ, Pt(p.x + 1, p.y))]
    ensures forall k :: 0 <= k < 4 ==> order[k] == (Clear(occ, p, k), Dest(p, k))
  {
  }

  lemma FirstOpenClear(p: Pt, occ: set<Pt>, order: seq<(bool, Pt)>, round: nat)
    requires |order| == 4
    requires forall k :: 0 <= k < 4 ==> order[k] == (Clear(occ, p, k), Dest(p, k))
    ensures (exists j :: 0 <= j < 4 && order[Rot(round, j)].0) <==> exists k :: 0 <= k < 4 && Clear(occ, p, k)
  {
    if k :| 0 <= k < 4 && Clear(occ, p, k) {
      var j := (k - round % 4 + 4) % 4;
      assert Rot(round, j) == k;
    }
  }

  /** A proposed destination is next to the elf and was free when the
      round began. */
  lemma ProposalAdjacent(p: Pt, occ: set<Pt>, round: nat)
    requires Proposal(p, occ, round).Some?
    ensures Adjacent(p, Proposal(p, occ, round).value)
    ensures Proposal(p, occ, round).value !in occ
  {
    var j :| 0 <= j < 4 && Clear(occ, p, Rot(round, j))
      && Proposal(p, occ, round).value == Dest(p, Rot(round, j));
    assert Dest(p, Rot(round, j)) in Side(p, Rot(round, j));
  }

  // Executing a round

  /** How many of the proposals name `d`. */
  function Count(props: seq<Option<Pt>>, d: Pt): nat
    decreases |props|
  {
    if |props| == 0 then 0
    else Count(props[..|props| - 1], d) + (if props[|props| - 1] == Some(d) then 1 else 0)
  }

  /** Two proposals of the same cell make its count at least two. */
  lemma {:induction false} CountTwo(props: seq<Option<Pt>>, d: Pt, i: nat, j: nat)
    requires i < j < |props| && props[i] == Some(d) && props[j] == Some(d)
    ensures Count(props, d) >= 2
    decreases |props|
  {
    var init := props[..|props| - 1];
    if j < |props| - 1 {
      assert init[i] == props[i] && init[j] == props[j];
      CountTwo(init, d, i, j);
    } else {
      assert init[i] == props[i];
      CountOne(init, d, i);
    }
  }

  lemma {:induction false} CountOne(props: seq<Option<Pt>>, d: Pt, i: nat)
    requires i < |props| && props[i] == Some(d)
    ensures Count(props, d) >= 1
    decreases |props|
  {
    var init := props[..|props| - 1];
    if i < |props| - 1 {
      assert init[i] == props[i];
      CountOne(init, d, i);
    }
  }

  /** The hash map of proposal counts: a cell is entered with 1 the first
      time it is proposed and incremented after that. */
  function Tally(props: seq<Option<Pt>>): map<Pt, nat>
    decreases |props|
  {
    if |props| == 0 then map[]
    else
      var m := Tally(props[..|props| - 1]);
      match props[|props| - 1]
        case None => m
        case Some(pt) => if pt in m then m[pt := m[pt] + 1] else m[pt := 1]
  }

  /** The map holds exactly the proposed cells, each with its count. */
  lemma {:induction false} TallyCounts(props: seq<Option<Pt>>, d: Pt)
    ensures d in Tally(props) <==> Count(props, d) > 0
    ensures d in Tally(props) ==> Tally(props)[d] == Count(props, d)
    decreases |props|
  {
    if |props| > 0 {
      TallyCounts(props[..|props| - 1], d);
    }
  }

  /** The elf's proposal was made by it alone. */
  predicate Moves(prop: Option<Pt>, tally: map<Pt, nat>)
  {
    prop.Some? && prop.value in tally && tally[prop.value] == 1
  }

  datatype Outcome = Outcome(elves: seq<Pt>, moved: nat)

  /** The execution pass: each elf whose destination was proposed once
      moves there and is counted. */
  function Execute(elves: seq<Pt>, props: seq<Option<Pt>>, tally: map<Pt, nat>): (r: Outcome)
    requires |props| == |elves|
    ensures |r.elves| == |elves|
    ensures forall i :: 0 <= i < |elves| ==>
      r.elves[i] == if Moves(props[i], tally) then props[i].value else elves[i]
    ensures r.moved == 0 <==> forall i :: 0 <= i < |elves| ==> !Moves(props[i], tally)
    ensures r.moved <= |elves|
    decreases |elves|
  {
    if |elves| == 0 then Outcome([], 0)
    else
      var n := |elves| - 1;
      var o := Execute(elves[..n], props[..n], tally);
      if Moves(props[n], tally) then Outcome(o.elves + [props[n].value], o.moved + 1)
      else Outcome(o.elves + [elves[n]], o.moved)
  }

  function Proposals(elves: seq<Pt>, occ: set<Pt>, round: nat): (props: seq<Option<Pt>>)
    ensures |props| == |elves|
  {
    seq(|elves|, i requires 0 <= i < |elves| => Proposal(elves[i], occ, round))
  }

  /** One round: proposals against the positions at the start of the round,
      then execution. */
  function Round(elves: seq<Pt>, round: nat): (r: Outcome)
    ensures |r.elves| == |elves|
  {
    var props := Proposals(elves, Occupied(elves), round);
    Execute(elves, props, Tally(props))
  }

  /** How many elves propose `d` in this round. */
  function ProposedBy(elves: seq<Pt>, round: nat, d: Pt): nat
  {
    Count(Proposals(elves, Occupied(elves), round), d)
  }

  /** An elf moves exactly when its destination was proposed by exactly one
      elf; otherwise it keeps its cell. */
  lemma RoundMoves(elves: seq<Pt>, round: nat, i: nat)
    requires i < |elves|
    ensures Round(elves, round).elves[i] ==
      match Proposal(elves[i], Occupied(elves), round)
        case None => elves[i]
        case Some(d) => if ProposedBy(elves, round, d) == 1 then d else elves[i]
  {
    var props := Proposals(elves, Occupied(elves), round);
    assert props[i] == Proposal(elves[i], Occupied(elves), round);
    if props[i].Some? {
      TallyCounts(props, props[i].value);
    }
  }

  /** A round keeps elves on distinct cells. */
  lemma RoundKeepsDistinct(elves: seq<Pt>, round: nat)
    requires Distinct(elves)
    ensures Distinct(Round(elves, round).elves)
  {
    var occ := Occupied(elves);
    var props := Proposals(elves, occ, round);
    var tally := Tally(props);
    var next := Round(elves, round).elves;
    forall k | 0 <= k < |elves| && props[k].Some?
      ensures props[k].value !in occ
    {
      assert props[k] == Proposal(elves[k], occ, round);
      ProposalAdjacent(elves[k], occ, round);
    }
    forall d | d in tally
      ensures tally[d] == Count(props, d)
    {
      TallyCounts(props, d);
    }
    forall i, j | 0 <= i < |next| && 0 <= j < |next| && i != j
      ensures next[i] != next[j]
    {
      DistinctStep(elves, occ, props, tally, next, i, j);
    }
  }

  lemma DistinctStep(elves: seq<Pt>, occ: set<Pt>, props: seq<Option<Pt>>, tally: map<Pt, nat>,
                     next: seq<Pt>, i: nat, j: nat)
    requires |props| == |elves| == |next| && i < |elves| && j < |elves| && i != j
    requires forall k :: 0 <= k < |elves| && props[k].Some? ==> props[k].value !in occ
    requires forall q :: q in occ <==> q in elves
    requires Distinct(elves)
    requires forall d :: d in tally ==> tally[d] == Count(props, d)
    requires forall k :: 0 <= k < |elves| ==>
      next[k] == if Moves(props[k], tally) then props[k].value else elves[k]
    ensures next[i] != next[j]
  {
    var mi, mj := Moves(props[i], tally), Moves(props[j], tally);
    if mi && mj {
      if props[i].value == props[j].value {
        if i < j { CountTwo(props, props[i].value, i, j); }
        else { CountTwo(props, props[i].value, j, i); }
      }
    } else if mi {
      assert elves[j] in occ;
    } else if mj {
      assert elves[i] in occ;
    }
  }

  /** No elf moved in a round exactly when every elf kept its cell. */
  lemma RoundStill(elves: seq<Pt>, round: nat)
    ensures Round(elves, round).moved == 0 <==> Round(elves, round).elves == elves
  {
    var occ := Occupied(elves);
    var props := Proposals(elves, occ, round);
    var tally := Tally(props);
    var r := Round(elves, round);
    if r.moved != 0 {
      var i :| 0 <= i < |elves| && Moves(props[i], tally);
      assert props[i] == Proposal(elves[i], occ, round);
      ProposalAdjacent(elves[i], occ, round);
      assert r.elves[i] != elves[i];
    } else {
      assert forall i :: 0 <= i < |elves| ==> r.elves[i] == elves[i];
    }
  }

  // The simulation

  /** Rounds from `round` on, each played by `step`, until one in which
      nothing moves; the result is the final positions and the number of
      that round, counted from 1. The loop has no bound of its own, so
      `fuel` caps the rounds (None when it runs out). */
  function RunUntilStill(step: (seq<Pt>, nat) -> Outcome, elves: seq<Pt>, round: nat, fuel: nat)
    : Option<(seq<Pt>, nat)>
    decreases fuel
  {
    if fuel == 0 then None
    else
      var o := step(elves, round);
      if o.moved == 0 then Some((o.elves, round + 1))
      else RunUntilStill(step, o.elves, round + 1, fuel - 1)
  }

  /** The positions after `k` rounds played by `step` from `round` on. */
  function AfterWith(step: (seq<Pt>, nat) -> Outcome, elves: seq<Pt>, round: nat, k: nat): seq<Pt>
    decreases k
  {
    if k == 0 then elves else AfterWith(step, step(elves, round).elves, round + 1, k - 1)
  }

  /** Starting from round `round`, `n - 1` is the first round `step` plays
      in which nobody moves, and `last` are the positions it leaves: every
      earlier round moves some elf. */
  ghost predicate FirstStill(step: (seq<Pt>, nat) -> Outcome, elves: seq<Pt>, round: nat, last: seq<Pt>, n: nat)
  {
    n > round
    && step(AfterWith(step, elves, round, n - 1 - round), n - 1).moved == 0
    && last == step(AfterWith(step, elves, round, n - 1 - round), n - 1).elves
    && forall k :: 0 <= k < n - 1 - round ==> step(AfterWith(step, elves, round, k), round + k).moved != 0
  }

  /** The loop stops at the first still round. */
  lemma {:induction false} RunStopsAtFirstStill(step: (seq<Pt>, nat) -> Outcome, elves: seq<Pt>, round: nat, fuel: nat)
    requires RunUntilStill(step, elves, round, fuel).Some?
    ensures var r := RunUntilStill(step, elves, round, fuel).value;
      FirstStill(step, elves, round, r.0, r.1)
    decreases fuel
  {
    var o := step(elves, round);
    if o.moved != 0 {
      RunStopsAtFirstStill(step, o.elves, round + 1, fuel - 1);
      var n := RunUntilStill(step, elves, round, fuel).value.1;
      assert AfterWith(step, elves, round, n - 1 - round) == AfterWith(step, o.elves, round + 1, n - 1 - (round + 1));
      forall k | 0 <= k < n - 1 - round
        ensures step(AfterWith(step, elves, round, k), round + k).moved != 0
      {
        if k > 0 {
          assert AfterWith(step, elves, round, k) == AfterWith(step, o.elves, round + 1, k - 1);
        }
      }
    }
  }

  /** The main loop: rounds of the elves until one in which no elf moves. */
  function Simulate(elves: seq<Pt>, fuel: nat): Option<(seq<Pt>, nat)>
  {
    RunUntilStill(Round, elves, 0, fuel)
  }

  /** A step that keeps the number of elves and their distinctness and
      reports no movement exactly when it changes nothing. */
  ghost predicate Sound(step: (seq<Pt>, nat) -> Outcome)
  {
    forall e, r ::
      |step(e, r).elves| == |e|
      && (Distinct(e) ==> Distinct(step(e, r).elves))
      && (step(e, r).moved == 0 <==> step(e, r).elves == e)
  }

  lemma {:induction false} RunKeeps(step: (seq<Pt>, nat) -> Outcome, elves: seq<Pt>, round: nat, fuel: nat)
    requires Sound(step) && RunUntilStill(step, elves, round, fuel).Some?
    ensures var (last, n) := RunUntilStill(step, elves, round, fuel).value;
      |last| == |elves| && (Distinct(elves) ==> Distinct(last))
      && n > round && step(last, n - 1).moved == 0 && step(last, n - 1).elves == last
    decreases fuel
  {
    var o := step(elves, round);
    if o.moved != 0 {
      RunKeeps(step, o.elves, round + 1, fuel - 1);
    }
  }

  lemma RoundSound()
    ensures Sound(Round)
  {
    forall e, r
      ensures |Round(e, r).elves| == |e|
      ensures Distinct(e) ==> Distinct(Round(e, r).elves)
      ensures Round(e, r).moved == 0 <==> Round(e, r).elves == e
    {
      RoundStill(e, r);
      if Distinct(e) {
        RoundKeepsDistinct(e, r);
      }
    }
  }

  /** The simulation keeps the number of elves and their distinctness, and
      the round it reports (counted from 1) moves nobody. */
  lemma SimulateSettles(elves: seq<Pt>, fuel: nat)
    requires Simulate(elves, fuel).Some?
    ensures |Simulate(elves, fuel).value.0| == |elves|
    ensures Distinct(elves) ==> Distinct(Simulate(elves, fuel).value.0)
    ensures Settled(Simulate(elves, fuel).value.0, Simulate(elves, fuel).value.1)
  {
    RoundSound();
    RunKeeps(Round, elves, 0, fuel);
  }

  /** The round the simulation reports is the first in which nobody moves,
      and the positions reported are those that round leaves. */
  lemma SimulateStopsAtFirstStill(elves: seq<Pt>, fuel: nat)
    requires Simulate(elves, fuel).Some?
    ensures var r := Simulate(elves, fuel).value;
      FirstStill(Round, elves, 0, r.0, r.1)
  {
    RunStopsAtFirstStill(Round, elves, 0, fuel);
  }

  /** Playing round `number` (counted from 1) on these positions moves
      nobody. */
  predicate Settled(elves: seq<Pt>, number: nat)
  {
    number > 0 && Round(elves, number - 1).moved == 0 && Round(elves, number - 1).elves == elves
  }

  // Bounds and the empty ground

  datatype Bounds = Bounds(top: int, bottom: int, left: int, right: int)

  predicate InI32(p: Pt)
  {
    I32Min <= p.x <= I32Max && I32Min <= p.y <= I32Max
  }

  /** `elf_bounds`: the smallest rectangle holding every elf, folded from
      the extreme 32-bit values. */
  function ElfBounds(elves: seq<Pt>): (b: Bounds)
    ensures forall i :: 0 <= i < |elves| ==>
      b.top <= elves[i].y <= b.bottom && b.left <= elves[i].x <= b.right
    ensures |elves| > 0 && (forall i :: 0 <= i < |elves| ==> InI32(elves[i])) ==>
      (exists i :: 0 <= i < |elves| && elves[i].y == b.top)
      && (exists i :: 0 <= i < |elves| && elves[i].y == b.bottom)
      && (exists i :: 0 <= i < |elves| && elves[i].x == b.left)
      && (exists i :: 0 <= i < |elves| && elves[i].x == b.right)
    ensures |elves| == 0 ==> b == Bounds(I32Max, I32Min, I32Max, I32Min)
    decreases |elves|
  {
    if |elves| == 0 then Bounds(I32Max, I32Min, I32Max, I32Min)
    else
      var n := |elves| - 1;
      var init := elves[..n];
      assert forall i :: 0 <= i < n ==> init[i] == elves[i];
      var b := ElfBounds(init);
      var e := elves[n];
      Bounds(Min(e.y, b.top), Max(e.y, b.bottom), Min(e.x, b.left), Max(e.x, b.right))
  }

  /** The cells of row `y` from column `l` to `r`. */
  function RowCells(y: int, l: int, r: int): (s: set<Pt>)
    ensures forall q :: q in s <==> q.y == y && l <= q.x <= r
    ensures |s| == if l <= r then r - l + 1 else 0
    decreases if l <= r then r - l + 1 else 0
  {
    if l > r then {}
    else
      var rest := RowCells(y, l + 1, r);
      assert Pt(l, y) !in rest;
      {Pt(l, y)} + rest
  }

  /** The cells of a rectangle, row by row. */
  function BoxCells(b: Bounds): (s: set<Pt>)
    ensures forall q :: q in s <==> b.top <= q.y <= b.bottom && b.left <= q.x <= b.right
    decreases if b.top <= b.bottom then b.bottom - b.top + 1 else 0
  {
    if b.top > b.bottom then {}
    else RowCells(b.top, b.left, b.right) + BoxCells(b.(top := b.top + 1))
  }

  /** A rectangle has as many cells as its area. */
  lemma {:induction false} BoxCount(b: Bounds)
    requires b.top <= b.bottom && b.left <= b.right
    ensures |BoxCells(b)| == Area(b)
    decreases b.bottom - b.top
  {
    var below := b.(top := b.top + 1);
    var rest := BoxCells(below);
    var k := Rows(b) - 1;
    if b.top == b.bottom {
      assert rest == {};
      assert |rest| == 0 * Columns(b);
    } else {
      BoxCount(below);
      assert Rows(below) == k && Columns(below) == Columns(b);
    }
    TopRowAndBelow(b, rest, k);
  }

  /** The top row adds one row's worth of cells to the rest of the box. */
  lemma TopRowAndBelow(b: Bounds, rest: set<Pt>, k: int)
    requires b.top <= b.bottom && b.left <= b.right
    requires rest == BoxCells(b.(top := b.top + 1)) && k == Rows(b) - 1
    requires |rest| == k * Columns(b)
    ensures |BoxCells(b)| == Area(b)
  {
    var row := RowCells(b.top, b.left, b.right);
    BoxSplitsTopRow(b);
    RowOffRest(row, rest, b.top);
    UnionCard(row, rest, Columns(b), k, Rows(b));
  }

  /** A non-empty rectangle is its top row and the rectangle below it. */
  lemma BoxSplitsTopRow(b: Bounds)
    requires b.top <= b.bottom
    ensures BoxCells(b) == RowCells(b.top, b.left, b.right) + BoxCells(b.(top := b.top + 1))
  {
  }

  lemma RowOffRest(row: set<Pt>, rest: set<Pt>, y: int)
    requires forall q :: q in row ==> q.y == y
    requires forall q :: q in rest ==> q.y > y
    ensures row * rest == {}
  {
    forall q | q in row
      ensures q !in rest
    {
    }
  }

  lemma UnionCard(row: set<Pt>, rest: set<Pt>, w: int, k: int, h: int)
    requires h == k + 1 && row * rest == {} && |row| == w && |rest| == k * w
    ensures |row + rest| == h * w
  {
    assert |row + rest| == w + k * w;
  }

  /** The ground in the bounding rectangle not covered by an elf, as the
      program prints it: the rectangle's area less the number of elves. */
  function EmptyArea(elves: seq<Pt>): int
  {
    Area(ElfBounds(elves)) - |elves|
  }

  function Area(b: Bounds): int
  {
    Rows(b) * Columns(b)
  }

  function Rows(b: Bounds): int
  {
    1 + b.bottom - b.top
  }

  function Columns(b: Bounds): int
  {
    1 + b.right - b.left
  }

  /** For distinct elves, the printed number counts exactly the cells of
      the bounding rectangle that hold no elf. */
  lemma EmptyAreaCounts(elves: seq<Pt>)
    requires |elves| > 0 && Distinct(elves)
    ensures EmptyArea(elves) == |BoxCells(ElfBounds(elves)) - Occupied(elves)|
  {
    var b := ElfBounds(elves);
    assert b.top <= elves[0].y <= b.bottom && b.left <= elves[0].x <= b.right;
    EmptyCells(elves, b);
  }

  /** Distinct elves inside a rectangle leave its area less their number of
      cells empty. */
  lemma EmptyCells(elves: seq<Pt>, b: Bounds)
    requires Distinct(elves) && b.top <= b.bottom && b.left <= b.right
    requires forall i :: 0 <= i < |elves| ==>
      b.top <= elves[i].y <= b.bottom && b.left <= elves[i].x <= b.right
    ensures |BoxCells(b) - Occupied(elves)| == Area(b) - |elves|
  {
    var box := BoxCells(b);
    var occ := Occupied(elves);
    ElvesInBox(elves, b, box, occ);
    DifferenceCard(box, occ);
    BoxCount(b);
  }

  lemma {:induction false} ElvesInBox(elves: seq<Pt>, b: Bounds, box: set<Pt>, occ: set<Pt>)
    requires forall i :: 0 <= i < |elves| ==>
      b.top <= elves[i].y <= b.bottom && b.left <= elves[i].x <= b.right
    requires forall q :: q in box <==> b.top <= q.y <= b.bottom && b.left <= q.x <= b.right
    requires forall q :: q in occ <==> q in elves
    ensures occ <= box
  {
    forall q | q in occ
      ensures q in box
    {
      var i :| 0 <= i < |elves| && elves[i] == q;
    }
  }

  lemma DifferenceCard(box: set<Pt>, occ: set<Pt>)
    requires occ <= box
    ensures |box - occ| == |box| - |occ|
  {
    assert box * occ == occ;
  }

  // Reading the map

  /** The elves of one line, left to right: a '#' at index `x` is an elf at
      (x, y). */
  function RowElves(line: string, y: int): (r: seq<Pt>)
    ensures forall p :: p in r <==> p.y == y && 0 <= p.x < |line| && line[p.x] == '#'
    ensures Distinct(r)
    decreases |line|
  {
    if |line| == 0 then []
    else
      var n := |line| - 1;
      var init := line[..n];
      var r := RowElves(init, y);
      assert forall p :: p in r ==> p.x < n;
      assert forall x :: 0 <= x < n ==> init[x] == line[x];
      if line[n] == '#' then
        DistinctAppend(r, [Pt(n, y)]);
        r + [Pt(n, y)]
      else r
  }

  /** The elves of all lines, top to bottom; they are distinct because no
      cell is read twice. */
  function ParseElves(lines: seq<string>): (r: seq<Pt>)
    ensures forall p :: p in r <==>
      0 <= p.y < |lines| && 0 <= p.x < |lines[p.y]| && lines[p.y][p.x] == '#'
    ensures Distinct(r)
    decreases |lines|
  {
    if |lines| == 0 then []
    else
      var n := |lines| - 1;
      var init := lines[..n];
      var r := ParseElves(init);
      var row := RowElves(lines[n], n);
      assert forall p :: p in r ==> p.y < n;
      assert forall y :: 0 <= y < n ==> init[y] == lines[y];
      DistinctAppend(r, row);
      r + row
  }
}

=== FILE: day24_blizzard_basin.dfy ===
/** Blizzard basin: blizzards drift across a rectangular basin, one cell per
    round, wrapping at the walls. A breadth-first search over (cell, round)
    pairs looks for a round at which the party reaches the bottom-right cell
    without standing in a blizzard. Coordinates are inside the walls:
    (0, 0) is the top-left cell of the basin. */
module BlizzardBasin {
  import opened Common

  datatype Dir = Right | Down | Left | Up

  datatype Pt = Pt(x: nat, y: nat)

  /** A party position and the round at which it is there. */
  datatype Move = Move(pos: Pt, round: nat)

  function Opposite(d: Dir): Dir
  {
    match d
      case Right => Left
      case Left => Right
      case Down => Up
      case Up => Down
  }

  /** One orthogonal step apart. */
  predicate Adjacent(p: Pt, q: Pt)
  {
    (p.x == q.x && (p.y == q.y + 1 || q.y == p.y + 1))
    || (p.y == q.y && (p.x == q.x + 1 || q.x == p.x + 1))
  }

  /** `Move::next`: one cell in the direction, one round later; stepping up
      from row 0 or left from column 0 fails the program's assertion (None). */
  function Next(m: Move, d: Dir): (r: Option<Move>)
    ensures r.Some? <==> !(d == Up && m.pos.y == 0) && !(d == Left && m.pos.x == 0)
    ensures r.Some? ==> r.value.round == m.round + 1 && Adjacent(m.pos, r.value.pos)
    ensures r.Some? && (d == Up || d == Down) ==> r.value.pos.x == m.pos.x
    ensures r.Some? && (d == Left || d == Right) ==> r.value.pos.y == m.pos.y
  {
    var (x, y) := (m.pos.x, m.pos.y);
    match d
      case Up => if y > 0 then Some(Move(Pt(x, y - 1), m.round + 1)) else None
      case Down => Some(Move(Pt(x, y + 1), m.round + 1))
      case Left => if x > 0 then Some(Move(Pt(x - 1, y), m.round + 1)) else None
      case Right => Some(Move(Pt(x + 1, y), m.round + 1))
  }

  /** A step followed by a step back returns to the same cell two rounds
      later. */
  lemma NextBack(m: Move, d: Dir)
    requires Next(m, d).Some?
    ensures Next(Next(m, d).value, Opposite(d)) == Some(Move(m.pos, m.round + 2))
  {
  }

  // Where a blizzard is

  /** A coordinate advanced `n` times by one, wrapping at `size`: how a
      blizzard moving down or right drifts, round by round. */
  function Forward(start: nat, n: nat, size: nat): nat
    requires size > 0
  {
    if n == 0 then start else (Forward(start, n - 1, size) + 1) % size
  }

  /** A coordinate moved back `n` times by one, wrapping to `size - 1` below
      zero: how a blizzard moving up or left drifts. */
  function Backward(start: nat, n: nat, size: nat): nat
    requires size > 0
  {
    if n == 0 then start
    else
      var p := Backward(start, n - 1, size);
      if p == 0 then size - 1 else p - 1
  }

  lemma {:induction false} ForwardIsSum(start: nat, n: nat, size: nat)
    requires size > 0 && start < size
    ensures Forward(start, n, size) == (start + n) % size
  {
    if n > 0 {
      var m := start + (n - 1);
      ForwardIsSum(start, n - 1, size);
      assert Forward(start, n, size) == (Forward(start, n - 1, size) + 1) % size;
      ModSucc(m, size);
      assert m + 1 == start + n;
    }
  }

  lemma {:induction false} BackwardIsDifference(start: nat, n: nat, size: nat)
    requires size > 0 && start < size
    ensures Backward(start, n, size) == (start - n) % size
  {
    if n > 0 {
      BackwardIsDifference(start, n - 1, size);
      ModPred(start - (n - 1), size);
    }
  }

  lemma ModSucc(m: int, size: nat)
    requires size > 0
    ensures (m % size + 1) % size == (m + 1) % size
  {
    var a, q := m % size, m / size;
    assert m == size * q + a;
    if a + 1 < size {
      DivUnique(m + 1, size, q, a + 1);
      DivUnique(a + 1, size, 0, a + 1);
    } else {
      DivUnique(m + 1, size, q + 1, 0);
      DivUnique(a + 1, size, 1, 0);
    }
  }

  lemma ModPred(m: int, size: nat)
    requires size > 0
    ensures (if m % size == 0 then size - 1 else m % size - 1) == (m - 1) % size
  {
    var a, q := m % size, m / size;
    assert m == size * q + a;
    if a > 0 {
      DivUnique(m - 1, size, q, a - 1);
    } else {
      DivUnique(m - 1, size, q - 1, size - 1);
    }
  }

  /** A multiple of the modulus does not change a remainder. */
  lemma ModShift(a: int, k: int, size: nat)
    requires size > 0
    ensures (k * size + a) % size == a % size
  {
    var q, r := a / size, a % size;
    assert a == size * q + r;
    DivUnique(k * size + a, size, k + q, r);
  }

  /** Row of a down-moving blizzard that started in row `b`. */
  function DownAt(b: nat, round: nat, height: nat): nat
    requires height > 0
  {
    (b + round) % height
  }

  /** The program's row for a down-moving blizzard is where it has drifted
      to after `round` single steps. */
  lemma DownDrifts(b: nat, round: nat, height: nat)
    requires b < height
    ensures DownAt(b, round, height) == Forward(b, round, height)
  {
    ForwardIsSum(b, round, height);
  }

  /** Column of a right-moving blizzard that started in column `b`. */
  function RightAt(b: nat, round: nat, width: nat): nat
    requires width > 0
  {
    (b + round) % width
  }

  lemma RightDrifts(b: nat, round: nat, width: nat)
    requires b < width
    ensures RightAt(b, round, width) == Forward(b, round, width)
  {
    ForwardIsSum(b, round, width);
  }

  /** Row of an up-moving blizzard that started in row `b`: the program
      adds a multiple of the height larger than the round before
      subtracting, so the unsigned difference never goes below zero. */
  function UpAt(b: nat, round: nat, height: nat): (y: nat)
    requires height > 0
    ensures y == (b - round) % height
  {
    var space := round / height + 1;
    UpHeadroom(round, height);
    ModShift(b - round, space, height);
    (space * height + b - round) % height
  }

  lemma UpDrifts(b: nat, round: nat, height: nat)
    requires b < height
    ensures UpAt(b, round, height) == Backward(b, round, height)
  {
    BackwardIsDifference(b, round, height);
  }

  /** `(round / height + 1) * height` exceeds `round`. */
  lemma UpHeadroom(round: nat, height: nat)
    requires height > 0
    ensures (round / height + 1) * height > round
  {
    var q, r := round / height, round % height;
    assert round == height * q + r;
    assert (q + 1) * height == height * q + height;
  }

  /** Column of a left-moving blizzard as the program computes it: the
      headroom is a multiple of the width but its factor is taken from the
      height, and the unsigned subtraction fails (None) when the headroom
      does not exceed the round. */
  function LeftAtAsWritten(b: nat, round: nat, width: nat, height: nat): (r: Option<nat>)
    requires width > 0 && height > 0
    ensures r.Some? ==> r.value == (b - round) % width
  {
    var space := round / height + 1;
    if space * width + b < round then None
    else
      ModShift(b - round, space, width);
      Some((space * width + b - round) % width)
  }

  /** The headroom suffices whenever the basin is at least as wide as it
      is high. */
  lemma LeftAsWrittenWide(b: nat, round: nat, width: nat, height: nat)
    requires width >= height > 0
    ensures LeftAtAsWritten(b, round, width, height).Some?
  {
    UpHeadroom(round, height);
    var space := round / height + 1;
    assert space * width >= space * height by {
      MulMonotone(space, height, width);
    }
  }

  lemma MulMonotone(k: nat, a: nat, b: nat)
    requires a <= b
    ensures k * a <= k * b
  {
    assert k * b == k * a + k * (b - a);
  }

  /** In a basin two cells wide and five high, a left-moving blizzard from
      column 0 makes the program's subtraction go below zero in round 3. */
  lemma LeftAsWrittenUnderflows()
    ensures LeftAtAsWritten(0, 3, 2, 5).None?
  {
    assert 3 / 5 == 0;
  }

  /** Column of a left-moving blizzard, with the headroom factor taken from
      the width. */
  function LeftAt(b: nat, round: nat, width: nat): (x: nat)
    requires width > 0
    ensures x == (b - round) % width
  {
    var space := round / width + 1;
    UpHeadroom(round, width);
    ModShift(b - round, space, width);
    (space * width + b - round) % width
  }

  lemma LeftDrifts(b: nat, round: nat, width: nat)
    requires b < width
    ensures LeftAt(b, round, width) == Backward(b, round, width)
  {
    BackwardIsDifference(b, round, width);
  }

  /** Where the program computes a left column at all, it agrees with the
      corrected one. */
  lemma LeftAtAgrees(b: nat, round: nat, width: nat, height: nat)
    requires width > 0 && height > 0
    requires LeftAtAsWritten(b, round, width, height).Some?
    ensures LeftAtAsWritten(b, round, width, height).value == LeftAt(b, round, width)
  {
  }

  // The weather

  datatype Blizzard = Blizzard(start: Pt, dir: Dir)

  /** Per column, the starting rows of the blizzards moving down and up; per
      row, the starting columns of those moving right and left. */
  datatype Weather = Weather(down: seq<seq<nat>>, up: seq<seq<nat>>,
                             right: seq<seq<nat>>, left: seq<seq<nat>>,
                             width: nat, height: nat)

  predicate Shaped(w: Weather)
  {
    |w.down| == w.width && |w.up| == w.width && |w.right| == w.height && |w.left| == w.height
  }

  /** `Weather::new`: an empty list for every column and every row. */
  function NewWeather(width: nat, height: nat): (w: Weather)
    ensures Shaped(w) && w.width == width && w.height == height
  {
    Weather(seq(width, _ => []), seq(width, _ => []), seq(height, _ => []), seq(height, _ => []),
            width, height)
  }

  /** Vertical blizzards are filed under their column, horizontal ones under
      their row. */
  predicate Fits(b: Blizzard, width: nat, height: nat)
  {
    if b.dir == Up || b.dir == Down then b.start.x < width else b.start.y < height
  }

  /** `add_blizzard`: appends the blizzard's row to its column's list, or its
      column to its row's list; an index past the lists panics (None). */
  function AddBlizzard(w: Weather, b: Blizzard): (r: Option<Weather>)
    requires Shaped(w)
    ensures r.Some? <==> Fits(b, w.width, w.height)
    ensures r.Some? ==> Shaped(r.value) && r.value.width == w.width && r.value.height == w.height
  {
    var (x, y) := (b.start.x, b.start.y);
    match b.dir
      case Up => if x < |w.up| then Some(w.(up := w.up[x := w.up[x] + [y]])) else None
      case Down => if x < |w.down| then Some(w.(down := w.down[x := w.down[x] + [y]])) else None
      case Left => if y < |w.left| then Some(w.(left := w.left[y := w.left[y] + [x]])) else None
      case Right => if y < |w.right| then Some(w.(right := w.right[y := w.right[y] + [x]])) else None
  }

  /** The weather after adding the blizzards in order. */
  function Build(width: nat, height: nat, bs: seq<Blizzard>): (r: Option<Weather>)
    ensures r.Some? <==> forall i :: 0 <= i < |bs| ==> Fits(bs[i], width, height)
    ensures r.Some? ==> Shaped(r.value) && r.value.width == width && r.value.height == height
    decreases |bs|
  {
    if |bs| == 0 then Some(NewWeather(width, height))
    else
      var n := |bs| - 1;
      assert forall i :: 0 <= i < n ==> bs[..n][i] == bs[i];
      match Build(width, height, bs[..n])
        case None => None
        case Some(w) => AddBlizzard(w, bs[n])
  }

  /** Every list holds exactly the blizzards filed under it: a column's
      down list holds row `c` iff a down-moving blizzard starts at column
      `a`, row `c`, and likewise for the other three lists. */
  lemma {:induction false} BuildLists(width: nat, height: nat, bs: seq<Blizzard>, a: nat, c: nat)
    requires Build(width, height, bs).Some?
    ensures a < width ==>
      (c in Build(width, height, bs).value.down[a] <==> Blizzard(Pt(a, c), Down) in bs)
      && (c in Build(width, height, bs).value.up[a] <==> Blizzard(Pt(a, c), Up) in bs)
    ensures a < height ==>
      (c in Build(width, height, bs).value.right[a] <==> Blizzard(Pt(c, a), Right) in bs)
      && (c in Build(width, height, bs).value.left[a] <==> Blizzard(Pt(c, a), Left) in bs)
    decreases |bs|
  {
    if |bs| > 0 {
      var n := |bs| - 1;
      assert forall i :: 0 <= i < n ==> bs[..n][i] == bs[i];
      var w := Build(width, height, bs[..n]).value;
      assert Build(width, height, bs) == AddBlizzard(w, bs[n]);
      BuildLists(width, height, bs[..n], a, c);
      AddBlizzardLists(w, bs[n], a, c);
      assert bs == bs[..n] + [bs[n]];
      assert forall b :: b in bs <==> b in bs[..n] || b == bs[n];
    }
  }

  /** Adding a blizzard puts its coordinate in its own list and nowhere else. */
  lemma AddBlizzardLists(w: Weather, b: Blizzard, a: nat, c: nat)
    requires Shaped(w) && AddBlizzard(w, b).Some?
    ensures var r := AddBlizzard(w, b).value;
      a < w.width ==>
        (c in r.down[a] <==> c in w.down[a] || b == Blizzard(Pt(a, c), Down))
        && (c in r.up[a] <==> c in w.up[a] || b == Blizzard(Pt(a, c), Up))
    ensures var r := AddBlizzard(w, b).value;
      a < w.height ==>
        (c in r.right[a] <==> c in w.right[a] || b == Blizzard(Pt(c, a), Right))
        && (c in r.left[a] <==> c in w.left[a] || b == Blizzard(Pt(c, a), Left))
  {
  }

  /** The directions of the blizzards in the list whose position at this
      round, computed by `at`, is `target`. */
  function Matches(bliz: seq<nat>, at: nat -> nat, target: nat, d: Dir): (r: seq<Dir>)
    ensures |r| > 0 <==> exists b :: b in bliz && at(b) == target
    ensures forall k :: 0 <= k < |r| ==> r[k] == d
    decreases |bliz|
  {
    if |bliz| == 0 then []
    else
      var rest := Matches(bliz[1..], at, target, d);
      assert forall b :: b in bliz <==> b == bliz[0] || b in bliz[1..];
      if at(bliz[0]) == target then [d] + rest else rest
  }

  predicate InBasin(p: Pt, width: nat, height: nat)
  {
    p.x < width && p.y < height
  }

  /** `blizzard_dir`: the directions of all blizzards on the cell at this
      round, down, up, right and left in turn. The left ones use the
      corrected column. */
  function BlizzardDir(w: Weather, pt: Pt, round: nat): seq<Dir>
    requires Shaped(w) && InBasin(pt, w.width, w.height)
  {
    var (x, y, wd, h) := (pt.x, pt.y, w.width, w.height);
    Matches(w.down[x], b => DownAt(b, round, h), y, Down)
    + Matches(w.up[x], b => UpAt(b, round, h), y, Up)
    + Matches(w.right[y], b => RightAt(b, round, wd), x, Right)
    + Matches(w.left[y], b => LeftAt(b, round, wd), x, Left)
  }

  /** `blocked`: some blizzard is on the cell. */
  predicate Blocked(w: Weather, pt: Pt, round: nat)
    requires Shaped(w) && InBasin(pt, w.width, w.height)
  {
    |BlizzardDir(w, pt, round)| > 0
  }

  /** Where a blizzard is after `round` rounds of drifting one cell at a
      time. */
  function Position(b: Blizzard, round: nat, width: nat, height: nat): Pt
    requires width > 0 && height > 0
  {
    var (x, y) := (b.start.x, b.start.y);
    match b.dir
      case Down => Pt(x, Forward(y, round, height))
      case Up => Pt(x, Backward(y, round, height))
      case Right => Pt(Forward(x, round, width), y)
      case Left => Pt(Backward(x, round, width), y)
  }

  /** The weather built from blizzards that start inside the basin reports
      a cell blocked exactly when one of those blizzards, drifting round by
      round, is on it. */
  lemma BlockedIff(width: nat, height: nat, bs: seq<Blizzard>, pt: Pt, round: nat)
    requires forall i :: 0 <= i < |bs| ==> InBasin(bs[i].start, width, height)
    requires InBasin(pt, width, height)
    ensures Build(width, height, bs).Some?
    ensures Blocked(Build(width, height, bs).value, pt, round) <==>
      exists i :: 0 <= i < |bs| && Position(bs[i], round, width, height) == pt
  {
    assert forall i :: 0 <= i < |bs| ==> Fits(bs[i], width, height);
    var w := Build(width, height, bs).value;
    DownHits(width, height, bs, pt, round);
    UpHits(width, height, bs, pt, round);
    RightHits(width, height, bs, pt, round);
    LeftHits(width, height, bs, pt, round);
    if exists i :: 0 <= i < |bs| && Position(bs[i], round, width, height) == pt {
      var i :| 0 <= i < |bs| && Position(bs[i], round, width, height) == pt;
      assert HitBy(bs, i, Down, pt, round, width, height) || HitBy(bs, i, Up, pt, round, width, height)
        || HitBy(bs, i, Right, pt, round, width, height) || HitBy(bs, i, Left, pt, round, width, height);
    }
  }

  predicate HitBy(bs: seq<Blizzard>, i: int, d: Dir, pt: Pt, round: nat, width: nat, height: nat)
    requires width > 0 && height > 0
  {
    0 <= i < |bs| && bs[i].dir == d && Position(bs[i], round, width, height) == pt
  }

  lemma DownHits(width: nat, height: nat, bs: seq<Blizzard>, pt: Pt, round: nat)
    requires forall i :: 0 <= i < |bs| ==> InBasin(bs[i].start, width, height)
    requires InBasin(pt, width, height) && Build(width, height, bs).Some?
    ensures (exists v :: v in Build(width, height, bs).value.down[pt.x] && DownAt(v, round, height) == pt.y)
      <==> exists i :: HitBy(bs, i, Down, pt, round, width, height)
  {
    var w := Build(width, height, bs).value;
    if v :| v in w.down[pt.x] && DownAt(v, round, height) == pt.y {
      BuildLists(width, height, bs, pt.x, v);
      var i :| 0 <= i < |bs| && bs[i] == Blizzard(Pt(pt.x, v), Down);
      DownDrifts(v, round, height);
      assert HitBy(bs, i, Down, pt, round, width, height);
    }
    if i :| HitBy(bs, i, Down, pt, round, width, height) {
      var v := bs[i].start.y;
      assert bs[i] == Blizzard(Pt(pt.x, v), Down);
      BuildLists(width, height, bs, pt.x, v);
      DownDrifts(v, round, height);
      assert v in w.down[pt.x] && DownAt(v, round, height) == pt.y;
    }
  }

  lemma UpHits(width: nat, height: nat, bs: seq<Blizzard>, pt: Pt, round: nat)
    requires forall i :: 0 <= i < |bs| ==> InBasin(bs[i].start, width, height)
    requires InBasin(pt, width, height) && Build(width, height, bs).Some?
    ensures (exists v :: v in Build(width, height, bs).value.up[pt.x] && UpAt(v, round, height) == pt.y)
      <==> exists i :: HitBy(bs, i, Up, pt, round, width, height)
  {
    var w := Build(width, height, bs).value;
    if v :| v in w.up[pt.x] && UpAt(v, round, height) == pt.y {
      BuildLists(width, height, bs, pt.x, v);
      var i :| 0 <= i < |bs| && bs[i] == Blizzard(Pt(pt.x, v), Up);
      UpDrifts(v, round, height);
      assert HitBy(bs, i, Up, pt, round, width, height);
    }
    if i :| HitBy(bs, i, Up, pt, round, width, height) {
      var v := bs[i].start.y;
      assert bs[i] == Blizzard(Pt(pt.x, v), Up);
      BuildLists(width, height, bs, pt.x, v);
      UpDrifts(v, round, height);
      assert v in w.up[pt.x] && UpAt(v, round, height) == pt.y;
    }
  }

  lemma RightHits(width: nat, height: nat, bs: seq<Blizzard>, pt: Pt, round: nat)
    requires forall i :: 0 <= i < |bs| ==> InBasin(bs[i].start, width, height)
    requires InBasin(pt, width, height) && Build(width, height, bs).Some?
    ensures (exists v :: v in Build(width, height, bs).value.right[pt.y] && RightAt(v, round, width) == pt.x)
      <==> exists i :: HitBy(bs, i, Right, pt, round, width, height)
  {
    var w := Build(width, height, bs).value;
    if v :| v in w.right[pt.y] && RightAt(v, round, width) == pt.x {
      BuildLists(width, height, bs, pt.y, v);
      var i :| 0 <= i < |bs| && bs[i] == Blizzard(Pt(v, pt.y), Right);
      RightDrifts(v, round, width);
      assert HitBy(bs, i, Right, pt, round, width, height);
    }
    if i :| HitBy(bs, i, Right, pt, round, width, height) {
      var v := bs[i].start.x;
      assert bs[i] == Blizzard(Pt(v, pt.y), Right);
      BuildLists(width, height, bs, pt.y, v);
      RightDrifts(v, round, width);
      assert v in w.right[pt.y] && RightAt(v, round, width) == pt.x;
    }
  }

  lemma LeftHits(width: nat, height: nat, bs: seq<Blizzard>, pt: Pt, round: nat)
    requires forall i :: 0 <= i < |bs| ==> InBasin(bs[i].start, width, height)
    requires InBasin(pt, width, height) && Build(width, height, bs).Some?
    ensures (exists v :: v in Build(width, height, bs).value.left[pt.y] && LeftAt(v, round, width) == pt.x)
      <==> exists i :: HitBy(bs, i, Left, pt, round, width, height)
  {
    var w := Build(width, height, bs).value;
    if v :| v in w.left[pt.y] && LeftAt(v, round, width) == pt.x {
      BuildLists(width, height, bs, pt.y, v);
      var i :| 0 <= i < |bs| && bs[i] == Blizzard(Pt(v, pt.y), Left);
      LeftDrifts(v, round, width);
      assert HitBy(bs, i, Left, pt, round, width, height);
    }
    if i :| HitBy(bs, i, Left, pt, round, width, height) {
      var v := bs[i].start.x;
      assert bs[i] == Blizzard(Pt(v, pt.y), Left);
      BuildLists(width, height, bs, pt.y, v);
      LeftDrifts(v, round, width);
      assert v in w.left[pt.y] && LeftAt(v, round, width) == pt.x;
    }
  }

  // Reading the basin

  /** The blizzard glyphs; any other character but '.' panics. */
  function DirOf(c: char): Option<Dir>
  {
    match c
      case '>' => Some(Right)
      case '<' => Some(Left)
      case '^' => Some(Up)
      case 'v' => Some(Down)
      case _ => None
  }

  function Glyph(d: Dir): (c: char)
    ensures DirOf(c) == Some(d)
  {
    match d
      case Right => '>'
      case Left => '<'
      case Up => '^'
      case Down => 'v'
  }

  /** Each direction has one glyph and each glyph one direction. */
  lemma GlyphRoundTrip(c: char)
    ensures DirOf(c).Some? ==> Glyph(DirOf(c).value) == c
  {
  }

  predicate Known(c: char)
  {
    c == '.' || DirOf(c).Some?
  }

  /** The characters between the side walls of a row are all understood. */
  predicate RowKnown(line: string, width: nat)
  {
    forall i :: 0 < i < |line| && i != width + 1 ==> Known(line[i])
  }

  /** The grid line (one below the basin row) shows blizzard `b` at its
      start. */
  predicate Shows(lines: seq<string>, width: nat, b: Blizzard)
  {
    b.start.y + 1 < |lines|
    && var line := lines[b.start.y + 1];
    b.start.x + 1 < |line| && b.start.x != width && DirOf(line[b.start.x + 1]) == Some(b.dir)
  }

  /** The blizzards of basin row `y` among the first `n` characters of its
      line; the characters at index 0 and `width + 1` are the walls and are
      skipped whatever they are. */
  function RowBlizzards(line: string, y: nat, width: nat, n: nat): (r: Option<seq<Blizzard>>)
    requires n <= |line|
    ensures r.Some? <==> forall i :: 0 < i < n && i != width + 1 ==> Known(line[i])
    ensures r.Some? ==> forall b :: b in r.value <==>
      (b.start.y == y && b.start.x + 1 < n && b.start.x != width && DirOf(line[b.start.x + 1]) == Some(b.dir))
    decreases n
  {
    if n == 0 then Some([])
    else
      var i := n - 1;
      match RowBlizzards(line, y, width, i)
        case None => None
        case Some(bs) =>
          if i == 0 || i == width + 1 || line[i] == '.' then Some(bs)
          else match DirOf(line[i])
            case None => None
            case Some(d) => Some(bs + [Blizzard(Pt(i - 1, y), d)])
  }

  /** The blizzards of basin rows `0 .. n`, read from grid lines `1 .. n`. */
  function Blizzards(lines: seq<string>, width: nat, n: nat): (r: Option<seq<Blizzard>>)
    requires n < |lines|
    ensures r.Some? <==> forall y :: 1 <= y <= n ==> RowKnown(lines[y], width)
    ensures r.Some? ==> forall b :: b in r.value <==> b.start.y < n && Shows(lines, width, b)
    decreases n
  {
    if n == 0 then Some([])
    else
      var y := n - 1;
      match Blizzards(lines, width, y)
        case None => None
        case Some(bs) =>
          match RowBlizzards(lines[n], y, width, |lines[n]|)
            case None => None
            case Some(row) => Some(bs + row)
  }

  /** The basin is the grid inside its walls: two columns and two rows
      narrower than the grid. A grid too small for that panics on the
      unsigned subtraction (None), as does a character it does not know or
      a vertical blizzard past the basin's last column. */
  function ParseBasin(lines: seq<string>): (r: Option<Weather>)
    ensures |lines| < 2 || |lines[0]| < 2 ==> r.None?
    ensures r.Some? ==>
      (Shaped(r.value) && r.value.width == |lines[0]| - 2 && r.value.height == |lines| - 2
       && forall y :: 1 <= y <= |lines| - 2 ==> RowKnown(lines[y], |lines[0]| - 2))
  {
    if |lines| < 2 || |lines[0]| < 2 then None
    else
      var (width, height) := (|lines[0]| - 2, |lines| - 2);
      match Blizzards(lines, width, height)
        case None => None
        case Some(bs) => Build(width, height, bs)
  }

  /** Every row as long as the first. */
  predicate Rectangular(lines: seq<string>)
  {
    forall y :: 0 <= y < |lines| ==> |lines[y]| == |lines[0]|
  }

  /** A rectangular grid whose rows hold only known characters is read
      without panicking. */
  lemma ParseAccepts(lines: seq<string>)
    requires |lines| >= 2 && |lines[0]| >= 2 && Rectangular(lines)
    requires forall y :: 1 <= y <= |lines| - 2 ==> RowKnown(lines[y], |lines[0]| - 2)
    ensures ParseBasin(lines).Some?
  {
    var (width, height) := (|lines[0]| - 2, |lines| - 2);
    var bs := Blizzards(lines, width, height).value;
    forall i | 0 <= i < |bs|
      ensures Fits(bs[i], width, height)
    {
      assert bs[i] in bs;
    }
  }

  /** On a rectangular grid every blizzard read starts inside the basin. */
  lemma ParsedInBasin(lines: seq<string>)
    requires |lines| >= 2 && |lines[0]| >= 2 && Rectangular(lines)
    requires Blizzards(lines, |lines[0]| - 2, |lines| - 2).Some?
    ensures var bs := Blizzards(lines, |lines[0]| - 2, |lines| - 2).value;
      forall i :: 0 <= i < |bs| ==> InBasin(bs[i].start, |lines[0]| - 2, |lines| - 2)
  {
    var bs := Blizzards(lines, |lines[0]| - 2, |lines| - 2).value;
    forall i | 0 <= i < |bs|
      ensures InBasin(bs[i].start, |lines[0]| - 2, |lines| - 2)
    {
      assert bs[i] in bs;
    }
  }

  /** On a rectangular grid, a cell of the basin is blocked exactly when
      some blizzard drawn in the grid has drifted onto it. */
  lemma ParsedBlocked(lines: seq<string>, pt: Pt, round: nat)
    requires ParseBasin(lines).Some? && Rectangular(lines)
    requires InBasin(pt, |lines[0]| - 2, |lines| - 2)
    ensures Blocked(ParseBasin(lines).value, pt, round) <==> DrawnOn(lines, pt, round)
  {
    var bs, w := ParsedAsBuilt(lines);
    DrawnBlocked(lines, bs, w, pt, round);
  }

  /** The weather built from the blizzards read from the grid blocks a cell
      exactly when a drawn blizzard has drifted onto it. */
  lemma DrawnBlocked(lines: seq<string>, bs: seq<Blizzard>, w: Weather, pt: Pt, round: nat)
    requires |lines| >= 2 && |lines[0]| >= 2
    requires Blizzards(lines, |lines[0]| - 2, |lines| - 2) == Some(bs)
    requires Build(|lines[0]| - 2, |lines| - 2, bs) == Some(w)
    requires forall i :: 0 <= i < |bs| ==> InBasin(bs[i].start, |lines[0]| - 2, |lines| - 2)
    requires InBasin(pt, |lines[0]| - 2, |lines| - 2)
    ensures Shaped(w) && InBasin(pt, w.width, w.height)
    ensures Blocked(w, pt, round) <==> DrawnOn(lines, pt, round)
  {
    BuiltBlocked(w, |lines[0]| - 2, |lines| - 2, bs, pt, round);
    ShownHits(lines, bs, pt, round);
  }

  /** The weather built from `bs` blocks a cell exactly when one of `bs`
      drifts onto it. */
  lemma BuiltBlocked(w: Weather, width: nat, height: nat, bs: seq<Blizzard>, pt: Pt, round: nat)
    requires Build(width, height, bs) == Some(w)
    requires forall i :: 0 <= i < |bs| ==> InBasin(bs[i].start, width, height)
    requires InBasin(pt, width, height)
    ensures Shaped(w) && w.width == width && w.height == height
    ensures Blocked(w, pt, round) <==> LandsOn(bs, pt, round, width, height)
  {
    BlockedIff(width, height, bs, pt, round);
  }

  /** A grid that is read is the basin built from the blizzards drawn in it,
      all of which start inside. */
  lemma ParsedAsBuilt(lines: seq<string>) returns (bs: seq<Blizzard>, w: Weather)
    requires ParseBasin(lines).Some? && Rectangular(lines)
    ensures |lines| >= 2 && |lines[0]| >= 2
    ensures Blizzards(lines, |lines[0]| - 2, |lines| - 2) == Some(bs)
    ensures ParseBasin(lines) == Some(w) && Build(|lines[0]| - 2, |lines| - 2, bs) == Some(w)
    ensures forall i :: 0 <= i < |bs| ==> InBasin(bs[i].start, |lines[0]| - 2, |lines| - 2)
  {
    ParseIsBuild(lines);
    bs := Blizzards(lines, |lines[0]| - 2, |lines| - 2).value;
    w := ParseBasin(lines).value;
    ParsedInBasin(lines);
  }

  lemma ParseIsBuild(lines: seq<string>)
    requires ParseBasin(lines).Some?
    ensures Blizzards(lines, |lines[0]| - 2, |lines| - 2).Some?
    ensures ParseBasin(lines) == Build(|lines[0]| - 2, |lines| - 2, Blizzards(lines, |lines[0]| - 2, |lines| - 2).value)
  {
  }

  /** Some blizzard of `bs` is on `pt` after `round` rounds. */
  predicate LandsOn(bs: seq<Blizzard>, pt: Pt, round: nat, width: nat, height: nat)
    requires width > 0 && height > 0
  {
    exists i :: 0 <= i < |bs| && Position(bs[i], round, width, height) == pt
  }

  /** Some blizzard drawn in the grid is on `pt` after `round` rounds. */
  ghost predicate DrawnOn(lines: seq<string>, pt: Pt, round: nat)
    requires |lines| > 2 && |lines[0]| > 2
  {
    exists b: Blizzard :: b.start.y < |lines| - 2 && Shows(lines, |lines[0]| - 2, b)
      && Position(b, round, |lines[0]| - 2, |lines| - 2) == pt
  }

  /** The blizzards shown in the grid are those read. */
  lemma ShownHits(lines: seq<string>, bs: seq<Blizzard>, pt: Pt, round: nat)
    requires |lines| > 2 && |lines[0]| > 2
    requires Blizzards(lines, |lines[0]| - 2, |lines| - 2) == Some(bs)
    ensures LandsOn(bs, pt, round, |lines[0]| - 2, |lines| - 2) <==> DrawnOn(lines, pt, round)
  {
    var (width, height) := (|lines[0]| - 2, |lines| - 2);
    if b: Blizzard :| b.start.y < height && Shows(lines, width, b) && Position(b, round, width, height) == pt {
      assert b in bs;
      var i :| 0 <= i < |bs| && bs[i] == b;
    }
    if i :| 0 <= i < |bs| && Position(bs[i], round, width, height) == pt {
      assert bs[i] in bs;
    }
  }

  // The search

  /** The party's moves from `curr`, in the order the program queues them:
      left, up, right and down where the basin allows, then waiting. */
  function Expand(curr: Move, width: nat, height: nat): (r: seq<Move>)
    requires width > 0 && height > 0
    ensures forall k :: 0 <= k < |r| ==>
      (r[k].round == curr.round + 1 && (r[k].pos == curr.pos || Adjacent(curr.pos, r[k].pos)))
    ensures InBasin(curr.pos, width, height) ==>
      forall k :: 0 <= k < |r| ==> InBasin(r[k].pos, width, height)
    ensures InBasin(curr.pos, width, height) ==>
      forall p :: InBasin(p, width, height) && (p == curr.pos || Adjacent(curr.pos, p)) ==>
        Move(p, curr.round + 1) in r
  {
    var (x, y) := (curr.pos.x, curr.pos.y);
    (if x > 0 then [Next(curr, Left).value] else [])
    + (if y > 0 then [Next(curr, Up).value] else [])
    + (if x < width - 1 then [Next(curr, Right).value] else [])
    + (if y < height - 1 then [Next(curr, Down).value] else [])
    + [Move(curr.pos, curr.round + 1)]
  }

  /** The top-left cell at each of the rounds `0 .. n` that `free` admits,
      earliest first. */
  function Starts(free: nat -> bool, n: nat): (r: seq<Move>)
    ensures forall m :: m in r <==> m.pos == Pt(0, 0) && m.round < n && free(m.round)
    ensures forall i, j :: 0 <= i < j < |r| ==> r[i].round < r[j].round
    decreases n
  {
    if n == 0 then []
    else
      var rest := Starts(free, n - 1);
      if free(n - 1) then rest + [Move(Pt(0, 0), n - 1)] else rest
  }

  /** The initial queue: the top-left cell at each of the rounds `0 .. n`
      at which it is free, earliest first. */
  function StartQueue(w: Weather, n: nat): (r: seq<Move>)
    requires Shaped(w) && w.width > 0 && w.height > 0
    ensures forall m :: m in r <==> m.pos == Pt(0, 0) && m.round < n && !Blocked(w, m.pos, m.round)
    ensures forall i, j :: 0 <= i < j < |r| ==> r[i].round < r[j].round
  {
    Starts((t: nat) => !Blocked(w, Pt(0, 0), t), n)
  }

  /** The cell the party must reach, the bottom-right one. */
  function Goal(width: nat, height: nat): Pt
    requires width > 0 && height > 0
  {
    Pt(width - 1, height - 1)
  }

  /** The breadth-first search, for any way `blocked` of telling whether a
      blizzard is on a move: moves already visited or blocked are dropped;
      the first move to reach the goal gives the time, one round more to
      step out of the basin. `None` when `fuel` runs out; the time stays
      `usize::MAX` when the queue empties. */
  function SearchWith(blocked: Move -> bool, width: nat, height: nat,
                      queue: seq<Move>, visited: set<Move>, fuel: nat): (r: Option<nat>)
    requires width > 0 && height > 0
    ensures r.Some? ==> r.value <= UsizeMax
    ensures r.Some? && r.value < UsizeMax ==>
      exists m: Move :: m.pos == Goal(width, height) && !blocked(m) && r.value == m.round + 1
    decreases fuel
  {
    if fuel == 0 then None
    else if |queue| == 0 then Some(UsizeMax)
    else
      var (curr, rest) := (queue[0], queue[1..]);
      if curr in visited || blocked(curr) then SearchWith(blocked, width, height, rest, visited, fuel - 1)
      else if curr.round > UsizeMax then Some(UsizeMax)
      else if curr.pos == Goal(width, height) then Some(Min(UsizeMax, curr.round + 1))
      else SearchWith(blocked, width, height, rest + Expand(curr, width, height), visited + {curr}, fuel - 1)
  }

  /** The weather's `blocked`, for moves inside the basin. */
  function BlockFn(w: Weather): Move -> bool
    requires Shaped(w)
  {
    (m: Move) => InBasin(m.pos, w.width, w.height) && Blocked(w, m.pos, m.round)
  }

  /** The program's search loop over the basin's weather. */
  function Search(w: Weather, queue: seq<Move>, visited: set<Move>, fuel: nat): (r: Option<nat>)
    requires Shaped(w) && w.width > 0 && w.height > 0
    ensures r.Some? ==> r.value <= UsizeMax
    ensures r.Some? && r.value < UsizeMax ==>
      exists m: Move :: m.pos == Goal(w.width, w.height) && !Blocked(w, m.pos, m.round) && r.value == m.round + 1
  {
    SearchWith(BlockFn(w), w.width, w.height, queue, visited, fuel)
  }

  /** The party can be on `m.pos` at round `m.round`: the cell is in the
      basin and not blocked, and the party either entered it there (the
      top-left cell, in one of the first `width` rounds) or came from the
      same or a neighbouring cell one round earlier. */
  ghost predicate Reachable(blocked: Move -> bool, width: nat, height: nat, m: Move)
    decreases m.round, 2
  {
    InBasin(m.pos, width, height) && !blocked(m) && Candidate(blocked, width, height, m)
  }

  /** How the party could come to `m`, whether or not it is blocked. */
  ghost predicate Candidate(blocked: Move -> bool, width: nat, height: nat, m: Move)
    decreases m.round, 1
  {
    (m.pos == Pt(0, 0) && m.round < width) || exists p :: From(blocked, width, height, p, m)
  }

  /** The party was on `p`, the same cell or a neighbour, one round before. */
  ghost predicate From(blocked: Move -> bool, width: nat, height: nat, p: Pt, m: Move)
    decreases m.round, 0
  {
    m.round > 0 && (p == m.pos || Adjacent(p, m.pos)) && Reachable(blocked, width, height, Move(p, m.round - 1))
  }

  /** A reachable move is no nearer in rounds than in steps from the
      top-left cell. */
  lemma {:induction false} ReachableFar(blocked: Move -> bool, width: nat, height: nat, m: Move)
    requires Reachable(blocked, width, height, m)
    ensures m.round >= m.pos.x + m.pos.y
    decreases m.round
  {
    assert Candidate(blocked, width, height, m);
    if m.pos != Pt(0, 0) || m.round >= width {
      var p :| From(blocked, width, height, p, m);
      ReachableFar(blocked, width, height, Move(p, m.round - 1));
    }
  }

  lemma ExpandCandidates(blocked: Move -> bool, width: nat, height: nat, curr: Move)
    requires width > 0 && height > 0 && Reachable(blocked, width, height, curr)
    ensures var e := Expand(curr, width, height);
      forall k :: 0 <= k < |e| ==> InBasin(e[k].pos, width, height) && Candidate(blocked, width, height, e[k])
  {
    var e := Expand(curr, width, height);
    forall k | 0 <= k < |e|
      ensures Candidate(blocked, width, height, e[k])
    {
      assert curr == Move(curr.pos, e[k].round - 1);
      assert From(blocked, width, height, curr.pos, e[k]);
    }
  }

  /** `t` is one round after a reachable move onto the goal. */
  ghost predicate ReachedAt(blocked: Move -> bool, width: nat, height: nat, t: nat)
    requires width > 0 && height > 0
  {
    exists m: Move :: Reachable(blocked, width, height, m) && m.pos == Goal(width, height) && t == m.round + 1
  }

  /** Every queued move is inside the basin and could be reached. */
  ghost predicate Queued(blocked: Move -> bool, width: nat, height: nat, queue: seq<Move>)
  {
    forall k :: 0 <= k < |queue| ==> InBasin(queue[k].pos, width, height) && Candidate(blocked, width, height, queue[k])
  }

  /** A reported time below the cap is one round after `m`, a reachable
      move onto the goal. */
  ghost predicate Witnessed(blocked: Move -> bool, width: nat, height: nat, r: Option<nat>, m: Move)
    requires width > 0 && height > 0
  {
    r.Some? && r.value < UsizeMax ==>
      Reachable(blocked, width, height, m) && m.pos == Goal(width, height) && r.value == m.round + 1
  }

  /** Every time the search reports is one round after a reachable move
      onto the goal, when every queued move is a candidate. */
  lemma {:induction false} SearchSound(blocked: Move -> bool, width: nat, height: nat,
                                       queue: seq<Move>, visited: set<Move>, fuel: nat)
    returns (m: Move)
    requires width > 0 && height > 0
    requires Queued(blocked, width, height, queue)
    ensures Witnessed(blocked, width, height, SearchWith(blocked, width, height, queue, visited, fuel), m)
    decreases fuel, 1
  {
    m := Move(Pt(0, 0), 0);
    if fuel > 0 && |queue| > 0 {
      var curr := queue[0];
      if curr in visited || blocked(curr) {
        m := SkipSound(blocked, width, height, queue, visited, fuel);
      } else if curr.round > UsizeMax {
      } else if curr.pos == Goal(width, height) {
        QueuedHead(blocked, width, height, queue);
        m := curr;
      } else {
        m := ExpandSound(blocked, width, height, queue, visited, fuel);
      }
    }
  }

  /** A visited or blocked move is dropped. */
  lemma {:induction false} SkipSound(blocked: Move -> bool, width: nat, height: nat,
                                     queue: seq<Move>, visited: set<Move>, fuel: nat)
    returns (m: Move)
    requires width > 0 && height > 0 && fuel > 0 && |queue| > 0
    requires queue[0] in visited || blocked(queue[0])
    requires Queued(blocked, width, height, queue)
    ensures Witnessed(blocked, width, height, SearchWith(blocked, width, height, queue, visited, fuel), m)
    decreases fuel, 0
  {
    var rest := queue[1..];
    QueuedTail(blocked, width, height, queue);
    assert SearchWith(blocked, width, height, queue, visited, fuel) == SearchWith(blocked, width, height, rest, visited, fuel - 1);
    m := SearchSound(blocked, width, height, rest, visited, fuel - 1);
  }

  /** A move off the goal queues its successors. */
  lemma {:induction false} ExpandSound(blocked: Move -> bool, width: nat, height: nat,
                                       queue: seq<Move>, visited: set<Move>, fuel: nat)
    returns (m: Move)
    requires width > 0 && height > 0 && fuel > 0 && |queue| > 0
    requires queue[0] !in visited && !blocked(queue[0])
    requires queue[0].round <= UsizeMax && queue[0].pos != Goal(width, height)
    requires Queued(blocked, width, height, queue)
    ensures Witnessed(blocked, width, height, SearchWith(blocked, width, height, queue, visited, fuel), m)
    decreases fuel, 0
  {
    var next := queue[1..] + Expand(queue[0], width, height);
    QueuedNext(blocked, width, height, queue);
    m := SearchSound(blocked, width, height, next, visited + {queue[0]}, fuel - 1);
    SearchExpands(blocked, width, height, queue, visited, fuel);
    WitnessedSame(blocked, width, height, SearchWith(blocked, width, height, next, visited + {queue[0]}, fuel - 1),
                  SearchWith(blocked, width, height, queue, visited, fuel), m);
  }

  lemma WitnessedSame(blocked: Move -> bool, width: nat, height: nat, r: Option<nat>, r': Option<nat>, m: Move)
    requires width > 0 && height > 0 && r == r' && Witnessed(blocked, width, height, r, m)
    ensures Witnessed(blocked, width, height, r', m)
  {
  }

  /** Replacing an unblocked head by its successors keeps the queue reachable. */
  lemma QueuedNext(blocked: Move -> bool, width: nat, height: nat, queue: seq<Move>)
    requires width > 0 && height > 0 && |queue| > 0 && !blocked(queue[0])
    requires Queued(blocked, width, height, queue)
    ensures Queued(blocked, width, height, queue[1..] + Expand(queue[0], width, height))
  {
    QueuedTail(blocked, width, height, queue);
    QueuedHead(blocked, width, height, queue);
    QueuedExpand(blocked, width, height, queue[1..], queue[0]);
  }

  /** A fresh, unblocked move off the goal is replaced by its successors at
      the back of the queue. */
  lemma SearchExpands(blocked: Move -> bool, width: nat, height: nat,
                      queue: seq<Move>, visited: set<Move>, fuel: nat)
    requires width > 0 && height > 0 && fuel > 0 && |queue| > 0
    requires queue[0] !in visited && !blocked(queue[0])
    requires queue[0].round <= UsizeMax && queue[0].pos != Goal(width, height)
    ensures SearchWith(blocked, width, height, queue, visited, fuel)
      == SearchWith(blocked, width, height, queue[1..] + Expand(queue[0], width, height), visited + {queue[0]}, fuel - 1)
  {
  }

  lemma QueuedTail(blocked: Move -> bool, width: nat, height: nat, queue: seq<Move>)
    requires Queued(blocked, width, height, queue) && |queue| > 0
    ensures Queued(blocked, width, height, queue[1..])
  {
    var rest := queue[1..];
    assert forall k :: 0 <= k < |rest| ==> rest[k] == queue[k + 1];
  }

  lemma QueuedHead(blocked: Move -> bool, width: nat, height: nat, queue: seq<Move>)
    requires Queued(blocked, width, height, queue) && |queue| > 0 && !blocked(queue[0])
    ensures Reachable(blocked, width, height, queue[0])
  {
  }

  lemma QueuedExpand(blocked: Move -> bool, width: nat, height: nat, rest: seq<Move>, curr: Move)
    requires width > 0 && height > 0
    requires Queued(blocked, width, height, rest) && Reachable(blocked, width, height, curr)
    ensures Queued(blocked, width, height, rest + Expand(curr, width, height))
  {
    var e := Expand(curr, width, height);
    var next := rest + e;
    ExpandCandidates(blocked, width, height, curr);
    assert forall k :: |rest| <= k < |next| ==> next[k] == e[k - |rest|];
  }

  /** The starting moves are candidates. */
  lemma StartCandidates(w: Weather)
    requires Shaped(w) && w.width > 0 && w.height > 0
    ensures var q := StartQueue(w, w.width);
      forall k :: 0 <= k < |q| ==>
        InBasin(q[k].pos, w.width, w.height) && Candidate(BlockFn(w), w.width, w.height, q[k])
  {
    var q := StartQueue(w, w.width);
    forall k | 0 <= k < |q|
      ensures InBasin(q[k].pos, w.width, w.height) && Candidate(BlockFn(w), w.width, w.height, q[k])
    {
      assert q[k] in q;
    }
  }

  /** The whole program: read the basin and search from the top-left cell.
      A basin without columns has no starting moves, so the time stays
      `usize::MAX`; one with columns but no rows panics looking up the
      blizzards of row 0 (None). */
  function Solve(lines: seq<string>, fuel: nat): (r: Option<nat>)
    ensures r.Some? ==> ParseBasin(lines).Some? && r.value <= UsizeMax
  {
    match ParseBasin(lines)
      case None => None
      case Some(w) =>
        if w.width == 0 then Some(UsizeMax)
        else if w.height == 0 then None
        else Search(w, StartQueue(w, w.width), {}, fuel)
  }

  /** A time the program reports is one round after the party reached the
      bottom-right cell along moves no blizzard blocks, and so is at least
      the number of steps there plus one. */
  lemma SolveSound(lines: seq<string>, fuel: nat)
    requires Solve(lines, fuel).Some? && Solve(lines, fuel).value < UsizeMax
    ensures ParseBasin(lines).Some?
    ensures var w := ParseBasin(lines).value;
      w.width > 0 && w.height > 0
      && ReachedAt(BlockFn(w), w.width, w.height, Solve(lines, fuel).value)
      && Solve(lines, fuel).value >= w.width + w.height - 1
  {
    var w := ParseBasin(lines).value;
    var t := Solve(lines, fuel).value;
    StartCandidates(w);
    var m := SearchSound(BlockFn(w), w.width, w.height, StartQueue(w, w.width), {}, fuel);
    ReachableFar(BlockFn(w), w.width, w.height, m);
  }
}

=== FILE: sorting.dfy ===
/** Sorting by a comparison, standing in for Rust's `sort` and `sort_by`.
    Only the result matters to the puzzles (a sorted permutation of the
    input), so the model uses an insertion sort. */
module Sorting {

  /** `le` is total and transitive, as Rust's sort requires of its order. */
  ghost predicate TotalPreorder<T(!new)>(le: (T, T) -> bool)
  {
    && (forall a, b :: le(a, b) || le(b, a))
    && (forall a, b, c :: le(a, b) && le(b, c) ==> le(a, c))
  }

  predicate SortedBy<T>(s: seq<T>, le: (T, T) -> bool)
  {
    forall i, j :: 0 <= i < j < |s| ==> le(s[i], s[j])
  }

  function InsertSorted<T(!new)>(x: T, s: seq<T>, le: (T, T) -> bool): (r: seq<T>)
    requires TotalPreorder(le)
    requires SortedBy(s, le)
    ensures SortedBy(r, le)
    ensures multiset(r) == multiset(s) + multiset{x}
  {
    if |s| == 0 then [x]
    else if le(x, s[0]) then [x] + s
    else
      var rest := InsertSorted(x, s[1..], le);
      assert s == [s[0]] + s[1..];
      HeadBelowInserted(x, s, rest, le);
      [s[0]] + rest
  }

  /** When `x` goes after the head of a sorted `s`, the head is below
      everything the tail becomes with `x` inserted. */
  lemma HeadBelowInserted<T(!new)>(x: T, s: seq<T>, rest: seq<T>, le: (T, T) -> bool)
    requires TotalPreorder(le) && SortedBy(s, le) && |s| > 0 && !le(x, s[0])
    requires multiset(rest) == multiset(s[1..]) + multiset{x}
    ensures forall k :: 0 <= k < |rest| ==> le(s[0], rest[k])
  {
    forall k | 0 <= k < |rest|
      ensures le(s[0], rest[k])
    {
      assert rest[k] in multiset(rest);
      if rest[k] != x {
        assert rest[k] in multiset(s[1..]);
        var j :| 0 <= j < |s[1..]| && s[1..][j] == rest[k];
        assert s[j + 1] == rest[k];
      }
    }
  }

  /** Sorts `s` into the order `le`, keeping every element. */
  function SortBy<T(!new)>(s: seq<T>, le: (T, T) -> bool): (r: seq<T>)
    requires TotalPreorder(le)
    ensures SortedBy(r, le)
    ensures multiset(r) == multiset(s)
    ensures |r| == |s|
  {
    if |s| == 0 then []
    else
      assert s == [s[0]] + s[1..];
      InsertSorted(s[0], SortBy(s[1..], le), le)
  }

  function Reverse<T>(s: seq<T>): (r: seq<T>)
    ensures |r| == |s|
    ensures forall i :: 0 <= i < |s| ==> r[i] == s[|s| - 1 - i]
  {
    if |s| == 0 then [] else [s[|s| - 1]] + Reverse(s[..|s| - 1])
  }

  lemma ReversePermutes<T>(s: seq<T>)
    ensures multiset(Reverse(s)) == multiset(s)
  {
    if |s| > 0 {
      ReversePermutes(s[..|s| - 1]);
      assert s == s[..|s| - 1] + [s[|s| - 1]];
    }
  }

  predicate IntLe(a: int, b: int) { a <= b }

  predicate IntGe(a: int, b: int) { a >= b }

  lemma IntLeIsTotalPreorder()
    ensures TotalPreorder(IntLe)
  {
  }

  /** Rust's `v.sort(); v.reverse();` on integers: largest first. */
  function SortDescending(s: seq<int>): (r: seq<int>)
    ensures SortedBy(r, IntGe)
    ensures multiset(r) == multiset(s)
    ensures |r| == |s|
  {
    IntLeIsTotalPreorder();
    var up := SortBy(s, IntLe);
    ReversePermutes(up);
    Reverse(up)
  }

  /** The head of a descending sort is the largest element, and it occurs in the input. */
  lemma DescendingHeadIsMax(s: seq<int>)
    requires |s| > 0
    ensures SortDescending(s)[0] in s
    ensures forall x :: x in s ==> x <= SortDescending(s)[0]
  {
    var r := SortDescending(s);
    assert r[0] in multiset(r);
    forall x | x in s
      ensures x <= r[0]
    {
      assert x in multiset(s);
      assert x in multiset(r);
      var j :| 0 <= j < |r| && r[j] == x;
      if j > 0 {
        assert IntGe(r[0], r[j]);
      }
    }
  }

  /** Two distinct positions contribute two elements to the multiset. */
  lemma PairInMultiset<T>(x: seq<T>, i: nat, j: nat)
    requires i < |x| && j < |x| && i != j
    ensures multiset{x[i], x[j]} <= multiset(x)
  {
    if i < j {
      OrderedPairInMultiset(x, i, j);
    } else {
      OrderedPairInMultiset(x, j, i);
      assert multiset{x[i], x[j]} == multiset{x[j], x[i]};
    }
  }

  lemma OrderedPairInMultiset<T>(x: seq<T>, a: nat, b: nat)
    requires a < b < |x|
    ensures multiset{x[a], x[b]} <= multiset(x)
  {
    var y := x[..a] + x[a + 1..];
    assert multiset(x) == multiset(y) + multiset{x[a]} by {
      assert x == x[..a] + [x[a]] + x[a + 1..];
    }
    assert x[b] in multiset(y) by {
      assert y[b - 1] == x[b];
    }
  }

  /** The head of a sequence sits somewhere in any rearrangement of it, and
      the rest is a rearrangement of what is left there. */
  lemma RemoveMatching<T>(a: seq<T>, b: seq<T>) returns (j: nat)
    requires |a| > 0 && multiset(a) == multiset(b)
    ensures j < |b| && b[j] == a[0] && multiset(a[1..]) == multiset(b[..j] + b[j + 1..])
  {
    var x := a[0];
    assert a == [x] + a[1..];
    assert x in multiset(b);
    j :| 0 <= j < |b| && b[j] == x;
    assert b == b[..j] + [x] + b[j + 1..];
    assert multiset(b[..j] + b[j + 1..]) == multiset(b) - multiset{x};
  }

  /** Two elements of the multiset sit at two distinct positions. */
  lemma PairFromMultiset<T>(x: seq<T>, a: T, b: T) returns (i: nat, j: nat)
    requires multiset{a, b} <= multiset(x)
    ensures i < |x| && j < |x| && i != j && x[i] == a && x[j] == b
  {
    assert a in multiset(x);
    i :| 0 <= i < |x| && x[i] == a;
    var y := x[..i] + x[i + 1..];
    assert x == x[..i] + [x[i]] + x[i + 1..];
    assert multiset(x) == multiset(x[..i]) + multiset{a} + multiset(x[i + 1..]);
    assert multiset(y) == multiset(x[..i]) + multiset(x[i + 1..]);
    assert multiset{a, b}[b] <= multiset(x)[b];
    assert b in multiset(y);
    var k :| 0 <= k < |y| && y[k] == b;
    if k < i {
      assert y[k] == x[k];
      j := k;
    } else {
      assert y[k] == x[k + 1];
      j := k + 1;
    }
  }

  lemma MulMonotone(a: int, b: int, c: int, d: int)
    requires 0 <= a <= c && 0 <= b <= d
    ensures a * b <= c * d
  {
    assert a * b <= c * b;
    assert c * b <= c * d;
  }

  /** For non-negative values, the product of the two first elements of the
      descending sort is the largest product of two entries at distinct
      positions, and it is such a product. */
  lemma TopTwoProduct(s: seq<int>)
    requires |s| >= 2
    requires forall i :: 0 <= i < |s| ==> s[i] >= 0
    ensures var d := SortDescending(s);
      forall i, j :: 0 <= i < |s| && 0 <= j < |s| && i != j ==> s[i] * s[j] <= d[0] * d[1]
    ensures var d := SortDescending(s);
      exists i, j :: 0 <= i < |s| && 0 <= j < |s| && i != j && s[i] * s[j] == d[0] * d[1]
  {
    var d := SortDescending(s);
    forall i, j | 0 <= i < |s| && 0 <= j < |s| && i != j
      ensures s[i] * s[j] <= d[0] * d[1]
    {
      PairInMultiset(s, i, j);
      var p, q := PairFromMultiset(d, s[i], s[j]);
      assert d[p] in multiset(s) && d[q] in multiset(s);
      assert d[p] >= 0 && d[q] >= 0;
      if p < q {
        assert IntGe(d[0], d[p]) || p == 0;
        assert IntGe(d[1], d[q]) || q == 1;
        MulMonotone(d[p], d[q], d[0], d[1]);
      } else {
        assert IntGe(d[0], d[q]) || q == 0;
        assert IntGe(d[1], d[p]) || p == 1;
        MulMonotone(d[q], d[p], d[0], d[1]);
        assert s[i] * s[j] == d[q] * d[p];
      }
    }
    PairInMultiset(d, 0, 1);
    var i, j := PairFromMultiset(s, d[0], d[1]);
    assert s[i] * s[j] == d[0] * d[1];
  }

  /** Removing position `i` removes one copy of its element, and shifts the
      later positions down by one. */
  lemma RemoveOne<T>(x: seq<T>, i: nat) returns (y: seq<T>)
    requires i < |x|
    ensures y == x[..i] + x[i + 1..] && |y| == |x| - 1
    ensures multiset(y) == multiset(x) - multiset{x[i]}
    ensures forall p :: 0 <= p < |y| ==> y[p] == x[if p < i then p else p + 1]
  {
    y := x[..i] + x[i + 1..];
    assert x == x[..i] + [x[i]] + x[i + 1..];
  }

  /** Three distinct positions contribute three elements to the multiset. */
  lemma TripleInMultiset<T>(x: seq<T>, i: nat, j: nat, k: nat)
    requires i < |x| && j < |x| && k < |x| && i != j && j != k && i != k
    ensures multiset{x[i], x[j], x[k]} <= multiset(x)
  {
    var y := RemoveOne(x, i);
    var j' := if j < i then j else j - 1;
    var k' := if k < i then k else k - 1;
    assert y[j'] == x[j] && y[k'] == x[k];
    PairInMultiset(y, j', k');
    AddBack(x[i], x[j], x[k], multiset(y), multiset(x));
  }

  lemma AddBack<T>(a: T, b: T, c: T, y: multiset<T>, x: multiset<T>)
    requires multiset{b, c} <= y && y == x - multiset{a} && a in x
    ensures multiset{a, b, c} <= x
  {
  }

  /** Three elements of the multiset sit at three distinct positions. */
  lemma TripleFromMultiset<T>(x: seq<T>, a: T, b: T, c: T) returns (i: nat, j: nat, k: nat)
    requires multiset{a, b, c} <= multiset(x)
    ensures i < |x| && j < |x| && k < |x| && i != j && j != k && i != k
    ensures x[i] == a && x[j] == b && x[k] == c
  {
    assert a in multiset(x);
    i :| 0 <= i < |x| && x[i] == a;
    var y := RemoveOne(x, i);
    TakeOne(multiset{b, c}, multiset(x), a);
    var p, q := PairFromMultiset(y, b, c);
    j := if p < i then p else p + 1;
    k := if q < i then q else q + 1;
  }

  lemma TakeOne<T>(m: multiset<T>, x: multiset<T>, a: T)
    requires m + multiset{a} <= x
    ensures m <= x - multiset{a}
  {
  }

  /** Three distinct positions of a descending sequence hold no more than its
      first three entries. */
  lemma DescendingTriple(d: seq<int>, p: nat, q: nat, r: nat)
    requires SortedBy(d, IntGe)
    requires p < |d| && q < |d| && r < |d| && p != q && q != r && p != r
    ensures d[p] + d[q] + d[r] <= d[0] + d[1] + d[2]
  {
    var lo := Min3(p, q, r);
    var hi := Max3(p, q, r);
    var mid := p + q + r - lo - hi;
    assert lo < mid < hi;
    assert d[p] + d[q] + d[r] == d[lo] + d[mid] + d[hi];
    assert IntGe(d[0], d[lo]) || lo == 0;
    assert IntGe(d[1], d[mid]) || mid == 1;
    assert IntGe(d[2], d[hi]) || hi == 2;
  }

  function Min3(a: nat, b: nat, c: nat): nat
  {
    if a <= b && a <= c then a else if b <= c then b else c
  }

  function Max3(a: nat, b: nat, c: nat): nat
  {
    if a >= b && a >= c then a else if b >= c then b else c
  }

  /** The sum of the first three elements of the descending sort is the
      largest sum of three entries at distinct positions, and it is such a
      sum. */
  lemma TopThreeSum(s: seq<int>) returns (i: nat, j: nat, k: nat)
    requires |s| >= 3
    ensures var d := SortDescending(s);
      forall a, b, c :: 0 <= a < |s| && 0 <= b < |s| && 0 <= c < |s| && a != b && b != c && a != c
        ==> s[a] + s[b] + s[c] <= d[0] + d[1] + d[2]
    ensures i < |s| && j < |s| && k < |s| && i != j && j != k && i != k
    ensures var d := SortDescending(s);
      s[i] + s[j] + s[k] == d[0] + d[1] + d[2]
  {
    var d := SortDescending(s);
    forall a, b, c | 0 <= a < |s| && 0 <= b < |s| && 0 <= c < |s| && a != b && b != c && a != c
      ensures s[a] + s[b] + s[c] <= d[0] + d[1] + d[2]
    {
      TripleInMultiset(s, a, b, c);
      var p, q, r := TripleFromMultiset(d, s[a], s[b], s[c]);
      DescendingTriple(d, p, q, r);
    }
    TripleInMultiset(d, 0, 1, 2);
    i, j, k := TripleFromMultiset(s, d[0], d[1], d[2]);
  }

  /** The number of entries of `s` that satisfy `f`. */
  function CountWhere<T>(s: seq<T>, f: T -> bool): nat
  {
    if |s| == 0 then 0
    else CountWhere(s[..|s| - 1], f) + (if f(s[|s| - 1]) then 1 else 0)
  }

  lemma {:induction false} CountAppend<T>(a: seq<T>, b: seq<T>, f: T -> bool)
    ensures CountWhere(a + b, f) == CountWhere(a, f) + CountWhere(b, f)
    decreases |b|
  {
    if |b| == 0 {
      assert a + b == a;
    } else {
      assert (a + b)[..|a + b| - 1] == a + b[..|b| - 1];
      CountAppend(a, b[..|b| - 1], f);
    }
  }

  /** Rearranging a sequence does not change how many entries satisfy `f`. */
  lemma {:induction false} CountPermutation<T>(a: seq<T>, b: seq<T>, f: T -> bool)
    requires multiset(a) == multiset(b)
    ensures CountWhere(a, f) == CountWhere(b, f)
    decreases |a|
  {
    if |a| > 0 {
      var n := |a| - 1;
      var x := a[n];
      assert a == a[..n] + [x];
      assert x in multiset(b);
      var j :| 0 <= j < |b| && b[j] == x;
      var rest := b[..j] + b[j + 1..];
      assert b == b[..j] + [x] + b[j + 1..];
      assert multiset(rest) == multiset(b) - multiset{x};
      assert multiset(rest) == multiset(a[..n]);
      CountPermutation(a[..n], rest, f);
      CountAppend(b[..j], [x], f);
      CountAppend(b[..j] + [x], b[j + 1..], f);
      CountAppend(b[..j], b[j + 1..], f);
      assert [x][..0] == [];
    }
  }
}
